=== FILE: README.md ===
# AutoCoevoRUL: a verified model of the genome codec and its surroundings

AutoCoevoRUL searches for remaining-useful-life (RUL) prediction pipelines by
co-evolution. An outer multi-objective evolutionary search evolves feature
extractors encoded as flat genomes of bit, bounded-integer and real genes. An
inner grammar-based search finds regressors to put on top of them. This
project models the logic at the centre of that system in Dafny and proves
properties of it:

- **Genome layout and codec** (`genome_layout.dfy`, `genome_entry.dfy`,
  `genome.dfy`, `components.dfy`). The constructor sorts the components by
  name and lays them out in that order; it raises when a component has a
  categorical parameter with no values. Each component gets an optional
  activation gene and one gene per searchable parameter. A parameter whose domain admits a single value is fixed and
  gets no gene.
- **Decoders.**
  - `decoder.dfy` models the root-based handler: a top-down decode from the
    root interface with the completeness check.
  - `legacy_decoder.dfy` models the older multi-root handler, which climbs to
    parents.
  - `attribute_selection.dfy` models the attribute-selection variant of the
    handler.
- **Seed genomes** (`seeds.dfy`): the empty genome and the activators of both
  handler variants and of the older handler's utility class.
- **Construction strings and imports** (`rendering.dfy`, `ordering.dfy`):
  `SolutionDecoding`, the two factories and `ScikitLearnUtil`.
- **Evaluation bookkeeping.**
  - `feature_extraction_problem.dfy`: the outer problem's sentinels and
    validity rule.
  - `regression_problem.dfy`: the inner problem's selector component and
    candidate buckets.
  - `pipeline_evaluation.dfy`: the fold loops of the pipeline evaluators.
  - `raters.dfy`: the feature raters.
  - `events.dfy`: the evaluation events.
  - `incumbent.dfy`: the incumbent tracker, `SearchResult`.
- **Configuration** (`config.dfy`, `linked_maps.dfy`):
  - the timeout and rater converters;
  - the timeout formulas;
  - the names and paths derived from the dataset;
  - the relation names of the splits.
- **Feature-engineering output files** (`output_files.dfy`): the naming and
  caching of the ML4PdM wrapper's outputs.
- **Dataset converters** (`turbofan_conversion.dfy`, `r2f_conversion.dfy`):
  the C-MAPSS, PHM08 and run-to-failure converters, written as functions over
  lines of text.
- **Python helpers.**
  - `uni_to_multi.dfy`: the masking strategies and the per-sensor bookkeeping
    of the univariate-to-multivariate wrapper.
  - `shapelets.dfy`: the budget and window bookkeeping of the ultra-fast
    shapelet extractor.

`strings.dfy`, `sequences.dfy` and `wrappers.dfy` hold the Java and Python
string semantics, the sequence facts and the `Option`/`Result` types that
the other modules share.

Threads, clocks, random numbers, external processes and the external learner
become inputs. A fold's outcome, a random draw given as `pick(k)` or
`unit(k)`, or the text a process wrote is given to the model, never computed
by it. Floating-point values are `real`s. Java `int` arithmetic is wrapped
explicitly where the code depends on it. Java `/` and Python `int()`
truncate toward zero, and the model writes that out.

Several behaviours that look unintended are modelled as written and proved
about:

- the root-based handler's completeness check rejects a node whose child
  count lies strictly between the interface's minimum and maximum
  (`GenomeHandler.java:191-192` under `genomehandler/`);
  `Decoder.CompletelyDefined` is that check;
- the outer problem records a genome as valid only once every fold has
  succeeded (`FeatureExtractionMoeaProblem.java:102`), not as soon as it
  decodes;
- the attribute-selection handler's empty genome clears bit 0 of a main
  component's categorical parameter gene, which MOEA allows because an
  integer gene is a bit string, instead of resetting it to its default; a
  single-valued categorical parameter has no gene, so there it raises;
- `BasicGenomeHandler` resets "TsfreshFeature" parameters but activates
  "FCParametersDictionary" ones;
- the shapelet extractor weights the share of length `l` by the candidates of
  length `l + 1`;
- `randint(m - l)` never starts a window at the last possible position;
- PHM08 test files get an `@RUL NUMERIC` header line;
- a baseline with no folds posts nothing;
- the per-fold timeout can be negative.

## Model

| member | source | states |
|---|---|---|
| Components.IndexOfName | AutoCoevoRUL/src/main/java/autocoevorul/featurerextraction/genomehandler/GenomeHandler.java:155 | the component an entry is decoded as is the first one carrying the entry's name; -1 exactly when no component has that name |
| Components.IntCast | AutoCoevoRUL/src/main/java/autocoevorul/featurerextraction/GenomeComponentEntry.java:95-97 | the `(int)` cast of a bound stays within 32 bits, keeps an integral in-range value, and never exceeds the floor of a non-negative value |
| GenomeEntry.NewEntry | AutoCoevoRUL/src/main/java/autocoevorul/featurerextraction/GenomeComponentEntry.java:26-40 | an entry has an activation gene exactly when its index is non-negative, and starts with no parameter genes and no fixed values |
| GenomeEntry.NamedEntry | AutoCoevoRUL/src/main/java/autocoevorul/featurerextraction/GenomeComponentEntry.java:34-36 | an entry made from a name alone never has an activation gene |
| GenomeEntry.AddParameter | AutoCoevoRUL/src/main/java/autocoevorul/featurerextraction/GenomeComponentEntry.java:66-85 | for a parameter with a value, the call reports true exactly when the domain admits more than one value; then the index maps to the parameter; otherwise the single categorical value, or the numeric minimum's text, becomes a fixed value, and the index set is unchanged |
| GenomeEntry.ParameterVariable | AutoCoevoRUL/src/main/java/autocoevorul/featurerextraction/GenomeComponentEntry.java:87-102 | a categorical parameter gets an integer gene over `[0, n-1]`, an integer numeric one an integer gene between its cast bounds, any other a real gene over `[min, max]`; the gene of a searchable parameter starts within its bounds |
| GenomeEntry.CategoricalGeneIndexes | AutoCoevoRUL/src/main/java/autocoevorul/featurerextraction/GenomeComponentEntry.java:89-92 | every value a categorical gene admits indexes one of the domain's values |
| GenomeEntry.Equals | AutoCoevoRUL/src/main/java/autocoevorul/featurerextraction/GenomeComponentEntry.java:114-144 | two entries are equal exactly when they agree on everything except the fixed-value map |
| GenomeLayout.AddParametersAppends | AutoCoevoRUL/src/main/java/autocoevorul/featurerextraction/genomehandler/GenomeHandler.java:94-101 | the parameter loop keeps the genes allocated so far, appends one gene per searchable parameter, and assigns every new gene to the current entry |
| GenomeLayout.AddParametersGenes | AutoCoevoRUL/src/main/java/autocoevorul/featurerextraction/genomehandler/GenomeHandler.java:94-101 | each newly allocated gene index maps to a searchable parameter whose gene template it holds, and the parameters already indexed are kept |
| GenomeLayout.AddParametersNames | AutoCoevoRUL/src/main/java/autocoevorul/featurerextraction/genomehandler/GenomeHandler.java:94-101 | after the parameter loop the entry knows every parameter name of the component, as a fixed value or through a gene |
| GenomeLayout.AddParametersCount | AutoCoevoRUL/src/main/java/autocoevorul/featurerextraction/genomehandler/GenomeHandler.java:94-101 | after the parameter loop the entry holds exactly one gene per searchable parameter |
| GenomeLayout.AddToListsExtends | AutoCoevoRUL/src/main/java/autocoevorul/featurerextraction/genomehandler/GenomeHandler.java:87-92 | registering an entry under its provided interfaces only appends that entry to existing lists |
| GenomeLayout.AddToListsContains | AutoCoevoRUL/src/main/java/autocoevorul/featurerextraction/genomehandler/GenomeHandler.java:87-92 | after registration, every provided interface has a list, created if missing, and that list holds the entry |
| GenomeLayout.AddToListsUntouched | AutoCoevoRUL/src/main/java/autocoevorul/featurerextraction/genomehandler/GenomeHandler.java:87-92 | the lists of interfaces the component does not provide are unchanged |
| GenomeLayout.AddToListsStep | AutoCoevoRUL/src/main/java/autocoevorul/featurerextraction/genomehandler/GenomeHandler.java:87-92 | registering the new entry keeps every interface list ordered and complete: each component is listed under every interface it provides |
| GenomeLayout.MainsStep | AutoCoevoRUL/src/main/java/autocoevorul/featurerextraction/genomehandler/GenomeHandler.java:83-85 | adding the new entry to the main entries when the component is main keeps the main entries exactly the main components, in ascending order |
| GenomeLayout.SetupComponentPrefix | AutoCoevoRUL/src/main/java/autocoevorul/featurerextraction/genomehandler/GenomeHandler.java:71-102 | setting up a component keeps everything recorded before and appends one entry, and every new gene is owned by that entry |
| GenomeLayout.SetupComponentActivation | AutoCoevoRUL/src/main/java/autocoevorul/featurerextraction/genomehandler/GenomeHandler.java:73-81 | the new entry has an activation gene exactly when `needsActivationBit` holds (a main component not exempted, or a non-main one without parameters and required interfaces); that gene is the first new one and is a bit |
| GenomeLayout.SetupComponentParameters | AutoCoevoRUL/src/main/java/autocoevorul/featurerextraction/genomehandler/GenomeHandler.java:94-101 | the new entry's parameter genes are exactly the new genes after its activation gene, each belonging to a searchable parameter and holding that parameter's template |
| GenomeLayout.SetupComponentNames | AutoCoevoRUL/src/main/java/autocoevorul/featurerextraction/genomehandler/GenomeHandler.java:94-101 | the new entry knows exactly the component's parameter names and has one gene per searchable parameter |
| GenomeLayout.SetupComponentWellFormed | AutoCoevoRUL/src/main/java/autocoevorul/featurerextraction/genomehandler/GenomeHandler.java:71-102 | setting up one more component keeps genes numbered consecutively from 0, each owned by one entry, with each entry's genes forming one block and its activation gene first |
| GenomeLayout.SetupComponentIndexes | AutoCoevoRUL/src/main/java/autocoevorul/featurerextraction/genomehandler/GenomeHandler.java:83-92 | setting up one more component keeps the main entries and the provider lists consistent |
| GenomeLayout.SetupComponent | AutoCoevoRUL/src/main/java/autocoevorul/featurerextraction/genomehandler/GenomeHandler.java:71-102 | setting up a component keeps the entries before it and appends one, records the component, and lists its entry among the main entries exactly when it is a main component |
| GenomeLayout.BuildWellFormed | AutoCoevoRUL/src/main/java/autocoevorul/featurerextraction/genomehandler/GenomeHandler.java:64-66 | the constructor's loop yields a well-formed layout of exactly the components it is given, set up in the order it is given them |
| GenomeLayout.BuildIndexes | AutoCoevoRUL/src/main/java/autocoevorul/featurerextraction/genomehandler/GenomeHandler.java:56-66 | after the constructor's loop the main entries are exactly the main components in ascending order, and every component is listed under every interface it provides |
| GenomeLayout.Build | AutoCoevoRUL/src/main/java/autocoevorul/featurerextraction/genomehandler/GenomeHandler.java:64-66 | the constructor's loop gives one entry per component, every gene owned by one entry and every parameter gene within the genome |
| GenomeLayout.BuildNamesSorted | AutoCoevoRUL/src/main/java/autocoevorul/featurerextraction/genomehandler/GenomeHandler.java:64-66 | components set up in name order give entries in name order |
| GenomeLayout.Construct | AutoCoevoRUL/src/main/java/autocoevorul/featurerextraction/genomehandler/GenomeHandler.java:50-67 | the constructor raises exactly when some component has an empty categorical domain; otherwise it lays out a permutation of the components sorted by name (`compareTo`), its entries in name order, well formed, with consistent main entries and provider lists |
| GenomeLayout.SoleActivationGene | AutoCoevoRUL/src/main/java/autocoevorul/featurerextraction/genomehandler/GenomeHandler.java:71-102 | in a layout in name order, a component without parameters that needs an activation bit owns exactly one gene, that bit, initially off, and sits among the entries where its name falls |
| Genome.NewSolution | AutoCoevoRUL/src/main/java/autocoevorul/featurerextraction/genomehandler/GenomeHandler.java:115-128 | a new solution has `getNumberOfVariables` genes, each a copy of its template, and exactly 2 objectives |
| Genome.NewSolutionConforms | AutoCoevoRUL/src/main/java/autocoevorul/featurerextraction/genomehandler/GenomeHandler.java:119-128 | a fresh solution holds one gene of the right kind and bounds per template |
| Genome.ConformsReadable | AutoCoevoRUL/src/main/java/autocoevorul/featurerextraction/genomehandler/GenomeHandler.java:233-265 | every genome that conforms to a well-formed layout can be read: activation genes are bits and categorical genes index a domain value |
| Genome.Interpret | AutoCoevoRUL/src/main/java/autocoevorul/featurerextraction/genomehandler/GenomeHandler.java:246-265 | a categorical gene reads as one of its domain's values, a non-categorical integer gene as the decimal text that parses back to its value, a NaN real gene as "NaN", and any other gene as the empty string |
| Genome.ActivationCases | AutoCoevoRUL/src/main/java/autocoevorul/featurerextraction/genomehandler/GenomeHandler.java:233-244 | an entry with an activation gene is active exactly when its bit is set; an entry without one is active when some parameter gene reads as "true" ignoring case, and never when it has no parameter genes |
| Genome.PutParameters | AutoCoevoRUL/src/main/java/autocoevorul/featurerextraction/genomehandler/GenomeHandler.java:157-163 | the parameter loop adds to the map exactly the names of the parameters whose genes it visits |
| Genome.ParameterValuesKeys | AutoCoevoRUL/src/main/java/autocoevorul/featurerextraction/genomehandler/GenomeHandler.java:157-163 | a decoded parameter map names exactly the entry's parameters, fixed or with a gene |
| Genome.PutParametersValue | AutoCoevoRUL/src/main/java/autocoevorul/featurerextraction/genomehandler/GenomeHandler.java:159-163 | a gene whose parameter name no later gene shares determines that parameter's value |
| Genome.PutParametersKept | AutoCoevoRUL/src/main/java/autocoevorul/featurerextraction/genomehandler/GenomeHandler.java:159-163 | genes for other names leave a parameter's value alone |
| Genome.ParameterValuesFixed | AutoCoevoRUL/src/main/java/autocoevorul/featurerextraction/genomehandler/GenomeHandler.java:157-158 | a fixed single-value parameter without a gene always appears in the map with its fixed value |
| Genome.ParameterValuesGene | AutoCoevoRUL/src/main/java/autocoevorul/featurerextraction/genomehandler/GenomeHandler.java:159-163 | a parameter gene with a unique name appears in the map with its gene's reading |
| Genome.IndexOfComponent | AutoCoevoRUL/src/main/java/autocoevorul/featurerextraction/genomehandler/GenomeHandler.java:267-274 | the lookup returns the first gene whose entry's name ends with the query, and -1 exactly when there is none |
| Genome.IndexOfComponentFindsActivation | AutoCoevoRUL/src/main/java/autocoevorul/featurerextraction/genomehandler/GenomeHandler.java:267-274 | in a well-formed layout, looking up a component with an activation gene and no earlier match finds that activation gene |
| Genome.IndexOfParameters | AutoCoevoRUL/src/main/java/autocoevorul/featurerextraction/genomehandler/GenomeHandler.java:276-283 | the result is absent exactly when the component lookup fails, and otherwise is the gene set of the matching entry |
| Genome.IndexOfParameter | AutoCoevoRUL/src/main/java/autocoevorul/featurerextraction/genomehandler/GenomeHandler.java:285-297 | the result is -1 exactly when no matching entry has a gene for that parameter name; otherwise it is the smallest gene for that name in the first matching entry, in ascending gene order, that has one |
| Genome.ParameterFromFirst | AutoCoevoRUL/src/main/java/autocoevorul/featurerextraction/genomehandler/GenomeHandler.java:285-297 | the search from a gene on stops at the first gene whose entry matches and has the parameter, and returns that entry's smallest gene for it |
| Genome.PositionInArray | AutoCoevoRUL/src/main/java/autocoevorul/featurerextraction/genomehandler/GenomeHandler.java:305-312 | the result is the first index holding the value, and -1 exactly when the value is absent |
| Genome.PositionInterpretRoundTrip | AutoCoevoRUL/src/main/java/autocoevorul/featurerextraction/genomehandler/GenomeHandler.java:246-257 | writing a categorical value as its position and reading the gene back gives the value again |
| Decoder.ComponentOf | AutoCoevoRUL/src/main/java/autocoevorul/featurerextraction/genomehandler/GenomeHandler.java:155 | an entry is decoded as the first component carrying its name |
| Decoder.ActiveCases | AutoCoevoRUL/src/main/java/autocoevorul/featurerextraction/genomehandler/BinaryAttributeSelectionIncludedGenomeHandler.java:89-108 | both variants follow the activation rule outside a tsfresh wrapper without activation gene; under attribute selection such a wrapper without parameter genes is active exactly when some feature provider is, and any active feature provider switches it on |
| Decoder.DecodeEntry | AutoCoevoRUL/src/main/java/autocoevorul/featurerextraction/genomehandler/GenomeHandler.java:153-183 | a decoded entry is active, is an instance of its component with the entry's parameter map, and passes the completeness check as written |
| Decoder.DecodeSlots | AutoCoevoRUL/src/main/java/autocoevorul/featurerextraction/genomehandler/GenomeHandler.java:165-174 | the required-interface loop creates a slot for exactly the ids of the required interfaces |
| Decoder.DecodeAll | AutoCoevoRUL/src/main/java/autocoevorul/featurerextraction/genomehandler/GenomeHandler.java:168-173 | each listed provider is decoded on its own, one result per provider |
| Decoder.DecodeGenome | AutoCoevoRUL/src/main/java/autocoevorul/featurerextraction/genomehandler/GenomeHandler.java:130-151 | a decoding is an instance of the root with an empty parameter map that passes the completeness check, so a root with parameters never decodes |
| Decoder.EntryRankIrrelevant | AutoCoevoRUL/src/main/java/autocoevorul/featurerextraction/genomehandler/GenomeHandler.java:153-183 | the decoding of an entry does not depend on which admissible order bounds the recursion |
| Decoder.DecodeProvidersMembers | AutoCoevoRUL/src/main/java/autocoevorul/featurerextraction/genomehandler/GenomeHandler.java:168-173 | the children under an interface are exactly the instances its providers decode to |
| Decoder.DecodeSlotsValue | AutoCoevoRUL/src/main/java/autocoevorul/featurerextraction/genomehandler/GenomeHandler.java:165-174 | a slot holds the children decoded for the last required interface carrying its id |
| Decoder.ChildrenProvide | AutoCoevoRUL/src/main/java/autocoevorul/featurerextraction/genomehandler/GenomeHandler.java:165-174 | every child placed under a required interface provides that interface |
| Decoder.NamesOfCount | AutoCoevoRUL/src/main/java/autocoevorul/featurerextraction/genomehandler/GenomeHandler.java:186 | a parameter list names as many values as it has elements exactly when no two parameters share a name |
| Decoder.ParameterCountCheck | AutoCoevoRUL/src/main/java/autocoevorul/featurerextraction/genomehandler/GenomeHandler.java:185-188 | in a layout the constructor built, a decoded entry passes the parameter-count half of the completeness check exactly when its component's parameter names are distinct |
| Decoder.BuiltLayoutListsProviders | AutoCoevoRUL/src/main/java/autocoevorul/featurerextraction/genomehandler/GenomeHandler.java:136 | a layout the constructor built has a provider list for every required interface when some component provides each |
| LegacyDecoder.LegacyEntry | AutoCoevoRUL/src/main/java/autocoevorul/featurerextraction/GenomeHandler.java:226-255 | a decoded entry is active, is never a root component, is an instance of its own component, and has at least one child under every required interface |
| LegacyDecoder.LegacySlots | AutoCoevoRUL/src/main/java/autocoevorul/featurerextraction/GenomeHandler.java:236-247 | the required-interface loop creates a slot for exactly the ids of the required interfaces |
| LegacyDecoder.LegacyProviders | AutoCoevoRUL/src/main/java/autocoevorul/featurerextraction/GenomeHandler.java:241-246 | no child collected from the providers is an instance of a root component |
| LegacyDecoder.DecodeMain | AutoCoevoRUL/src/main/java/autocoevorul/featurerextraction/GenomeHandler.java:170-188 | a main component is decoded only when active, then has no children and one value per parameter; an active main component with required interfaces fails the completeness check on a missing slot |
| LegacyDecoder.DecodeParent | AutoCoevoRUL/src/main/java/autocoevorul/featurerextraction/GenomeHandler.java:190-224 | a parent decodes as an instance of its own component with at least one child under every required interface |
| LegacyDecoder.ParentSlots | AutoCoevoRUL/src/main/java/autocoevorul/featurerextraction/GenomeHandler.java:202-217 | the parent's slot map has exactly the ids of its required interfaces |
| LegacyDecoder.ParentSlotsHoldChild | AutoCoevoRUL/src/main/java/autocoevorul/featurerextraction/GenomeHandler.java:207-208 | every required interface whose name is the climbed interface receives the child |
| LegacyDecoder.ParentHoldsChild | AutoCoevoRUL/src/main/java/autocoevorul/featurerextraction/GenomeHandler.java:203-222 | a decoded parent holds the child under every required interface named after the interface the child was climbed through |
| LegacyDecoder.WrapParents | AutoCoevoRUL/src/main/java/autocoevorul/featurerextraction/GenomeHandler.java:150-152 | with no parent requiring the interface the instance is unchanged; otherwise the result is an instance of the last parent |
| LegacyDecoder.Climb | AutoCoevoRUL/src/main/java/autocoevorul/featurerextraction/GenomeHandler.java:147-155 | a climb that ends with an instance ends at a root component, and an instance of a root is kept as it is |
| LegacyDecoder.WrapInterfacesUnrequired | AutoCoevoRUL/src/main/java/autocoevorul/featurerextraction/GenomeHandler.java:148-149 | interfaces that no component requires leave the current instance as it is |
| LegacyDecoder.ClimbSpins | AutoCoevoRUL/src/main/java/autocoevorul/featurerextraction/GenomeHandler.java:147-155 | for a non-root instance whose interfaces nothing requires the loop never ends: whatever the fuel, it runs out |
| LegacyDecoder.DecodeMains | AutoCoevoRUL/src/main/java/autocoevorul/featurerextraction/GenomeHandler.java:145-160 | the main-entry loop collects at most one instance per main entry, in order, each of a root component |
| LegacyDecoder.DecodeGenomeLegacy | AutoCoevoRUL/src/main/java/autocoevorul/featurerextraction/GenomeHandler.java:142-168 | a decoding is a non-empty list of root instances; otherwise the result is null |
| LegacyDecoder.InactiveMainsDecodeNothing | AutoCoevoRUL/src/main/java/autocoevorul/featurerextraction/GenomeHandler.java:145-160 | inactive main entries contribute no instance |
| LegacyDecoder.InactiveGenomeDecodesNull | AutoCoevoRUL/src/main/java/autocoevorul/featurerextraction/GenomeHandler.java:162-166 | a genome whose main entries are all inactive decodes to null |
| LegacyDecoder.RootMainKept | AutoCoevoRUL/src/main/java/autocoevorul/featurerextraction/GenomeHandler.java:145-159 | an active main component that is itself a root and passes the completeness check is appended as it is, without climbing |
| AttributeSelection.AttributeComponentGene | AutoCoevoRUL/src/main/java/autocoevorul/featurerextraction/genomehandler/BinaryAttributeSelectionIncludedGenomeHandler.java:36-45 | the component added for an attribute gets exactly one gene, its activation bit, initially off, no parameter genes, and is listed as a provider of "AttributeName" |
| AttributeSelection.WithAttributes | AutoCoevoRUL/src/main/java/autocoevorul/featurerextraction/genomehandler/BinaryAttributeSelectionIncludedGenomeHandler.java:36-41 | the attribute components are appended after the search space's components, which are kept as they were, and every attribute has its component among them |
| AttributeSelection.AttributeLayout | AutoCoevoRUL/src/main/java/autocoevorul/featurerextraction/genomehandler/BinaryAttributeSelectionIncludedGenomeHandler.java:31-41 | the attribute variant's constructor raises exactly when a search-space component has an empty categorical domain; otherwise its layout is well formed, holds the search space's and the attribute components in any order, and has its entries in name order |
| AttributeSelection.AttributeGene | AutoCoevoRUL/src/main/java/autocoevorul/featurerextraction/genomehandler/BinaryAttributeSelectionIncludedGenomeHandler.java:36-45 | each attribute that is not a main component gets exactly one gene, its activation bit, initially off, placed where its name "attribute_<name>" falls among all component names |
| AttributeSelection.ResetOf | AutoCoevoRUL/src/main/java/autocoevorul/featurerextraction/genomehandler/BinaryAttributeSelectionIncludedGenomeHandler.java:59-71 | a main component's reset clears its activation bit exactly when it is not exempted from one, found by the component lookup, and resets each parameter at the gene the parameter lookup finds |
| AttributeSelection.Resets | AutoCoevoRUL/src/main/java/autocoevorul/featurerextraction/genomehandler/BinaryAttributeSelectionIncludedGenomeHandler.java:59 | the resets follow the main components in order |
| AttributeSelection.ParameterWrite | AutoCoevoRUL/src/main/java/autocoevorul/featurerextraction/genomehandler/BinaryAttributeSelectionIncludedGenomeHandler.java:63-70 | a categorical parameter gets its bit 0 cleared and a numeric one its default cast to a 32-bit `int`, truncated toward zero, exact for an integral default in range; both at the gene the lookup found |
| AttributeSelection.ResetsClearBits | AutoCoevoRUL/src/main/java/autocoevorul/featurerextraction/genomehandler/BinaryAttributeSelectionIncludedGenomeHandler.java:57-74 | the empty genome's resets only ever clear bits |
| AttributeSelection.ResetsValid | AutoCoevoRUL/src/main/java/autocoevorul/featurerextraction/genomehandler/BinaryAttributeSelectionIncludedGenomeHandler.java:57-74 | the resets of all main components can be applied exactly when each main component's resets can |
| AttributeSelection.AttributeEmptySolution | AutoCoevoRUL/src/main/java/autocoevorul/featurerextraction/genomehandler/BinaryAttributeSelectionIncludedGenomeHandler.java:57-74 | the empty genome is built exactly when the fresh genome takes every main component's resets, and then has one gene per gene of the layout |
| AttributeSelection.InvalidResetFails | AutoCoevoRUL/src/main/java/autocoevorul/featurerextraction/genomehandler/BinaryAttributeSelectionIncludedGenomeHandler.java:61-69 | one reset the genome cannot take (a missing gene or a gene of the wrong kind) makes the whole reset raise |
| AttributeSelection.CategoricalResetFails | AutoCoevoRUL/src/main/java/autocoevorul/featurerextraction/genomehandler/BinaryAttributeSelectionIncludedGenomeHandler.java:65-66 | a categorical reset whose gene is missing or a real gene makes the whole reset raise |
| AttributeSelection.MissingParameterFails | AutoCoevoRUL/src/main/java/autocoevorul/featurerextraction/genomehandler/BinaryAttributeSelectionIncludedGenomeHandler.java:63-66 | a main component's parameter that has no gene (a single-valued one) makes the empty genome raise, since the lookup gives -1 |
| AttributeSelection.ResetBitsOff | AutoCoevoRUL/src/main/java/autocoevorul/featurerextraction/genomehandler/BinaryAttributeSelectionIncludedGenomeHandler.java:60-62 | after a successful reset each main component's activation gene is not a real gene, and holds false when it is a bit gene |
| AttributeSelection.AttributeEmptyBitsOff | AutoCoevoRUL/src/main/java/autocoevorul/featurerextraction/genomehandler/BinaryAttributeSelectionIncludedGenomeHandler.java:57-74 | in the empty genome every main component that has an activation bit has it switched off, wherever that gene is a bit gene |
| AttributeSelection.AfterLastDot | AutoCoevoRUL/src/main/java/autocoevorul/featurerextraction/genomehandler/BinaryAttributeSelectionIncludedGenomeHandler.java:80 | the text after the last '.' holds no '.' and ends the name, and a name without '.' is kept whole |
| AttributeSelection.SwitchedNamesMembers | AutoCoevoRUL/src/main/java/autocoevorul/featurerextraction/genomehandler/BinaryAttributeSelectionIncludedGenomeHandler.java:79-81 | the components `activateTsfresh` visits and switches are exactly the tsfresh features whose last name part is MAXIMUM or MINIMUM |
| AttributeSelection.SwitchWrites | AutoCoevoRUL/src/main/java/autocoevorul/featurerextraction/genomehandler/BinaryAttributeSelectionIncludedGenomeHandler.java:77-86 | `activateTsfresh` writes true to the activation gene of each switched component, one write per switched component |
| AttributeSelection.SwitchWritesOnlyOn | AutoCoevoRUL/src/main/java/autocoevorul/featurerextraction/genomehandler/BinaryAttributeSelectionIncludedGenomeHandler.java:82 | `activateTsfresh` only ever switches bits on |
| AttributeSelection.SwitchWritesReach | AutoCoevoRUL/src/main/java/autocoevorul/featurerextraction/genomehandler/BinaryAttributeSelectionIncludedGenomeHandler.java:79-83 | every switched component's activation gene is written |
| AttributeSelection.AttributeSeeds | AutoCoevoRUL/src/main/java/autocoevorul/featurerextraction/genomehandler/BinaryAttributeSelectionIncludedGenomeHandler.java:47-54 | there is exactly one seed, the empty genome with the default features switched on, whatever the population size, and it raises exactly when one of the two steps does |
| AttributeSelection.AttributeSeedSwitches | AutoCoevoRUL/src/main/java/autocoevorul/featurerextraction/genomehandler/BinaryAttributeSelectionIncludedGenomeHandler.java:47-86 | in the seed every switched feature's gene is not a real gene, and is on when it is a bit gene |
| Seeds.Accepts | AutoCoevoRUL/src/main/java/autocoevorul/featurerextraction/genomehandler/BinaryAttributeSelectionIncludedGenomeHandler.java:61-69 | a bit write is taken by every gene but a real one, since an integer gene is a bit string too; a bit gene takes only bit writes, a real gene only real values, and an integer value only an integer gene whose bounds hold it |
| Seeds.SetLowBit | AutoCoevoRUL/src/main/java/autocoevorul/featurerextraction/genomehandler/BinaryAttributeSelectionIncludedGenomeHandler.java:66 | a bit write on an integer gene keeps its bounds, stays within them, sets the lowest binary digit of the offset from the lower bound when the range allows two values, and changes nothing when that digit already holds the bit |
| Seeds.SetLowBitChanges | AutoCoevoRUL/src/main/java/autocoevorul/featurerextraction/genomehandler/BinaryAttributeSelectionIncludedGenomeHandler.java:66 | on an integer gene with room for two values, a bit write changes the gene exactly when its lowest digit differs from the bit |
| Seeds.ClearFreshIntGene | AutoCoevoRUL/src/main/java/autocoevorul/featurerextraction/genomehandler/BinaryAttributeSelectionIncludedGenomeHandler.java:66 | clearing bit 0 of an integer gene that holds its lower bound leaves it there |
| Seeds.Put | AutoCoevoRUL/src/main/java/autocoevorul/featurerextraction/genomehandler/BasicGenomeHandler.java:84-92 | a write keeps the gene's kind and bounds; a value write stores exactly the value; a bit write on a bit gene stores the bit and on an integer gene sets its lowest digit when it has room for two values, leaving a gene that already reads the bit unchanged |
| Seeds.PutShape | AutoCoevoRUL/src/main/java/autocoevorul/featurerextraction/genomehandler/BasicGenomeHandler.java:84-92 | genes of the same kind and bounds take the same writes, and a bit gene, or any gene under a value write, ends the same whatever it held before |
| Seeds.PutTwice | AutoCoevoRUL/src/main/java/autocoevorul/featurerextraction/genomehandler/BasicGenomeHandler.java:84-92 | writing the same value twice is writing it once |
| Seeds.LastWrite | AutoCoevoRUL/src/main/java/autocoevorul/featurerextraction/genomehandler/BasicGenomeHandler.java:80-95 | finds the last write to a gene, and -1 exactly when no write reaches it |
| Seeds.WriteGene | AutoCoevoRUL/src/main/java/autocoevorul/featurerextraction/genomehandler/BasicGenomeHandler.java:80-95 | the writes to one gene, in order, keep its kind and bounds and stay within them |
| Seeds.WriteGeneUntouched | AutoCoevoRUL/src/main/java/autocoevorul/featurerextraction/genomehandler/BasicGenomeHandler.java:80-95 | a gene no write reaches keeps its value |
| Seeds.WriteGeneLast | AutoCoevoRUL/src/main/java/autocoevorul/featurerextraction/genomehandler/BasicGenomeHandler.java:80-95 | on a bit gene, or when the last write is a value write, the last write to a gene decides what it holds |
| Seeds.WriteGeneSame | AutoCoevoRUL/src/main/java/autocoevorul/featurerextraction/genomehandler/BasicGenomeHandler.java:83-85 | writing one value several times to a gene within its bounds is writing it once |
| Seeds.Apply | AutoCoevoRUL/src/main/java/autocoevorul/featurerextraction/genomehandler/BasicGenomeHandler.java:80-95 | a sequence of writes on one solution succeeds exactly when every write is valid (a found gene of a kind that takes the write, a value within bounds); then each gene holds what its writes made of it in order, and the objectives are kept |
| Seeds.BitAfter | AutoCoevoRUL/src/main/java/autocoevorul/featurerextraction/genomehandler/BasicGenomeHandler.java:106-137 | under writes that only switch bits on, a bit gene ends on when some write reached it and otherwise keeps its value |
| Seeds.SwitchedOn | AutoCoevoRUL/src/main/java/autocoevorul/featurerextraction/genomehandler/BasicGenomeHandler.java:114-117 | a gene that some write switched on is not a real gene, and when it is a bit gene it is on afterwards if the writes only switch bits on |
| Seeds.SetAll | AutoCoevoRUL/src/main/java/autocoevorul/featurerextraction/genomehandler/BasicGenomeHandler.java:83-85 | setting one value on every gene of a set succeeds exactly when every gene takes it; then the genes of the set hold it and all others are unchanged |
| Seeds.SetAllAnyOrder | AutoCoevoRUL/src/main/java/autocoevorul/featurerextraction/genomehandler/BasicGenomeHandler.java:83-85 | on a genome within its bounds, the loop over a hash set writes the same value everywhere, so every listing of the set gives the same genome |
| Seeds.ApplyConforms | AutoCoevoRUL/src/main/java/autocoevorul/featurerextraction/genomehandler/BasicGenomeHandler.java:80-137 | the seed builders' writes keep a genome of the layout's shape and bounds |
| Seeds.GenesOf | AutoCoevoRUL/src/main/java/autocoevorul/featurerextraction/genomehandler/BasicGenomeHandler.java:87-132 | the genes the seed builders write are those the component and parameter lookups find for the shapelet extractor, ROCKET, masking, the candidate share, the kernel count and each feature flag |
| Seeds.TrueFalsePositions | AutoCoevoRUL/src/main/java/autocoevorul/featurerextraction/genomehandler/BasicGenomeHandler.java:84 | "True" sits at position 0 and "False" at position 1 of the true/false list |
| Seeds.ExtractorWritesShape | AutoCoevoRUL/src/main/java/autocoevorul/featurerextraction/genomehandler/BasicGenomeHandler.java:97-137 | an activator only switches bits on, only its own bit or masking's, and it always writes masking and its own bit |
| Seeds.ComboWritesOrigin | AutoCoevoRUL/src/main/java/autocoevorul/featurerextraction/genomehandler/BasicGenomeHandler.java:33-77 | every bit written while activating a combination, other than masking, is the bit of an extractor in the combination |
| Seeds.ComboWritesReach | AutoCoevoRUL/src/main/java/autocoevorul/featurerextraction/genomehandler/BasicGenomeHandler.java:33-77 | activating a combination writes masking on and the bit of each extractor in it |
| Seeds.BitOutcome | AutoCoevoRUL/src/main/java/autocoevorul/featurerextraction/genomehandler/BasicGenomeHandler.java:114-137 | a cleared bit ends up on exactly when some write switched it on |
| Seeds.OtherWritesMiss | AutoCoevoRUL/src/main/java/autocoevorul/featurerextraction/genomehandler/BasicGenomeHandler.java:119-137 | activators of other extractors never reach an extractor's bit when the bits and masking are distinct genes |
| Seeds.ComboBits | AutoCoevoRUL/src/main/java/autocoevorul/featurerextraction/genomehandler/BasicGenomeHandler.java:33-77 | after activating a combination on a genome with the bit off, an extractor's bit is on exactly when the combination holds that extractor |
| Seeds.ComboMasking | AutoCoevoRUL/src/main/java/autocoevorul/featurerextraction/genomehandler/BasicGenomeHandler.java:110-135 | once anything was activated, masking is not a real gene, and it is on when it is a bit gene |
| Seeds.TsfreshFlagsTrue | AutoCoevoRUL/src/main/java/autocoevorul/featurerextraction/genomehandler/BasicGenomeHandler.java:97-112 | after the tsfresh activator every flag gene it reaches reads "True" |
| Seeds.ClearedBits | AutoCoevoRUL/src/main/java/autocoevorul/featurerextraction/genomehandler/BasicGenomeHandler.java:87-92 | clearing the two extractor bits and then setting the candidate share leaves each of them off when it is a bit gene |
| Seeds.EmptyBitsOff | AutoCoevoRUL/src/main/java/autocoevorul/featurerextraction/genomehandler/BasicGenomeHandler.java:80-95 | in the empty genome the shapelet and ROCKET genes exist and are off when they are bit genes |
| Seeds.IntegerGeneKept | AutoCoevoRUL/src/main/java/autocoevorul/featurerextraction/genomehandler/BasicGenomeHandler.java:87-92 | clearing bits and setting a real gene leaves every other gene, integer ones included, alone |
| Seeds.EmptyFlagsFalse | AutoCoevoRUL/src/main/java/autocoevorul/featurerextraction/genomehandler/BasicGenomeHandler.java:83-85 | in the empty genome of a well-formed layout every parameter gene of the flag holder reads "False" |
| Seeds.HolderGeneApart | AutoCoevoRUL/src/main/java/autocoevorul/featurerextraction/genomehandler/GenomeHandler.java:267-283 | in a well-formed layout, a parameter gene of the component the parameter-set lookup finds for one name is not the gene the component lookup finds for a name ending in another character |
| Seeds.CombinationsCoverSubsets | AutoCoevoRUL/src/main/java/autocoevorul/featurerextraction/genomehandler/BasicGenomeHandler.java:33-77 | every non-empty set of the three extractors is one of the seven combinations |
| Seeds.CombinationsDistinct | AutoCoevoRUL/src/main/java/autocoevorul/featurerextraction/genomehandler/BasicGenomeHandler.java:33-77 | no two of the seven combinations hold the same extractors |
| Seeds.AllSome | AutoCoevoRUL/src/main/java/autocoevorul/featurerextraction/genomehandler/BasicGenomeHandler.java:33-77 | the seeds exist exactly when every builder succeeds, one seed per builder, in order |
| Seeds.SeedsFrom | AutoCoevoRUL/src/main/java/autocoevorul/featurerextraction/genomehandler/BasicGenomeHandler.java:33-77 | there are seven seeds, seed j being the empty genome with combination j activated, and they exist exactly when every activation succeeds |
| Seeds.SeedsSwitches | AutoCoevoRUL/src/main/java/autocoevorul/featurerextraction/genomehandler/BasicGenomeHandler.java:33-77 | seed j has an extractor's bit on exactly when combination j holds it, and masking on when it is a bit gene |
| Seeds.SeedGenesFrom | AutoCoevoRUL/src/main/java/autocoevorul/featurerextraction/genomehandler/BasicGenomeHandler.java:33-77 | seed j, built on an empty genome with the extractor bit off where it is a bit gene, has that bit on exactly when combination j holds the extractor, and masking on, wherever those genes are bit genes |
| Seeds.BasicSeedsSwitches | AutoCoevoRUL/src/main/java/autocoevorul/featurerextraction/genomehandler/BasicGenomeHandler.java:32-137 | the basic handler's seven seeds switch on the extractors of their combination and no others, with masking on in each, wherever those genes are bit genes |
| Seeds.UtilEmptyBitsOff | AutoCoevoRUL/src/main/java/autocoevorul/featurerextraction/SolutionUtil.java:10-25 | the utility class's empty genome has the shapelet and ROCKET genes off where they are bit genes |
| Seeds.ActivatorSwitches | AutoCoevoRUL/src/main/java/autocoevorul/featurerextraction/SolutionUtil.java:27-68 | each activator switches masking on, and its own extractor's bit when it has one, wherever those genes are bit genes; neither is a real gene |
| Seeds.UtilActivateSwitches | AutoCoevoRUL/src/main/java/autocoevorul/featurerextraction/SolutionUtil.java:27-68 | the utility class's activators switch masking and their extractor on wherever those genes are bit genes |
| Rendering.ImportOf | AutoCoevoRUL/src/main/java/autocoevorul/featurerextraction/ML4PdMFactory.java:90-102 | an import is computed exactly when the name has at least `k` segments (otherwise the array index raises); a one-segment name adds nothing, a longer one adds one line `from ... import ...` ending in a newline |
| Rendering.ImportOfShape | AutoCoevoRUL/src/main/java/autocoevorul/featurerextraction/ML4PdMFactory.java:90-102 | the line imports segment `k` from the end out of the package formed by the segments before it, joined by dots |
| Rendering.SegmentsJoin | AutoCoevoRUL/src/main/java/autocoevorul/featurerextraction/ML4PdMFactory.java:91 | splitting a name that does not end in a dot at its dots and joining the pieces again gives back the name |
| Rendering.ImportNamesComponent | AutoCoevoRUL/src/main/java/autocoevorul/featurerextraction/ML4PdMFactory.java:86-102 | the import of a dotted class name names its package and the class, and package, dot and class give back the name |
| Rendering.Feature | AutoCoevoRUL/src/main/java/autocoevorul/featurerextraction/ML4PdMFactory.java:71-74 | a tsfresh feature renders exactly when its name has at least two segments |
| Rendering.FeatureNamesComponent | AutoCoevoRUL/src/main/java/autocoevorul/featurerextraction/ML4PdMFactory.java:71-74 | a feature named `<package>.<class>.<feature>` is written `<class>.<feature>` and imports `<class>` from `<package>` |
| Rendering.FeatureShape | AutoCoevoRUL/src/main/java/autocoevorul/featurerextraction/ML4PdMFactory.java:71-74 | a feature's text is its last two segments joined by a dot, and its import takes the class two segments from the end |
| Rendering.LastTwoSegments | AutoCoevoRUL/src/main/java/autocoevorul/featurerextraction/ML4PdMFactory.java:72-73 | a name with at least three segments is its package, a dot, the second-to-last segment, a dot and the last segment |
| Rendering.AttributeId | AutoCoevoRUL/src/main/java/autocoevorul/featurerextraction/ML4PdMFactory.java:37-39 | an attribute id exists exactly when the name has at least two segments, and adds no import |
| Rendering.Each | AutoCoevoRUL/src/main/java/autocoevorul/featurerextraction/ML4PdMFactory.java:34-40 | rendering a list succeeds exactly when every element renders, giving one rendering per element in order |
| Rendering.EachAgrees | AutoCoevoRUL/src/main/java/autocoevorul/featurerextraction/ML4PdMFactory.java:34-40 | two renderers that agree on every element render the list alike |
| Rendering.AllImportsMembers | AutoCoevoRUL/src/main/java/autocoevorul/featurerextraction/ML4PdMFactory.java:86-102 | the collected import lines are exactly the lines some element added |
| Rendering.PipelineBuildString | AutoCoevoRUL/src/main/java/autocoevorul/featurerextraction/ML4PdMFactory.java:17-28 | a build string needs both the attribute-filter and the generator slots; with nothing chosen in either it is empty and adds no imports |
| Rendering.GeneratorOrderIrrelevant | AutoCoevoRUL/src/main/java/autocoevorul/featurerextraction/ML4PdMFactory.java:23-26 | the order in which the feature generators were chosen does not change the build string when their names tell them apart |
| Rendering.FeatureOrderIrrelevant | AutoCoevoRUL/src/main/java/autocoevorul/featurerextraction/ML4PdMFactory.java:66-78 | the order in which a wrapper's features were chosen does not change its rendering when their names tell them apart |
| Rendering.FactoriesAgreeWithoutAttributeFilters | AutoCoevoRUL/src/main/java/autocoevorul/featurerextraction/TimeseriesFeatureEngineeringScikitLearnFactory.java:20-53 | without attribute filters among the chosen elements, the two factories render the same pipeline |
| Rendering.NewDecoding | AutoCoevoRUL/src/main/java/autocoevorul/featurerextraction/SolutionDecoding.java:21-42 | the decoding keeps the solution and the instance list it was given |
| Rendering.SingleInstanceDecoding | AutoCoevoRUL/src/main/java/autocoevorul/featurerextraction/SolutionDecoding.java:28-41 | a single instance's rendering is used unchanged, with its own import lines; no instance gives empty text and no imports |
| Rendering.UnionIffSeveral | AutoCoevoRUL/src/main/java/autocoevorul/featurerextraction/SolutionDecoding.java:33-35 | when no single rendering starts with `make_union(`, the construction does exactly when there are several instances |
| Rendering.RenderAllImports | AutoCoevoRUL/src/main/java/autocoevorul/featurerextraction/SolutionDecoding.java:27-31 | the imports collected are exactly those some instance's rendering adds |
| Rendering.ImportsIgnoreInstanceOrder | AutoCoevoRUL/src/main/java/autocoevorul/featurerextraction/SolutionDecoding.java:37-41 | the import block does not depend on the order of the instances |
| Rendering.ConstructionAndImportsAsDecoding | AutoCoevoRUL/src/main/java/autocoevorul/util/ScikitLearnUtil.java:13-22 | the construction text and import block of one instance are those of a decoding holding just that instance |
| Rendering.SetPerformance | AutoCoevoRUL/src/main/java/autocoevorul/featurerextraction/SolutionDecoding.java:44-47 | objective 0 takes the performance and objective 1 the usage count, and nothing else changes; a candidate with fewer than two objectives raises |
| Rendering.SetPerformanceOverwrites | AutoCoevoRUL/src/main/java/autocoevorul/featurerextraction/SolutionDecoding.java:44-47 | setting the performance twice keeps only the second values |
| Ordering.InsertBy | AutoCoevoRUL/src/main/java/autocoevorul/featurerextraction/ML4PdMFactory.java:23-24 | inserting into a list sorted by name keeps it sorted and adds exactly that element |
| Ordering.SortBy | AutoCoevoRUL/src/main/java/autocoevorul/featurerextraction/ML4PdMFactory.java:23-24 | sorting by component name gives a list sorted by name that is a permutation of the input |
| Ordering.DedupSorted | AutoCoevoRUL/src/main/java/autocoevorul/featurerextraction/SolutionDecoding.java:37-40 | dropping repetitions from a sorted list leaves a strictly ascending list of the same strings |
| Ordering.SortedDistinct | AutoCoevoRUL/src/main/java/autocoevorul/featurerextraction/SolutionDecoding.java:27-40 | the import set read back in order holds every distinct line once, in strictly ascending order, and nothing else |
| Ordering.StrictlySortedUnique | AutoCoevoRUL/src/main/java/autocoevorul/featurerextraction/SolutionDecoding.java:37-40 | a strictly ascending list is determined by its elements |
| Ordering.SortedDistinctOfSameElements | AutoCoevoRUL/src/main/java/autocoevorul/util/ScikitLearnUtil.java:14-20 | two collections with the same lines give the same import block |
| Ordering.SortedByUnique | AutoCoevoRUL/src/main/java/autocoevorul/featurerextraction/ML4PdMFactory.java:23-24 | a list sorted by a key that tells its elements apart is determined by its elements |
| Ordering.SortByPermutation | AutoCoevoRUL/src/main/java/autocoevorul/featurerextraction/ML4PdMFactory.java:23-24 | sorting by a key that tells the elements apart does not depend on the order they came in |
| Ordering.SortReals | AutoCoevoRUL/src/main/java/autocoevorul/regression/featurerating/MedianFeatureRater.java:11-14 | sorting the scores gives an ascending permutation of them |
| Events.RuntimesInSeconds | AutoCoevoRUL/src/main/java/autocoevorul/event/RegressorEvaluatedEvent.java:64-66 | one value per fold runtime, in order, each the millisecond runtime scaled down by a thousand |
| Events.AverageRuntime | AutoCoevoRUL/src/main/java/autocoevorul/event/RegressorEvaluatedEvent.java:68-73 | -1 for an evaluation without runtimes; otherwise a value that, times the number of folds, gives the total runtime in seconds, and that is no faster than the fastest fold and no slower than the slowest |
| Events.Succeeded | AutoCoevoRUL/src/main/java/autocoevorul/event/RegressorEvaluatedEvent.java:30-33 | a success event is never an error, has an empty exception text, and keeps the score, runtimes and names it was given |
| Events.Failed | AutoCoevoRUL/src/main/java/autocoevorul/event/RegressorEvaluatedEvent.java:35-38 | a failure event is an error whose exception text is the given one, with performance -1 and no runtimes |
| Events.AverageRuntimeBetween | AutoCoevoRUL/src/main/java/autocoevorul/event/RegressorEvaluatedEvent.java:68-73 | the average runtime of an evaluation with runtimes lies between its fastest and its slowest fold, in seconds |
| Incumbent.SucceededReport | AutoCoevoRUL/src/main/java/autocoevorul/baseline/randomsearch/PipelineEvaluationReport.java:13-20 | a report built with a performance is not failed and keeps the performance, texts and times |
| Incumbent.FailedReport | AutoCoevoRUL/src/main/java/autocoevorul/baseline/randomsearch/PipelineEvaluationReport.java:22-29 | a report built from a component instance is always failed, keeping its texts and times |
| Incumbent.NewTracker | AutoCoevoRUL/src/main/java/autocoevorul/SearchResult.java:18-21 | a fresh tracker has its bus and holds an empty report whose performance is the largest double |
| Incumbent.TrackerFromReportAsWritten | AutoCoevoRUL/src/main/java/autocoevorul/SearchResult.java:23-25 | the two-argument constructor holds the given report but keeps no bus |
| Incumbent.TrackerFromReport | AutoCoevoRUL/src/main/java/autocoevorul/SearchResult.java:23-25 | the two-argument constructor as intended: the given report is held and the bus kept |
| Incumbent.Update | AutoCoevoRUL/src/main/java/autocoevorul/SearchResult.java:27-33 | only a succeeded report can replace the held one, and between two succeeded reports it does exactly when strictly better; an announcement of the new report is posted exactly when it replaced the held one without raising; reading a failed held report, or posting without a bus, raises |
| Incumbent.UpdateNeverWorse | AutoCoevoRUL/src/main/java/autocoevorul/SearchResult.java:27-33 | after an update the held performance is never worse than before |
| Incumbent.BestIsMinimum | AutoCoevoRUL/src/main/java/autocoevorul/SearchResult.java:27-33 | the held performance after a run of reports is the smallest of the initial one and every succeeded report's, and is one of them |
| Incumbent.AppendDescending | AutoCoevoRUL/src/main/java/autocoevorul/SearchResult.java:28-30 | an announcement better than the last keeps the announcements strictly improving |
| Incumbent.BestSnoc | AutoCoevoRUL/src/main/java/autocoevorul/SearchResult.java:28-29 | one more report makes the best so far its own performance exactly when it succeeded and is strictly better |
| Incumbent.TrackAll | AutoCoevoRUL/src/main/java/autocoevorul/SearchResult.java:27-33 | feeding reports in order to a tracker with a bus ends with the best performance of all held, and the announcements strictly improve, each below the starting performance, the last equal to the final one |
| Incumbent.TrackerFromReportAsWrittenRaises | AutoCoevoRUL/src/main/java/autocoevorul/SearchResult.java:23-30 | a tracker built with the two-argument constructor raises on the first better report, since it has no bus to post to |
| Incumbent.TrackerFromReportNeverRaises | AutoCoevoRUL/src/main/java/autocoevorul/SearchResult.java:23-30 | with the bus kept, a tracker built from a succeeded report never raises on an update |
| Raters.ValidScores | AutoCoevoRUL/src/main/java/autocoevorul/regression/featurerating/AverageFeatureRater.java:12 | the scores kept are never more than the candidates |
| Raters.ValidScoresCount | AutoCoevoRUL/src/main/java/autocoevorul/regression/featurerating/AverageFeatureRater.java:12 | each value occurs among the kept scores exactly as often as a candidate carries it; absent and NaN scores are dropped |
| Raters.ValidScoresPermutation | AutoCoevoRUL/src/main/java/autocoevorul/regression/featurerating/MedianFeatureRater.java:11 | reordering the candidates reorders the kept scores and nothing more |
| Raters.TotalPermutation | AutoCoevoRUL/src/main/java/autocoevorul/regression/featurerating/AverageFeatureRater.java:12-13 | a sum does not depend on the order of its terms |
| Raters.MeanWithinValues | AutoCoevoRUL/src/main/java/autocoevorul/regression/featurerating/AverageFeatureRater.java:13 | the mean of a non-empty list is at least one of its values and at most another |
| Raters.MeanBetween | AutoCoevoRUL/src/main/java/autocoevorul/regression/featurerating/AverageFeatureRater.java:13 | a mean lies between any lower and upper bound of its values |
| Raters.AverageRating | AutoCoevoRUL/src/main/java/autocoevorul/regression/featurerating/AverageFeatureRater.java:11-18 | an extractor without valid scores rates 10000; otherwise the rating times the number of valid scores is their sum, so the rating is their arithmetic mean |
| Raters.AverageBetween | AutoCoevoRUL/src/main/java/autocoevorul/regression/featurerating/AverageFeatureRater.java:11-18 | with valid scores, the average rating lies between their smallest and largest |
| Raters.AverageOrderIrrelevant | AutoCoevoRUL/src/main/java/autocoevorul/regression/featurerating/AverageFeatureRater.java:11-18 | the average rating does not depend on the order of the candidates |
| Raters.SortedRealsUnique | AutoCoevoRUL/src/main/java/autocoevorul/regression/featurerating/MedianFeatureRater.java:11 | sorting gives the one ascending list with the given elements |
| Raters.MedianRating | AutoCoevoRUL/src/main/java/autocoevorul/regression/featurerating/MedianFeatureRater.java:10-16 | an extractor without valid scores rates 10000; otherwise the rating is one of the valid scores |
| Raters.MedianOrderIrrelevant | AutoCoevoRUL/src/main/java/autocoevorul/regression/featurerating/MedianFeatureRater.java:10-16 | the median rating does not depend on the order of the candidates |
| Raters.SortedRank | AutoCoevoRUL/src/main/java/autocoevorul/regression/featurerating/MedianFeatureRater.java:11-13 | in an ascending list, at most m values lie below the one at index m and at most n-1-m above it |
| Raters.MedianRank | AutoCoevoRUL/src/main/java/autocoevorul/regression/featurerating/MedianFeatureRater.java:13 | the median rating is the upper median: at most n/2 valid scores lie below it and at most n-1-n/2 above it |
| Raters.UsageRating | AutoCoevoRUL/src/main/java/autocoevorul/regression/featurerating/NumberOfUsingRegressorsFeatureRater.java:10-13 | the rating is never positive and is zero exactly when no candidate uses the extractor |
| Raters.MoreCandidatesRateLower | AutoCoevoRUL/src/main/java/autocoevorul/regression/featurerating/NumberOfUsingRegressorsFeatureRater.java:10-13 | more candidates, whatever their scores, rate strictly lower (better) |
| Raters.Rate | AutoCoevoRUL/src/main/java/autocoevorul/regression/featurerating/EFeatureRater.java:8-22 | each rater constant rates as the rater it delegates to |
| Raters.RateOrderIrrelevant | AutoCoevoRUL/src/main/java/autocoevorul/regression/featurerating/EFeatureRater.java:19-22 | no rater depends on the order of the candidates |
| LinkedMaps.Keys | AutoCoevoRUL/src/main/java/autocoevorul/data/CmapssToArffDatasetTransformer.java:69 | the keys of a linked map, one per entry, in iteration order |
| LinkedMaps.Find | AutoCoevoRUL/src/main/java/autocoevorul/data/CmapssToArffDatasetTransformer.java:54 | the position of the first entry with the key, or -1 exactly when no entry has it |
| LinkedMaps.Put | AutoCoevoRUL/src/main/java/autocoevorul/data/CmapssToArffDatasetTransformer.java:55-56 | a put adds at most one entry |
| LinkedMaps.GetPut | AutoCoevoRUL/src/main/java/autocoevorul/data/CmapssToArffDatasetTransformer.java:54-56 | after a put the key maps to the new value and every other key keeps its value |
| LinkedMaps.KeysPut | AutoCoevoRUL/src/main/java/autocoevorul/data/CmapssToArffDatasetTransformer.java:54-56 | a put keeps insertion order: a present key stays in place, a new key goes last, and keys stay distinct |
| Configuration.WrapLong | AutoCoevoRUL/src/main/java/autocoevorul/experiment/ExperimentConfiguration.java:150 | `long` arithmetic gives the one `long` congruent to the exact result, which is the result itself when it fits |
| Configuration.SaturateLong | AutoCoevoRUL/src/main/java/autocoevorul/experiment/ExperimentConfiguration.java:143-145 | a unit conversion that overflows sticks at the nearest `long` bound and is exact otherwise |
| Configuration.JavaDivSpec | AutoCoevoRUL/src/main/java/autocoevorul/experiment/ExperimentConfiguration.java:247 | integer division rounds toward zero: the remainder has the sign of the dividend and is smaller than the divisor |
| Configuration.ParseUnit | AutoCoevoRUL/src/main/java/autocoevorul/experiment/ICoevolutionConfig.java:111 | a unit is read only from its exact constant name, and a text that names no constant is rejected |
| Configuration.ParseUnitName | AutoCoevoRUL/src/main/java/autocoevorul/experiment/ICoevolutionConfig.java:111 | every unit is read back from its name, which holds no ':' |
| Configuration.Convert | AutoCoevoRUL/src/main/java/autocoevorul/experiment/ExperimentConfiguration.java:143-145 | converting a `long` amount between units stays within `long` |
| Configuration.ConvertRoundTrip | AutoCoevoRUL/src/main/java/autocoevorul/experiment/ExperimentConfiguration.java:143-145 | converting to a finer unit and back gives the amount back, unless the first conversion saturated |
| Configuration.ConvertDown | AutoCoevoRUL/src/main/java/autocoevorul/experiment/ExperimentConfiguration.java:247 | towards a coarser unit a non-negative amount becomes the number of whole coarse units it holds |
| Configuration.ParseTimeout | AutoCoevoRUL/src/main/java/autocoevorul/experiment/ICoevolutionConfig.java:106-114 | a timeout read from text always has an `int` amount |
| Configuration.ParseTimeoutRoundTrip | AutoCoevoRUL/src/main/java/autocoevorul/experiment/ICoevolutionConfig.java:106-114 | every timeout with an `int` amount is read back from its `<amount>:<UNIT>` text |
| Configuration.ParseTimeoutIgnoresRest | AutoCoevoRUL/src/main/java/autocoevorul/experiment/ICoevolutionConfig.java:109-112 | text after a second ':' plays no part in the timeout read |
| Configuration.ParseTimeoutFirstTwo | AutoCoevoRUL/src/main/java/autocoevorul/experiment/ICoevolutionConfig.java:109-112 | two texts whose first two ':'-pieces agree read as the same timeout, or both fail |
| Configuration.ParseTimeoutNeedsColon | AutoCoevoRUL/src/main/java/autocoevorul/experiment/ICoevolutionConfig.java:109-111 | a text without ':' is never a timeout, since it has no second piece |
| Configuration.ParseRater | AutoCoevoRUL/src/main/java/autocoevorul/experiment/ICoevolutionConfig.java:116-121 | a rater is read only from its exact constant name, and any other text is rejected |
| Configuration.ParseRaterRoundTrip | AutoCoevoRUL/src/main/java/autocoevorul/experiment/ICoevolutionConfig.java:116-121 | every rater constant, MINIMUM included, is read back from its name |
| Configuration.DefaultTimeoutsRead | AutoCoevoRUL/src/main/java/autocoevorul/experiment/ICoevolutionConfig.java:57-69 | the default candidate and total timeouts read as five and twenty minutes |
| Configuration.DefaultRaterRead | AutoCoevoRUL/src/main/java/autocoevorul/experiment/ICoevolutionConfig.java:75-78 | the default feature objective reads as the average rater |
| Configuration.DefaultPerFoldTimeout | AutoCoevoRUL/src/main/java/autocoevorul/experiment/ExperimentConfiguration.java:246-248 | with the default five folds and five-minute candidate timeout, each fold gets 59 seconds |
| Configuration.NormalisedDatasetName | AutoCoevoRUL/src/main/java/autocoevorul/experiment/ExperimentConfiguration.java:137 | a normalised dataset name holds no '/' |
| Configuration.NormalisedTrainingFileName | AutoCoevoRUL/src/main/java/autocoevorul/experiment/ExperimentConfiguration.java:137 | a training file `<dir>/<stem>_train.arff` is known as `<dir>_<stem>` |
| Configuration.EvaluationPathWithoutTrain | AutoCoevoRUL/src/main/java/autocoevorul/experiment/ExperimentConfiguration.java:75-76 | a dataset name without "train" is evaluated on the file it was trained on |
| Configuration.EvaluationPathOfTrainingFile | AutoCoevoRUL/src/main/java/autocoevorul/experiment/ExperimentConfiguration.java:75-76 | a training file `<stem>train<ext>` is evaluated on `<stem>test<ext>` in the same directory |
| Configuration.WithoutActivationBit | AutoCoevoRUL/src/main/java/autocoevorul/experiment/ExperimentConfiguration.java:138-141 | a missing list of main components without activation bit reads as empty; a configured one is kept |
| Configuration.GenerationTimeout | AutoCoevoRUL/src/main/java/autocoevorul/experiment/ExperimentConfiguration.java:143-144 | a generation timeout is in seconds and within `long` |
| Configuration.GenerationTimeoutCoversPopulation | AutoCoevoRUL/src/main/java/autocoevorul/experiment/ExperimentConfiguration.java:143-144 | without overflow, a generation gives every member of the population its candidate timeout plus one second |
| Configuration.RulTimeout | AutoCoevoRUL/src/main/java/autocoevorul/experiment/ExperimentConfiguration.java:145 | the complete-pipeline timeout is in milliseconds and within `long` |
| Configuration.RulTimeoutIsSum | AutoCoevoRUL/src/main/java/autocoevorul/experiment/ExperimentConfiguration.java:145 | for timeouts read from the configuration, the complete-pipeline timeout is exactly the sum of the feature and regression candidate timeouts |
| Configuration.PerFoldTimeout | AutoCoevoRUL/src/main/java/autocoevorul/experiment/ExperimentConfiguration.java:246-248 | the per-fold timeout fails exactly when there are no folds, and is otherwise in seconds and within `long` |
| Configuration.PerFoldTimeoutFits | AutoCoevoRUL/src/main/java/autocoevorul/experiment/ExperimentConfiguration.java:246-248 | the folds, each with its timeout and one second more, fit into the candidate timeout, and one more second per fold would not |
| Configuration.PerFoldTimeoutCanBeNegative | AutoCoevoRUL/src/main/java/autocoevorul/experiment/ExperimentConfiguration.java:246-248 | three seconds over five folds leave each fold a timeout of -1 seconds |
| Configuration.FitAndPredictTimeout | AutoCoevoRUL/src/main/java/autocoevorul/regression/CompletePipelineEvaluator.java:191 | the timeout of one fit-and-predict run is in seconds and within `long` |
| Configuration.FitAndPredictTimeoutLonger | AutoCoevoRUL/src/main/java/autocoevorul/regression/CompletePipelineEvaluator.java:191 | without overflow, a run gets two seconds more than the regression candidate timeout |
| Configuration.GgpTimeout | AutoCoevoRUL/src/main/java/autocoevorul/experiment/ExperimentConfiguration.java:268 | the search gets the time left until the deadline, but never less than one millisecond |
| Configuration.TempFoldersDistinct | AutoCoevoRUL/src/main/java/autocoevorul/experiment/ExperimentConfiguration.java:148 | experiments with different identifiers use different temporary folders |
| Configuration.RelationNameRole | AutoCoevoRUL/src/main/java/autocoevorul/util/DataUtil.java:38-45 | the first dataset of a split is named as training data and every other as test data |
| Configuration.RelationNamePlain | AutoCoevoRUL/src/main/java/autocoevorul/util/DataUtil.java:38-45 | a relation name mentioning neither "train" nor "test" gets seed, fold and role appended, and is otherwise unchanged |
| Configuration.RelationNamesDistinct | AutoCoevoRUL/src/main/java/autocoevorul/util/DataUtil.java:31-45 | within one seed, two datasets get the same name exactly when they share fold and role |
| Configuration.RelationNameOfTrainingFile | AutoCoevoRUL/src/main/java/autocoevorul/util/DataUtil.java:38-41 | the datasets of a `<stem>_train` relation are named as those of `<stem>` |
| Configuration.RelationNames | AutoCoevoRUL/src/main/java/autocoevorul/util/DataUtil.java:31-33 | one list of names per split, with one name per dataset of that split |
| Configuration.RelationNamesRoles | AutoCoevoRUL/src/main/java/autocoevorul/util/DataUtil.java:31-45 | across all splits, exactly the first dataset of each split is named as training data |
| OutputFiles.ArffPattern | AutoCoevoRUL/src/main/java/autocoevorul/featurerextraction/ML4PdMTimeSeriesFeatureEngineeringWrapper.java:49 | the ".arff" ending read as a regular expression matches exactly as many characters as the ending has |
| OutputFiles.StemAsWritten | AutoCoevoRUL/src/main/java/autocoevorul/featurerextraction/ML4PdMTimeSeriesFeatureEngineeringWrapper.java:47-50 | a name not ending in ".arff" is kept whole by the stem computation as written |
| OutputFiles.StemAsWrittenOfPlainName | AutoCoevoRUL/src/main/java/autocoevorul/featurerextraction/ML4PdMTimeSeriesFeatureEngineeringWrapper.java:48-49 | as written, `<stem>.arff` with no "arff" in a non-empty stem gives the stem, and an empty stem raises |
| OutputFiles.StemAsWrittenCutsEarly | AutoCoevoRUL/src/main/java/autocoevorul/featurerextraction/ML4PdMTimeSeriesFeatureEngineeringWrapper.java:48-49 | as written, an "arff" after another character inside the stem cuts it short there, where dropping the ending would keep the whole stem |
| OutputFiles.StemAsWrittenCounterexamples | AutoCoevoRUL/src/main/java/autocoevorul/featurerextraction/ML4PdMTimeSeriesFeatureEngineeringWrapper.java:48-49 | "a_arff.arff" keeps only "a" where "a_arff" is meant, and ".arff" raises where the empty stem is meant |
| OutputFiles.OutputFileNameOfStem | AutoCoevoRUL/src/main/java/autocoevorul/featurerextraction/ML4PdMTimeSeriesFeatureEngineeringWrapper.java:46-55 | an ARFF name whose stem as written is `<stem>` gets the output name `<id>_<stem>.pdmff` |
| OutputFiles.PlainOutputName | AutoCoevoRUL/src/main/java/autocoevorul/featurerextraction/ML4PdMTimeSeriesFeatureEngineeringWrapper.java:46-55 | "a.arff" writes to `<id>_a.pdmff` |
| OutputFiles.CutShortOutputName | AutoCoevoRUL/src/main/java/autocoevorul/featurerextraction/ML4PdMTimeSeriesFeatureEngineeringWrapper.java:46-55 | as written, "a_arff.arff" writes to `<id>_a.pdmff` as well |
| OutputFiles.EmptyStemOutputName | AutoCoevoRUL/src/main/java/autocoevorul/featurerextraction/ML4PdMTimeSeriesFeatureEngineeringWrapper.java:46-55 | as written, ".arff" has no output file name: computing it raises |
| OutputFiles.OutputFileNameCollision | AutoCoevoRUL/src/main/java/autocoevorul/featurerextraction/ML4PdMTimeSeriesFeatureEngineeringWrapper.java:46-55 | as written, the two different datasets "a.arff" and "a_arff.arff" share the output file `<id>_a.pdmff`, and ".arff" has none |
| OutputFiles.StemOf | AutoCoevoRUL/src/main/java/autocoevorul/featurerextraction/ML4PdMTimeSeriesFeatureEngineeringWrapper.java:47-50 | the intended stem: a name not ending in ".arff" is kept whole |
| OutputFiles.StemOfDropsEnding | AutoCoevoRUL/src/main/java/autocoevorul/featurerextraction/ML4PdMTimeSeriesFeatureEngineeringWrapper.java:48-49 | dropping the ending from `<stem>.arff` gives back exactly the stem |
| OutputFiles.StemOfEnding | AutoCoevoRUL/src/main/java/autocoevorul/featurerextraction/ML4PdMTimeSeriesFeatureEngineeringWrapper.java:48-49 | a name ending in ".arff" is its stem followed by the ending |
| OutputFiles.PdmffNotArff | AutoCoevoRUL/src/main/java/autocoevorul/featurerextraction/ML4PdMTimeSeriesFeatureEngineeringWrapper.java:48-53 | a name ending in ".pdmff" does not end in ".arff" |
| OutputFiles.OutputFileName | AutoCoevoRUL/src/main/java/autocoevorul/featurerextraction/ML4PdMTimeSeriesFeatureEngineeringWrapper.java:46-55 | computing the output file name raises exactly when the stem as written does; otherwise the name starts with the configuration id and "_" and ends with ".pdmff", and it is the intended name wherever the stem as written is the intended stem |
| OutputFiles.IntendedOutputFileName | AutoCoevoRUL/src/main/java/autocoevorul/featurerextraction/ML4PdMTimeSeriesFeatureEngineeringWrapper.java:46-55 | every intended output file name starts with the configuration id and "_" |
| OutputFiles.IntendedOutputFileNameEnding | AutoCoevoRUL/src/main/java/autocoevorul/featurerextraction/ML4PdMTimeSeriesFeatureEngineeringWrapper.java:51-53 | every intended output file name ends with ".pdmff" |
| OutputFiles.IntendedOutputFileNameOfArff | AutoCoevoRUL/src/main/java/autocoevorul/featurerextraction/ML4PdMTimeSeriesFeatureEngineeringWrapper.java:46-55 | as intended, the output of `<stem>.arff` is `<id>_<stem>.pdmff`, and two ARFF datasets share an output exactly when they share a name |
| OutputFiles.OutputFile | AutoCoevoRUL/src/main/java/autocoevorul/featurerextraction/ML4PdMTimeSeriesFeatureEngineeringWrapper.java:46-55 | the output file lies in the wrapper's temporary folder, its name starts with the configuration id and "_" and ends with ".pdmff", and computing it raises exactly when the stem as written does |
| OutputFiles.HandleOutput | AutoCoevoRUL/src/main/java/autocoevorul/featurerextraction/ML4PdMTimeSeriesFeatureEngineeringWrapper.java:96-103 | afterwards the output file exists; a training exception naming it is raised exactly when it was missing |
| OutputFiles.FitAndPredict | AutoCoevoRUL/src/main/java/autocoevorul/featurerextraction/ML4PdMTimeSeriesFeatureEngineeringWrapper.java:73-94 | the script runs exactly when neither output exists; no file disappears; the call succeeds exactly when the script, if run, did not fail and both outputs then exist; a failing script raises with nothing created; a missing output raises only after the training output exists |
| OutputFiles.MissingOutputIsCached | AutoCoevoRUL/src/main/java/autocoevorul/featurerextraction/ML4PdMTimeSeriesFeatureEngineeringWrapper.java:79-100 | once a call ends with a missing output, the next call never runs the script and the one after succeeds, whatever the script would do |
| OutputFiles.CachedOutputsSucceed | AutoCoevoRUL/src/main/java/autocoevorul/featurerextraction/ML4PdMTimeSeriesFeatureEngineeringWrapper.java:79-88 | with both outputs present the call changes nothing and succeeds |
| FeatureExtractionProblem.LeadingFitted | AutoCoevoRUL/src/main/java/autocoevorul/featurerextraction/FeatureExtractionMoeaProblem.java:86-101 | the splits at the front that were fitted, up to the first that was not |
| FeatureExtractionProblem.EvaluateGenome | AutoCoevoRUL/src/main/java/autocoevorul/featurerextraction/FeatureExtractionMoeaProblem.java:78-112 | a missing component raises; a genome is valid exactly when it decodes and every split fits, keeping its decoding; otherwise both objectives get a sentinel, the timeout one exactly when the first split that does not fit timed out or was interrupted |
| FeatureExtractionProblem.EvaluateGenomeIgnoresLaterFolds | AutoCoevoRUL/src/main/java/autocoevorul/featurerextraction/FeatureExtractionMoeaProblem.java:86-107 | splits after the first one that does not fit play no part in the verdict |
| FeatureExtractionProblem.JobMark | AutoCoevoRUL/src/main/java/autocoevorul/featurerextraction/FeatureExtractionMoeaProblem.java:118-132 | a genome keeps its objectives untouched exactly when its evaluation recorded it as valid |
| FeatureExtractionProblem.ValidDecodings | AutoCoevoRUL/src/main/java/autocoevorul/featurerextraction/FeatureExtractionMoeaProblem.java:102-147 | the decodings collected are exactly those of the genomes recorded as valid, and there are some exactly when some genome is valid |
| FeatureExtractionProblem.ImproveBest | AutoCoevoRUL/src/main/java/autocoevorul/featurerextraction/FeatureExtractionMoeaProblem.java:161-169 | the best pipeline becomes the candidate, and is announced, exactly when the candidate exists and there is no best yet or it is strictly better; the best never gets worse |
| FeatureExtractionProblem.BatchMarks | AutoCoevoRUL/src/main/java/autocoevorul/featurerextraction/FeatureExtractionMoeaProblem.java:118-145 | one mark per genome; a genome is left unmarked exactly when it is valid; every mark is a sentinel, and after an interrupted wait every marked genome is infeasible |
| FeatureExtractionProblem.EvaluateBatch | AutoCoevoRUL/src/main/java/autocoevorul/featurerextraction/FeatureExtractionMoeaProblem.java:114-175 | the marks are as for a batch; the inner search receives the valid decodings in any order the concurrent map yields (a permutation of them) and runs exactly when one exists; an exception from it leaves the best pipeline untouched and unannounced, otherwise its result is offered as the best |
| FeatureExtractionProblem.BestOf | AutoCoevoRUL/src/main/java/autocoevorul/featurerextraction/FeatureExtractionMoeaProblem.java:161-169 | over successive batches a best pipeline, once found, is never lost or made worse, and is always the initial one or one of the candidates |
| FeatureExtractionProblem.BestOfIsMinimum | AutoCoevoRUL/src/main/java/autocoevorul/featurerextraction/FeatureExtractionMoeaProblem.java:161-169 | over any run of inner-search results the best pipeline is the initial one or one of them, exists once any does, and is at least as good as the initial one and every candidate |
| RegressionProblem.SelectorComponent | AutoCoevoRUL/src/main/java/autocoevorul/regression/RegressionGgpProblem.java:54-72 | an empty list of decodings is refused; otherwise the selector provides its own name, has one integer parameter over the decoding indexes with default 0, and requires one regressor through the regression interface |
| RegressionProblem.SelectorValuesNameDecodings | AutoCoevoRUL/src/main/java/autocoevorul/regression/RegressionGgpProblem.java:161-162 | every value of the selector's parameter lies in its domain and is read back as the index of a decoding |
| RegressionProblem.ExtractorOf | AutoCoevoRUL/src/main/java/autocoevorul/regression/RegressionGgpProblem.java:161-162 | a candidate names an extractor exactly when its parameter parses to a decoding index, and then names that decoding's construction string |
| RegressionProblem.Buckets | AutoCoevoRUL/src/main/java/autocoevorul/regression/RegressionGgpProblem.java:154-166 | bucketing fails exactly when some candidate names no decoding; otherwise there is one bucket per construction string |
| RegressionProblem.BucketsAreUsers | AutoCoevoRUL/src/main/java/autocoevorul/regression/RegressionGgpProblem.java:154-166 | each bucket holds exactly the candidates naming its construction string, in population order |
| RegressionProblem.BucketsLast | AutoCoevoRUL/src/main/java/autocoevorul/regression/RegressionGgpProblem.java:160-164 | the last candidate is appended to the bucket of the extractor it names, after all candidates before it |
| RegressionProblem.Scores | AutoCoevoRUL/src/main/java/autocoevorul/regression/RegressionGgpProblem.java:92 | the scores of the candidates, one per candidate, in order |
| RegressionProblem.RateOne | AutoCoevoRUL/src/main/java/autocoevorul/regression/RegressionGgpProblem.java:86-96 | a decoding is rated exactly when it has two objectives; it keeps its genes and gets the configured rating of its bucket and minus the bucket's size, and its event carries these with the bucket's scores |
| RegressionProblem.RateExtractors | AutoCoevoRUL/src/main/java/autocoevorul/regression/RegressionGgpProblem.java:84-96 | the rating loop succeeds exactly when bucketing succeeds and every decoding has its objectives, and then rates every decoding |
| RegressionProblem.RatingsFromUsers | AutoCoevoRUL/src/main/java/autocoevorul/regression/RegressionGgpProblem.java:84-96 | every decoding is rated from exactly the candidates naming its construction string |
| RegressionProblem.SameConstructionSameObjectives | AutoCoevoRUL/src/main/java/autocoevorul/regression/RegressionGgpProblem.java:155-163 | decodings sharing a construction string get the same objectives |
| RegressionProblem.Compose | AutoCoevoRUL/src/main/java/autocoevorul/regression/RegressionGgpProblem.java:107-143 | a result composes exactly when it names a decoding and has a regressor; the pipeline is `make_pipeline(<extractor>,<regressor>)`, the imports are the extractor's, a newline and the regressor's, and the performance is the result's score |
| RegressionProblem.EvaluateExtractors | AutoCoevoRUL/src/main/java/autocoevorul/regression/RegressionGgpProblem.java:54-119 | the evaluation succeeds exactly when there are decodings, rating succeeds and any result composes; without a result the placeholder solution is announced and nothing is returned, otherwise the composed solution is announced and returned |
| PipelineEvaluation.Clamp | AutoCoevoRUL/src/main/java/autocoevorul/regression/CompletePipelineEvaluator.java:120-121 | a clamped prediction is never negative and is the prediction itself or zero |
| PipelineEvaluation.ClampAll | AutoCoevoRUL/src/main/java/autocoevorul/regression/CompletePipelineEvaluator.java:120-121 | one clamped prediction per prediction: a non-negative one is kept and a negative one becomes zero |
| PipelineEvaluation.ClampAllIdempotent | AutoCoevoRUL/src/main/java/autocoevorul/baseline/randomsearch/AbstractCompletePipelineEvaluator.java:84-85 | clamping predictions that were already clamped changes nothing |
| PipelineEvaluation.ExtractorHash | AutoCoevoRUL/src/main/java/autocoevorul/regression/CompletePipelineEvaluator.java:82-84 | the file prefix never starts with a minus; a hash starting with a minus loses every minus, any other gets a leading zero |
| PipelineEvaluation.ExtractorHashInjective | AutoCoevoRUL/src/main/java/autocoevorul/regression/CompletePipelineEvaluator.java:82-84 | for hashes not starting with a minus, as hex digests never do, distinct hashes give distinct prefixes |
| PipelineEvaluation.DatasetNamesDistinct | AutoCoevoRUL/src/main/java/autocoevorul/regression/CompletePipelineEvaluator.java:163-169 | within one prefix, dataset and seed, two dataset files share a name exactly when they share fold and role |
| PipelineEvaluation.LeadingPredicted | AutoCoevoRUL/src/main/java/autocoevorul/regression/CompletePipelineEvaluator.java:94-146 | the folds at the front that predicted, up to the first that did not |
| PipelineEvaluation.ClampedPredictions | AutoCoevoRUL/src/main/java/autocoevorul/regression/CompletePipelineEvaluator.java:120-125 | one list of clamped predictions per predicting fold at the front, in order |
| PipelineEvaluation.FoldLoopEscapes | AutoCoevoRUL/src/main/java/autocoevorul/regression/CompletePipelineEvaluator.java:94-146 | an exception escapes the fold loop exactly when a fold runs with other than one regressor, the predicting folds run past the ground truths, or the first fold that does not predict is interrupted |
| PipelineEvaluation.FoldLoopProgress | AutoCoevoRUL/src/main/java/autocoevorul/regression/CompletePipelineEvaluator.java:94-146 | when nothing escapes, the loop keeps the clamped predictions and the runtimes of the predicting folds at the front, and the trace of the fold that ended it |
| PipelineEvaluation.ExtractorIndex | AutoCoevoRUL/src/main/java/autocoevorul/regression/CompletePipelineEvaluator.java:79-81 | a selector names an extractor exactly when its parameter is present, parses as an integer and indexes a decoding, and then names that index |
| PipelineEvaluation.Evaluate | AutoCoevoRUL/src/main/java/autocoevorul/regression/CompletePipelineEvaluator.java:75-161 | an event is posted exactly when no exception escapes; a score comes with a success event carrying it and one runtime per ground truth, an evaluation failure with a failure event; every event names the decoding's construction string, the training file of fold -1 and the generation |
| PipelineEvaluation.EvaluateScoredIff | AutoCoevoRUL/src/main/java/autocoevorul/regression/CompletePipelineEvaluator.java:75-161 | with as many folds as ground truths, a candidate is scored exactly when it names a decoding, has exactly one regressor and every fold predicts, and the score is the loss of the clamped predictions |
| PipelineEvaluation.EvaluateFailsOnBrokenFold | AutoCoevoRUL/src/main/java/autocoevorul/regression/CompletePipelineEvaluator.java:127-152 | a fold ending in an IO failure, a timeout or a failed execution makes the evaluation fail with an event carrying that fold's trace |
| PipelineEvaluation.FoldLosses | AutoCoevoRUL/src/main/java/autocoevorul/baseline/randomsearch/AbstractCompletePipelineEvaluator.java:84-86 | one loss per fold when every fold predicted |
| PipelineEvaluation.BaselineFoldsLosses | AutoCoevoRUL/src/main/java/autocoevorul/baseline/randomsearch/AbstractCompletePipelineEvaluator.java:73-97 | the loop adds one loss and one runtime per predicting fold, a loss for every fold exactly when every fold predicted, and then the losses of the folds in order |
| PipelineEvaluation.RunBaseline | AutoCoevoRUL/src/main/java/autocoevorul/baseline/randomsearch/AbstractCompletePipelineEvaluator.java:63-109 | nothing is posted exactly when there are no folds; a success event is posted exactly when every fold predicted, and only then is the mean offered to the incumbent; every event names the pipeline and dataset, no extractor and no generation |
| PipelineEvaluation.BaselinePerformanceBetween | AutoCoevoRUL/src/main/java/autocoevorul/baseline/randomsearch/AbstractCompletePipelineEvaluator.java:100-107 | the posted performance lies between the smallest and the largest fold loss |
| PipelineEvaluation.BaselineNeverWorse | AutoCoevoRUL/src/main/java/autocoevorul/baseline/randomsearch/AbstractCompletePipelineEvaluator.java:100-107 | a baseline run never makes the incumbent worse |
| R2fConversion.FileExtension | AutoCoevoRUL/src/main/java/autocoevorul/data/R2FtoLabeledTimeseriesDataTransformer.java:233-238 | a name has no extension exactly when it holds no "." |
| R2fConversion.FileExtensionOf | AutoCoevoRUL/src/main/java/autocoevorul/data/R2FtoLabeledTimeseriesDataTransformer.java:233-238 | the extension of `<stem>.<ext>` is `<ext>` when that holds no "." |
| R2fConversion.Wrap32 | AutoCoevoRUL/src/main/java/autocoevorul/data/R2FtoLabeledTimeseriesDataTransformer.java:224 | `int` subtraction wraps into 32 bits and is exact when the result fits |
| R2fConversion.SpanOf | AutoCoevoRUL/src/main/java/autocoevorul/data/R2FtoLabeledTimeseriesDataTransformer.java:215-225 | the time steps a sensor spans are capped at its number of points |
| R2fConversion.SpansOf | AutoCoevoRUL/src/main/java/autocoevorul/data/R2FtoLabeledTimeseriesDataTransformer.java:214-215 | one span per column, in order |
| R2fConversion.LengthFromRaises | AutoCoevoRUL/src/main/java/autocoevorul/data/R2FtoLabeledTimeseriesDataTransformer.java:212-231 | the length loop raises exactly when a column it reads raises or the starting index is negative |
| R2fConversion.LengthFromLargest | AutoCoevoRUL/src/main/java/autocoevorul/data/R2FtoLabeledTimeseriesDataTransformer.java:226-228 | otherwise its result is the largest of the start value and the spans of the columns it does not skip |
| R2fConversion.InstanceLengthSpec | AutoCoevoRUL/src/main/java/autocoevorul/data/R2FtoLabeledTimeseriesDataTransformer.java:212-231 | the instance length raises exactly when a column from the starting index raises or the index is negative; otherwise it is never negative, bounds every span and, when positive, is the span of some column |
| R2fConversion.CutAsWrittenRaises | AutoCoevoRUL/src/main/java/autocoevorul/data/R2FtoLabeledTimeseriesDataTransformer.java:161-208 | as written, exactly the instances of 11 time steps raise, since their RUL range [10, 9] is empty |
| R2fConversion.Cut | AutoCoevoRUL/src/main/java/autocoevorul/data/R2FtoLabeledTimeseriesDataTransformer.java:159-208 | every cut keeps at least one time step |
| R2fConversion.CutRange | AutoCoevoRUL/src/main/java/autocoevorul/data/R2FtoLabeledTimeseriesDataTransformer.java:159-208 | a long instance keeps at least two time steps and leaves between 10 and 150, and at most its length minus 2, to predict, end and RUL adding up to its length; a short one keeps one step with RUL 0 |
| R2fConversion.CutCoversRange | AutoCoevoRUL/src/main/java/autocoevorul/data/R2FtoLabeledTimeseriesDataTransformer.java:206 | every RUL in the range is the outcome of some draw |
| R2fConversion.CutAgrees | AutoCoevoRUL/src/main/java/autocoevorul/data/R2FtoLabeledTimeseriesDataTransformer.java:159-208 | wherever the code as written does not raise, the corrected cut agrees with it |
| R2fConversion.FirstPoints | AutoCoevoRUL/src/main/java/autocoevorul/data/R2FtoLabeledTimeseriesDataTransformer.java:180 | exactly `end` points: the series' own first ones, then "null" for each one missing |
| R2fConversion.Columns | AutoCoevoRUL/src/main/java/autocoevorul/data/R2FtoLabeledTimeseriesDataTransformer.java:175-184 | one column per series column from the starting index on, each the cell cut at the end |
| R2fConversion.CopyLines | AutoCoevoRUL/src/main/java/autocoevorul/data/R2FtoLabeledTimeseriesDataTransformer.java:158-187 | the copies raise exactly when there is a copy to make of an instance of 11 time steps; otherwise there is one line per copy, copy k being the line cut with the corrected cut of draw number k, with which the cut as written agrees |
| R2fConversion.CutInstance | AutoCoevoRUL/src/main/java/autocoevorul/data/R2FtoLabeledTimeseriesDataTransformer.java:154-189 | a negative copy factor raises, as allocating the list of copies does; a line that does not raise gives exactly as many copies as the copy factor and never gives back draws |
| R2fConversion.CutInstanceRaises | AutoCoevoRUL/src/main/java/autocoevorul/data/R2FtoLabeledTimeseriesDataTransformer.java:154-189 | cutting an instance raises exactly for a negative copy factor, a negative starting index, a column whose length cannot be read, or an instance of 11 time steps with a copy to make |
| R2fConversion.ColumnHasNoComma | AutoCoevoRUL/src/main/java/autocoevorul/data/R2FtoLabeledTimeseriesDataTransformer.java:176-181 | a cut column holds no "," when its cell holds none |
| R2fConversion.ColumnPoints | AutoCoevoRUL/src/main/java/autocoevorul/data/R2FtoLabeledTimeseriesDataTransformer.java:179-181 | a quoted column lists exactly `end` points between its quotes: the cell's first ones, then "null" for each one missing |
| R2fConversion.CopyLineColumns | AutoCoevoRUL/src/main/java/autocoevorul/data/R2FtoLabeledTimeseriesDataTransformer.java:166-186 | a cut line split back at "," is the cut series columns followed by the RUL |
| R2fConversion.CopyLinesColumns | AutoCoevoRUL/src/main/java/autocoevorul/data/R2FtoLabeledTimeseriesDataTransformer.java:158-187 | when the copies do not raise, copy k split at "," is the series columns cut with draw number k, then that cut's RUL |
| R2fConversion.CutInstanceLines | AutoCoevoRUL/src/main/java/autocoevorul/data/R2FtoLabeledTimeseriesDataTransformer.java:154-189 | when the instance does not raise, the copy factor and starting index are not negative, an instance of 11 time steps had no copy to make, every copy lists the series columns from the starting index on, cut with its own draw, then its RUL, and only instances longer than 10 time steps use up draws |
| R2fConversion.Step | AutoCoevoRUL/src/main/java/autocoevorul/data/R2FtoLabeledTimeseriesDataTransformer.java:119-137 | one line of the rewrite only appends to the output and never gives back draws; after an exception or on a blank line it changes nothing; it passes "@DATA" exactly at a "@DATA" line; it raises exactly where cutting an instance line raises |
| R2fConversion.Run | AutoCoevoRUL/src/main/java/autocoevorul/data/R2FtoLabeledTimeseriesDataTransformer.java:119-137 | the rewrite loop only appends to the output, never forgets having passed "@DATA", never gives back draws, and changes nothing after an exception |
| R2fConversion.Rewrite | AutoCoevoRUL/src/main/java/autocoevorul/data/R2FtoLabeledTimeseriesDataTransformer.java:111-147 | the rewrite of a file raises only after "@DATA", and draws nothing before it |
| R2fConversion.RunAppend | AutoCoevoRUL/src/main/java/autocoevorul/data/R2FtoLabeledTimeseriesDataTransformer.java:119-137 | the rewrite over two pieces of input is the rewrite of the first continued over the second |
| R2fConversion.RunHeader | AutoCoevoRUL/src/main/java/autocoevorul/data/R2FtoLabeledTimeseriesDataTransformer.java:119-130 | before "@DATA" only the "@RELATION" and "@ATTRIBUTE" lines are written, and nothing is drawn |
| R2fConversion.DataLineKind | AutoCoevoRUL/src/main/java/autocoevorul/data/R2FtoLabeledTimeseriesDataTransformer.java:120-134 | a "@DATA" line is neither blank nor a "@RELATION" or "@ATTRIBUTE" declaration |
| R2fConversion.RewriteDataLine | AutoCoevoRUL/src/main/java/autocoevorul/data/R2FtoLabeledTimeseriesDataTransformer.java:131-134 | at the "@DATA" line the RUL attribute is declared and then the line itself written |
| R2fConversion.StepData | AutoCoevoRUL/src/main/java/autocoevorul/data/R2FtoLabeledTimeseriesDataTransformer.java:120-126 | after "@DATA" a blank line changes nothing; any other raises for a negative copy factor, and otherwise adds one line per copy unless it raises, keeping what was written |
| R2fConversion.RunData | AutoCoevoRUL/src/main/java/autocoevorul/data/R2FtoLabeledTimeseriesDataTransformer.java:119-126 | after "@DATA" every non-blank line adds one line per copy to what was written, until an exception ends the rewrite; after one nothing changes |
| R2fConversion.RewriteData | AutoCoevoRUL/src/main/java/autocoevorul/data/R2FtoLabeledTimeseriesDataTransformer.java:111-147 | what the rewrite writes after "@DATA" extends what it wrote before, by one line per copy for each non-blank instance line |
| TurbofanConversion.CanReadChecksFirstLines | AutoCoevoRUL/src/main/java/autocoevorul/data/CmapssToArffDatasetTransformer.java:147-181 | readability depends only on the first five lines, each of which must have exactly 26 fields; whatever follows changes nothing |
| TurbofanConversion.KeyInjective | AutoCoevoRUL/src/main/java/autocoevorul/data/CmapssToArffDatasetTransformer.java:54-56 | two series share a key exactly when they share unit and sensor, whatever the unit names hold |
| TurbofanConversion.KeyParts | AutoCoevoRUL/src/main/java/autocoevorul/data/CmapssToArffDatasetTransformer.java:70 | splitting a key at "-" gives back the unit and the sensor number when the unit holds no "-" |
| TurbofanConversion.AddReadingsRecords | AutoCoevoRUL/src/main/java/autocoevorul/data/CmapssToArffDatasetTransformer.java:53-57 | reading one line records each of its readings under its unit, sensor and cycle, leaves every other series and cycle as it was, and keeps every map's keys distinct |
| TurbofanConversion.AddReadingsHit | AutoCoevoRUL/src/main/java/autocoevorul/data/CmapssToArffDatasetTransformer.java:53-57 | each reading of a line ends up under its sensor at the line's cycle |
| TurbofanConversion.AddReadingsUntouched | AutoCoevoRUL/src/main/java/autocoevorul/data/CmapssToArffDatasetTransformer.java:53-57 | a sensor or cycle the line has no reading for keeps its reading |
| TurbofanConversion.AddReadingsWellFormed | AutoCoevoRUL/src/main/java/autocoevorul/data/CmapssToArffDatasetTransformer.java:53-57 | reading a line keeps every map's keys distinct |
| TurbofanConversion.GroupRecords | AutoCoevoRUL/src/main/java/autocoevorul/data/CmapssToArffDatasetTransformer.java:45-59 | grouping records for every unit, sensor and cycle the reading of the last line of that unit and cycle with a field for the sensor, as an independent line-by-line definition states |
| TurbofanConversion.PointTexts | AutoCoevoRUL/src/main/java/autocoevorul/data/CmapssToArffDatasetTransformer.java:79-80 | one "cycle#reading" point per reading of a series, in order |
| TurbofanConversion.AppendPointsJoin | AutoCoevoRUL/src/main/java/autocoevorul/data/CmapssToArffDatasetTransformer.java:78-81 | the point loop appends the points joined by spaces plus one trailing space |
| TurbofanConversion.ClosedQuoted | AutoCoevoRUL/src/main/java/autocoevorul/data/CmapssToArffDatasetTransformer.java:77-83 | once the trailing space is taken back, a series with readings is written as its quoted points followed by "," |
| TurbofanConversion.AppendSeriesOfKey | AutoCoevoRUL/src/main/java/autocoevorul/data/CmapssToArffDatasetTransformer.java:69-93 | one series is written after the separator its unit calls for, quoted and followed by ",", and its unit's line is finished after the last sensor |
| TurbofanConversion.FinishLast | AutoCoevoRUL/src/main/java/autocoevorul/data/CmapssToArffDatasetTransformer.java:86-92 | after the last sensor a unit's line loses its "," without a RUL list, and gets ", " and the unit's RUL with one |
| TurbofanConversion.SerialiseAppend | AutoCoevoRUL/src/main/java/autocoevorul/data/CmapssToArffDatasetTransformer.java:69-93 | writing a grouping in two parts is writing the first and then the second |
| TurbofanConversion.RowFrom | AutoCoevoRUL/src/main/java/autocoevorul/data/CmapssToArffDatasetTransformer.java:69-93 | the series of one unit's sensors up to the last become its separator, each series quoted and followed by ",", and the end of its line |
| TurbofanConversion.UnitLine | AutoCoevoRUL/src/main/java/autocoevorul/data/CmapssToArffDatasetTransformer.java:69-93 | a unit whose sensors 1 to n have readings becomes one line of its quoted series separated by ",", then ", " and its RUL when there is a RUL list; the line of a later unit starts on a new line |
| TurbofanConversion.SimpleFileNameOf | AutoCoevoRUL/src/main/java/autocoevorul/data/CmapssToArffDatasetTransformer.java:183-193 | the simple name of `dir/base.ext` is `base`, dots in it kept, and that of `dir/base` without a dot is `base` |
| TurbofanConversion.AttributeLines | AutoCoevoRUL/src/main/java/autocoevorul/data/CmapssToArffDatasetTransformer.java:111-113 | the first n sensor attributes, numbered from 0, in order |
| TurbofanConversion.HeaderLines | AutoCoevoRUL/src/main/java/autocoevorul/data/CmapssToArffDatasetTransformer.java:110-119 | the header has 28 lines, or 29 with the RUL line of a test file |
| TurbofanConversion.AttributeBlockLines | AutoCoevoRUL/src/main/java/autocoevorul/data/CmapssToArffDatasetTransformer.java:111-113 | the attribute loop writes the attribute lines, each ended by a line break |
| TurbofanConversion.HeaderIsLines | AutoCoevoRUL/src/main/java/autocoevorul/data/Phm08DataChallengeToArffDatasetTransformer.java:95-106 | the header built by either converter is exactly its lines: relation, blank line, the 24 sensor attributes, the RUL line of a test file, blank line and "@DATA", each ended by a line break |
| TurbofanConversion.ReadRulsOnePerLine | AutoCoevoRUL/src/main/java/autocoevorul/data/CmapssToArffDatasetTransformer.java:161-175 | a RUL file with one value per line lists exactly those values |
| TurbofanConversion.Transform | AutoCoevoRUL/src/main/java/autocoevorul/data/Phm08DataChallengeToArffDatasetTransformer.java:31-85 | the conversion reports an unreadable input exactly when the file is not regular or one of its first five lines is malformed |
| TurbofanConversion.TransformReadsRulsOfTestFiles | AutoCoevoRUL/src/main/java/autocoevorul/data/CmapssToArffDatasetTransformer.java:41-43 | only CMAPSS test files depend on the RUL file |
| TurbofanConversion.FileText | AutoCoevoRUL/src/main/java/autocoevorul/data/CmapssToArffDatasetTransformer.java:107-137 | writing fails exactly when the data conversion raises, and what is written starts with the header |
| TurbofanConversion.FileTextLines | AutoCoevoRUL/src/main/java/autocoevorul/data/Phm08DataChallengeToArffDatasetTransformer.java:94-119 | the lines of a written file start with the header's lines, whatever the data |
| UniToMulti.PadFront | python_connection/python_connection/feature_generation/uni_to_multi_numpy_feature_generator.py:14-37 | the padding loop shared by the strategies: the series grows to the maximum (or keeps its length when already longer), the original values stay its suffix, and the value inserted first sits next to them |
| UniToMulti.Extrema | python_connection/python_connection/feature_generation/uni_to_multi_numpy_feature_generator.py:30-32 | every value of a series lies between its numpy minimum and maximum |
| UniToMulti.ExtremaOccur | python_connection/python_connection/feature_generation/uni_to_multi_numpy_feature_generator.py:30-32 | the minimum and the maximum are themselves values of the series |
| UniToMulti.MinimumBelowMaximum | python_connection/python_connection/feature_generation/uni_to_multi_numpy_feature_generator.py:30-35 | the bounds of the random draw are ordered |
| UniToMulti.FillFor | python_connection/python_connection/feature_generation/uni_to_multi_numpy_feature_generator.py:14-37 | choosing what to insert raises exactly when the strategy is first-value or random masking and the series is empty |
| UniToMulti.ExtendWith | python_connection/python_connection/feature_generation/uni_to_multi_numpy_feature_generator.py:14-37 | padding with any fill reaches the maximum length and keeps the original series as the suffix |
| UniToMulti.ExtendInstance | python_connection/python_connection/feature_generation/uni_to_multi_numpy_feature_generator.py:14-37 | `extend_instance` raises exactly for a non-zero strategy on an empty series; otherwise it only prepends, up to the maximum length |
| UniToMulti.UniformBetween | python_connection/python_connection/feature_generation/uni_to_multi_numpy_feature_generator.py:36 | a uniform draw between two ordered bounds lands between them |
| UniToMulti.ExtendWithValues | python_connection/python_connection/feature_generation/uni_to_multi_numpy_feature_generator.py:14-37 | the padded positions hold the fill's values, most recently inserted first, and only a random fill consumes one draw per inserted value |
| UniToMulti.ZeroMaskingValues | python_connection/python_connection/feature_generation/uni_to_multi_numpy_feature_generator.py:12-16 | zero masking inserts only zeros and draws nothing |
| UniToMulti.FirstValueMaskingValues | python_connection/python_connection/feature_generation/uni_to_multi_numpy_feature_generator.py:19-24 | first-value masking of a non-empty series inserts only copies of its first value and draws nothing |
| UniToMulti.RandomMaskingConstant | python_connection/python_connection/feature_generation/uni_to_multi_numpy_feature_generator.py:27-37 | random masking of a series whose minimum equals its maximum inserts that value and draws nothing |
| UniToMulti.RandomMaskingDrawn | python_connection/python_connection/feature_generation/uni_to_multi_numpy_feature_generator.py:34-37 | random masking of a series with differing values draws exactly once per inserted value |
| UniToMulti.RandomMaskingFill | python_connection/python_connection/feature_generation/uni_to_multi_numpy_feature_generator.py:29-37 | random masking of a series with differing values draws between the series' minimum and maximum |
| UniToMulti.DrawnValueBetween | python_connection/python_connection/feature_generation/uni_to_multi_numpy_feature_generator.py:34-37 | every randomly inserted value lies between the series' minimum and maximum when its draw lies in the unit interval |
| UniToMulti.ExtendTwice | python_connection/python_connection/feature_generation/uni_to_multi_numpy_feature_generator.py:14-37 | masking is idempotent: a second call on an already padded series changes nothing and draws nothing |
| UniToMulti.WordAtFront | python_connection/python_connection/feature_generation/uni_to_multi_numpy_feature_generator.py:105 | the first word of a text is its longest white-space-free front |
| UniToMulti.Words | python_connection/python_connection/feature_generation/uni_to_multi_numpy_feature_generator.py:105 | `str.split()` yields only non-empty words free of white space |
| UniToMulti.WordsJoin | python_connection/python_connection/feature_generation/uni_to_multi_numpy_feature_generator.py:105 | words joined by single blanks split back into exactly those words |
| UniToMulti.WordWhole | python_connection/python_connection/feature_generation/uni_to_multi_numpy_feature_generator.py:105 | a word followed by white space or by nothing is read whole |
| UniToMulti.SensorAttributes | python_connection/python_connection/feature_generation/uni_to_multi_numpy_feature_generator.py:92-93 | the sensor attributes are, in increasing order, exactly the positions whose lower-cased name contains "sensor" |
| UniToMulti.TargetAttribute | python_connection/python_connection/feature_generation/uni_to_multi_numpy_feature_generator.py:94-95 | the target is the first attribute named "rul" in any case; with none the lookup raises |
| UniToMulti.SplitsInTwo | python_connection/python_connection/feature_generation/uni_to_multi_numpy_feature_generator.py:116-117 | a token holding "#" splits into at least two pieces, so its value piece exists |
| UniToMulti.ParseValue | python_connection/python_connection/feature_generation/uni_to_multi_numpy_feature_generator.py:112-117 | a token without "#" raises |
| UniToMulti.ParseValueOf | python_connection/python_connection/feature_generation/uni_to_multi_numpy_feature_generator.py:116-117 | a `time#value` token reads as its value |
| UniToMulti.ParseValues | python_connection/python_connection/feature_generation/uni_to_multi_numpy_feature_generator.py:111-118 | a cell reads without raising exactly when every token does, giving one value per token in order |
| UniToMulti.ScanSensor | python_connection/python_connection/feature_generation/uni_to_multi_numpy_feature_generator.py:102-108 | scanning a sensor's rows never lowers its maximum length |
| UniToMulti.ScanSensorMaximum | python_connection/python_connection/feature_generation/uni_to_multi_numpy_feature_generator.py:105-108 | the maximum after a scan is the one before it or the token count of some row's cell |
| UniToMulti.ScanSensorReads | python_connection/python_connection/feature_generation/uni_to_multi_numpy_feature_generator.py:102-122 | a scan that does not raise reads every row's series (none longer than the new maximum) and every row's target |
| UniToMulti.PadInstancesSome | python_connection/python_connection/feature_generation/uni_to_multi_numpy_feature_generator.py:124-126 | padding a sensor's series fails exactly when a non-zero strategy meets an empty series |
| UniToMulti.PadInstancesPadded | python_connection/python_connection/feature_generation/uni_to_multi_numpy_feature_generator.py:124-126 | padding that does not fail pads every series, in place, to the sensor's maximum |
| UniToMulti.PreparedSensor | python_connection/python_connection/feature_generation/uni_to_multi_numpy_feature_generator.py:99-128 | a scanned sensor whose series are padded holds, per row, the cell's values padded to the maximum and the row's target |
| UniToMulti.ScanSensors | python_connection/python_connection/feature_generation/uni_to_multi_numpy_feature_generator.py:96-128 | per-sensor maxima keep their number, never decrease, and stay as they were for sensors already done |
| UniToMulti.ScanSensorsData | python_connection/python_connection/feature_generation/uni_to_multi_numpy_feature_generator.py:99-128 | a run over the sensors that does not raise delivers, for each sensor in order, its rows prepared to the sensor's final maximum |
| UniToMulti.TransformArffParsed | python_connection/python_connection/feature_generation/uni_to_multi_numpy_feature_generator.py:87-130 | a dataset without an "rul" attribute raises with the maxima untouched; otherwise the maxima start at zero on the first call, persist across calls and never decrease, and each sensor gets one entry |
| UniToMulti.TransformPrepared | python_connection/python_connection/feature_generation/uni_to_multi_numpy_feature_generator.py:87-130 | a call that does not raise maps every sensor attribute, in attribute order, to its rows' series padded to the maximum kept for it, with the rows' targets |
| UniToMulti.MissingHashRaises | python_connection/python_connection/feature_generation/uni_to_multi_numpy_feature_generator.py:112-113 | a sensor cell holding a token without "#" makes the whole call raise |
| UltraFastShapelets.NewExtractor | python_connection/python_connection/feature_generation/ultra_fast_shapelets_feature_generator.py:26-30 | the constructor succeeds exactly when the kept share lies in (0, 1], and then keeps its arguments |
| UltraFastShapelets.Truncate | python_connection/python_connection/feature_generation/ultra_fast_shapelets_feature_generator.py:49 | Python's `int` of a float lies within one of it, toward zero |
| UltraFastShapelets.Budget | python_connection/python_connection/feature_generation/ultra_fast_shapelets_feature_generator.py:49-53 | the budget `p` is the truncated share of the instances, raised to 1 when that is below 1 |
| UltraFastShapelets.BudgetBounds | python_connection/python_connection/feature_generation/ultra_fast_shapelets_feature_generator.py:49-53 | with a valid share the budget is at most the number of instances (1 when there are none) and, when the share is at least one instance, the share rounded down |
| UltraFastShapelets.NumberOfCandidates | python_connection/python_connection/feature_generation/ultra_fast_shapelets_feature_generator.py:143-149 | the candidate count fails its assertion exactly for a non-positive window length |
| UltraFastShapelets.CandidatesAreWindows | python_connection/python_connection/feature_generation/ultra_fast_shapelets_feature_generator.py:143-149 | the candidate count is the number of instances times the number of places a window of the length, clamped to the series length, fits |
| UltraFastShapelets.Candidates | python_connection/python_connection/feature_generation/ultra_fast_shapelets_feature_generator.py:60-63 | `c` has `m - 2` entries, entry `i` counting the windows of length `i + 3` |
| UltraFastShapelets.CandidatesSum | python_connection/python_connection/feature_generation/ultra_fast_shapelets_feature_generator.py:60-66 | the candidates add up to `n` times the triangular number of `m - 2` |
| UltraFastShapelets.CandidatesPositive | python_connection/python_connection/feature_generation/ultra_fast_shapelets_feature_generator.py:60-66 | with instances and more than two steps the candidates add up to a positive number, so the ratio `f` is defined |
| UltraFastShapelets.RoundHalfEven | python_connection/python_connection/feature_generation/ultra_fast_shapelets_feature_generator.py:75 | numpy rounding lands within a half of the value, on the even integer at an exact half |
| UltraFastShapelets.RoundHalfEvenUnique | python_connection/python_connection/feature_generation/ultra_fast_shapelets_feature_generator.py:75 | that rounding is the only integer with those two properties |
| UltraFastShapelets.InitialShares | python_connection/python_connection/feature_generation/ultra_fast_shapelets_feature_generator.py:73-75 | `ps` before balancing has one entry per length, each within a half of its exact share of `p` |
| UltraFastShapelets.AddMissing | python_connection/python_connection/feature_generation/ultra_fast_shapelets_feature_generator.py:76-80 | adding the missing units raises the sum by exactly their number, each entry growing by the draws that picked it |
| UltraFastShapelets.TakeOne | python_connection/python_connection/feature_generation/ultra_fast_shapelets_feature_generator.py:85-91 | one round-robin pass decrements the first positive entry from the start, skipping only zero entries, and changes nothing when all are zero |
| UltraFastShapelets.TakeSurplus | python_connection/python_connection/feature_generation/ultra_fast_shapelets_feature_generator.py:81-91 | taking the surplus lowers the sum by exactly the surplus and never raises an entry |
| UltraFastShapelets.Balance | python_connection/python_connection/feature_generation/ultra_fast_shapelets_feature_generator.py:72-92 | after balancing `ps` sums to `p` with one entry per length; missing units go to drawn entries, surplus only lowers entries, a correct sum is left alone, and an empty `ps` with a wrong sum raises |
| UltraFastShapelets.Windows | python_connection/python_connection/feature_generation/ultra_fast_shapelets_feature_generator.py:98-108 | each drawn window has the asked length and dimension, a drawn instance, and ends before the last time step |
| UltraFastShapelets.Dimensions | python_connection/python_connection/feature_generation/ultra_fast_shapelets_feature_generator.py:97-108 | the windows of one length number the count per dimension, all in bounds |
| UltraFastShapelets.DimensionsCount | python_connection/python_connection/feature_generation/ultra_fast_shapelets_feature_generator.py:97-108 | the windows of one length come `count` per dimension and none of any other length |
| UltraFastShapelets.Lengths | python_connection/python_connection/feature_generation/ultra_fast_shapelets_feature_generator.py:95-109 | the extraction over the lengths draws `dims` times the sum of the shares, every window in bounds |
| UltraFastShapelets.LengthsCount | python_connection/python_connection/feature_generation/ultra_fast_shapelets_feature_generator.py:95-109 | each length `l` gets exactly `ps[l - 2]` windows per dimension |
| UltraFastShapelets.ExtractedCounts | python_connection/python_connection/feature_generation/ultra_fast_shapelets_feature_generator.py:95-109 | over all lengths from 2, each length and dimension gets exactly its share of windows |
| UltraFastShapelets.ExtractShapelets | python_connection/python_connection/feature_generation/ultra_fast_shapelets_feature_generator.py:41-109 | fitting raises exactly when there are no instances or at most two steps; otherwise the shares sum to the budget and there are `dims` times `p` shapelets, all in bounds, `ps[l - 2]` of each length per dimension |
| UltraFastShapelets.Transform | python_connection/python_connection/feature_generation/ultra_fast_shapelets_feature_generator.py:128-141 | the transform is `rows` by `p` and raises exactly when fewer than `p` shapelets are kept |
| UltraFastShapelets.TransformAfterFit | python_connection/python_connection/feature_generation/ultra_fast_shapelets_feature_generator.py:133-141 | after a fit the transform never raises, and column `j` holds each row's distance to the `j`-th shapelet |

## Left out

- **Search engines.** The NSGA-II/MOEA executor, the grammar-based genetic programming engine and the component-repository JSON reader are foreign code. What they produce (a population, a search result, the list of components) is an input.
- **The generic scikit-learn renderer.** `extractSKLearnConstructInstruction` enters as a function parameter. The same goes for SHA-256, the loss measure and the text of the learner.
- **Java `double` to text.** A finite double carries its own rendering, so the model never prints a double.
- **Floating point.** Doubles and numpy floats are exact `real`s. Rounding, NaN arithmetic and `float32` are not modelled. Where the code filters NaN or null scores, a `Score` datatype says so.
- **`HashMap` iteration over integer keys.** It is modelled as ascending key order, which is what `HashMap` does for small non-negative `Integer` keys.
- **Character handling.**
  - `String.toLowerCase`, `str.lower` and `str.split` compare characters by code.
  - Case folding is ASCII only.
  - `Strings.ParseInt` accepts only the ASCII digits '0' to '9'. Java's `Integer.parseInt` goes through `Character.digit`, so it also reads other Unicode decimal digits ("١٢" is 12). The timeout amount (`Configuration.ParseTimeout`), the extractor index (`PipelineEvaluation.ExtractorIndex`) and the R2F length read inherit this.
  - `Ordering.LessEq` compares strings by code point. Java's `String.compareTo` compares UTF-16 code units. The two orders differ only for characters above U+FFFF, whose surrogate units sort below U+E000 to U+FFFF.
- **Concurrency and time.**
  - Thread pools, `TimedComputation`, `awaitTermination`, `synchronized` and interrupts are not modelled.
  - Wall-clock deadlines are not modelled either. What each fold or task ended with, and the current time, are inputs.
- **Randomness.**
  - `Random.nextInt` and `np.random` are not modelled, and neither is the seeding in `np.random.seed`.
  - The draws are inputs: the `k`-th draw is `pick(k)` or `unit(k)`.
- **Files and processes.**
  - File reading and writing in the converters: they are modelled over sequences of lines.
  - Whether a file exists: it is an input set.
  - The subprocess that runs the feature-engineering script: what it wrote is an input.
- **The one-argument R2F `transform`.** It re-emits each sensor `end` times (`R2FtoLabeledTimeseriesDataTransformer.java:51-108`) and is not used by the two-argument conversion modelled here.
- **Reading the RUL file of the turbofan converters.** Its lines are an input.
- **The `MINIMUM` feature rater.** Its class is not part of this model. The converter accepts its name (`Configuration.ParseRater`), but it rates nothing.
- **Database, CLI and reporting classes, and the reflective field writes in `DataUtil`.** Only the relation-name strings of `DataUtil` are modelled.
- **Plain records and interfaces.** Event records other than `RegressorEvaluatedEvent` are not modelled, and neither is `Constants`, whose " " and "#" separators are written out.
- **Python outside the two helpers.** Not modelled:
  - the numpy distance code and `rolling_window` of the shapelet extractor (distances are an input function);
  - the `fit`/`transform` wrappers of the uni-to-multi generator around `transform_arff_parsed`;
  - the tsfresh generator;
  - the ML4PdM template and the dataset scripts.
- **Decoder.DecodeGenome and Decoder.DecodeEntry require three things.**
  - A rank that orders every entry above the providers it requires. Without one, the source recursion does not terminate.
  - A provider list for every required interface. Without one, the source raises a `NullPointerException`.
  - Under attribute selection, `Decoder.VariantReady` must hold, which has two parts:
    - A "TsfreshFeature" provider list exists whenever the layout has a tsfresh wrapper without an activation gene. Without one, the wrapper's activity check iterates over the missing list and raises a `NullPointerException` (`BinaryAttributeSelectionIncludedGenomeHandler.java:93-94`).
    - No "TsfreshFeature" provider is itself such a wrapper. The source would run the wrapper's activity check on it in turn, and without end when a wrapper reaches itself. The model excludes every such layout, not only the cyclic ones.
- **LegacyDecoder.Climb** runs on fuel, because the source's parent-climbing loop need not end. Running out of fuel is reported as `OutOfFuel`, not as an endless loop.
- **Raters.AverageRating**, **Events.AverageRuntime** and **PipelineEvaluation.BaselineFoldsLosses** compute means exactly. Double rounding of the sums is not modelled.
- GenomeEntry.AddParameter: requires a parameter that has a value. The raise on a categorical parameter with no values (`GenomeComponentEntry.java:73`) is modelled one level up: `GenomeLayout.Construct` fails exactly when some component has such a parameter.
- LegacyDecoder.WrapParents: stops with `NullChild` where the source wraps a null child and goes on (`GenomeHandler.java:150-152`, top-level handler). What the source builds after that point is not modelled.
- Seeds.Put: reads a bit write on an integer gene as setting the lowest plain binary digit of its offset from the lower bound, wrapping back into range when that overshoots the upper bound. MOEA's Gray coding of integer genes is not modelled. The handlers only clear bit 0 of freshly made genes, which hold their lower bound; both readings leave those genes unchanged (`Seeds.ClearFreshIntGene`).
- Seeds.SwitchedOn: promises a gene is on or off only when it is a bit gene. A bit write also succeeds on an integer gene, and what that gene reads afterwards is not stated.
- Seeds.ComboMasking: promises a gene is on or off only when it is a bit gene. A bit write also succeeds on an integer gene, and what that gene reads afterwards is not stated.
- Seeds.ClearedBits: promises a gene is on or off only when it is a bit gene. A bit write also succeeds on an integer gene, and what that gene reads afterwards is not stated.
- Seeds.EmptyBitsOff: promises a gene is on or off only when it is a bit gene. A bit write also succeeds on an integer gene, and what that gene reads afterwards is not stated.
- Seeds.SeedsSwitches: promises a gene is on or off only when it is a bit gene. A bit write also succeeds on an integer gene, and what that gene reads afterwards is not stated.
- Seeds.SeedGenesFrom: promises a gene is on or off only when it is a bit gene. A bit write also succeeds on an integer gene, and what that gene reads afterwards is not stated.
- Seeds.BasicSeedsSwitches: promises a gene is on or off only when it is a bit gene. A bit write also succeeds on an integer gene, and what that gene reads afterwards is not stated.
- Seeds.UtilEmptyBitsOff: promises a gene is on or off only when it is a bit gene. A bit write also succeeds on an integer gene, and what that gene reads afterwards is not stated.
- Seeds.ActivatorSwitches: promises a gene is on or off only when it is a bit gene. A bit write also succeeds on an integer gene, and what that gene reads afterwards is not stated.
- Seeds.UtilActivateSwitches: promises a gene is on or off only when it is a bit gene. A bit write also succeeds on an integer gene, and what that gene reads afterwards is not stated.
- AttributeSelection.ResetBitsOff: promises an activation gene is off or on only when it is a bit gene, for the same reason.
- AttributeSelection.AttributeEmptyBitsOff: promises an activation gene is off or on only when it is a bit gene, for the same reason.
- AttributeSelection.AttributeSeedSwitches: promises an activation gene is off or on only when it is a bit gene, for the same reason.
- Seeds.SetAllAnyOrder: requires every gene to lie within its bounds. Otherwise a bit write on an out-of-range integer gene need not be idempotent.
- Seeds.EmptyFlagsFalse: requires a well-formed layout and one of the two flag-holder names. These keep the holder's genes apart from the two extractor bits.
- **UltraFastShapelets.TakeSurplus** states only the new sum and that no entry grows. Which entry each surplus unit is taken from is stated one pass at a time by `UltraFastShapelets.TakeOne`.
- **UltraFastShapelets.Transform** states the shape of the output. Its contents are stated by `UltraFastShapelets.TransformAfterFit`.

## Findings

| source | as written | input that shows it | evidently intended | confidence | as-written member | corrected member |
|---|---|---|---|---|---|---|
| AutoCoevoRUL/src/main/java/autocoevorul/featurerextraction/ML4PdMTimeSeriesFeatureEngineeringWrapper.java:48-49 | the stem of the output file is the first piece of `split(".arff")`, whose regular expression `.arff` matches any character followed by "arff" | "a_arff.arff" gives the stem "a" and so shares the output file of "a.arff"; ".arff" gives no piece at all, so indexing raises | drop the ".arff" ending: "a_arff" and the empty stem, a distinct output for each dataset | not executed | OutputFiles.OutputFileNameCollision | OutputFiles.IntendedOutputFileNameOfArff |
| AutoCoevoRUL/src/main/java/autocoevorul/data/R2FtoLabeledTimeseriesDataTransformer.java:203-208 | the RUL is drawn with `nextInt(min(150, len - 2) - min(10, len) + 1)`, and only instances longer than 10 are cut | an instance of 11 time steps calls `nextInt(0)`, which raises `IllegalArgumentException` | a RUL between 10 and `len - 2`, or no cut when that range is empty | not executed | R2fConversion.CutAsWrittenRaises | R2fConversion.CutRange |
| AutoCoevoRUL/src/main/java/autocoevorul/SearchResult.java:23-25 | the two-argument constructor stores the report but not the event bus it is given | any better report posted to a tracker built this way dereferences the missing bus and raises `NullPointerException` | keep the bus, as the other constructor does | not executed | Incumbent.TrackerFromReportAsWrittenRaises | Incumbent.TrackerFromReportNeverRaises |

=== FILE: attribute_selection.dfy ===
/** The attribute-selection handler variant: one extra component per attribute
    of the training data, an empty genome that clears every main component's
    activation bit, sets its numeric parameters to their defaults and clears
    bit 0 of its categorical ones, and a single seed with the maximum and
    minimum tsfresh features switched on. */
module AttributeSelection {
  import opened Wrappers
  import opened Strings
  import opened Components
  import opened GenomeEntry
  import opened GenomeLayout
  import opened Genome
  import opened Seeds
  import opened Ordering

  /** The interface every attribute component provides. */
  const AttributeInterface: string := "AttributeName"

  /** `getAttributeNameForGenomeRepresentation`. */
  function AttributeComponentName(attribute: string): string {
    "attribute_" + attribute
  }

  /** The component `setupAdditionalComponents` adds for one attribute. */
  function AttributeComponent(attribute: string): Component {
    Component(AttributeComponentName(attribute), [AttributeInterface], [], [])
  }

  /** `setupAdditionalComponents`: the attribute components are appended to
      the components of the search space, one per attribute, in attribute
      order; the constructor sorts the whole list by name afterwards. */
  function WithAttributes(cs: seq<Component>, attributes: seq<string>): (r: seq<Component>)
    ensures |r| == |cs| + |attributes| && r[..|cs|] == cs
    ensures forall a :: a in attributes ==> AttributeComponent(a) in r
  {
    var r := cs + seq(|attributes|, j requires 0 <= j < |attributes| => AttributeComponent(attributes[j]));
    assert forall j :: 0 <= j < |attributes| ==> r[|cs| + j] == AttributeComponent(attributes[j]);
    r
  }

  /** Attribute components have no parameters, so they never make the
      constructor fail. */
  lemma WithAttributesValues(cs: seq<Component>, attributes: seq<string>)
    ensures AllParametersHaveValues(WithAttributes(cs, attributes)) <==> AllParametersHaveValues(cs)
  {
    var r := WithAttributes(cs, attributes);
    assert forall k :: 0 <= k < |cs| ==> r[k] == cs[k];
  }

  /** The attribute variant's layout: its constructor run on the search
      space's components together with one component per attribute. */
  function AttributeLayout(cs: seq<Component>, attributes: seq<string>, s: Settings): (r: Option<Layout>)
    ensures r.None? <==> !AllParametersHaveValues(cs)
    ensures r.Some? ==> WellFormed(r.value, s) && IndexesConsistent(r.value, s)
    ensures r.Some? ==> multiset(r.value.components) == multiset(WithAttributes(cs, attributes))
    ensures r.Some? ==> forall i, j :: 0 <= i < j < |r.value.entries| ==> LessEq(r.value.entries[i].name, r.value.entries[j].name)
  {
    WithAttributesValues(cs, attributes);
    Construct(WithAttributes(cs, attributes), s)
  }

  /** Each attribute that is not a main component gets exactly one gene, its
      activation bit, initially off, at the place its name takes among all
      component names. */
  lemma AttributeGene(cs: seq<Component>, attributes: seq<string>, s: Settings, a: string)
    requires AllParametersHaveValues(cs)
    requires a in attributes
    requires AttributeComponentName(a) !in s.mainNames
    ensures AttributeLayout(cs, attributes, s).Some?
    ensures var L := AttributeLayout(cs, attributes, s).value;
      exists k :: 0 <= k < |L.entries| && k < |L.components| && L.components[k] == AttributeComponent(a)
        && 0 <= L.entries[k].activationIndex < |L.templates| && L.templates[L.entries[k].activationIndex] == Bit(false)
        && L.entries[k].ParameterIndices() == {}
        && (forall i :: 0 <= i < |L.owner| && L.owner[i] == k ==> i == L.entries[k].activationIndex)
        && (forall j :: 0 <= j < k ==> LessEq(L.entries[j].name, AttributeComponentName(a)))
        && (forall j :: k < j < |L.entries| ==> LessEq(AttributeComponentName(a), L.entries[j].name))
  {
    var L := AttributeLayout(cs, attributes, s).value;
    var c := AttributeComponent(a);
    assert c in multiset(WithAttributes(cs, attributes));
    assert c in multiset(L.components);
    var k :| 0 <= k < |L.components| && L.components[k] == c;
    SoleActivationGene(L, s, k);
    assert L.components[k].name == AttributeComponentName(a);
  }

  /** An attribute component that is not a main component gets exactly one
      gene, its activation bit, initially off, and is listed as a provider of
      the attribute interface. */
  lemma AttributeComponentGene(L: Layout, attribute: string, s: Settings)
    requires AttributeComponentName(attribute) !in s.mainNames
    requires |L.templates| == |L.owner|
    requires forall k, i :: 0 <= k < |L.entries| && i in L.entries[k].indexToParameter ==> i < |L.templates|
    ensures var L1, k, n := SetupComponent(L, AttributeComponent(attribute), s), |L.entries|, |L.templates|;
      && |L1.templates| == n + 1 && L1.templates[n] == Bit(false)
      && k < |L1.entries| && L1.entries[k].activationIndex == n && L1.entries[k].ParameterIndices() == {}
      && AttributeInterface in L1.providers && k in L1.providers[AttributeInterface]
  {
    var c := AttributeComponent(attribute);
    var L1, k, n := SetupComponent(L, c, s), |L.entries|, |L.templates|;
    assert NeedsActivationBit(c, s);
    SetupComponentPrefix(L, c, s);
    SetupComponentActivation(L, c, s);
    SetupComponentParameters(L, c, s);
    AddToListsContains(L.providers, c.provided, k);
    assert AttributeInterface in c.provided;
    assert L1.providers == AddToLists(L.providers, c.provided, k);
    assert forall i :: i in L1.entries[k].indexToParameter <==> n + 1 <= i < |L1.templates|;
    assert |L1.templates| == n + 1 by {
      AddParametersAppends(NewEntry(n, c.name), k, c.parameters, L.templates + [Bit(false)], L.owner + [k]);
    }
  }

  // The empty genome.

  /** One parameter reset of `getEmptySolution`, with the gene the lookup found. */
  datatype ParameterReset = ParameterReset(index: int, domain: Domain)

  /** The resets of one main component: its activation bit, unless it goes
      without one, and each of its parameters. */
  datatype MainReset = MainReset(bit: Option<int>, parameters: seq<ParameterReset>)

  /** The write of one parameter reset: a categorical parameter is treated as
      a bit gene and has its bit 0 cleared, a numeric one gets its default
      cast to `int` (truncated toward zero, clamped to the 32-bit range). */
  function ParameterWrite(p: ParameterReset): (w: Write)
    ensures w.index == p.index
    ensures w.value.BitValue? <==> p.domain.Categorical?
    ensures w.value.BitValue? ==> !w.value.b
    ensures !w.value.BitValue? ==> w.value.IntValue? && IsInt32(w.value.n)
    ensures !w.value.BitValue? && 0.0 <= p.domain.default ==> w.value.n <= p.domain.default.Floor
    ensures !w.value.BitValue? && p.domain.default == p.domain.default.Floor as real && IsInt32(p.domain.default.Floor) ==>
      w.value.n == p.domain.default.Floor
  {
    if p.domain.Categorical? then Write(p.index, BitValue(false))
    else Write(p.index, IntValue(IntCast(p.domain.default)))
  }

  function ResetWrites(m: MainReset): seq<Write> {
    (if m.bit.Some? then [Write(m.bit.value, BitValue(false))] else [])
    + seq(|m.parameters|, j requires 0 <= j < |m.parameters| => ParameterWrite(m.parameters[j]))
  }

  /** The resets of the main components in turn. */
  function ResetsWrites(ms: seq<MainReset>): seq<Write>
    decreases |ms|
  {
    if |ms| == 0 then [] else ResetsWrites(ms[..|ms| - 1]) + ResetWrites(ms[|ms| - 1])
  }

  /** Every write of a main component's resets is among all resets' writes. */
  lemma {:induction false} ResetsWritesContain(ms: seq<MainReset>, x: nat, w: Write)
    requires x < |ms| && w in ResetWrites(ms[x])
    ensures w in ResetsWrites(ms)
    decreases |ms|
  {
    if x < |ms| - 1 {
      ResetsWritesContain(ms[..|ms| - 1], x, w);
    }
  }

  /** Every write of all resets' writes comes from some main component's resets. */
  lemma {:induction false} ResetsWritesFrom(ms: seq<MainReset>, j: nat)
    requires j < |ResetsWrites(ms)|
    ensures exists x :: 0 <= x < |ms| && ResetsWrites(ms)[j] in ResetWrites(ms[x])
    decreases |ms|
  {
    var init := ms[..|ms| - 1];
    var a, b := ResetsWrites(init), ResetWrites(ms[|ms| - 1]);
    if j < |a| {
      assert ResetsWrites(ms)[j] == a[j];
      ResetsWritesFrom(init, j);
      var x :| 0 <= x < |init| && a[j] in ResetWrites(init[x]);
      assert init[x] == ms[x];
    } else {
      assert ResetsWrites(ms)[j] == b[j - |a|];
    }
  }

  /** All resets can be applied exactly when each main component's resets can. */
  lemma ResetsValid(sol: Solution, ms: seq<MainReset>)
    ensures AllValid(sol, ResetsWrites(ms)) <==> forall x :: 0 <= x < |ms| ==> AllValid(sol, ResetWrites(ms[x]))
  {
    var ws := ResetsWrites(ms);
    if AllValid(sol, ws) {
      forall x, j | 0 <= x < |ms| && 0 <= j < |ResetWrites(ms[x])|
        ensures Valid(sol, ResetWrites(ms[x])[j])
      {
        ResetsWritesContain(ms, x, ResetWrites(ms[x])[j]);
      }
    }
    if forall x :: 0 <= x < |ms| ==> AllValid(sol, ResetWrites(ms[x])) {
      forall j | 0 <= j < |ws|
        ensures Valid(sol, ws[j])
      {
        ResetsWritesFrom(ms, j);
      }
    }
  }

  /** The resets only ever clear bits. */
  lemma {:induction false} ResetsClearBits(ms: seq<MainReset>)
    ensures forall j :: 0 <= j < |ResetsWrites(ms)| && ResetsWrites(ms)[j].value.BitValue? ==> !ResetsWrites(ms)[j].value.b
    decreases |ms|
  {
    if |ms| > 0 {
      ResetsClearBits(ms[..|ms| - 1]);
      var ws, a, b := ResetsWrites(ms), ResetsWrites(ms[..|ms| - 1]), ResetWrites(ms[|ms| - 1]);
      forall j | 0 <= j < |ws| && ws[j].value.BitValue?
        ensures !ws[j].value.b
      {
        if j >= |a| {
          assert ws[j] == b[j - |a|];
        } else {
          assert ws[j] == a[j];
        }
      }
    }
  }

  /** Main entries point at components. */
  predicate MainsInRange(L: Layout) {
    forall x :: 0 <= x < |L.mainEntries| ==> L.mainEntries[x] < |L.components|
  }

  /** The lookups `getEmptySolution` makes for main component `k`. */
  function ResetOf(L: Layout, s: Settings, k: nat): (m: MainReset)
    requires Lookups(L) && k < |L.components|
    ensures m.bit.Some? <==> L.components[k].name !in s.withoutBit
    ensures m.bit.Some? ==> m.bit.value == IndexOfComponent(L, L.components[k].name)
    ensures |m.parameters| == |L.components[k].parameters|
    ensures forall j :: 0 <= j < |m.parameters| ==>
              m.parameters[j] == ParameterReset(IndexOfParameter(L, L.components[k].name, L.components[k].parameters[j].name),
                                                L.components[k].parameters[j].domain)
  {
    var c := L.components[k];
    MainReset(if c.name in s.withoutBit then None else Some(IndexOfComponent(L, c.name)),
              seq(|c.parameters|, j requires 0 <= j < |c.parameters| =>
                    ParameterReset(IndexOfParameter(L, c.name, c.parameters[j].name), c.parameters[j].domain)))
  }

  /** The main components' resets, in the order of the main components. */
  function Resets(L: Layout, s: Settings): (ms: seq<MainReset>)
    requires Lookups(L) && MainsInRange(L)
    ensures |ms| == |L.mainEntries| && forall x :: 0 <= x < |ms| ==> ms[x] == ResetOf(L, s, L.mainEntries[x])
  {
    seq(|L.mainEntries|, x requires 0 <= x < |L.mainEntries| => ResetOf(L, s, L.mainEntries[x]))
  }

  /** `getEmptySolution` of the attribute-selection handler: it succeeds
      exactly when the genome takes the resets of every main component. */
  function AttributeEmptySolution(L: Layout, s: Settings): (r: Option<Solution>)
    requires Lookups(L) && MainsInRange(L)
    ensures r.Some? <==> forall x :: 0 <= x < |L.mainEntries| ==>
      AllValid(NewSolution(L), ResetWrites(ResetOf(L, s, L.mainEntries[x])))
    ensures r.Some? ==> |r.value.variables| == |L.templates|
  {
    ResetsValid(NewSolution(L), Resets(L, s));
    Apply(NewSolution(L), ResetsWrites(Resets(L, s)))
  }

  /** A write the genome cannot take makes all resets fail. */
  lemma InvalidResetFails(sol: Solution, ms: seq<MainReset>, x: nat, w: Write)
    requires x < |ms| && w in ResetWrites(ms[x]) && !Valid(sol, w)
    ensures Apply(sol, ResetsWrites(ms)) == None
  {
    ResetsWritesContain(ms, x, w);
  }

  /** A categorical reset whose gene is missing or a real gene makes all
      resets fail. */
  lemma CategoricalResetFails(sol: Solution, ms: seq<MainReset>, x: nat, j: nat)
    requires x < |ms| && j < |ms[x].parameters| && ms[x].parameters[j].domain.Categorical?
    requires var i := ms[x].parameters[j].index; !(0 <= i < |sol.variables| && !sol.variables[i].RealGene?)
    ensures Apply(sol, ResetsWrites(ms)) == None
  {
    var w := ParameterWrite(ms[x].parameters[j]);
    assert w == ResetWrites(ms[x])[(if ms[x].bit.Some? then 1 else 0) + j];
    InvalidResetFails(sol, ms, x, w);
  }

  /** The empty genome of this handler cannot be built once a parameter of a
      main component has no gene (a single-valued categorical parameter):
      the lookup gives -1 and the reset reaches outside the genome. */
  lemma MissingParameterFails(L: Layout, s: Settings, x: nat, j: nat)
    requires Lookups(L) && MainsInRange(L)
    requires x < |L.mainEntries| && j < |L.components[L.mainEntries[x]].parameters|
    requires var c := L.components[L.mainEntries[x]]; IndexOfParameter(L, c.name, c.parameters[j].name) == -1
    ensures AttributeEmptySolution(L, s) == None
  {
    var m := ResetOf(L, s, L.mainEntries[x]);
    var w := ParameterWrite(m.parameters[j]);
    assert w == ResetWrites(m)[(if m.bit.Some? then 1 else 0) + j];
    InvalidResetFails(NewSolution(L), Resets(L, s), x, w);
  }

  /** The reset leaves each main component's activation gene off when it is a
      bit gene; it is never a real gene. */
  lemma ResetBitsOff(sol: Solution, ms: seq<MainReset>, x: nat)
    requires Apply(sol, ResetsWrites(ms)).Some? && x < |ms| && ms[x].bit.Some?
    ensures 0 <= ms[x].bit.value < |sol.variables| && !sol.variables[ms[x].bit.value].RealGene?
    ensures sol.variables[ms[x].bit.value].Bit? ==> Apply(sol, ResetsWrites(ms)).value.variables[ms[x].bit.value] == Bit(false)
  {
    var ws := ResetsWrites(ms);
    var b := ms[x].bit.value;
    var w := Write(b, BitValue(false));
    assert w == ResetWrites(ms[x])[0];
    ResetsWritesContain(ms, x, w);
    var j :| 0 <= j < |ws| && ws[j] == w;
    assert Valid(sol, ws[j]);
    if sol.variables[b].Bit? {
      ResetsClearBits(ms);
      var last := LastWrite(ws, b);
      assert Valid(sol, ws[last]);
      WriteGeneLast(sol.variables[b], ws, b);
    }
  }

  /** Once built, the empty genome has every main component that has an
      activation bit switched off, wherever that gene is a bit gene. */
  lemma AttributeEmptyBitsOff(L: Layout, s: Settings, x: nat)
    requires Lookups(L) && MainsInRange(L) && AttributeEmptySolution(L, s).Some?
    requires x < |L.mainEntries| && L.components[L.mainEntries[x]].name !in s.withoutBit
    ensures var i := IndexOfComponent(L, L.components[L.mainEntries[x]].name);
      && 0 <= i < |AttributeEmptySolution(L, s).value.variables|
      && (L.templates[i].Bit? ==> AttributeEmptySolution(L, s).value.variables[i] == Bit(false))
  {
    ResetBitsOff(NewSolution(L), Resets(L, s), x);
  }

  // The seed.

  /** The tsfresh features the seed switches on. */
  const DefaultFeatures: seq<string> := ["MAXIMUM", "MINIMUM"]

  /** What follows the last '.' of a name, or the whole name. */
  function AfterLastDot(name: string): (r: string)
    ensures '.' !in r
    ensures EndsWith(name, r)
    ensures '.' !in name ==> r == name
  {
    name[LastIndexOf(name, '.') + 1..]
  }

  /** The components `activateTsfresh` switches on: tsfresh features whose
      last name part is one of the default features. */
  predicate Switched(c: Component) {
    Contains(c.name, FeatureComponent) && AfterLastDot(c.name) in DefaultFeatures
  }

  /** The names of the components marked in `keep`, in order. */
  function NamesWhere(cs: seq<Component>, keep: seq<bool>): seq<string>
    requires |keep| == |cs|
    decreases |cs|
  {
    if |cs| == 0 then []
    else
      var init := NamesWhere(cs[..|cs| - 1], keep[..|cs| - 1]);
      if keep[|cs| - 1] then init + [cs[|cs| - 1].name] else init
  }

  lemma {:induction false} NamesWhereMembers(cs: seq<Component>, keep: seq<bool>, n: string)
    requires |keep| == |cs|
    ensures n in NamesWhere(cs, keep) <==> exists k :: 0 <= k < |cs| && keep[k] && cs[k].name == n
    decreases |cs|
  {
    if |cs| > 0 {
      var init, kinit := cs[..|cs| - 1], keep[..|cs| - 1];
      NamesWhereMembers(init, kinit, n);
      if n in NamesWhere(init, kinit) {
        var k :| 0 <= k < |init| && kinit[k] && init[k].name == n;
        assert cs[k] == init[k] && keep[k] == kinit[k];
      }
      if exists k :: 0 <= k < |cs| && keep[k] && cs[k].name == n {
        var k :| 0 <= k < |cs| && keep[k] && cs[k].name == n;
        if k < |init| {
          assert init[k] == cs[k] && kinit[k] == keep[k];
        }
      }
    }
  }

  function SwitchedNames(cs: seq<Component>): seq<string> {
    NamesWhere(cs, seq(|cs|, k requires 0 <= k < |cs| => Switched(cs[k])))
  }

  /** The switched names are exactly the names of switched components. */
  lemma SwitchedNamesMembers(cs: seq<Component>, n: string)
    ensures n in SwitchedNames(cs) <==> exists k :: 0 <= k < |cs| && Switched(cs[k]) && cs[k].name == n
  {
    NamesWhereMembers(cs, seq(|cs|, k requires 0 <= k < |cs| => Switched(cs[k])), n);
  }

  /** `activateTsfresh`: each switched component's activation bit on. The
      source visits them sorted by name; all writes switch bits on, so the
      order does not change the outcome. */
  function SwitchWrites(L: Layout): (ws: seq<Write>)
    requires Lookups(L)
    ensures |ws| == |SwitchedNames(L.components)|
    ensures forall j :: 0 <= j < |ws| ==> ws[j] == Write(IndexOfComponent(L, SwitchedNames(L.components)[j]), BitValue(true))
  {
    var names := SwitchedNames(L.components);
    seq(|names|, j requires 0 <= j < |names| => Write(IndexOfComponent(L, names[j]), BitValue(true)))
  }

  /** `getInitialSolutions`: a single seed, the empty genome with the default
      features switched on, whatever the population size. */
  function AttributeSeeds(L: Layout, s: Settings): (r: Option<seq<Solution>>)
    requires Lookups(L) && MainsInRange(L)
    ensures r.Some? <==> AttributeEmptySolution(L, s).Some? && Apply(AttributeEmptySolution(L, s).value, SwitchWrites(L)).Some?
    ensures r.Some? ==> r.value == [Apply(AttributeEmptySolution(L, s).value, SwitchWrites(L)).value]
  {
    var empty :- AttributeEmptySolution(L, s);
    var seed :- Apply(empty, SwitchWrites(L));
    Some([seed])
  }

  /** The switch writes only switch bits on. */
  lemma SwitchWritesOnlyOn(L: Layout)
    requires Lookups(L)
    ensures OnlySwitchOn(SwitchWrites(L))
  {
  }

  /** Every switched component's activation gene is written. */
  lemma SwitchWritesReach(L: Layout, k: nat)
    requires Lookups(L) && k < |L.components| && Switched(L.components[k])
    ensures Write(IndexOfComponent(L, L.components[k].name), BitValue(true)) in SwitchWrites(L)
  {
    var names, n := SwitchedNames(L.components), L.components[k].name;
    SwitchedNamesMembers(L.components, n);
    var j :| 0 <= j < |names| && names[j] == n;
    assert SwitchWrites(L)[j] == Write(IndexOfComponent(L, n), BitValue(true));
  }

  /** In the seed, every switched feature's gene is on when it is a bit gene,
      and it is never a real gene. */
  lemma AttributeSeedSwitches(L: Layout, s: Settings, k: nat)
    requires Lookups(L) && MainsInRange(L) && AttributeSeeds(L, s).Some?
    requires k < |L.components| && Switched(L.components[k])
    ensures var i := IndexOfComponent(L, L.components[k].name);
      && 0 <= i < |AttributeSeeds(L, s).value[0].variables|
      && !AttributeEmptySolution(L, s).value.variables[i].RealGene?
      && (AttributeEmptySolution(L, s).value.variables[i].Bit? ==> AttributeSeeds(L, s).value[0].variables[i] == Bit(true))
  {
    SwitchWritesOnlyOn(L);
    SwitchWritesReach(L, k);
    SwitchedOn(AttributeEmptySolution(L, s).value, SwitchWrites(L), IndexOfComponent(L, L.components[k].name));
  }
}

=== FILE: components.dfy ===
/** The component model the genome encodes: parameter domains, components with
    provided and required interfaces, component instances, and the three kinds of
    genome variables (bit, bounded integer, bounded real). */
module Components {
  import opened Wrappers
  import opened Strings

  /** A finite Java double together with its `Double.toString` rendering (the
      rendering itself is an input of the model). */
  datatype Double = Double(value: real, text: string)

  /** The value of a real gene: a fresh real gene holds NaN. */
  datatype RealValue = NaN | Finite(number: Double) {
    function Text(): string {
      match this
      case NaN => "NaN"
      case Finite(d) => d.text
    }
  }

  /** A parameter domain: a list of admissible strings, or a numeric interval with
      a default value. */
  datatype Domain =
    | Categorical(values: seq<string>)
    | Numeric(isInteger: bool, min: Double, max: Double, default: real)

  datatype Parameter = Parameter(name: string, domain: Domain)

  /** A required interface: the slot `id` wants between `min` and `max`
      instances of components providing interface `name`. */
  datatype RequiredInterface = RequiredInterface(id: string, name: string, min: int, max: int)

  datatype Component = Component(
    name: string,
    provided: seq<string>,
    required: seq<RequiredInterface>,
    parameters: seq<Parameter>)

  /** A configured component: parameter values by name and, per required
      interface id, the instances chosen for it. */
  datatype Instance = Instance(
    component: Component,
    parameterValues: map<string, string>,
    satisfaction: map<string, seq<Instance>>)

  /** A genome variable as the evolutionary framework holds it. */
  datatype Gene =
    | Bit(bit: bool)
    | IntGene(lower: int, upper: int, value: int)
    | RealGene(lowerBound: real, upperBound: real, realValue: RealValue)

  /** A candidate: its genes and its two objective values. */
  datatype Solution = Solution(variables: seq<Gene>, objectives: seq<real>)

  /** Two genes are of the same kind with the same bounds. */
  predicate SameShape(g: Gene, template: Gene) {
    match template
    case Bit(_) => g.Bit?
    case IntGene(lo, hi, _) => g.IntGene? && g.lower == lo && g.upper == hi
    case RealGene(lo, hi, _) => g.RealGene? && g.lowerBound == lo && g.upperBound == hi
  }

  /** A gene holds a value its bounds admit (real genes may hold NaN). */
  predicate InBounds(g: Gene) {
    match g
    case Bit(_) => true
    case IntGene(lo, hi, v) => lo <= v <= hi
    case RealGene(lo, hi, v) => v.Finite? ==> lo <= v.number.value <= hi
  }

  /** Position of the first component with the given name, or -1. */
  function IndexOfName(components: seq<Component>, name: string): (r: int)
    ensures -1 <= r < |components|
    ensures r >= 0 ==> components[r].name == name && forall j :: 0 <= j < r ==> components[j].name != name
    ensures r == -1 ==> forall j :: 0 <= j < |components| ==> components[j].name != name
    decreases |components|
  {
    if |components| == 0 then -1
    else if components[|components| - 1].name == name && IndexOfName(components[..|components| - 1], name) == -1 then
      |components| - 1
    else
      IndexOfName(components[..|components| - 1], name)
  }

  /** `ComponentUtil.getComponentByName`: the first component with that name. */
  function ComponentByName(components: seq<Component>, name: string): Option<Component> {
    var i := IndexOfName(components, name);
    if i < 0 then None else Some(components[i])
  }

  /** The Java `(int)` cast of a double: truncation toward zero, saturating at the
      32-bit bounds. */
  function IntCast(x: real): (r: int)
    ensures IsInt32(r)
    ensures IsInt32(x.Floor) && x == x.Floor as real ==> r == x.Floor
    ensures 0.0 <= x ==> r <= x.Floor
  {
    var t := if x >= 0.0 then x.Floor else -((-x).Floor);
    if t < IntMin then IntMin else if t > IntMax then IntMax else t
  }

  /** The cast preserves order, so an interval's cast bounds stay ordered. */
  lemma IntCastMonotone(x: real, y: real)
    requires x <= y
    ensures IntCast(x) <= IntCast(y)
  {
    if x < 0.0 && y >= 0.0 {
    } else if x < 0.0 {
      assert (-y).Floor <= (-x).Floor;
    }
  }
}

=== FILE: config.dfy ===
/** The experiment configuration: the converters that read timeouts and the
    feature rater from the configuration file and its defaults, the names,
    paths and timeouts `ExperimentConfiguration` derives from them, and the
    relation names the splits of a dataset are given. Clocks are inputs. */
module Configuration {
  import opened Wrappers
  import opened Strings
  import opened Raters

  // ------------------------------------------------------------ Java `long`

  const LongMin: int := -0x8000_0000_0000_0000
  const LongMax: int := 0x7fff_ffff_ffff_ffff
  const LongRange: int := 0x1_0000_0000_0000_0000

  predicate IsLong(x: int) {
    LongMin <= x <= LongMax
  }

  /** Two's-complement wrap-around of `long` arithmetic: the one `long`
      congruent to `x`. */
  function WrapLong(x: int): (r: int)
    ensures IsLong(r)
    ensures (r - x) % LongRange == 0
    ensures IsLong(x) ==> r == x
  {
    (x - LongMin) % LongRange + LongMin
  }

  /** Clamping to the `long` range, as `TimeUnit` does on overflow. */
  function SaturateLong(x: int): (r: int)
    ensures IsLong(r)
    ensures IsLong(x) ==> r == x
    ensures x > LongMax ==> r == LongMax
    ensures x < LongMin ==> r == LongMin
  {
    if x > LongMax then LongMax else if x < LongMin then LongMin else x
  }

  /** Java's `/` on integers: the quotient rounded toward zero. */
  function JavaDiv(a: int, b: int): int
    requires b != 0
  {
    if a >= 0 then (if b > 0 then a / b else -(a / -b))
    else (if b > 0 then -((-a) / b) else (-a) / (-b))
  }

  lemma DivBase(a: nat, b: int)
    requires b > 0
    ensures 0 <= a / b <= a && 0 <= a - (a / b) * b < b
  {
    var q := a / b;
    QuotientBounds(a, b, q, a % b);
  }

  /** The quotient of a natural number by a positive one lies between zero
      and the number. */
  lemma QuotientBounds(a: nat, b: int, q: int, r: int)
    requires b > 0 && 0 <= r < b && a == q * b + r
    ensures 0 <= q <= a
  {
    if q < 0 {
      MultipleBounds(q, b);
    } else {
      NonNegativeProduct(q, b - 1);
    }
  }

  lemma NonNegativeProduct(x: int, y: int)
    requires x >= 0 && y >= 0
    ensures x * y >= 0
  {
  }

  /** The quotient rounded toward zero leaves a remainder with the sign of the
      dividend, smaller than the divisor. */
  lemma JavaDivSpec(a: int, b: int)
    requires b != 0
    ensures var q := JavaDiv(a, b);
      && (b > 0 && a >= 0 ==> 0 <= q <= a && 0 <= a - q * b < b)
      && (b > 0 && a < 0 ==> a <= q <= 0 && -b < a - q * b <= 0)
      && (b < 0 && a >= 0 ==> 0 <= a - q * b < -b)
      && (b < 0 && a < 0 ==> b < a - q * b <= 0)
  {
    if a >= 0 && b > 0 {
      DivBase(a, b);
    } else if b > 0 {
      JavaDivNegativeDividend(a, b);
    } else if a >= 0 {
      JavaDivNegativeDivisor(a, b);
    } else {
      JavaDivBothNegative(a, b);
    }
  }

  lemma JavaDivNegativeDividend(a: int, b: int)
    requires a < 0 && b > 0
    ensures var q := JavaDiv(a, b); a <= q <= 0 && -b < a - q * b <= 0
  {
    var p := (-a) / b;
    DivBase(-a, b);
    assert JavaDiv(a, b) == -p;
    assert a - (-p) * b == -(-a - p * b);
  }

  lemma JavaDivNegativeDivisor(a: int, b: int)
    requires a >= 0 && b < 0
    ensures var q := JavaDiv(a, b); 0 <= a - q * b < -b
  {
    var p := a / -b;
    DivBase(a, -b);
    assert JavaDiv(a, b) == -p;
    assert a - (-p) * b == a - p * -b;
  }

  lemma JavaDivBothNegative(a: int, b: int)
    requires a < 0 && b < 0
    ensures var q := JavaDiv(a, b); b < a - q * b <= 0
  {
    var p := (-a) / (-b);
    DivBase(-a, -b);
    assert JavaDiv(a, b) == p;
    assert a - p * b == -(-a - p * -b);
  }

  /** Dividing an exact multiple gives the factor back. */
  lemma JavaDivExact(d: int, m: int)
    requires m > 0
    ensures JavaDiv(d * m, m) == d
  {
    var q := JavaDiv(d * m, m);
    JavaDivSpec(d * m, m);
    assert d * m - q * m == (d - q) * m;
    MultipleBounds(d - q, m);
  }

  /** A non-zero multiple of a positive number is at least that number away
      from zero. */
  lemma MultipleBounds(k: int, m: int)
    requires m > 0
    ensures k >= 1 ==> k * m >= m
    ensures k <= -1 ==> k * m <= -m
  {
    if k >= 1 {
      assert k * m == m + (k - 1) * m;
    } else if k <= -1 {
      assert k * m == -m - (-k - 1) * m;
    }
  }

  // ---------------------------------------------------------------- TimeUnit

  datatype TimeUnit = Nanoseconds | Microseconds | Milliseconds | Seconds | Minutes | Hours | Days

  /** The name of the constant. */
  function UnitName(u: TimeUnit): string {
    match u
    case Nanoseconds => "NANOSECONDS"
    case Microseconds => "MICROSECONDS"
    case Milliseconds => "MILLISECONDS"
    case Seconds => "SECONDS"
    case Minutes => "MINUTES"
    case Hours => "HOURS"
    case Days => "DAYS"
  }

  /** `TimeUnit.valueOf`: the constant of exactly that name, if there is one. */
  function ParseUnit(name: string): (r: Option<TimeUnit>)
    ensures r.Some? ==> UnitName(r.value) == name
    ensures r.None? ==> forall u: TimeUnit :: UnitName(u) != name
  {
    if name == "NANOSECONDS" then Some(Nanoseconds)
    else if name == "MICROSECONDS" then Some(Microseconds)
    else if name == "MILLISECONDS" then Some(Milliseconds)
    else if name == "SECONDS" then Some(Seconds)
    else if name == "MINUTES" then Some(Minutes)
    else if name == "HOURS" then Some(Hours)
    else if name == "DAYS" then Some(Days)
    else None
  }

  lemma ParseUnitName(u: TimeUnit)
    ensures ParseUnit(UnitName(u)) == Some(u)
    ensures ':' !in UnitName(u)
  {
  }

  /** Nanoseconds per unit. */
  function Nanos(u: TimeUnit): nat {
    match u
    case Nanoseconds => 1
    case Microseconds => 1000
    case Milliseconds => 1_000_000
    case Seconds => 1_000_000_000
    case Minutes => 60_000_000_000
    case Hours => 3_600_000_000_000
    case Days => 86_400_000_000_000
  }

  /** A coarser unit is a whole number of any finer one. */
  lemma NanosDivide(coarse: TimeUnit, fine: TimeUnit)
    requires Nanos(fine) <= Nanos(coarse)
    ensures Nanos(coarse) / Nanos(fine) >= 1
    ensures Nanos(coarse) % Nanos(fine) == 0
  {
  }

  /** `to.convert(d, from)` (`toSeconds`, `toMillis`): towards a finer unit the
      amount is multiplied, saturating at the `long` bounds; towards a coarser
      one it is divided, rounding toward zero. */
  function Convert(d: int, from: TimeUnit, to: TimeUnit): (r: int)
    ensures IsLong(d) ==> IsLong(r)
  {
    if Nanos(from) >= Nanos(to) then SaturateLong(d * (Nanos(from) / Nanos(to)))
    else
      JavaDivSpec(d, Nanos(to) / Nanos(from));
      JavaDiv(d, Nanos(to) / Nanos(from))
  }

  /** Converting to a finer unit and back gives the amount, unless the first
      conversion saturated. */
  lemma ConvertRoundTrip(d: int, coarse: TimeUnit, fine: TimeUnit)
    requires Nanos(fine) <= Nanos(coarse)
    requires IsLong(d * (Nanos(coarse) / Nanos(fine)))
    ensures Convert(Convert(d, coarse, fine), fine, coarse) == d
  {
    NanosDivide(coarse, fine);
    var m := Nanos(coarse) / Nanos(fine);
    if Nanos(fine) < Nanos(coarse) {
      JavaDivExact(d, m);
    }
  }

  /** Towards a coarser unit, the amount is the number of whole coarse units
      in it, counted toward zero. */
  lemma ConvertDown(d: int, fine: TimeUnit, coarse: TimeUnit)
    requires Nanos(fine) < Nanos(coarse) && d >= 0
    ensures var r, m := Convert(d, fine, coarse), Nanos(coarse) / Nanos(fine);
      0 <= r && r * m <= d < (r + 1) * m
  {
    JavaDivSpec(d, Nanos(coarse) / Nanos(fine));
  }

  // ----------------------------------------------------------------- Timeout

  /** `Timeout`: an amount of a time unit. */
  datatype Timeout = Timeout(amount: int, unit: TimeUnit) {
    /** `seconds()`. */
    function InSeconds(): int {
      Convert(amount, unit, Seconds)
    }

    /** `milliseconds()`. */
    function InMillis(): int {
      Convert(amount, unit, Milliseconds)
    }
  }

  /** The text a timeout is configured with, `<amount>:<UNIT>`. */
  function FormatTimeout(t: Timeout): string {
    IntToString(t.amount) + ":" + UnitName(t.unit)
  }

  /** `TimeoutConverter.convert`: the text is split at every ':' (empty pieces
      kept); the first piece is parsed as an `int` and the second as a unit
      name. A missing second piece, a malformed number or an unknown unit is an
      exception. */
  function ParseTimeout(text: string): (r: Option<Timeout>)
    ensures r.Some? ==> IsInt32(r.value.amount)
  {
    var parts := SplitAll(text, Literal(":"));
    if |parts| < 2 then None
    else
      var amount :- ParseInt(parts[0]);
      var unit :- ParseUnit(parts[1]);
      Some(Timeout(amount, unit))
  }

  /** Every timeout with an `int` amount is read back from its text. */
  lemma ParseTimeoutRoundTrip(t: Timeout)
    requires IsInt32(t.amount)
    ensures ParseTimeout(FormatTimeout(t)) == Some(t)
  {
    var a, b := IntToString(t.amount), UnitName(t.unit);
    IntToStringChars(t.amount);
    ParseUnitName(t.unit);
    assert ':' !in a;
    assert FormatTimeout(t) == a + [':'] + b;
    SplitAllFirst(a, ':', b);
    SplitAllNone(b, ':');
    ParseIntToString(t.amount);
  }

  /** Text after a second ':' plays no part. */
  lemma ParseTimeoutIgnoresRest(a: string, b: string, rest: string)
    requires ':' !in a && ':' !in b
    ensures ParseTimeout(a + ":" + b + ":" + rest) == ParseTimeout(a + ":" + b)
  {
    SplitLongTimeout(a, b, rest);
    SplitShortTimeout(a, b);
    ParseTimeoutFirstTwo(a + ":" + b + ":" + rest, a + ":" + b);
  }

  /** Only the first two pieces decide a timeout. */
  lemma ParseTimeoutFirstTwo(s: string, t: string)
    requires |SplitAll(s, Literal(":"))| >= 2 && |SplitAll(t, Literal(":"))| >= 2
    requires SplitAll(s, Literal(":"))[0] == SplitAll(t, Literal(":"))[0]
    requires SplitAll(s, Literal(":"))[1] == SplitAll(t, Literal(":"))[1]
    ensures ParseTimeout(s) == ParseTimeout(t)
  {
  }

  /** The pieces of a text with two ':'. */
  lemma SplitLongTimeout(a: string, b: string, rest: string)
    requires ':' !in a && ':' !in b
    ensures var parts := SplitAll(a + ":" + b + ":" + rest, Literal(":"));
      |parts| >= 2 && parts[0] == a && parts[1] == b
  {
    assert a + ":" + b + ":" + rest == a + [':'] + (b + [':'] + rest);
    SplitAllFirst(a, ':', b + [':'] + rest);
    SplitAllFirst(b, ':', rest);
  }

  /** The pieces of a text with one ':'. */
  lemma SplitShortTimeout(a: string, b: string)
    requires ':' !in a && ':' !in b
    ensures SplitAll(a + ":" + b, Literal(":")) == [a, b]
  {
    assert a + ":" + b == a + [':'] + b;
    SplitAllFirst(a, ':', b);
    SplitAllNone(b, ':');
  }

  /** A text without ':' is not a timeout. */
  lemma ParseTimeoutNeedsColon(text: string)
    requires ':' !in text
    ensures ParseTimeout(text) == None
  {
    SplitAllNone(text, ':');
  }

  // ------------------------------------------------------------------ raters

  /** The constants of `EFeatureRater`: the three raters of this model, and
      `MINIMUM`, whose rater class is not part of this model. */
  datatype RaterConstant = Rater(rater: FeatureRater) | Minimum

  function RaterName(c: RaterConstant): string {
    match c
    case Rater(Average) => "AVERAGE"
    case Rater(NumberOfUsingRegressors) => "NUMBER_OF_USING_REGRESSORS"
    case Minimum => "MINIMUM"
    case Rater(Median) => "MEDIAN"
  }

  /** `EFeatureRaterConverter.convert` (`EFeatureRater.valueOf`): the constant
      of exactly that name; any other text is an exception. */
  function ParseRater(text: string): (r: Option<RaterConstant>)
    ensures r.Some? ==> RaterName(r.value) == text
    ensures r.None? ==> forall c: RaterConstant :: RaterName(c) != text
  {
    if text == "AVERAGE" then Some(Rater(Average))
    else if text == "NUMBER_OF_USING_REGRESSORS" then Some(Rater(NumberOfUsingRegressors))
    else if text == "MINIMUM" then Some(Minimum)
    else if text == "MEDIAN" then Some(Rater(Median))
    else None
  }

  /** Every constant is read back from its name. */
  lemma ParseRaterRoundTrip(c: RaterConstant)
    ensures ParseRater(RaterName(c)) == Some(c)
  {
  }

  // ---------------------------------------------------------------- defaults

  const DefaultSeed: int := 42
  const DefaultNumberOfFolds: int := 5
  const DefaultCandidateTimeout: string := "5:MINUTES"
  const DefaultTotalTimeout: string := "20:MINUTES"
  const DefaultRater: string := "AVERAGE"
  const DefaultDataPath: string := "../../Data/"
  const DefaultDatasetName: string := "CMAPSS/FD001_train.arff"

  /** The default timeouts are five and twenty minutes. */
  lemma DefaultTimeoutsRead()
    ensures ParseTimeout(DefaultCandidateTimeout) == Some(Timeout(5, Minutes))
    ensures ParseTimeout(DefaultTotalTimeout) == Some(Timeout(20, Minutes))
  {
    assert IntToString(5) == "5";
    assert IntToString(20) == "20";
    assert FormatTimeout(Timeout(5, Minutes)) == DefaultCandidateTimeout;
    assert FormatTimeout(Timeout(20, Minutes)) == DefaultTotalTimeout;
    ParseTimeoutRoundTrip(Timeout(5, Minutes));
    ParseTimeoutRoundTrip(Timeout(20, Minutes));
  }

  /** The default rater is the average. */
  lemma DefaultRaterRead()
    ensures ParseRater(DefaultRater) == Some(Rater(Average))
  {
  }

  /** With the default five folds, each fold of a five-minute candidate gets
      59 seconds. */
  lemma DefaultPerFoldTimeout()
    ensures Timeout(5, Minutes).InSeconds() == 300
    ensures PerFoldTimeout(Timeout(5, Minutes), DefaultNumberOfFolds) == Some(Timeout(59, Seconds))
  {
    assert 300 / 5 == 60;
  }

  // ------------------------------------------------------- derived settings

  /** `setup`: the dataset name with every '/' turned into '_', then every
      "_train" and every ".arff" removed. */
  function NormalisedDatasetName(name: string): (r: string)
    ensures '/' !in r
  {
    var slashFree := Replace(name, "/", "_");
    var trainFree := Replace(slashFree, "_train", "");
    ReplaceRemovesChar(name, '/', "_");
    ReplaceKeepsOut(slashFree, "_train", "", '/');
    ReplaceKeepsOut(trainFree, ".arff", "", '/');
    Replace(trainFree, ".arff", "")
  }

  /** The training data is read from the data path followed by the dataset
      name. */
  function TrainingDataPath(dataPath: string, datasetName: string): string {
    dataPath + datasetName
  }

  /** The evaluation data: every "train" in the dataset name becomes "test". */
  function EvaluationDataPath(dataPath: string, datasetName: string): string {
    dataPath + Replace(datasetName, "train", "test")
  }

  /** A dataset whose name does not mention "train" is evaluated on itself. */
  lemma EvaluationPathWithoutTrain(dataPath: string, datasetName: string)
    requires !Contains(datasetName, "train")
    ensures EvaluationDataPath(dataPath, datasetName) == TrainingDataPath(dataPath, datasetName)
  {
    ContainsIff(datasetName, "train");
    ReplaceAbsent(datasetName, "train", "test");
  }

  /** A training file `<stem>train<ext>` is evaluated on `<stem>test<ext>`. */
  lemma EvaluationPathOfTrainingFile(dataPath: string, stem: string, ext: string)
    requires !Contains(stem, "train") && !Contains(ext, "train")
    ensures EvaluationDataPath(dataPath, stem + "train" + ext) == dataPath + stem + "test" + ext
  {
    ContainsIff(stem, "train");
    ContainsIff(ext, "train");
    ReplaceAtBoundary(stem, "train", ext, "test");
    ReplaceAbsent(ext, "train", "test");
  }

  /** A training file `<dir>/<stem>_train.arff` is known as `<dir>_<stem>`. */
  lemma NormalisedTrainingFileName(dir: string, stem: string)
    requires '/' !in dir && '/' !in stem
    requires !Contains(dir + "_" + stem, "_train") && !Contains(dir + "_" + stem, ".arff")
    ensures NormalisedDatasetName(dir + "/" + stem + "_train.arff") == dir + "_" + stem
  {
    var u := dir + "_" + stem;
    TrainingFileShape(dir, stem);
    ReplaceSingleChar(dir, '/', stem + "_train.arff", "_");
    RemoveTrainSuffix(u);
    RemoveArffSuffix(u);
  }

  lemma RemoveTrainSuffix(u: string)
    requires !Contains(u, "_train")
    ensures Replace(u + "_train" + ".arff", "_train", "") == u + ".arff"
  {
    ContainsIff(u, "_train");
    ReplaceAtBoundary(u, "_train", ".arff", "");
    ReplaceAbsentShort(".arff", "_train", "");
  }

  lemma RemoveArffSuffix(u: string)
    requires !Contains(u, ".arff")
    ensures Replace(u + ".arff", ".arff", "") == u
  {
    ContainsIff(u, ".arff");
    ReplaceAtBoundary(u, ".arff", "", "");
    assert u + ".arff" + "" == u + ".arff";
  }

  /** How the pieces of a training file name regroup. */
  lemma TrainingFileShape(dir: string, stem: string)
    requires '/' !in stem
    ensures '/' !in stem + "_train.arff"
    ensures dir + "/" + stem + "_train.arff" == dir + "/" + (stem + "_train.arff")
    ensures dir + "_" + (stem + "_train.arff") == dir + "_" + stem + "_train" + ".arff"
  {
  }

  /** A missing list of main components without an activation bit reads as
      the empty list. */
  function WithoutActivationBit(configured: Option<seq<string>>): (r: seq<string>)
    ensures configured.None? ==> r == []
    ensures configured.Some? ==> r == configured.value
  {
    configured.GetOr([])
  }

  /** The timeout of one generation, in seconds: the candidate timeout in
      seconds times the population size, plus the population size, in `long`
      arithmetic. `setup` derives the feature generation timeout from the
      feature candidate timeout and population, and the regression one from
      the regression candidate timeout and the GGP population. */
  function GenerationTimeout(candidate: Timeout, population: int): (t: Timeout)
    ensures t.unit == Seconds && IsLong(t.amount)
  {
    Timeout(WrapLong(WrapLong(candidate.InSeconds() * population) + population), Seconds)
  }

  /** Without overflow, a generation gives each member of the population its
      candidate timeout plus one second. */
  lemma GenerationTimeoutCoversPopulation(candidate: Timeout, population: int)
    requires IsLong(candidate.InSeconds() * population)
    requires IsLong(population * (candidate.InSeconds() + 1))
    ensures GenerationTimeout(candidate, population).amount == population * (candidate.InSeconds() + 1)
  {
    var s := candidate.InSeconds();
    assert s * population + population == population * (s + 1);
  }

  /** The timeout of one complete pipeline, in milliseconds: the feature and
      the regression candidate timeouts added. */
  function RulTimeout(feature: Timeout, regression: Timeout): (t: Timeout)
    ensures t.unit == Milliseconds && IsLong(t.amount)
  {
    Timeout(WrapLong(feature.InMillis() + regression.InMillis()), Milliseconds)
  }

  /** A timeout with an `int` amount is at most a little under 2^31 days. */
  lemma MillisBound(t: Timeout)
    requires IsInt32(t.amount)
    ensures -0x8000_0000 * 86_400_000 <= t.InMillis() <= 0x8000_0000 * 86_400_000
  {
    if Nanos(t.unit) >= Nanos(Milliseconds) {
      MillisBoundCoarse(t.amount, t.unit);
    } else {
      MillisBoundFine(t.amount, t.unit);
    }
  }

  /** From milliseconds or coarser units the amount is multiplied by at most
      the milliseconds of a day, which never saturates. */
  lemma MillisBoundCoarse(d: int, u: TimeUnit)
    requires IsInt32(d) && Nanos(u) >= Nanos(Milliseconds)
    ensures -0x8000_0000 * 86_400_000 <= Convert(d, u, Milliseconds) <= 0x8000_0000 * 86_400_000
  {
    var m := Nanos(u) / Nanos(Milliseconds);
    assert 0 <= m <= 86_400_000;
    MulMonotone(d, 0x8000_0000, m);
    MulMonotone(-0x8000_0000, d, m);
  }

  /** From finer units the amount is divided, which brings it toward zero. */
  lemma MillisBoundFine(d: int, u: TimeUnit)
    requires IsInt32(d) && Nanos(u) < Nanos(Milliseconds)
    ensures -0x8000_0000 <= Convert(d, u, Milliseconds) <= 0x8000_0000
  {
    JavaDivSpec(d, Nanos(Milliseconds) / Nanos(u));
  }

  lemma MulMonotone(x: int, y: int, k: int)
    requires x <= y && k >= 0
    ensures x * k <= y * k
  {
    NonNegativeProduct(y - x, k);
  }

  /** Timeouts read by the converter never overflow when added: the complete
      pipeline gets exactly the sum of the two candidate timeouts. */
  lemma RulTimeoutIsSum(feature: Timeout, regression: Timeout)
    requires IsInt32(feature.amount) && IsInt32(regression.amount)
    ensures RulTimeout(feature, regression).amount == feature.InMillis() + regression.InMillis()
  {
    MillisBound(feature);
    MillisBound(regression);
  }

  /** `getFeatureCandidateTimeoutPerFold`: the candidate timeout in seconds
      divided by the number of folds (rounding toward zero), minus one second.
      No folds is a division by zero. */
  function PerFoldTimeout(candidate: Timeout, folds: int): (r: Option<Timeout>)
    ensures r.None? <==> folds == 0
    ensures r.Some? ==> r.value.unit == Seconds && IsLong(r.value.amount)
  {
    if folds == 0 then None
    else Some(Timeout(WrapLong(WrapLong(JavaDiv(candidate.InSeconds(), folds)) - 1), Seconds))
  }

  /** The folds of a candidate, each with its timeout and one second more, fit
      into the candidate timeout, and one more second per fold would not. */
  lemma PerFoldTimeoutFits(candidate: Timeout, folds: int)
    requires folds > 0 && candidate.InSeconds() >= 0 && IsLong(candidate.InSeconds())
    ensures var r := PerFoldTimeout(candidate, folds).value.amount;
      folds * (r + 1) <= candidate.InSeconds() < folds * (r + 2)
  {
    var s := candidate.InSeconds();
    var q := JavaDiv(s, folds);
    JavaDivSpec(s, folds);
    assert IsLong(q) && IsLong(q - 1);
    FoldsBetween(s, folds, q);
  }

  /** A quotient `q` of `s` by `folds` places `s` between `folds` times `q`
      and `folds` times `q + 1`. */
  lemma FoldsBetween(s: int, folds: int, q: int)
    requires folds > 0 && 0 <= s - q * folds < folds
    ensures folds * (q - 1 + 1) <= s < folds * (q - 1 + 2)
  {
    assert folds * (q - 1 + 1) == q * folds;
    assert folds * (q - 1 + 2) == q * folds + folds;
  }

  /** A candidate timeout shorter than two seconds per fold leaves the folds
      no time: three seconds over five folds gives -1. */
  lemma PerFoldTimeoutCanBeNegative()
    ensures PerFoldTimeout(Timeout(3, Seconds), 5) == Some(Timeout(-1, Seconds))
  {
    assert 3 / 5 == 0;
  }

  /** The timeout `CompletePipelineEvaluator` gives one fit-and-predict run of
      a regressor: the regression candidate timeout in seconds plus two. */
  function FitAndPredictTimeout(candidate: Timeout): (t: Timeout)
    ensures t.unit == Seconds && IsLong(t.amount)
  {
    Timeout(WrapLong(candidate.InSeconds() + 2), Seconds)
  }

  /** Without overflow, a run gets two seconds more than the candidate
      timeout. */
  lemma FitAndPredictTimeoutLonger(candidate: Timeout)
    requires IsLong(candidate.amount) && candidate.InSeconds() <= LongMax - 2
    ensures FitAndPredictTimeout(candidate).InSeconds() == candidate.InSeconds() + 2
  {
  }

  /** The deadline of the experiment: the setup time plus the total timeout,
      in milliseconds. */
  function Deadline(setupTime: int, total: Timeout): int {
    WrapLong(setupTime + total.InMillis())
  }

  /** The timeout handed to the grammar-based search: the time left until the
      deadline, but at least one millisecond. */
  function GgpTimeout(deadline: int, now: int): (r: int)
    ensures r >= 1
    ensures WrapLong(deadline - now) >= 1 ==> r == WrapLong(deadline - now)
    ensures WrapLong(deadline - now) < 1 ==> r == 1
  {
    var left := WrapLong(deadline - now);
    if left > 1 then left else 1
  }

  /** The wrapper's temporary folder of an experiment. */
  function TempFolder(experimentId: int): string {
    "tmp/tmp" + IntToString(experimentId) + "/"
  }

  /** Experiments with different identifiers use different temporary
      folders. */
  lemma TempFoldersDistinct(a: int, b: int)
    requires IsInt32(a) && IsInt32(b)
    ensures TempFolder(a) == TempFolder(b) <==> a == b
  {
    if TempFolder(a) == TempFolder(b) {
      var fa, fb := TempFolder(a), TempFolder(b);
      assert IntToString(a) == fa[7..|fa| - 1];
      assert IntToString(b) == fb[7..|fb| - 1];
      ParseIntToString(a);
      ParseIntToString(b);
    }
  }

  // ---------------------------------------------------------- relation names

  /** `setDatasetRelationName`: the name dataset `position` of split `fold`
      gets: its relation name, seed and fold joined by '_', without "_train"
      if that contains "train" and then without "_test" if it contains "test",
      followed by "_train" for the first dataset of the split and "_test" for
      the others. */
  function RelationName(relation: string, seed: int, fold: int, position: int): string {
    var base := relation + "_" + IntToString(seed) + "_" + IntToString(fold);
    var withoutTrain := if Contains(base, "train") then Replace(base, "_train", "") else base;
    var withoutTest := if Contains(withoutTrain, "test") then Replace(withoutTrain, "_test", "") else withoutTrain;
    withoutTest + (if position == 0 then "_train" else "_test")
  }

  /** The role a dataset of a split plays. */
  function Role(position: int): string {
    if position == 0 then "train" else "test"
  }

  /** The role suffix: the first dataset of a split is named as training data,
      every other as test data. */
  lemma RelationNameRole(relation: string, seed: int, fold: int, position: int)
    ensures EndsWith(RelationName(relation, seed, fold, position), "_train") <==> position == 0
    ensures EndsWith(RelationName(relation, seed, fold, position), "_test") <==> position != 0
  {
    var r := RelationName(relation, seed, fold, position);
    if position == 0 {
      assert r[|r| - 1] == 'n';
    } else {
      assert r[|r| - 1] == 't';
    }
  }

  /** A word of which no character occurs in `tail` occurs in `head + tail`
      only where it occurs in `head`. */
  lemma NoOccurrenceAcross(head: string, tail: string, word: string)
    requires |word| > 0
    requires forall k :: 0 <= k < |word| ==> word[k] !in tail
    requires forall i :: !OccursAt(head, word, i)
    ensures forall i :: !OccursAt(head + tail, word, i)
  {
    var s := head + tail;
    forall i | 0 <= i && i + |word| <= |s|
      ensures !OccursAt(s, word, i)
    {
      if i + |word| <= |head| {
        assert s[i..i + |word|] == head[i..i + |word|];
        assert !OccursAt(head, word, i);
      } else {
        var k := if i >= |head| then 0 else |head| - i;
        assert s[i..i + |word|][k] == s[i + k] == tail[i + k - |head|];
        assert word[k] !in tail;
      }
    }
  }

  /** Seed and fold add only digits, minus signs and underscores to a relation
      name. */
  lemma NumbersAddNoWord(relation: string, seed: int, fold: int, word: string)
    requires |word| > 0
    requires forall k :: 0 <= k < |word| ==> word[k] != '_' && word[k] != '-' && !IsDigit(word[k])
    requires !Contains(relation, word)
    ensures !Contains(relation + "_" + IntToString(seed) + "_" + IntToString(fold), word)
  {
    var ss, fs := IntToString(seed), IntToString(fold);
    var tail := "_" + ss + "_" + fs;
    IntToStringChars(seed);
    IntToStringChars(fold);
    forall j | 0 <= j < |tail|
      ensures tail[j] == '_' || tail[j] == '-' || IsDigit(tail[j])
    {
      if 1 <= j < 1 + |ss| {
        assert tail[j] == ss[j - 1];
      } else if j > 1 + |ss| {
        assert tail[j] == fs[j - 2 - |ss|];
      }
    }
    ContainsIff(relation, word);
    NoOccurrenceAcross(relation, tail, word);
    assert relation + "_" + IntToString(seed) + "_" + IntToString(fold) == relation + tail;
    ContainsIff(relation + tail, word);
  }

  /** A relation name that mentions neither "train" nor "test" is kept whole:
      seed, fold and role are appended. */
  lemma RelationNamePlain(relation: string, seed: int, fold: int, position: int)
    requires !Contains(relation, "train") && !Contains(relation, "test")
    ensures RelationName(relation, seed, fold, position)
      == relation + "_" + IntToString(seed) + "_" + IntToString(fold) + "_" + Role(position)
  {
    NumbersAddNoWord(relation, seed, fold, "train");
    NumbersAddNoWord(relation, seed, fold, "test");
    var base := relation + "_" + IntToString(seed) + "_" + IntToString(fold);
    assert base + (if position == 0 then "_train" else "_test") == base + "_" + Role(position);
  }

  /** Names that share a prefix and continue with a printed fold, '_' and a
      role are equal only for the same fold and role. */
  lemma FoldAndRoleDistinct(common: string, f1: int, r1: string, f2: int, r2: string)
    requires IsInt32(f1) && IsInt32(f2)
    ensures common + IntToString(f1) + "_" + r1 == common + IntToString(f2) + "_" + r2
      <==> f1 == f2 && r1 == r2
  {
    var t1, t2 := IntToString(f1) + "_" + r1, IntToString(f2) + "_" + r2;
    assert common + IntToString(f1) + "_" + r1 == common + t1;
    assert common + IntToString(f2) + "_" + r2 == common + t2;
    if common + t1 == common + t2 {
      assert t1 == (common + t1)[|common|..];
      assert t2 == (common + t2)[|common|..];
      IntToStringHasNoUnderscore(f1);
      IntToStringHasNoUnderscore(f2);
      UnderscoreSplitsUniquely(IntToString(f1), r1, IntToString(f2), r2);
      ParseIntToString(f1);
      ParseIntToString(f2);
    }
  }

  /** The datasets of one seed named from such a relation name differ in name
      exactly when they differ in fold or in role. */
  lemma RelationNamesDistinct(relation: string, seed: int, f1: int, p1: int, f2: int, p2: int)
    requires !Contains(relation, "train") && !Contains(relation, "test")
    requires IsInt32(f1) && IsInt32(f2)
    ensures RelationName(relation, seed, f1, p1) == RelationName(relation, seed, f2, p2)
      <==> f1 == f2 && (p1 == 0 <==> p2 == 0)
  {
    RelationNamePlain(relation, seed, f1, p1);
    RelationNamePlain(relation, seed, f2, p2);
    FoldAndRoleDistinct(relation + "_" + IntToString(seed) + "_", f1, Role(p1), f2, Role(p2));
  }

  /** A relation name ending in "_train" loses it: the datasets of a
      training file `<stem>_train` are named after `<stem>`. */
  lemma RelationNameOfTrainingFile(stem: string, seed: int, fold: int, position: int)
    requires !Contains(stem, "train") && !Contains(stem, "test")
    ensures RelationName(stem + "_train", seed, fold, position) == RelationName(stem, seed, fold, position)
  {
    var base := stem + "_" + IntToString(seed) + "_" + IntToString(fold);
    TrainSuffixStripped(stem, seed, fold);
    NumbersAddNoWord(stem, seed, fold, "test");
    assert RelationName(stem + "_train", seed, fold, position) == base + (if position == 0 then "_train" else "_test");
    RelationNamePlain(stem, seed, fold, position);
    RoleSuffix(base, position);
  }

  /** The suffix a relation name gets is "_" and its role. */
  lemma RoleSuffix(base: string, position: int)
    ensures base + (if position == 0 then "_train" else "_test") == base + "_" + Role(position)
  {
  }

  /** In the base name of a training file, "train" occurs and removing
      "_train" leaves the base name of its stem. */
  lemma TrainSuffixStripped(stem: string, seed: int, fold: int)
    requires !Contains(stem, "train")
    ensures Contains(stem + "_train" + "_" + IntToString(seed) + "_" + IntToString(fold), "train")
    ensures Replace(stem + "_train" + "_" + IntToString(seed) + "_" + IntToString(fold), "_train", "")
         == stem + "_" + IntToString(seed) + "_" + IntToString(fold)
  {
    var tail := "_" + IntToString(seed) + "_" + IntToString(fold);
    TrainingBaseShape(stem, IntToString(seed), IntToString(fold));
    ContainsMiddle(stem + "_", "train", tail);
    NoTrainAfterUnderscore(stem);
    ReplaceAtBoundary(stem, "_train", tail, "");
    NumbersHaveNoTrain(seed, fold);
    NoTrainAfterUnderscore(tail);
    ReplaceAbsent(tail, "_train", "");
  }

  /** How the pieces of a training file's base name regroup, with `a` and
      `b` the printed seed and fold. */
  lemma TrainingBaseShape(stem: string, a: string, b: string)
    ensures stem + "_train" + "_" + a + "_" + b == stem + "_train" + ("_" + a + "_" + b)
    ensures stem + "_train" + ("_" + a + "_" + b) == stem + "_" + "train" + ("_" + a + "_" + b)
    ensures stem + "" + ("_" + a + "_" + b) == stem + "_" + a + "_" + b
  {
  }

  /** The numbers appended to a relation name hold no "train". */
  lemma NumbersHaveNoTrain(seed: int, fold: int)
    ensures !Contains("_" + IntToString(seed) + "_" + IntToString(fold), "train")
  {
    ShorterHoldsNothing("", "train");
    NumbersAddNoWord("", seed, fold, "train");
    EmptyStem(IntToString(seed), IntToString(fold));
  }

  /** An empty relation name adds nothing in front of the numbers. */
  lemma EmptyStem(a: string, b: string)
    ensures "" + "_" + a + "_" + b == "_" + a + "_" + b
  {
  }

  /** Without "train", a string holds no "_train" either. */
  lemma NoTrainAfterUnderscore(s: string)
    requires !Contains(s, "train")
    ensures forall i :: !OccursAt(s, "_train", i)
  {
    ContainsIff(s, "train");
    forall i
      ensures !OccursAt(s, "_train", i)
    {
      OccursAfterFirst(s, "train", '_', i);
    }
  }

  /** The names of all datasets of all splits: split `f` of the list holds the
      relation names of its datasets in order. */
  function RelationNames(relations: seq<seq<string>>, seed: int): (r: seq<seq<string>>)
    ensures |r| == |relations|
    ensures forall f :: 0 <= f < |r| ==> |r[f]| == |relations[f]|
  {
    seq(|relations|, f requires 0 <= f < |relations| =>
      seq(|relations[f]|, i requires 0 <= i < |relations[f]| => RelationName(relations[f][i], seed, f, i)))
  }

  /** Every split names exactly its first dataset as training data. */
  lemma RelationNamesRoles(relations: seq<seq<string>>, seed: int)
    ensures var r := RelationNames(relations, seed);
      forall f, i :: 0 <= f < |r| && 0 <= i < |r[f]| ==> (EndsWith(r[f][i], "_train") <==> i == 0)
  {
    var r := RelationNames(relations, seed);
    forall f, i | 0 <= f < |r| && 0 <= i < |r[f]|
      ensures EndsWith(r[f][i], "_train") <==> i == 0
    {
      RelationNameRole(relations[f][i], seed, f, i);
    }
  }
}

=== FILE: decoder.dfy ===
/** Decoding in the root-based handler (`decodeGenome`, `decodeComponent`,
    `isCompletelyDefined`): starting from the root component, every required
    interface is filled with the decodable instances of all entries providing
    it, recursively; a node survives only if it passes the completeness check.

    The source recursion has no cycle guard. Here it is ordered by a `rank`
    over entries: every entry providing an interface that an entry's component
    requires has a smaller rank. Such a rank exists exactly when the "requires
    a provider of" relation is acyclic, which is when the source terminates. */
module Decoder {
  import opened Wrappers
  import opened Strings
  import opened Components
  import opened GenomeEntry
  import opened GenomeLayout
  import opened Genome

  /** Entry `k` was set up for component `k`. */
  predicate NamesAligned(L: Layout) {
    && |L.entries| == |L.components|
    && forall k :: 0 <= k < |L.entries| ==> L.entries[k].name == L.components[k].name
  }

  /** `getComponentByName`: the component an entry is decoded as, the first
      one carrying the entry's name. */
  function ComponentOf(L: Layout, k: nat): (r: nat)
    requires NamesAligned(L) && k < |L.entries|
    ensures r <= k && L.components[r].name == L.entries[k].name
  {
    IndexOfName(L.components, L.entries[k].name)
  }

  function Required(L: Layout, k: nat): seq<RequiredInterface>
    requires NamesAligned(L) && k < |L.entries|
  {
    L.components[ComponentOf(L, k)].required
  }

  /** Every interface some component requires has a provider list, and the
      lists hold entries. Without a list the handler dereferences null. */
  predicate ProvidersListed(L: Layout) {
    && (forall j, x :: 0 <= j < |L.components| && 0 <= x < |L.components[j].required| ==>
          L.components[j].required[x].name in L.providers)
    && (forall name, y :: name in L.providers && 0 <= y < |L.providers[name]| ==>
          L.providers[name][y] < |L.entries|)
  }

  /** `rank` orders every entry after all providers of what it requires. */
  predicate RankOrders(L: Layout, rank: seq<nat>)
    requires NamesAligned(L) && ProvidersListed(L)
  {
    && |rank| == |L.entries|
    && (forall k :: 0 <= k < |rank| ==> rank[k] < |rank|)
    && forall k, x, y :: 0 <= k < |L.entries| && 0 <= x < |Required(L, k)| && 0 <= y < |L.providers[Required(L, k)[x].name]| ==>
         rank[L.providers[Required(L, k)[x].name][y]] < rank[k]
  }

  predicate Decodable(L: Layout, sol: Solution, rank: seq<nat>) {
    NamesAligned(L) && ProvidersListed(L) && RankOrders(L, rank) && Readable(L, sol)
  }

  /** Required interfaces whose providers all rank below `bound`. */
  predicate SlotsBelow(L: Layout, rank: seq<nat>, ris: seq<RequiredInterface>, bound: nat)
    requires NamesAligned(L) && ProvidersListed(L) && |rank| == |L.entries|
  {
    forall x :: 0 <= x < |ris| ==>
      ris[x].name in L.providers && ProvidersBelow(L, rank, L.providers[ris[x].name], bound)
  }

  predicate ProvidersBelow(L: Layout, rank: seq<nat>, ps: seq<nat>, bound: nat)
    requires |rank| == |L.entries|
  {
    forall y :: 0 <= y < |ps| ==> ps[y] < |L.entries| && rank[ps[y]] < bound
  }

  /** The providers an entry's decoding visits rank below it. */
  lemma RequiredBelow(L: Layout, sol: Solution, rank: seq<nat>, k: nat)
    requires Decodable(L, sol, rank) && k < |L.entries|
    ensures SlotsBelow(L, rank, Required(L, k), rank[k])
  {
    var ris := Required(L, k);
    forall x | 0 <= x < |ris|
      ensures ris[x].name in L.providers && ProvidersBelow(L, rank, L.providers[ris[x].name], rank[k])
    {
      assert ris[x] == L.components[ComponentOf(L, k)].required[x];
      forall y | 0 <= y < |L.providers[ris[x].name]|
        ensures L.providers[ris[x].name][y] < |L.entries| && rank[L.providers[ris[x].name][y]] < rank[k]
      {
      }
    }
  }

  /** The two variants of the root-based handler differ only in when an entry
      counts as active: the attribute-selection variant also switches on a
      tsfresh wrapper without activation gene when a tsfresh feature is on. */
  datatype Variant = Basic | AttributeSelection

  /** An entry judged by the wrapper rule: no activation gene and a name
      containing "TsfreshWrapper". */
  predicate IsTsfreshWrapper(e: Entry) {
    !e.HasActivationBit() && Contains(e.name, "TsfreshWrapper")
  }

  const FeatureInterface: string := "TsfreshFeature"

  /** The wrapper rule is defined: a wrapper finds the list of feature
      providers (the source dereferences it), and no feature provider is itself
      judged by the wrapper rule (the source would recurse into it). */
  predicate VariantReady(L: Layout, v: Variant) {
    v.AttributeSelection? ==>
      && (forall k :: 0 <= k < |L.entries| && IsTsfreshWrapper(L.entries[k]) ==> FeatureInterface in L.providers)
      && (FeatureInterface in L.providers ==>
            forall y :: 0 <= y < |L.providers[FeatureInterface]| && L.providers[FeatureInterface][y] < |L.entries| ==>
              !IsTsfreshWrapper(L.entries[L.providers[FeatureInterface][y]]))
  }

  /** Some entry providing the feature interface is active. */
  predicate FeatureActive(L: Layout, sol: Solution)
    requires Readable(L, sol) && ProvidersListed(L) && FeatureInterface in L.providers
  {
    exists y :: 0 <= y < |L.providers[FeatureInterface]| && IsActivated(L.entries[L.providers[FeatureInterface][y]], sol)
  }

  /** `isComponentActivated` of the variant. */
  predicate Active(L: Layout, v: Variant, sol: Solution, k: nat)
    requires Readable(L, sol) && ProvidersListed(L) && VariantReady(L, v) && k < |L.entries|
  {
    var e := L.entries[k];
    if v.AttributeSelection? && IsTsfreshWrapper(e) then FeatureActive(L, sol) || IsActivated(e, sol)
    else IsActivated(e, sol)
  }

  /** The variants agree except on a wrapper without activation gene: under
      attribute selection such a wrapper with no parameter genes is active
      exactly when some feature provider is, and any active feature switches it
      on. */
  lemma ActiveCases(L: Layout, v: Variant, sol: Solution, k: nat, y: nat)
    requires Readable(L, sol) && ProvidersListed(L) && VariantReady(L, v) && k < |L.entries|
    ensures !(v.AttributeSelection? && IsTsfreshWrapper(L.entries[k])) ==>
              (Active(L, v, sol, k) <==> IsActivated(L.entries[k], sol))
    ensures L.entries[k].HasActivationBit() ==>
              (Active(L, v, sol, k) <==> sol.variables[L.entries[k].activationIndex] == Bit(true))
    ensures v.AttributeSelection? && IsTsfreshWrapper(L.entries[k]) && L.entries[k].indexToParameter == map[] ==>
              (Active(L, v, sol, k) <==> exists y' :: 0 <= y' < |L.providers[FeatureInterface]|
                                           && IsActivated(L.entries[L.providers[FeatureInterface][y']], sol))
    ensures (v.AttributeSelection? && IsTsfreshWrapper(L.entries[k]) && y < |L.providers[FeatureInterface]|
             && IsActivated(L.entries[L.providers[FeatureInterface][y]], sol)) ==> Active(L, v, sol, k)
  {
  }

  predicate Decodes(L: Layout, v: Variant, sol: Solution, rank: seq<nat>) {
    Decodable(L, sol, rank) && VariantReady(L, v)
  }

  /** Every slot of a required interface is present. */
  predicate SlotsPresent(inst: Instance) {
    forall x :: 0 <= x < |inst.component.required| ==> inst.component.required[x].id in inst.satisfaction
  }

  /** `isCompletelyDefined` as written: the parameter map has one value per
      parameter, and no required interface has a child count strictly between
      its minimum and maximum. */
  predicate CompletelyDefined(inst: Instance)
    requires SlotsPresent(inst)
  {
    && |inst.parameterValues| == |inst.component.parameters|
    && forall x :: 0 <= x < |inst.component.required| ==>
         !(inst.component.required[x].min < |inst.satisfaction[inst.component.required[x].id]| < inst.component.required[x].max)
  }

  function SlotIds(ris: seq<RequiredInterface>): set<string> {
    set x | 0 <= x < |ris| :: ris[x].id
  }

  /** `decodeComponent`: an active entry becomes an instance of its component
      with its parameter map and decoded children, kept if completely defined. */
  function DecodeEntry(L: Layout, v: Variant, sol: Solution, rank: seq<nat>, k: nat): (r: Option<Instance>)
    requires Decodes(L, v, sol, rank) && k < |L.entries|
    ensures r.Some? ==> Active(L, v, sol, k)
    ensures r.Some? ==> r.value.component == L.components[ComponentOf(L, k)]
    ensures r.Some? ==> r.value.parameterValues == ParameterValues(L.entries[k], sol)
    ensures r.Some? ==> SlotsPresent(r.value) && CompletelyDefined(r.value)
    decreases rank[k], 3
  {
    if !Active(L, v, sol, k) then None
    else
      var c := L.components[ComponentOf(L, k)];
      RequiredBelow(L, sol, rank, k);
      var inst := Instance(c, ParameterValues(L.entries[k], sol), DecodeSlots(L, v, sol, rank, c.required, rank[k]));
      if CompletelyDefined(inst) then Some(inst) else None
  }

  /** The required-interface loop: each slot, in order, gets the decodes of
      its interface's providers; a later slot with the same id replaces an
      earlier one. */
  function DecodeSlots(L: Layout, v: Variant, sol: Solution, rank: seq<nat>, ris: seq<RequiredInterface>, bound: nat)
    : (r: map<string, seq<Instance>>)
    requires Decodes(L, v, sol, rank) && SlotsBelow(L, rank, ris, bound)
    ensures r.Keys == SlotIds(ris)
    decreases bound, 2, |ris|
  {
    if |ris| == 0 then map[]
    else
      var last := ris[|ris| - 1];
      var before := DecodeSlots(L, v, sol, rank, ris[..|ris| - 1], bound);
      assert SlotIds(ris) == SlotIds(ris[..|ris| - 1]) + {last.id} by {
        forall id | id in SlotIds(ris)
          ensures id in SlotIds(ris[..|ris| - 1]) + {last.id}
        {
          var x :| 0 <= x < |ris| && ris[x].id == id;
          if x < |ris| - 1 {
            assert ris[..|ris| - 1][x].id == id;
          }
        }
      }
      before[last.id := DecodeProviders(L, v, sol, rank, L.providers[last.name], bound)]
  }

  /** The provider loop: the decodes of the listed entries that yield an
      instance, in list order. */
  function DecodeProviders(L: Layout, v: Variant, sol: Solution, rank: seq<nat>, ps: seq<nat>, bound: nat): (r: seq<Instance>)
    requires Decodes(L, v, sol, rank) && ProvidersBelow(L, rank, ps, bound)
    ensures |r| <= |ps|
    decreases bound, 1
  {
    Somes(DecodeAll(L, v, sol, rank, ps, bound))
  }

  /** Each listed entry's decoding, null where it yields none. */
  function DecodeAll(L: Layout, v: Variant, sol: Solution, rank: seq<nat>, ps: seq<nat>, bound: nat): (r: seq<Option<Instance>>)
    requires Decodes(L, v, sol, rank) && ProvidersBelow(L, rank, ps, bound)
    ensures |r| == |ps|
    ensures forall y :: 0 <= y < |ps| ==> r[y] == DecodeEntry(L, v, sol, rank, ps[y])
    decreases bound, 0
  {
    seq(|ps|, y requires 0 <= y < |ps| => DecodeEntry(L, v, sol, rank, ps[y]))
  }

  /** `decodeGenome`: the root gets an empty parameter map and its required
      interfaces filled as above; the decoding exists iff that node passes the
      completeness check. */
  function DecodeGenome(L: Layout, v: Variant, root: Component, sol: Solution, rank: seq<nat>): (r: Option<Instance>)
    requires Decodes(L, v, sol, rank) && root in L.components
    ensures r.Some? ==> r.value.component == root && r.value.parameterValues == map[]
    ensures r.Some? ==> SlotsPresent(r.value) && CompletelyDefined(r.value)
    ensures |root.parameters| > 0 ==> r.None?
  {
    assert SlotsBelow(L, rank, root.required, |L.entries|) by {
      var j :| 0 <= j < |L.components| && L.components[j] == root;
    }
    var inst := Instance(root, map[], DecodeSlots(L, v, sol, rank, root.required, |L.entries|));
    if CompletelyDefined(inst) then Some(inst) else None
  }

  // Properties of the decoder.

  /** The rank only orders the recursion: any two admissible ranks decode
      every entry alike. */
  lemma {:induction false} EntryRankIrrelevant(L: Layout, v: Variant, sol: Solution, r1: seq<nat>, r2: seq<nat>, k: nat)
    requires Decodes(L, v, sol, r1) && Decodes(L, v, sol, r2) && k < |L.entries|
    ensures DecodeEntry(L, v, sol, r1, k) == DecodeEntry(L, v, sol, r2, k)
    decreases r1[k], 2
  {
    if Active(L, v, sol, k) {
      RequiredBelow(L, sol, r1, k);
      RequiredBelow(L, sol, r2, k);
      SlotsRankIrrelevant(L, v, sol, r1, r2, Required(L, k), r1[k], r2[k]);
    }
  }

  lemma {:induction false} SlotsRankIrrelevant(L: Layout, v: Variant, sol: Solution, r1: seq<nat>, r2: seq<nat>,
                                               ris: seq<RequiredInterface>, b1: nat, b2: nat)
    requires Decodes(L, v, sol, r1) && Decodes(L, v, sol, r2)
    requires SlotsBelow(L, r1, ris, b1) && SlotsBelow(L, r2, ris, b2)
    ensures DecodeSlots(L, v, sol, r1, ris, b1) == DecodeSlots(L, v, sol, r2, ris, b2)
    decreases b1, 1, |ris|
  {
    if |ris| > 0 {
      var last := ris[|ris| - 1];
      SlotsRankIrrelevant(L, v, sol, r1, r2, ris[..|ris| - 1], b1, b2);
      ProvidersRankIrrelevant(L, v, sol, r1, r2, L.providers[last.name], b1, b2);
    }
  }

  lemma {:induction false} ProvidersRankIrrelevant(L: Layout, v: Variant, sol: Solution, r1: seq<nat>, r2: seq<nat>,
                                                   ps: seq<nat>, b1: nat, b2: nat)
    requires Decodes(L, v, sol, r1) && Decodes(L, v, sol, r2)
    requires ProvidersBelow(L, r1, ps, b1) && ProvidersBelow(L, r2, ps, b2)
    ensures DecodeProviders(L, v, sol, r1, ps, b1) == DecodeProviders(L, v, sol, r2, ps, b2)
    decreases b1, 0
  {
    var a1, a2 := DecodeAll(L, v, sol, r1, ps, b1), DecodeAll(L, v, sol, r2, ps, b2);
    forall y | 0 <= y < |ps|
      ensures a1[y] == a2[y]
    {
      EntryRankIrrelevant(L, v, sol, r1, r2, ps[y]);
    }
    assert a1 == a2;
  }

  /** The children under an interface are exactly the instances its providers
      decode to: each child comes from some provider, and every provider that
      decodes contributes its instance. */
  lemma DecodeProvidersMembers(L: Layout, v: Variant, sol: Solution, rank: seq<nat>, ps: seq<nat>, bound: nat)
    requires Decodes(L, v, sol, rank) && ProvidersBelow(L, rank, ps, bound)
    ensures var r := DecodeProviders(L, v, sol, rank, ps, bound);
      && (forall z :: 0 <= z < |r| ==> exists y :: 0 <= y < |ps| && DecodeEntry(L, v, sol, rank, ps[y]) == Some(r[z]))
      && (forall y :: 0 <= y < |ps| && DecodeEntry(L, v, sol, rank, ps[y]).Some? ==> DecodeEntry(L, v, sol, rank, ps[y]).value in r)
  {
    var all := DecodeAll(L, v, sol, rank, ps, bound);
    SomesMembers(all);
    var r := DecodeProviders(L, v, sol, rank, ps, bound);
    forall z | 0 <= z < |r|
      ensures exists y :: 0 <= y < |ps| && DecodeEntry(L, v, sol, rank, ps[y]) == Some(r[z])
    {
      assert Some(r[z]) in all;
      var y :| 0 <= y < |all| && all[y] == Some(r[z]);
      assert DecodeEntry(L, v, sol, rank, ps[y]) == Some(r[z]);
    }
  }

  /** A slot holds the children decoded for the last required interface
      carrying its id. */
  lemma {:induction false} DecodeSlotsValue(L: Layout, v: Variant, sol: Solution, rank: seq<nat>, ris: seq<RequiredInterface>,
                                            bound: nat, x: nat)
    requires Decodes(L, v, sol, rank) && SlotsBelow(L, rank, ris, bound)
    requires x < |ris| && forall x' :: x < x' < |ris| ==> ris[x'].id != ris[x].id
    ensures DecodeSlots(L, v, sol, rank, ris, bound)[ris[x].id] == DecodeProviders(L, v, sol, rank, L.providers[ris[x].name], bound)
    decreases |ris|
  {
    if x < |ris| - 1 {
      DecodeSlotsValue(L, v, sol, rank, ris[..|ris| - 1], bound, x);
    }
  }

  predicate DistinctComponentNames(cs: seq<Component>) {
    forall i, j :: 0 <= i < j < |cs| ==> cs[i].name != cs[j].name
  }

  /** A listed provider decodes, if at all, to a component providing the interface. */
  lemma DecodedProvides(L: Layout, v: Variant, s: Settings, sol: Solution, rank: seq<nat>, name: string, y: nat)
    requires Decodes(L, v, sol, rank) && IndexesConsistent(L, s) && DistinctComponentNames(L.components)
    requires name in L.providers && y < |L.providers[name]|
    requires DecodeEntry(L, v, sol, rank, L.providers[name][y]).Some?
    ensures name in DecodeEntry(L, v, sol, rank, L.providers[name][y]).value.component.provided
  {
    var p := L.providers[name][y];
    assert ListsEntriesWith(L, L.providers[name], name, true);
    assert ComponentOf(L, p) == p;
  }

  /** With distinct component names and consistent interface lists, every child
      placed under a required interface provides that interface. */
  lemma ChildrenProvide(L: Layout, v: Variant, s: Settings, sol: Solution, rank: seq<nat>, ris: seq<RequiredInterface>,
                        bound: nat, x: nat, child: Instance)
    requires Decodes(L, v, sol, rank) && SlotsBelow(L, rank, ris, bound)
    requires IndexesConsistent(L, s) && DistinctComponentNames(L.components)
    requires x < |ris| && forall x' :: x < x' < |ris| ==> ris[x'].id != ris[x].id
    requires child in DecodeSlots(L, v, sol, rank, ris, bound)[ris[x].id]
    ensures ris[x].name in child.component.provided
  {
    var name := ris[x].name;
    var ps := L.providers[name];
    DecodeSlotsValue(L, v, sol, rank, ris, bound, x);
    var r := DecodeProviders(L, v, sol, rank, ps, bound);
    DecodeProvidersMembers(L, v, sol, rank, ps, bound);
    var z :| 0 <= z < |r| && r[z] == child;
    var y :| 0 <= y < |ps| && DecodeEntry(L, v, sol, rank, ps[y]) == Some(child);
    DecodedProvides(L, v, s, sol, rank, name, y);
  }

  /** Parameter names of a component are pairwise distinct. */
  predicate DistinctParameterNames(ps: seq<Parameter>) {
    forall i, j :: 0 <= i < j < |ps| ==> ps[i].name != ps[j].name
  }

  /** A list of parameters names as many values as it has elements exactly
      when no two share a name. */
  lemma {:induction false} NamesOfCount(ps: seq<Parameter>)
    ensures |NamesOf(ps)| <= |ps|
    ensures |NamesOf(ps)| == |ps| <==> DistinctParameterNames(ps)
    decreases |ps|
  {
    if |ps| == 0 {
      assert NamesOf(ps) == {};
    } else {
      NamesOfCons(ps);
      NamesOfCount(ps[1..]);
      if ps[0].name in NamesOf(ps[1..]) {
        var j :| 0 <= j < |ps[1..]| && ps[1..][j].name == ps[0].name;
        assert ps[j + 1].name == ps[0].name;
      } else {
        assert DistinctParameterNames(ps) <==> DistinctParameterNames(ps[1..]) by {
          if DistinctParameterNames(ps[1..]) {
            forall i, j | 0 <= i < j < |ps|
              ensures ps[i].name != ps[j].name
            {
              if i > 0 {
                assert ps[i] == ps[1..][i - 1] && ps[j] == ps[1..][j - 1];
              } else {
                assert ps[j] == ps[1..][j - 1];
              }
            }
          }
          if DistinctParameterNames(ps) {
            forall i, j | 0 <= i < j < |ps[1..]|
              ensures ps[1..][i].name != ps[1..][j].name
            {
              assert ps[1..][i] == ps[i + 1] && ps[1..][j] == ps[j + 1];
            }
          }
        }
      }
    }
  }

  /** In a layout built by the constructor, a decoded entry passes the
      parameter-count half of the completeness check exactly when its
      component's parameter names are pairwise distinct. */
  lemma ParameterCountCheck(L: Layout, s: Settings, sol: Solution, k: nat)
    requires WellFormed(L, s) && k < |L.entries| && EntryReadable(L.entries[k], sol)
    ensures |ParameterValues(L.entries[k], sol)| == |L.components[k].parameters|
            <==> DistinctParameterNames(L.components[k].parameters)
  {
    assert EntryWellFormed(L, s, k);
    ParameterValuesKeys(L.entries[k], sol);
    NamesOfCount(L.components[k].parameters);
  }

  /** Some component provides every interface some component requires. */
  predicate EveryInterfaceProvided(cs: seq<Component>) {
    forall j, x :: 0 <= j < |cs| && 0 <= x < |cs[j].required| ==>
      exists i :: 0 <= i < |cs| && cs[j].required[x].name in cs[i].provided
  }

  /** A layout the constructor built can be decoded whenever every required
      interface has a provider (and a rank exists). */
  lemma BuiltLayoutListsProviders(L: Layout, s: Settings)
    requires WellFormed(L, s) && IndexesConsistent(L, s) && EveryInterfaceProvided(L.components)
    ensures NamesAligned(L) && ProvidersListed(L)
  {
    forall j, x | 0 <= j < |L.components| && 0 <= x < |L.components[j].required|
      ensures L.components[j].required[x].name in L.providers
    {
      var i :| 0 <= i < |L.components| && L.components[j].required[x].name in L.components[i].provided;
      assert L.components[j].required[x].name in Interfaces(L.components[i], true);
    }
    forall name, y | name in L.providers && 0 <= y < |L.providers[name]|
      ensures L.providers[name][y] < |L.entries|
    {
      assert ListsEntriesWith(L, L.providers[name], name, true);
    }
    forall k | 0 <= k < |L.entries|
      ensures L.entries[k].name == L.components[k].name
    {
      assert EntryWellFormed(L, s, k);
    }
  }
}

=== FILE: events.dfy ===
/** `RegressorEvaluatedEvent`: what the pipeline evaluators announce about one
    evaluated regressor, successful or not, with the fold runtimes in
    milliseconds. */
module Events {
  import opened Wrappers
  import opened Raters

  datatype RegressorEvaluated = RegressorEvaluated(
    regressor: string,
    extractor: string,
    dataset: string,
    performance: real,
    exception: Option<string>,
    runtimes: seq<int>,
    generation: string)
  {
    /** `isError`: an exception was recorded. */
    predicate IsError() {
      exception.Some?
    }
  }

  /** `getException`: the recorded text, or the empty string. */
  function ExceptionText(e: RegressorEvaluated): (r: string)
    ensures e.IsError() ==> r == e.exception.value
    ensures !e.IsError() ==> r == ""
  {
    match e.exception
    case Some(text) => text
    case None => ""
  }

  /** `getRuntimesInSeconds`: every runtime divided by 1000, in order. */
  function RuntimesInSeconds(e: RegressorEvaluated): (r: seq<real>)
    ensures |r| == |e.runtimes|
    ensures forall i :: 0 <= i < |r| ==> r[i] * 1000.0 == e.runtimes[i] as real
  {
    seq(|e.runtimes|, i requires 0 <= i < |e.runtimes| => e.runtimes[i] as real / 1000.0)
  }

  /** `getAverageRuntime`: -1 without runtimes, otherwise the mean runtime in
      seconds: the runtimes in seconds add up to it times their number, and
      it lies between the fastest and the slowest fold. */
  function AverageRuntime(e: RegressorEvaluated): (r: real)
    ensures |e.runtimes| == 0 ==> r == -1.0
    ensures |e.runtimes| > 0 ==> r * |e.runtimes| as real == Sum(RuntimesInSeconds(e))
    ensures |e.runtimes| > 0 ==> exists i :: 0 <= i < |e.runtimes| && e.runtimes[i] as real <= r * 1000.0
    ensures |e.runtimes| > 0 ==> exists j :: 0 <= j < |e.runtimes| && r * 1000.0 <= e.runtimes[j] as real
  {
    if |e.runtimes| == 0 then -1.0
    else
      var seconds := RuntimesInSeconds(e);
      MeanWithinValues(seconds);
      Mean(seconds)
  }

  /** The success constructor: no exception is recorded. */
  function Succeeded(regressor: string, extractor: string, dataset: string, score: real, runtimes: seq<int>, generation: string): (e: RegressorEvaluated)
    ensures !e.IsError() && ExceptionText(e) == "" && e.performance == score && e.runtimes == runtimes
    ensures e.regressor == regressor && e.extractor == extractor && e.dataset == dataset && e.generation == generation
  {
    RegressorEvaluated(regressor, extractor, dataset, score, None, runtimes, generation)
  }

  /** The failure constructor: performance -1 and no runtimes. */
  function Failed(regressor: string, extractor: string, dataset: string, exception: string, generation: string): (e: RegressorEvaluated)
    ensures e.IsError() && ExceptionText(e) == exception
    ensures e.performance == -1.0 && e.runtimes == []
    ensures e.regressor == regressor && e.extractor == extractor && e.dataset == dataset && e.generation == generation
  {
    RegressorEvaluated(regressor, extractor, dataset, -1.0, Some(exception), [], generation)
  }

  /** The average runtime of a successful evaluation lies between its fastest
      and its slowest fold, in seconds. */
  lemma AverageRuntimeBetween(e: RegressorEvaluated, lo: int, hi: int)
    requires |e.runtimes| > 0
    requires forall i :: 0 <= i < |e.runtimes| ==> lo <= e.runtimes[i] <= hi
    ensures lo as real / 1000.0 <= AverageRuntime(e) <= hi as real / 1000.0
  {
    var seconds := RuntimesInSeconds(e);
    forall i | 0 <= i < |seconds|
      ensures lo as real / 1000.0 <= seconds[i] <= hi as real / 1000.0
    {
      assert seconds[i] == e.runtimes[i] as real / 1000.0;
    }
    MeanBetween(seconds, lo as real / 1000.0, hi as real / 1000.0);
  }
}

=== FILE: feature_extraction_problem.dfy ===
/** `FeatureExtractionMoeaProblem`: the outer, evolutionary search over feature
    extractors. Each genome of a batch is decoded and its extractor fitted on
    every split under a timeout; failures get sentinel objectives, the valid
    decodings go to the inner regression search, and the best complete
    pipeline found so far is kept. What fitting, the timed computations and
    the inner search did are inputs. */
module FeatureExtractionProblem {
  import opened Wrappers
  import opened Rendering
  import opened Incumbent
  import opened RegressionProblem

  /** The objective of a genome whose evaluation timed out or was interrupted. */
  const TimeoutObjective: real := 10000.0

  /** The objective of a genome that could not be decoded or fitted. */
  const InfeasibleObjective: real := 20000.0

  /** A timed-out genome ranks better than an infeasible one. */
  lemma TimeoutBeforeInfeasible()
    ensures TimeoutObjective < InfeasibleObjective
  {
  }

  /** What decoding a genome gave: a missing component (an exception), no
      decoding (`null`), or a decoding. */
  datatype Decoded = ComponentMissing | NoDecoding | Decoded(decoding: Decoding)

  /** What fitting the extractor on one split did. */
  datatype FoldResult = Fitted | FoldTimedOut | FoldInterrupted | FoldIoFailure | FoldExecutionFailure

  /** What `evaluate` did to a genome: recorded it as valid, wrote one
      sentinel to both objectives, or raised. */
  datatype Verdict = Valid(decoding: Decoding) | Worst(objective: real) | Raised

  /** How many splits at the front were fitted. */
  function LeadingFitted(folds: seq<FoldResult>): (k: nat)
    ensures k <= |folds|
    ensures forall j :: 0 <= j < k ==> folds[j].Fitted?
    ensures k < |folds| ==> !folds[k].Fitted?
    decreases |folds|
  {
    if |folds| > 0 && folds[0].Fitted? then 1 + LeadingFitted(folds[1..]) else 0
  }

  /** `evaluate`: a genome that decodes to nothing is infeasible; otherwise the
      splits are fitted in order and the first that does not fit decides (a
      timeout or an interrupt gives the timeout sentinel, an IO or execution
      failure the infeasible one); a genome all of whose splits fit is valid. */
  function EvaluateGenome(decoded: Decoded, folds: seq<FoldResult>): (v: Verdict)
    ensures v.Raised? <==> decoded.ComponentMissing?
    ensures v.Valid? <==> decoded.Decoded? && forall j :: 0 <= j < |folds| ==> folds[j].Fitted?
    ensures v.Valid? ==> v.decoding == decoded.decoding
    ensures v.Worst? ==> v.objective == TimeoutObjective || v.objective == InfeasibleObjective
    ensures v == Worst(TimeoutObjective) <==> decoded.Decoded? && exists k :: 0 <= k < |folds| && (forall j :: 0 <= j < k ==> folds[j].Fitted?) && (folds[k].FoldTimedOut? || folds[k].FoldInterrupted?)
  {
    match decoded
    case ComponentMissing => Raised
    case NoDecoding => Worst(InfeasibleObjective)
    case Decoded(d) =>
      var k := LeadingFitted(folds);
      if k == |folds| then Valid(d)
      else if folds[k].FoldTimedOut? || folds[k].FoldInterrupted? then Worst(TimeoutObjective)
      else Worst(InfeasibleObjective)
  }

  /** Splits after the first one that does not fit play no part. */
  lemma EvaluateGenomeIgnoresLaterFolds(decoded: Decoded, folds: seq<FoldResult>, later: seq<FoldResult>)
    requires exists j :: 0 <= j < |folds| && !folds[j].Fitted?
    ensures EvaluateGenome(decoded, folds + later) == EvaluateGenome(decoded, folds)
  {
    var k := LeadingFitted(folds);
    assert forall j :: 0 <= j <= k ==> (folds + later)[j] == folds[j];
    assert LeadingFitted(folds + later) == k by {
      LeadingFittedPrefix(folds, later);
    }
  }

  lemma {:induction false} LeadingFittedPrefix(folds: seq<FoldResult>, later: seq<FoldResult>)
    requires LeadingFitted(folds) < |folds|
    ensures LeadingFitted(folds + later) == LeadingFitted(folds)
    decreases |folds|
  {
    if folds[0].Fitted? {
      assert (folds + later)[1..] == folds[1..] + later;
      LeadingFittedPrefix(folds[1..], later);
    }
  }

  /** What the timed computation around `evaluate` did for one genome: it
      finished, after decoding and fitting as recorded, or timed out or was
      interrupted. An exception raised inside comes out as an execution
      failure. */
  datatype Job = Finished(decoded: Decoded, folds: seq<FoldResult>) | JobTimedOut {
    function Verdict(): Verdict
      requires Finished?
    {
      EvaluateGenome(decoded, folds)
    }
  }

  /** The objectives a genome ends the batch with: untouched, or one
      sentinel in both. */
  datatype Mark = Unmarked | Marked(objective: real)

  predicate IsValid(job: Job) {
    job.Finished? && job.Verdict().Valid?
  }

  /** The mark of one genome: an exception inside makes it infeasible, a
      timeout of the computation around it gives the timeout sentinel. */
  function JobMark(job: Job): (m: Mark)
    ensures m.Unmarked? <==> IsValid(job)
  {
    if job.JobTimedOut? then Marked(TimeoutObjective)
    else match job.Verdict()
      case Valid(_) => Unmarked
      case Worst(v) => Marked(v)
      case Raised => Marked(InfeasibleObjective)
  }

  /** The decodings of the valid genomes, in batch order. */
  function ValidDecodings(jobs: seq<Job>): (r: seq<Decoding>)
    ensures |r| <= |jobs|
    ensures |r| > 0 <==> exists i :: 0 <= i < |jobs| && IsValid(jobs[i])
    ensures forall d :: d in r <==> exists i :: 0 <= i < |jobs| && jobs[i].Finished? && jobs[i].Verdict() == Valid(d)
    decreases |jobs|
  {
    if |jobs| == 0 then []
    else
      var rest := ValidDecodings(jobs[1..]);
      assert forall i :: 1 <= i < |jobs| ==> jobs[1..][i - 1] == jobs[i];
      if IsValid(jobs[0]) then
        [jobs[0].Verdict().decoding] + rest
      else rest
  }

  /** The best pipeline after a candidate from the inner search: replaced, and
      announced, exactly when the candidate exists and there is no best yet
      or the candidate is strictly better. */
  function ImproveBest(best: Option<GgpSolution>, candidate: Option<GgpSolution>): (r: (Option<GgpSolution>, Option<Notification>))
    ensures r.0 == best || r.0 == candidate
    ensures r.0.None? <==> best.None? && candidate.None?
    ensures best.Some? && r.0.Some? ==> r.0.value.performance <= best.value.performance
    ensures candidate.Some? && r.0.Some? ==> r.0.value.performance <= candidate.value.performance || r.0 == best
    ensures r.1.Some? <==> candidate.Some? && (best.None? || candidate.value.performance < best.value.performance)
    ensures r.1.Some? ==> r.0 == candidate && r.1.value == UpdatingBestPipeline(candidate.value.construction, candidate.value.performance)
  {
    match candidate
    case None => (best, None)
    case Some(c) =>
      if best.None? || c.performance < best.value.performance then
        (candidate, Some(UpdatingBestPipeline(c.construction, c.performance)))
      else (best, None)
  }

  /** What `evaluateAll` did with a batch: the marks of its genomes, the valid
      decodings, the best pipeline afterwards, the announcement, and whether
      the inner search raised. */
  datatype BatchOutcome = BatchOutcome(marks: seq<Mark>, valid: seq<Decoding>, best: Option<GgpSolution>, posted: Option<Notification>, raised: bool)

  /** The marks of a batch: each genome's by its job, except that an
      interrupted wait marks every genome not recorded as valid infeasible. */
  function BatchMarks(jobs: seq<Job>, waitInterrupted: bool): (marks: seq<Mark>)
    ensures |marks| == |jobs|
    ensures forall i :: 0 <= i < |jobs| ==> (marks[i].Unmarked? <==> IsValid(jobs[i]))
    ensures forall i :: 0 <= i < |jobs| && marks[i].Marked? ==>
      marks[i].objective == TimeoutObjective || marks[i].objective == InfeasibleObjective
    ensures waitInterrupted ==> forall i :: 0 <= i < |jobs| && marks[i].Marked? ==> marks[i].objective == InfeasibleObjective
    ensures !waitInterrupted ==> forall i :: 0 <= i < |jobs| ==> marks[i] == JobMark(jobs[i])
  {
    var marks := seq(|jobs|, i requires 0 <= i < |jobs| =>
      if waitInterrupted && !IsValid(jobs[i]) then Marked(InfeasibleObjective) else JobMark(jobs[i]));
    assert forall i :: 0 <= i < |jobs| ==> marks[i] == JobMark(jobs[i]) || marks[i] == Marked(InfeasibleObjective);
    marks
  }

  /** `evaluateAll`: every genome is marked by its job, except that an
      interrupted wait marks every genome not recorded as valid infeasible;
      the inner search runs on the valid decodings only when there is one,
      and its result is offered as the best pipeline. The decodings are
      collected in a concurrent map, so the inner search sees them in
      `order`, any arrangement of the valid ones. `search` is the inner
      search, `None` for an exception. */
  function EvaluateBatch(jobs: seq<Job>, waitInterrupted: bool, best: Option<GgpSolution>,
                         order: seq<Decoding>,
                         search: seq<Decoding> -> Option<Option<GgpSolution>>): (o: BatchOutcome)
    requires multiset(order) == multiset(ValidDecodings(jobs))
    ensures |o.marks| == |jobs|
    ensures forall i :: 0 <= i < |jobs| ==> (o.marks[i].Unmarked? <==> IsValid(jobs[i]))
    ensures forall i :: 0 <= i < |jobs| && o.marks[i].Marked? ==>
      o.marks[i].objective == TimeoutObjective || o.marks[i].objective == InfeasibleObjective
    ensures waitInterrupted ==> forall i :: 0 <= i < |jobs| && o.marks[i].Marked? ==> o.marks[i].objective == InfeasibleObjective
    ensures !waitInterrupted ==> forall i :: 0 <= i < |jobs| ==> o.marks[i] == JobMark(jobs[i])
    ensures o.valid == order
    ensures forall d :: d in o.valid <==> exists i :: 0 <= i < |jobs| && jobs[i].Finished? && jobs[i].Verdict() == Valid(d)
    ensures |o.valid| == 0 <==> forall i :: 0 <= i < |jobs| ==> !IsValid(jobs[i])
    ensures |o.valid| == 0 ==> o.best == best && o.posted.None? && !o.raised
    ensures |o.valid| > 0 && search(order).None? <==> o.raised
    ensures |o.valid| > 0 && search(order).Some? ==> (o.best, o.posted) == ImproveBest(best, search(order).value)
    ensures o.raised ==> o.best == best && o.posted.None?
  {
    var marks := BatchMarks(jobs, waitInterrupted);
    var valid := order;
    assert |order| == |multiset(order)| == |ValidDecodings(jobs)|;
    assert forall d :: d in order <==> d in ValidDecodings(jobs) by {
      forall d ensures d in order <==> d in ValidDecodings(jobs) {
        assert d in order <==> d in multiset(order);
        assert d in ValidDecodings(jobs) <==> d in multiset(ValidDecodings(jobs));
      }
    }
    if |valid| == 0 then BatchOutcome(marks, valid, best, None, false)
    else match search(valid)
      case None => BatchOutcome(marks, valid, best, None, true)
      case Some(candidate) =>
        var improved := ImproveBest(best, candidate);
        BatchOutcome(marks, valid, improved.0, improved.1, false)
  }

  /** The best pipeline after offering candidates one by one. */
  function BestOf(best: Option<GgpSolution>, candidates: seq<Option<GgpSolution>>): (r: Option<GgpSolution>)
    ensures best.Some? ==> r.Some? && r.value.performance <= best.value.performance
    ensures r.Some? ==> r == best || r in candidates
    decreases |candidates|
  {
    if |candidates| == 0 then best
    else BestOf(ImproveBest(best, candidates[0]).0, candidates[1..])
  }

  /** Over any sequence of inner-search results the best pipeline is one of
      them or the initial one, it exists once any of them does, and it is at
      least as good as the initial one and every candidate. */
  lemma {:induction false} BestOfIsMinimum(best: Option<GgpSolution>, candidates: seq<Option<GgpSolution>>)
    ensures var r := BestOf(best, candidates);
      && (r == best || exists i :: 0 <= i < |candidates| && r == candidates[i])
      && (r.None? <==> best.None? && forall i :: 0 <= i < |candidates| ==> candidates[i].None?)
      && (best.Some? ==> r.value.performance <= best.value.performance)
      && (forall i :: 0 <= i < |candidates| && candidates[i].Some? ==> r.value.performance <= candidates[i].value.performance)
    decreases |candidates|
  {
    if |candidates| > 0 {
      var next := ImproveBest(best, candidates[0]).0;
      BestOfIsMinimum(next, candidates[1..]);
      var r := BestOf(best, candidates);
      assert forall i :: 1 <= i < |candidates| ==> candidates[1..][i - 1] == candidates[i];
      if r != next {
        var i :| 0 <= i < |candidates[1..]| && r == candidates[1..][i];
        assert r == candidates[i + 1];
      }
    }
  }
}

=== FILE: genome.dfy ===
/** Reading a genome through a layout: fresh solutions, how a gene is turned
    into a parameter value, when an entry counts as active, and the lookups
    by component and parameter name that both genome handlers offer. */
module Genome {
  import opened Wrappers
  import opened Strings
  import opened Components
  import opened GenomeEntry
  import opened GenomeLayout

  /** A genome the evolutionary framework may hand back: one gene per template,
      of the template's kind and bounds, holding a value within them. */
  predicate Conforms(L: Layout, sol: Solution) {
    && |sol.variables| == |L.templates|
    && forall i :: 0 <= i < |sol.variables| ==>
         SameShape(sol.variables[i], L.templates[i]) && InBounds(sol.variables[i])
  }

  /** `newSolution`: a copy of every template gene and two objectives. */
  function NewSolution(L: Layout): (sol: Solution)
    ensures |sol.variables| == L.NumberOfVariables() && |sol.objectives| == 2
    ensures forall i :: 0 <= i < |sol.variables| ==> sol.variables[i] == L.templates[i]
  {
    Solution(L.templates, [0.0, 0.0])
  }

  /** A gene can be read as parameter `p`: a categorical index names a value. */
  predicate GeneFits(p: Parameter, g: Gene) {
    g.IntGene? && p.domain.Categorical? ==> 0 <= g.value < |p.domain.values|
  }

  /** Every gene entry `e` reads has the kind the reading expects. */
  predicate EntryReadable(e: Entry, sol: Solution) {
    && (e.HasActivationBit() ==>
          e.activationIndex < |sol.variables| && sol.variables[e.activationIndex].Bit?)
    && forall i :: i in e.indexToParameter ==>
         0 <= i < |sol.variables| && GeneFits(e.indexToParameter[i], sol.variables[i])
  }

  predicate Readable(L: Layout, sol: Solution) {
    forall k :: 0 <= k < |L.entries| ==> EntryReadable(L.entries[k], sol)
  }

  /** A fresh solution conforms to the layout it was made from. */
  lemma NewSolutionConforms(L: Layout, s: Settings)
    requires WellFormed(L, s)
    ensures Conforms(L, NewSolution(L))
  {
    var sol := NewSolution(L);
    forall i | 0 <= i < |sol.variables|
      ensures SameShape(sol.variables[i], L.templates[i]) && InBounds(sol.variables[i])
    {
      var k := L.owner[i];
      assert EntryWellFormed(L, s, k);
      if i != L.entries[k].activationIndex {
        var p := L.entries[k].indexToParameter[i];
        assert Searchable(p) && L.templates[i] == ParameterVariable(p);
      }
    }
  }

  /** Every conforming genome can be read through a well-formed layout. */
  lemma ConformsReadable(L: Layout, s: Settings, sol: Solution)
    requires WellFormed(L, s) && Conforms(L, sol)
    ensures Readable(L, sol)
  {
    forall k | 0 <= k < |L.entries|
      ensures EntryReadable(L.entries[k], sol)
    {
      assert EntryWellFormed(L, s, k);
      var e := L.entries[k];
      forall i | i in e.indexToParameter
        ensures 0 <= i < |sol.variables| && GeneFits(e.indexToParameter[i], sol.variables[i])
      {
        var p := e.indexToParameter[i];
        assert L.templates[i] == ParameterVariable(p);
        if sol.variables[i].IntGene? && p.domain.Categorical? {
          CategoricalGeneIndexes(p, sol.variables[i].value);
        }
      }
    }
  }

  /** `interpreteParameterVariable`: an integer gene names a categorical value
      or prints as a decimal, a real gene prints as its double, anything else
      reads as the empty string. */
  function Interpret(p: Parameter, g: Gene): (r: string)
    requires GeneFits(p, g)
    ensures g.IntGene? && p.domain.Categorical? ==> r in p.domain.values
    ensures g.IntGene? && !p.domain.Categorical? && IsInt32(g.value) ==> ParseInt(r) == Some(g.value)
    ensures g.RealGene? && g.realValue.NaN? ==> r == "NaN"
    ensures g.Bit? ==> r == ""
  {
    match g
    case IntGene(_, _, v) =>
      if p.domain.Categorical? then p.domain.values[v]
      else
        assert IsInt32(v) ==> ParseInt(IntToString(v)) == Some(v) by {
          if IsInt32(v) {
            ParseIntToString(v);
          }
        }
        IntToString(v)
    case RealGene(_, _, v) => v.Text()
    case Bit(_) => ""
  }

  /** `isComponentActivated`: the activation bit when there is one, otherwise
      whether some parameter gene reads as "true" ignoring case. */
  predicate IsActivated(e: Entry, sol: Solution)
    requires EntryReadable(e, sol)
  {
    if e.HasActivationBit() then sol.variables[e.activationIndex].bit
    else exists i :: i in e.indexToParameter && IsTrue(Interpret(e.indexToParameter[i], sol.variables[i]))
  }

  predicate IsTrue(value: string) {
    ToLower(value) == "true"
  }

  /** An entry without activation bit is active exactly when one of its
      parameter genes reads as "true"; an entry with one follows its bit. */
  lemma ActivationCases(e: Entry, sol: Solution, i: int)
    requires EntryReadable(e, sol)
    ensures e.HasActivationBit() ==> (IsActivated(e, sol) <==> sol.variables[e.activationIndex] == Bit(true))
    ensures !e.HasActivationBit() && i in e.indexToParameter && IsTrue(Interpret(e.indexToParameter[i], sol.variables[i]))
            ==> IsActivated(e, sol)
    ensures !e.HasActivationBit() && e.indexToParameter == map[] ==> !IsActivated(e, sol)
  {
  }

  /** The parameter map of a decoded entry: the fixed values first, then each
      gene's reading under its parameter's name, genes in ascending order. */
  function ParameterValues(e: Entry, sol: Solution): map<string, string>
    requires EntryReadable(e, sol)
  {
    PutParameters(e, sol, e.fixedValues, 0)
  }

  function PutParameters(e: Entry, sol: Solution, m: map<string, string>, i: nat): (r: map<string, string>)
    requires EntryReadable(e, sol)
    ensures r.Keys == m.Keys + set j | j in e.indexToParameter && i <= j :: e.indexToParameter[j].name
    decreases |sol.variables| - i
  {
    if i >= |sol.variables| then
      assert forall j :: j in e.indexToParameter ==> j < i;
      m
    else
      var m1 := if i in e.indexToParameter then m[e.indexToParameter[i].name := Interpret(e.indexToParameter[i], sol.variables[i])] else m;
      var r := PutParameters(e, sol, m1, i + 1);
      assert r.Keys == m.Keys + set j | j in e.indexToParameter && i <= j :: e.indexToParameter[j].name by {
        var later := set j | j in e.indexToParameter && i + 1 <= j :: e.indexToParameter[j].name;
        var here := set j | j in e.indexToParameter && i <= j :: e.indexToParameter[j].name;
        assert here == later + (if i in e.indexToParameter then {e.indexToParameter[i].name} else {});
      }
      r
  }

  /** The decoded parameter map names exactly the entry's parameters. */
  lemma ParameterValuesKeys(e: Entry, sol: Solution)
    requires EntryReadable(e, sol)
    ensures ParameterValues(e, sol).Keys == EntryNames(e)
  {
    assert (set j | j in e.indexToParameter && 0 <= j :: e.indexToParameter[j].name) == NameSet(e.indexToParameter);
  }

  /** A gene whose parameter name no later gene shares is read into the map. */
  lemma {:induction false} PutParametersValue(e: Entry, sol: Solution, m: map<string, string>, i: nat, j: int)
    requires EntryReadable(e, sol)
    requires j in e.indexToParameter && i <= j
    requires forall j' :: j' in e.indexToParameter && j < j' ==> e.indexToParameter[j'].name != e.indexToParameter[j].name
    ensures PutParameters(e, sol, m, i)[e.indexToParameter[j].name] == Interpret(e.indexToParameter[j], sol.variables[j])
    decreases |sol.variables| - i
  {
    var name := e.indexToParameter[j].name;
    var m1 := if i in e.indexToParameter then m[e.indexToParameter[i].name := Interpret(e.indexToParameter[i], sol.variables[i])] else m;
    if i < j {
      PutParametersValue(e, sol, m1, i + 1, j);
    } else {
      PutParametersKept(e, sol, m1, i + 1, name);
    }
  }

  /** Genes from `i` on that do not carry `name` leave its value alone. */
  lemma {:induction false} PutParametersKept(e: Entry, sol: Solution, m: map<string, string>, i: nat, name: string)
    requires EntryReadable(e, sol)
    requires name in m
    requires forall j :: j in e.indexToParameter && i <= j ==> e.indexToParameter[j].name != name
    ensures PutParameters(e, sol, m, i)[name] == m[name]
    decreases |sol.variables| - i
  {
    if i < |sol.variables| {
      var m1 := if i in e.indexToParameter then m[e.indexToParameter[i].name := Interpret(e.indexToParameter[i], sol.variables[i])] else m;
      PutParametersKept(e, sol, m1, i + 1, name);
    }
  }

  /** Fixed single-value parameters without a gene keep their value. */
  lemma ParameterValuesFixed(e: Entry, sol: Solution, name: string)
    requires EntryReadable(e, sol)
    requires name in e.fixedValues && name !in NameSet(e.indexToParameter)
    ensures ParameterValues(e, sol)[name] == e.fixedValues[name]
  {
    forall j | j in e.indexToParameter && 0 <= j
      ensures e.indexToParameter[j].name != name
    {
      assert e.indexToParameter[j].name in NameSet(e.indexToParameter);
    }
    PutParametersKept(e, sol, e.fixedValues, 0, name);
  }

  /** A parameter gene read into the map under its name. */
  lemma ParameterValuesGene(e: Entry, sol: Solution, j: int)
    requires EntryReadable(e, sol)
    requires j in e.indexToParameter
    requires forall j' :: j' in e.indexToParameter && j' != j ==> e.indexToParameter[j'].name != e.indexToParameter[j].name
    ensures ParameterValues(e, sol)[e.indexToParameter[j].name] == Interpret(e.indexToParameter[j], sol.variables[j])
  {
    PutParametersValue(e, sol, e.fixedValues, 0, j);
  }

  // Lookups. The handlers scan their gene-index-to-entry map; with small
  // non-negative Integer keys that scan visits gene indices in ascending order.

  predicate OwnersInRange(L: Layout) {
    forall i :: 0 <= i < |L.owner| ==> L.owner[i] < |L.entries|
  }

  /** The entry owning gene `i` carries a name ending in `name`. */
  predicate GeneMatches(L: Layout, i: int, name: string)
    requires OwnersInRange(L)
  {
    0 <= i < |L.owner| && EndsWith(L.entries[L.owner[i]].name, name)
  }

  /** `getIndexOfComponent`: the first gene whose entry's name ends in `name`, or -1. */
  function IndexOfComponent(L: Layout, name: string): (r: int)
    requires OwnersInRange(L)
    ensures r == -1 || GeneMatches(L, r, name)
    ensures r == -1 <==> forall i :: 0 <= i < |L.owner| ==> !GeneMatches(L, i, name)
    ensures forall i :: 0 <= i < r ==> !GeneMatches(L, i, name)
  {
    FirstMatch(L, name, 0)
  }

  function FirstMatch(L: Layout, name: string, from: nat): (r: int)
    requires OwnersInRange(L)
    ensures r == -1 || (from <= r && GeneMatches(L, r, name))
    ensures r == -1 <==> forall i :: from <= i < |L.owner| ==> !GeneMatches(L, i, name)
    ensures forall i :: from <= i < r ==> !GeneMatches(L, i, name)
    decreases |L.owner| - from
  {
    if from >= |L.owner| then -1
    else if GeneMatches(L, from, name) then from
    else FirstMatch(L, name, from + 1)
  }

  /** With a well-formed layout, looking a component up finds its activation
      gene when no earlier entry's name ends in the queried name. */
  lemma IndexOfComponentFindsActivation(L: Layout, s: Settings, k: nat, name: string)
    requires WellFormed(L, s) && k < |L.entries|
    requires L.entries[k].HasActivationBit() && EndsWith(L.entries[k].name, name)
    requires forall j :: 0 <= j < k ==> !EndsWith(L.entries[j].name, name)
    ensures IndexOfComponent(L, name) == L.entries[k].activationIndex
  {
    var a := L.entries[k].activationIndex;
    assert EntryWellFormed(L, s, k);
    assert GeneMatches(L, a, name);
    forall i | 0 <= i < a
      ensures !GeneMatches(L, i, name)
    {
      assert L.owner[i] <= k;
    }
  }

  /** `getIndexOfParameters`: the gene indices of the entry the component
      lookup finds, or nothing. */
  function IndexOfParameters(L: Layout, name: string): (r: Option<set<int>>)
    requires OwnersInRange(L)
    ensures r.None? <==> IndexOfComponent(L, name) == -1
    ensures r.Some? ==> r.value == L.entries[L.owner[IndexOfComponent(L, name)]].ParameterIndices()
  {
    var i := IndexOfComponent(L, name);
    if i < 0 then None else Some(L.entries[L.owner[i]].ParameterIndices())
  }

  /** Parameter keys of `e` lie in [0, bound). */
  predicate KeysBelow(e: Entry, bound: nat) {
    forall j :: j in e.indexToParameter ==> 0 <= j < bound
  }

  /** The smallest gene index of `e` from `from` on whose parameter is called `pname`, or -1. */
  function FirstParameterNamed(e: Entry, pname: string, from: nat, bound: nat): (r: int)
    ensures r == -1 || (from <= r < bound && r in e.indexToParameter && e.indexToParameter[r].name == pname)
    ensures r == -1 <==> forall j :: from <= j < bound && j in e.indexToParameter ==> e.indexToParameter[j].name != pname
    ensures r != -1 ==> forall j :: from <= j < r && j in e.indexToParameter ==> e.indexToParameter[j].name != pname
    decreases bound - from
  {
    if from >= bound then -1
    else if from in e.indexToParameter && e.indexToParameter[from].name == pname then from
    else FirstParameterNamed(e, pname, from + 1, bound)
  }

  /** The entry owning gene `i` is a match for `name` and has a gene for `pname`. */
  predicate HasParameterGene(L: Layout, i: int, name: string, pname: string)
    requires OwnersInRange(L)
  {
    GeneMatches(L, i, name)
    && exists j :: j in L.entries[L.owner[i]].indexToParameter && L.entries[L.owner[i]].indexToParameter[j].name == pname
  }

  /** `r` is the smallest gene of `e` whose parameter is called `pname`. */
  predicate LeastNamed(e: Entry, pname: string, r: int) {
    r in e.indexToParameter && e.indexToParameter[r].name == pname
    && forall j :: 0 <= j < r && j in e.indexToParameter ==> e.indexToParameter[j].name != pname
  }

  predicate AllKeysBelow(L: Layout) {
    forall k :: 0 <= k < |L.entries| ==> KeysBelow(L.entries[k], |L.owner|)
  }

  /** `getIndexOfParameter`: the gene of parameter `pname` in the first matching
      entry (by gene order) that has one, or -1. Within that entry the
      smallest such gene is taken, as the entry's index set iterates upwards. */
  function IndexOfParameter(L: Layout, name: string, pname: string): (r: int)
    requires OwnersInRange(L) && AllKeysBelow(L)
    ensures r == -1 <==> forall i :: 0 <= i < |L.owner| ==> !HasParameterGene(L, i, name, pname)
    ensures r != -1 ==> exists i :: 0 <= i < |L.owner| && GeneMatches(L, i, name)
                          && r in L.entries[L.owner[i]].indexToParameter
                          && L.entries[L.owner[i]].indexToParameter[r].name == pname
    ensures r != -1 ==> exists i :: 0 <= i < |L.owner| && HasParameterGene(L, i, name, pname)
                          && (forall i' :: 0 <= i' < i ==> !HasParameterGene(L, i', name, pname))
                          && LeastNamed(L.entries[L.owner[i]], pname, r)
  {
    ParameterFromFirst(L, name, pname, 0);
    ParameterFrom(L, name, pname, 0)
  }

  /** The search from gene `from` stops at the first gene whose entry has a
      matching parameter, and takes that entry's smallest such gene. */
  lemma {:induction false} ParameterFromFirst(L: Layout, name: string, pname: string, from: nat)
    requires OwnersInRange(L) && AllKeysBelow(L)
    ensures var r := ParameterFrom(L, name, pname, from);
      r != -1 ==> exists i :: from <= i < |L.owner| && HasParameterGene(L, i, name, pname)
                    && (forall i' :: from <= i' < i ==> !HasParameterGene(L, i', name, pname))
                    && LeastNamed(L.entries[L.owner[i]], pname, r)
    decreases |L.owner| - from
  {
    var r := ParameterFrom(L, name, pname, from);
    if from < |L.owner| && r != -1 {
      var e := L.entries[L.owner[from]];
      var j := if GeneMatches(L, from, name) then FirstParameterNamed(e, pname, 0, |L.owner|) else -1;
      if j >= 0 {
        assert r == j && HasParameterGene(L, from, name, pname) && LeastNamed(e, pname, j);
      } else {
        assert r == ParameterFrom(L, name, pname, from + 1);
        ParameterFromFirst(L, name, pname, from + 1);
        var i :| from + 1 <= i < |L.owner| && HasParameterGene(L, i, name, pname)
                 && (forall i' :: from + 1 <= i' < i ==> !HasParameterGene(L, i', name, pname))
                 && LeastNamed(L.entries[L.owner[i]], pname, r);
        assert !HasParameterGene(L, from, name, pname) by {
          if GeneMatches(L, from, name) {
            forall j' | j' in e.indexToParameter
              ensures e.indexToParameter[j'].name != pname
            {
              assert 0 <= j' < |L.owner|;
            }
          }
        }
      }
    }
  }

  function ParameterFrom(L: Layout, name: string, pname: string, from: nat): (r: int)
    requires OwnersInRange(L) && AllKeysBelow(L)
    ensures r == -1 <==> forall i :: from <= i < |L.owner| ==> !HasParameterGene(L, i, name, pname)
    ensures r != -1 ==> exists i :: from <= i < |L.owner| && GeneMatches(L, i, name)
                          && r in L.entries[L.owner[i]].indexToParameter
                          && L.entries[L.owner[i]].indexToParameter[r].name == pname
    decreases |L.owner| - from
  {
    if from >= |L.owner| then -1
    else
      var e := L.entries[L.owner[from]];
      var j := if GeneMatches(L, from, name) then FirstParameterNamed(e, pname, 0, |L.owner|) else -1;
      if j >= 0 then
        assert HasParameterGene(L, from, name, pname);
        j
      else
        assert !HasParameterGene(L, from, name, pname) by {
          if GeneMatches(L, from, name) {
            forall j' | j' in e.indexToParameter
              ensures e.indexToParameter[j'].name != pname
            {
              assert 0 <= j' < |L.owner|;
            }
          }
        }
        ParameterFrom(L, name, pname, from + 1)
  }

  /** `getPositionInArray`: the first index holding `value`, or -1. */
  function PositionInArray<T(==)>(value: T, xs: seq<T>): (r: int)
    ensures -1 <= r < |xs|
    ensures r >= 0 ==> xs[r] == value && forall j :: 0 <= j < r ==> xs[j] != value
    ensures r == -1 <==> value !in xs
    decreases |xs|
  {
    if |xs| == 0 then -1
    else if xs[|xs| - 1] == value && PositionInArray(value, xs[..|xs| - 1]) == -1 then |xs| - 1
    else PositionInArray(value, xs[..|xs| - 1])
  }

  /** Encoding a categorical value by its position and reading it back gives
      the value: the seed builders and the decoder agree. */
  lemma PositionInterpretRoundTrip(p: Parameter, value: string)
    requires p.domain.Categorical? && value in p.domain.values
    ensures var v := PositionInArray(value, p.domain.values);
      Interpret(p, IntGene(0, |p.domain.values| - 1, v)) == value
  {
  }
}

=== FILE: genome_entry.dfy ===
/** One component's view of the genome (`GenomeComponentEntry`): its optional
    activation gene, the genes of its searchable parameters, and the values of
    its parameters whose domain admits a single value. */
module GenomeEntry {
  import opened Components

  datatype Entry = Entry(
    activationIndex: int,
    name: string,
    indexToParameter: map<int, Parameter>,
    fixedValues: map<string, string>)
  {
    predicate HasActivationBit() {
      activationIndex >= 0
    }

    function ParameterIndices(): set<int> {
      indexToParameter.Keys
    }
  }

  /** The two-argument constructor: no parameters recorded yet. */
  function NewEntry(index: int, name: string): (e: Entry)
    ensures e.HasActivationBit() <==> index >= 0
    ensures e.activationIndex == index && e.name == name
    ensures e.ParameterIndices() == {} && e.fixedValues == map[]
  {
    Entry(index, name, map[], map[])
  }

  /** The name-only constructor: an entry without activation gene. */
  function NamedEntry(name: string): (e: Entry)
    ensures !e.HasActivationBit()
    ensures e.name == name && e.ParameterIndices() == {} && e.fixedValues == map[]
  {
    NewEntry(-1, name)
  }

  /** A categorical domain lists at least one value (the first one is read). */
  predicate HasValue(p: Parameter) {
    p.domain.Categorical? ==> |p.domain.values| >= 1
  }

  /** A parameter gets a gene when its domain admits more than one value. */
  predicate Searchable(p: Parameter) {
    match p.domain
    case Categorical(values) => |values| > 1
    case Numeric(_, lo, hi, _) => lo.value < hi.value
  }

  /** `addParameter`: a searchable parameter is recorded under `index` and the
      call reports true; any other parameter has its single value recorded as
      fixed and the call reports false. */
  function AddParameter(e: Entry, index: int, p: Parameter): (r: (Entry, bool))
    requires HasValue(p)
    ensures r.1 <==> Searchable(p)
    ensures r.0.activationIndex == e.activationIndex && r.0.name == e.name
    ensures r.0.ParameterIndices() == if r.1 then e.ParameterIndices() + {index} else e.ParameterIndices()
    ensures r.1 ==> r.0.indexToParameter == e.indexToParameter[index := p] && r.0.fixedValues == e.fixedValues
    ensures !r.1 ==> r.0.indexToParameter == e.indexToParameter
    ensures !r.1 ==> r.0.fixedValues.Keys == e.fixedValues.Keys + {p.name}
    ensures !r.1 && p.domain.Categorical? ==>
      |p.domain.values| == 1 && r.0.fixedValues[p.name] == p.domain.values[0]
    ensures !r.1 && p.domain.Numeric? ==>
      p.domain.max.value <= p.domain.min.value && r.0.fixedValues[p.name] == p.domain.min.text
  {
    match p.domain
    case Categorical(values) =>
      if |values| > 1 then (e.(indexToParameter := e.indexToParameter[index := p]), true)
      else (e.(fixedValues := e.fixedValues[p.name := values[0]]), false)
    case Numeric(_, lo, hi, _) =>
      if lo.value < hi.value then (e.(indexToParameter := e.indexToParameter[index := p]), true)
      else (e.(fixedValues := e.fixedValues[p.name := lo.text]), false)
  }

  /** `getParameterVariable`: the gene template for a parameter, holding the
      initial value of a fresh variable (the lower bound, or NaN). A categorical
      parameter is an integer gene over the positions of its values. */
  function ParameterVariable(p: Parameter): (g: Gene)
    ensures g.IntGene? <==> (p.domain.Categorical? || p.domain.isInteger)
    ensures p.domain.Categorical? ==>
      g.lower == 0 && g.upper == |p.domain.values| - 1
    ensures p.domain.Numeric? && p.domain.isInteger ==>
      g.lower == IntCast(p.domain.min.value) && g.upper == IntCast(p.domain.max.value)
    ensures p.domain.Numeric? && !p.domain.isInteger ==>
      g.RealGene? && g.lowerBound == p.domain.min.value && g.upperBound == p.domain.max.value && g.realValue.NaN?
    ensures g.IntGene? ==> g.value == g.lower
    ensures Searchable(p) ==> InBounds(g)
  {
    match p.domain
    case Categorical(values) => IntGene(0, |values| - 1, 0)
    case Numeric(isInteger, lo, hi, _) =>
      if isInteger then
        var a, b := IntCast(lo.value), IntCast(hi.value);
        assert lo.value <= hi.value ==> a <= b by {
          if lo.value <= hi.value {
            IntCastMonotone(lo.value, hi.value);
          }
        }
        IntGene(a, b, a)
      else RealGene(lo.value, hi.value, NaN)
  }

  /** Every value a categorical gene can hold names one of the domain's values. */
  lemma CategoricalGeneIndexes(p: Parameter, v: int)
    requires p.domain.Categorical?
    requires ParameterVariable(p).lower <= v <= ParameterVariable(p).upper
    ensures 0 <= v < |p.domain.values|
  {
  }

  /** `equals`: two entries are equal exactly when they differ at most in their
      fixed values. */
  function Equals(a: Entry, b: Entry): (r: bool)
    ensures r <==> a == b.(fixedValues := a.fixedValues)
  {
    a.activationIndex == b.activationIndex && a.indexToParameter == b.indexToParameter && a.name == b.name
  }
}

=== FILE: genome_layout.dfy ===
/** The gene layout both genome handlers build in their constructors: components
    are visited in order, each gets an activation gene when it needs one and then
    one gene per searchable parameter, numbered consecutively from 0. The layout
    also records which entry owns each gene, which entries provide or require
    each interface, and which entries are main entries. */
module GenomeLayout {
  import opened Wrappers
  import opened Strings
  import opened Sequences
  import opened Components
  import opened GenomeEntry
  import opened Ordering

  /** Which components are main components and which of those go without an
      activation gene. */
  datatype Settings = Settings(mainNames: seq<string>, withoutBit: seq<string>)

  datatype Layout = Layout(
    components: seq<Component>,
    entries: seq<Entry>,
    templates: seq<Gene>,
    owner: seq<nat>,
    providers: map<string, seq<nat>>,
    requirers: map<string, seq<nat>>,
    mainEntries: seq<nat>)
  {
    /** `getNumberOfVariables`. */
    function NumberOfVariables(): nat {
      |templates|
    }
  }

  predicate IsMain(c: Component, s: Settings) {
    c.name in s.mainNames
  }

  /** `needsActivationBit`. */
  predicate NeedsActivationBit(c: Component, s: Settings) {
    if IsMain(c, s) then c.name !in s.withoutBit
    else |c.parameters| == 0 && |c.required| == 0
  }

  predicate ParametersHaveValues(c: Component) {
    forall j :: 0 <= j < |c.parameters| ==> HasValue(c.parameters[j])
  }

  function CountSearchable(ps: seq<Parameter>): nat {
    if |ps| == 0 then 0 else (if Searchable(ps[0]) then 1 else 0) + CountSearchable(ps[1..])
  }

  function NamesOf(ps: seq<Parameter>): set<string> {
    set j | 0 <= j < |ps| :: ps[j].name
  }

  /** Every parameter name an entry knows: fixed ones and those with a gene. */
  function EntryNames(e: Entry): set<string> {
    e.fixedValues.Keys + NameSet(e.indexToParameter)
  }

  /** The parameter loop: each searchable parameter takes the next gene index,
      owned by entry `k`. */
  function AddParameters(e: Entry, k: nat, ps: seq<Parameter>, templates: seq<Gene>, owner: seq<nat>)
    : (r: (Entry, seq<Gene>, seq<nat>))
    requires forall j :: 0 <= j < |ps| ==> HasValue(ps[j])
    requires |templates| == |owner|
    requires forall i :: i in e.indexToParameter ==> i < |templates|
    ensures |r.1| == |r.2| && |templates| <= |r.1|
    ensures forall i :: i in r.0.indexToParameter ==> i < |r.1|
    decreases |ps|
  {
    if |ps| == 0 then (e, templates, owner)
    else
      var step := AddParameter(e, |templates|, ps[0]);
      if step.1 then AddParameters(step.0, k, ps[1..], templates + [ParameterVariable(ps[0])], owner + [k])
      else AddParameters(step.0, k, ps[1..], templates, owner)
  }

  /** `after` is `before` followed by copies of `k` only. */
  predicate ExtendsWith(before: seq<nat>, after: seq<nat>, k: nat) {
    |before| <= |after| && after[..|before|] == before
    && forall x :: |before| <= x < |after| ==> after[x] == k
  }

  /** The parameter loop appends genes owned by `k` only and keeps what was there. */
  lemma {:induction false} AddParametersAppends(e: Entry, k: nat, ps: seq<Parameter>, templates: seq<Gene>, owner: seq<nat>)
    requires forall j :: 0 <= j < |ps| ==> HasValue(ps[j])
    requires |templates| == |owner|
    requires forall i :: i in e.indexToParameter ==> i < |templates|
    ensures var r := AddParameters(e, k, ps, templates, owner);
      && r.1[..|templates|] == templates
      && ExtendsWith(owner, r.2, k)
      && r.0.activationIndex == e.activationIndex && r.0.name == e.name
      && |r.1| - |templates| == CountSearchable(ps)
    decreases |ps|
  {
    if |ps| > 0 {
      var step := AddParameter(e, |templates|, ps[0]);
      if step.1 {
        var t1, o1 := templates + [ParameterVariable(ps[0])], owner + [k];
        AddParametersAppends(step.0, k, ps[1..], t1, o1);
        var r := AddParameters(step.0, k, ps[1..], t1, o1);
        assert r.1[..|templates|] == r.1[..|t1|][..|templates|];
        ExtendsWithTransitive(owner, o1, r.2, k);
      } else {
        AddParametersAppends(step.0, k, ps[1..], templates, owner);
      }
    }
  }

  /** The genes from `templates` on each belong to a searchable parameter of
      `r`'s entry that `e` did not index, with the matching template; the
      parameters `e` indexed stay. */
  ghost predicate GenesGiven(e: Entry, templates: seq<Gene>, r: (Entry, seq<Gene>, seq<nat>)) {
    && (forall i :: i in r.0.indexToParameter <==> (i in e.indexToParameter || |templates| <= i < |r.1|))
    && (forall i :: i in e.indexToParameter ==> r.0.indexToParameter[i] == e.indexToParameter[i])
    && (forall i :: |templates| <= i < |r.1| ==>
          Searchable(r.0.indexToParameter[i]) && r.1[i] == ParameterVariable(r.0.indexToParameter[i]))
  }

  /** The parameter loop gives each new gene to a searchable parameter with the
      matching template and leaves earlier genes' parameters alone. */
  lemma {:induction false} AddParametersGenes(e: Entry, k: nat, ps: seq<Parameter>, templates: seq<Gene>, owner: seq<nat>)
    requires forall j :: 0 <= j < |ps| ==> HasValue(ps[j])
    requires |templates| == |owner|
    requires forall i :: i in e.indexToParameter ==> i < |templates|
    ensures GenesGiven(e, templates, AddParameters(e, k, ps, templates, owner))
    decreases |ps|, 1
  {
    if |ps| > 0 {
      if AddParameter(e, |templates|, ps[0]).1 {
        AddParametersGenesSearchable(e, k, ps, templates, owner);
      } else {
        AddParametersGenes(AddParameter(e, |templates|, ps[0]).0, k, ps[1..], templates, owner);
      }
    } else {
      assert AddParameters(e, k, ps, templates, owner) == (e, templates, owner);
    }
  }

  /** A searchable first parameter gets the next gene, and the rest of the
      loop goes on after it. */
  lemma {:induction false} AddParametersGenesSearchable(e: Entry, k: nat, ps: seq<Parameter>, templates: seq<Gene>,
                                                        owner: seq<nat>)
    requires forall j :: 0 <= j < |ps| ==> HasValue(ps[j])
    requires |templates| == |owner|
    requires forall i :: i in e.indexToParameter ==> i < |templates|
    requires |ps| > 0 && AddParameter(e, |templates|, ps[0]).1
    ensures GenesGiven(e, templates, AddParameters(e, k, ps, templates, owner))
    decreases |ps|, 0
  {
    var step := AddParameter(e, |templates|, ps[0]);
    var t1, o1 := templates + [ParameterVariable(ps[0])], owner + [k];
    AddParametersGenes(step.0, k, ps[1..], t1, o1);
    AddParametersAppends(step.0, k, ps[1..], t1, o1);
    var r := AddParameters(step.0, k, ps[1..], t1, o1);
    assert r.1[|templates|] == r.1[..|t1|][|templates|];
    GenesGivenFirst(e, step.0, templates, ps[0], r);
  }

  /** Gene `|templates|` going to a new searchable parameter `p`, then the
      later genes going to later parameters, give the genes from
      `|templates|` on. */
  lemma GenesGivenFirst(e: Entry, e1: Entry, templates: seq<Gene>, p: Parameter, r: (Entry, seq<Gene>, seq<nat>))
    requires forall i :: i in e.indexToParameter ==> i < |templates|
    requires Searchable(p) && e1.indexToParameter == e.indexToParameter[|templates| := p]
    requires |r.1| > |templates| && r.1[|templates|] == ParameterVariable(p)
    requires GenesGiven(e1, templates + [ParameterVariable(p)], r)
    ensures GenesGiven(e, templates, r)
  {
  }

  function NameSet(m: map<int, Parameter>): set<string> {
    set i | i in m :: m[i].name
  }

  lemma NameSetUpdate(m: map<int, Parameter>, index: int, p: Parameter)
    requires index !in m
    ensures NameSet(m[index := p]) == NameSet(m) + {p.name}
  {
    var m1 := m[index := p];
    forall x | x in NameSet(m1)
      ensures x in NameSet(m) + {p.name}
    {
      var i :| i in m1 && m1[i].name == x;
      if i != index {
        assert m[i].name == x;
      }
    }
    forall x | x in NameSet(m)
      ensures x in NameSet(m1)
    {
      var i :| i in m && m[i].name == x;
      assert m1[i].name == x;
    }
    assert m1[index].name == p.name;
  }

  /** Recording one parameter adds its name to those the entry knows. */
  lemma AddParameterNames(e: Entry, index: int, p: Parameter)
    requires HasValue(p) && index !in e.indexToParameter
    ensures EntryNames(AddParameter(e, index, p).0) == EntryNames(e) + {p.name}
  {
    var m := e.indexToParameter;
    if Searchable(p) {
      NameSetUpdate(m, index, p);
    }
  }

  /** Recording one parameter adds a gene exactly when it is searchable. */
  lemma AddParameterCount(e: Entry, index: int, p: Parameter)
    requires HasValue(p) && index !in e.indexToParameter
    ensures |AddParameter(e, index, p).0.indexToParameter| == |e.indexToParameter| + (if Searchable(p) then 1 else 0)
  {
  }

  lemma NamesOfCons(ps: seq<Parameter>)
    requires |ps| > 0
    ensures NamesOf(ps) == {ps[0].name} + NamesOf(ps[1..])
  {
    assert forall j :: 0 < j < |ps| ==> ps[j] == ps[1..][j - 1];
  }

  /** After the parameter loop the entry knows every parameter name of the
      component, fixed or searchable. */
  lemma {:induction false} AddParametersNames(e: Entry, k: nat, ps: seq<Parameter>, templates: seq<Gene>, owner: seq<nat>)
    requires forall j :: 0 <= j < |ps| ==> HasValue(ps[j])
    requires |templates| == |owner|
    requires forall i :: i in e.indexToParameter ==> i < |templates|
    ensures EntryNames(AddParameters(e, k, ps, templates, owner).0) == EntryNames(e) + NamesOf(ps)
    decreases |ps|
  {
    if |ps| > 0 {
      var p := ps[0];
      var step := AddParameter(e, |templates|, p);
      NamesOfCons(ps);
      AddParameterNames(e, |templates|, p);
      if step.1 {
        AddParametersNames(step.0, k, ps[1..], templates + [ParameterVariable(p)], owner + [k]);
      } else {
        AddParametersNames(step.0, k, ps[1..], templates, owner);
      }
    }
  }

  /** After the parameter loop the entry holds one gene per searchable parameter. */
  lemma {:induction false} AddParametersCount(e: Entry, k: nat, ps: seq<Parameter>, templates: seq<Gene>, owner: seq<nat>)
    requires forall j :: 0 <= j < |ps| ==> HasValue(ps[j])
    requires |templates| == |owner|
    requires forall i :: i in e.indexToParameter ==> i < |templates|
    ensures |AddParameters(e, k, ps, templates, owner).0.indexToParameter| == |e.indexToParameter| + CountSearchable(ps)
    decreases |ps|
  {
    if |ps| > 0 {
      var p := ps[0];
      var step := AddParameter(e, |templates|, p);
      AddParameterCount(e, |templates|, p);
      if step.1 {
        AddParametersCount(step.0, k, ps[1..], templates + [ParameterVariable(p)], owner + [k]);
      } else {
        AddParametersCount(step.0, k, ps[1..], templates, owner);
      }
    }
  }

  function OldList(m: map<string, seq<nat>>, key: string): seq<nat> {
    if key in m then m[key] else []
  }

  /** Appends `k` to the list of every key, creating missing lists. */
  function AddToLists(m: map<string, seq<nat>>, keys: seq<string>, k: nat): (r: map<string, seq<nat>>)
    ensures r.Keys == m.Keys + set j | 0 <= j < |keys| :: keys[j]
    decreases |keys|
  {
    if |keys| == 0 then m
    else
      assert forall j :: 0 < j < |keys| ==> keys[j] == keys[1..][j - 1];
      AddToLists(m[keys[0] := OldList(m, keys[0]) + [k]], keys[1..], k)
  }

  lemma ExtendsWithTransitive(a: seq<nat>, b: seq<nat>, c: seq<nat>, k: nat)
    requires ExtendsWith(a, b, k) && ExtendsWith(b, c, k)
    ensures ExtendsWith(a, c, k)
  {
    assert c[..|a|] == c[..|b|][..|a|];
  }

  /** Every list only grows, and only by `k`. */
  lemma {:induction false} AddToListsExtends(m: map<string, seq<nat>>, keys: seq<string>, k: nat, key: string)
    requires key in AddToLists(m, keys, k)
    ensures ExtendsWith(OldList(m, key), AddToLists(m, keys, k)[key], k)
    decreases |keys|
  {
    if |keys| == 0 {
      assert AddToLists(m, keys, k)[key][..|OldList(m, key)|] == OldList(m, key);
    } else {
      var m1 := m[keys[0] := OldList(m, keys[0]) + [k]];
      AddToListsExtends(m1, keys[1..], k, key);
      ExtendsWithTransitive(OldList(m, key), OldList(m1, key), AddToLists(m, keys, k)[key], k);
    }
  }

  /** Every key's list ends up holding `k`. */
  lemma {:induction false} AddToListsContains(m: map<string, seq<nat>>, keys: seq<string>, k: nat)
    ensures var r := AddToLists(m, keys, k);
      forall key :: key in keys ==> key in r && k in r[key]
    decreases |keys|
  {
    if |keys| > 0 {
      var m1 := m[keys[0] := OldList(m, keys[0]) + [k]];
      AddToListsContains(m1, keys[1..], k);
      var r := AddToLists(m, keys, k);
      assert r == AddToLists(m1, keys[1..], k);
      var key := keys[0];
      var b := OldList(m1, key);
      assert key in r;
      AddToListsExtends(m1, keys[1..], k, key);
      assert r[key][|b| - 1] == b[|b| - 1] == k;
      forall key2 | key2 in keys
        ensures key2 in r && k in r[key2]
      {
        if key2 != key {
          assert key2 in keys[1..];
        }
      }
    }
  }

  function RequiredNames(ris: seq<RequiredInterface>): (r: seq<string>)
    ensures |r| == |ris| && forall j :: 0 <= j < |ris| ==> r[j] == ris[j].name
  {
    seq(|ris|, j requires 0 <= j < |ris| => ris[j].name)
  }

  /** `setupComponentToGenomeRepresentation` for the next component. */
  function SetupComponent(L: Layout, c: Component, s: Settings): (L1: Layout)
    requires ParametersHaveValues(c)
    requires |L.templates| == |L.owner|
    requires forall k, i :: 0 <= k < |L.entries| && i in L.entries[k].indexToParameter ==> i < |L.templates|
    ensures |L1.entries| == |L.entries| + 1 && L1.entries[..|L.entries|] == L.entries
    ensures L1.components == L.components + [c]
    ensures L1.mainEntries == if IsMain(c, s) then L.mainEntries + [|L.entries|] else L.mainEntries
  {
    var k := |L.entries|;
    var n := |L.templates|;
    var bit := NeedsActivationBit(c, s);
    var e := if bit then NewEntry(n, c.name) else NamedEntry(c.name);
    var templates := if bit then L.templates + [Bit(false)] else L.templates;
    var owner := if bit then L.owner + [k] else L.owner;
    var mains := if IsMain(c, s) then L.mainEntries + [k] else L.mainEntries;
    var requirers := AddToLists(L.requirers, RequiredNames(c.required), k);
    var providers := AddToLists(L.providers, c.provided, k);
    var r := AddParameters(e, k, c.parameters, templates, owner);
    Layout(L.components + [c], L.entries + [r.0], r.1, r.2, providers, requirers, mains)
  }

  predicate AllParametersHaveValues(cs: seq<Component>) {
    forall k :: 0 <= k < |cs| ==> ParametersHaveValues(cs[k])
  }

  /** The index structure: genes numbered consecutively, each owned by one entry,
      entries' genes forming consecutive blocks with the activation gene first. */
  predicate WellFormed(L: Layout, s: Settings) {
    && |L.components| == |L.entries|
    && |L.templates| == |L.owner|
    && (forall i :: 0 <= i < |L.owner| ==> L.owner[i] < |L.entries|)
    && (forall i, j :: 0 <= i < j < |L.owner| ==> L.owner[i] <= L.owner[j])
    && (forall k :: 0 <= k < |L.entries| ==> EntryWellFormed(L, s, k))
    && (forall i :: 0 <= i < |L.owner| ==>
          i == L.entries[L.owner[i]].activationIndex || i in L.entries[L.owner[i]].indexToParameter)
  }

  predicate EntryWellFormed(L: Layout, s: Settings, k: nat)
    requires k < |L.entries| && |L.components| == |L.entries| && |L.templates| == |L.owner|
  {
    var e := L.entries[k];
    && e.name == L.components[k].name
    && (e.HasActivationBit() <==> NeedsActivationBit(L.components[k], s))
    && (e.HasActivationBit() ==>
          e.activationIndex < |L.templates| && L.owner[e.activationIndex] == k
          && L.templates[e.activationIndex] == Bit(false)
          && forall i :: i in e.indexToParameter ==> e.activationIndex < i)
    && (forall i :: i in e.indexToParameter ==>
          0 <= i < |L.templates| && L.owner[i] == k && Searchable(e.indexToParameter[i])
          && L.templates[i] == ParameterVariable(e.indexToParameter[i]))
    && |e.indexToParameter| == CountSearchable(L.components[k].parameters)
    && EntryNames(e) == NamesOf(L.components[k].parameters)
  }

  /** The interfaces a component provides, or those it requires. */
  function Interfaces(c: Component, provided: bool): seq<string> {
    if provided then c.provided else RequiredNames(c.required)
  }

  /** Main entries listed in ascending order, exactly the main components. */
  predicate MainsConsistent(L: Layout, s: Settings) {
    && (forall x :: 0 <= x < |L.mainEntries| ==> L.mainEntries[x] < |L.components| && IsMain(L.components[L.mainEntries[x]], s))
    && (forall k :: 0 <= k < |L.components| && IsMain(L.components[k], s) ==> k in L.mainEntries)
    && (forall x, y :: 0 <= x < y < |L.mainEntries| ==> L.mainEntries[x] < L.mainEntries[y])
  }

  /** `list` holds, in non-decreasing order, entries providing (or requiring)
      interface `name`. */
  predicate ListsEntriesWith(L: Layout, list: seq<nat>, name: string, provided: bool) {
    && (forall x :: 0 <= x < |list| ==>
          list[x] < |L.components| && name in Interfaces(L.components[list[x]], provided))
    && (forall x, y :: 0 <= x < y < |list| ==> list[x] <= list[y])
  }

  /** Every list of `m` is ordered and correct, and every component is listed
      under each interface it provides (or requires). */
  predicate ListsConsistent(L: Layout, m: map<string, seq<nat>>, provided: bool) {
    && (forall name :: name in m ==> ListsEntriesWith(L, m[name], name, provided))
    && (forall name, k :: 0 <= k < |L.components| && name in Interfaces(L.components[k], provided) ==>
          name in m && k in m[name])
  }

  predicate IndexesConsistent(L: Layout, s: Settings) {
    && MainsConsistent(L, s)
    && ListsConsistent(L, L.providers, true)
    && ListsConsistent(L, L.requirers, false)
  }

  function EmptyLayout(): Layout {
    Layout([], [], [], [], map[], map[], [])
  }

  /** The constructor's loop over the components in the given order. */
  function Build(cs: seq<Component>, s: Settings): (L: Layout)
    requires AllParametersHaveValues(cs)
    ensures |L.templates| == |L.owner|
    ensures forall k, i :: 0 <= k < |L.entries| && i in L.entries[k].indexToParameter ==> i < |L.templates|
    ensures |L.entries| == |cs|
    decreases |cs|
  {
    if |cs| == 0 then EmptyLayout()
    else
      var L0 := Build(cs[..|cs| - 1], s);
      var L := SetupComponent(L0, cs[|cs| - 1], s);
      assert forall k, i :: 0 <= k < |L.entries| && i in L.entries[k].indexToParameter ==> i < |L.templates| by {
        forall k, i | 0 <= k < |L.entries| && i in L.entries[k].indexToParameter
          ensures i < |L.templates|
        {
          if k < |L0.entries| {
            assert L.entries[k] == L0.entries[k];
          }
        }
      }
      L
  }

  /** `L1` continues `L`: everything `L` recorded is kept as a prefix. */
  predicate Continues(L: Layout, L1: Layout) {
    && |L.entries| <= |L1.entries| && L1.entries[..|L.entries|] == L.entries
    && |L.components| <= |L1.components| && L1.components[..|L.components|] == L.components
    && |L.templates| <= |L1.templates| && L1.templates[..|L.templates|] == L.templates
    && |L.owner| <= |L1.owner| && L1.owner[..|L.owner|] == L.owner
  }

  /** The step keeps everything recorded so far and appends the new entry. */
  lemma SetupComponentPrefix(L: Layout, c: Component, s: Settings)
    requires ParametersHaveValues(c)
    requires |L.templates| == |L.owner|
    requires forall k, i :: 0 <= k < |L.entries| && i in L.entries[k].indexToParameter ==> i < |L.templates|
    ensures var L1, k, n := SetupComponent(L, c, s), |L.entries|, |L.templates|;
      && Continues(L, L1)
      && |L1.entries| == k + 1 && |L1.components| == |L.components| + 1
      && L1.components[|L.components|] == c && L1.entries[k].name == c.name
      && |L1.templates| == |L1.owner|
      && (forall i :: n <= i < |L1.owner| ==> L1.owner[i] == k)
  {
    var k, n := |L.entries|, |L.templates|;
    var bit := NeedsActivationBit(c, s);
    var e := if bit then NewEntry(n, c.name) else NamedEntry(c.name);
    var templates := if bit then L.templates + [Bit(false)] else L.templates;
    var owner := if bit then L.owner + [k] else L.owner;
    AddParametersAppends(e, k, c.parameters, templates, owner);
    var r := AddParameters(e, k, c.parameters, templates, owner);
    if bit {
      assert r.1[..n] == r.1[..|templates|][..n];
      assert r.2[..n] == r.2[..|owner|][..n];
      ExtendsWithTransitive(L.owner, owner, r.2, k);
    }
  }

  /** The new entry has an activation gene exactly when it needs one, placed
      first among its genes and initially false. */
  lemma SetupComponentActivation(L: Layout, c: Component, s: Settings)
    requires ParametersHaveValues(c)
    requires |L.templates| == |L.owner|
    requires forall k, i :: 0 <= k < |L.entries| && i in L.entries[k].indexToParameter ==> i < |L.templates|
    ensures var L1, k, n := SetupComponent(L, c, s), |L.entries|, |L.templates|;
      && k < |L1.entries|
      && (L1.entries[k].HasActivationBit() <==> NeedsActivationBit(c, s))
      && (L1.entries[k].HasActivationBit() ==>
            L1.entries[k].activationIndex == n && n < |L1.templates| && L1.templates[n] == Bit(false))
  {
    var k, n := |L.entries|, |L.templates|;
    var bit := NeedsActivationBit(c, s);
    var e := if bit then NewEntry(n, c.name) else NamedEntry(c.name);
    var templates := if bit then L.templates + [Bit(false)] else L.templates;
    var owner := if bit then L.owner + [k] else L.owner;
    AddParametersAppends(e, k, c.parameters, templates, owner);
    var r := AddParameters(e, k, c.parameters, templates, owner);
    if bit {
      assert r.1[n] == r.1[..|templates|][n];
    }
  }

  /** The new entry's parameter genes are the remaining new genes. */
  lemma SetupComponentParameters(L: Layout, c: Component, s: Settings)
    requires ParametersHaveValues(c)
    requires |L.templates| == |L.owner|
    requires forall k, i :: 0 <= k < |L.entries| && i in L.entries[k].indexToParameter ==> i < |L.templates|
    ensures var L1, k, n := SetupComponent(L, c, s), |L.entries|, |L.templates|;
      && k < |L1.entries|
      && (forall i :: i in L1.entries[k].indexToParameter <==>
            ((if NeedsActivationBit(c, s) then n + 1 else n) <= i < |L1.templates|))
      && (forall i :: i in L1.entries[k].indexToParameter ==>
            Searchable(L1.entries[k].indexToParameter[i])
            && L1.templates[i] == ParameterVariable(L1.entries[k].indexToParameter[i]))
  {
    var k, n := |L.entries|, |L.templates|;
    var bit := NeedsActivationBit(c, s);
    var e := if bit then NewEntry(n, c.name) else NamedEntry(c.name);
    var templates := if bit then L.templates + [Bit(false)] else L.templates;
    var owner := if bit then L.owner + [k] else L.owner;
    AddParametersGenes(e, k, c.parameters, templates, owner);
  }

  /** The new entry knows all parameter names and has one gene per searchable parameter. */
  lemma SetupComponentNames(L: Layout, c: Component, s: Settings)
    requires ParametersHaveValues(c)
    requires |L.templates| == |L.owner|
    requires forall k, i :: 0 <= k < |L.entries| && i in L.entries[k].indexToParameter ==> i < |L.templates|
    ensures var L1, k := SetupComponent(L, c, s), |L.entries|;
      && k < |L1.entries|
      && |L1.entries[k].indexToParameter| == CountSearchable(c.parameters)
      && EntryNames(L1.entries[k]) == NamesOf(c.parameters)
  {
    SetupComponentCount(L, c, s);
    SetupComponentNameSet(L, c, s);
  }

  lemma SetupComponentCount(L: Layout, c: Component, s: Settings)
    requires ParametersHaveValues(c)
    requires |L.templates| == |L.owner|
    requires forall k, i :: 0 <= k < |L.entries| && i in L.entries[k].indexToParameter ==> i < |L.templates|
    ensures var L1, k := SetupComponent(L, c, s), |L.entries|;
      k < |L1.entries| && |L1.entries[k].indexToParameter| == CountSearchable(c.parameters)
  {
    var k, n := |L.entries|, |L.templates|;
    var bit := NeedsActivationBit(c, s);
    var e := if bit then NewEntry(n, c.name) else NamedEntry(c.name);
    var templates := if bit then L.templates + [Bit(false)] else L.templates;
    var owner := if bit then L.owner + [k] else L.owner;
    AddParametersCount(e, k, c.parameters, templates, owner);
  }

  lemma SetupComponentNameSet(L: Layout, c: Component, s: Settings)
    requires ParametersHaveValues(c)
    requires |L.templates| == |L.owner|
    requires forall k, i :: 0 <= k < |L.entries| && i in L.entries[k].indexToParameter ==> i < |L.templates|
    ensures var L1, k := SetupComponent(L, c, s), |L.entries|;
      k < |L1.entries| && EntryNames(L1.entries[k]) == NamesOf(c.parameters)
  {
    var k, n := |L.entries|, |L.templates|;
    var bit := NeedsActivationBit(c, s);
    var e := if bit then NewEntry(n, c.name) else NamedEntry(c.name);
    var templates := if bit then L.templates + [Bit(false)] else L.templates;
    var owner := if bit then L.owner + [k] else L.owner;
    AddParametersNames(e, k, c.parameters, templates, owner);
    FreshEntryNames(e);
  }

  lemma FreshEntryNames(e: Entry)
    requires e.fixedValues == map[] && e.indexToParameter == map[]
    ensures EntryNames(e) == {}
  {
  }

  /** Setting up one more component keeps the layout well formed. */
  lemma SetupComponentWellFormed(L: Layout, c: Component, s: Settings)
    requires ParametersHaveValues(c)
    requires WellFormed(L, s)
    requires forall k, i :: 0 <= k < |L.entries| && i in L.entries[k].indexToParameter ==> i < |L.templates|
    ensures WellFormed(SetupComponent(L, c, s), s)
  {
    var L1, k, n := SetupComponent(L, c, s), |L.entries|, |L.templates|;
    SetupComponentPrefix(L, c, s);
    forall j | 0 <= j < |L1.entries|
      ensures EntryWellFormed(L1, s, j)
    {
      if j == k {
        SetupComponentActivation(L, c, s);
        SetupComponentParameters(L, c, s);
        SetupComponentNames(L, c, s);
      } else {
        assert L1.entries[j] == L.entries[j] && L1.components[j] == L.components[j];
        assert EntryWellFormed(L, s, j);
        var e := L.entries[j];
        forall i | i in e.indexToParameter
          ensures L1.owner[i] == L.owner[i] && L1.templates[i] == L.templates[i]
        {
          assert L1.owner[..n][i] == L.owner[i];
          assert L1.templates[..n][i] == L.templates[i];
        }
        if e.HasActivationBit() {
          assert L1.owner[..n][e.activationIndex] == L.owner[e.activationIndex];
          assert L1.templates[..n][e.activationIndex] == L.templates[e.activationIndex];
        }
      }
    }
    forall i | 0 <= i < |L1.owner|
      ensures L1.owner[i] < |L1.entries|
      ensures i == L1.entries[L1.owner[i]].activationIndex || i in L1.entries[L1.owner[i]].indexToParameter
    {
      if i >= n {
        SetupComponentActivation(L, c, s);
        SetupComponentParameters(L, c, s);
      } else {
        assert L1.owner[..n][i] == L.owner[i];
        assert L1.entries[L.owner[i]] == L.entries[L.owner[i]];
      }
    }
    forall i, j | 0 <= i < j < |L1.owner|
      ensures L1.owner[i] <= L1.owner[j]
    {
      if j < n {
        assert L1.owner[..n][i] == L.owner[i] && L1.owner[..n][j] == L.owner[j];
      } else if i < n {
        assert L1.owner[..n][i] == L.owner[i];
      }
    }
  }

  /** The constructor's loop yields a well-formed layout of exactly the given
      components, in the given order. */
  lemma {:induction false} BuildWellFormed(cs: seq<Component>, s: Settings)
    requires AllParametersHaveValues(cs)
    ensures WellFormed(Build(cs, s), s)
    ensures Build(cs, s).components == cs
    decreases |cs|, 1
  {
    if |cs| > 0 {
      BuildWellFormedStep(cs, s);
    }
  }

  /** The step of `BuildWellFormed`: the last component is set up on the
      layout built from the others. */
  lemma {:induction false} BuildWellFormedStep(cs: seq<Component>, s: Settings)
    requires AllParametersHaveValues(cs) && |cs| > 0
    ensures WellFormed(Build(cs, s), s)
    ensures Build(cs, s).components == cs
    decreases |cs|, 0
  {
    var front, c := cs[..|cs| - 1], cs[|cs| - 1];
    var L0 := Build(front, s);
    BuildLast(cs, s);
    BuildWellFormed(front, s);
    SetupComponentWellFormed(L0, c, s);
    SetupComponentComponents(L0, c, s);
    FrontAndLast(cs);
  }

  /** The constructor's loop sets up the last component last. */
  lemma BuildLast(cs: seq<Component>, s: Settings)
    requires AllParametersHaveValues(cs) && |cs| > 0
    ensures Build(cs, s) == SetupComponent(Build(cs[..|cs| - 1], s), cs[|cs| - 1], s)
  {
  }

  /** A step appends its component. */
  lemma SetupComponentComponents(L: Layout, c: Component, s: Settings)
    requires ParametersHaveValues(c)
    requires |L.templates| == |L.owner|
    requires forall k, i :: 0 <= k < |L.entries| && i in L.entries[k].indexToParameter ==> i < |L.templates|
    ensures SetupComponent(L, c, s).components == L.components + [c]
  {
  }

  /** Keys not mentioned keep their lists. */
  lemma {:induction false} AddToListsUntouched(m: map<string, seq<nat>>, keys: seq<string>, k: nat, key: string)
    requires key in m && key !in keys
    ensures key in AddToLists(m, keys, k) && AddToLists(m, keys, k)[key] == m[key]
    decreases |keys|
  {
    if |keys| > 0 {
      var m1 := m[keys[0] := OldList(m, keys[0]) + [k]];
      assert key !in keys[1..];
      AddToListsUntouched(m1, keys[1..], k, key);
    }
  }

  /** One interface list after a step: still ordered, and it holds the new entry
      exactly when the new component names the interface. */
  lemma AddToListsConsistent(L: Layout, m: map<string, seq<nat>>, name: string,
                             c: Component, provided: bool, L1: Layout)
    requires |L.components| == |L.entries|
    requires name in m ==> ListsEntriesWith(L, m[name], name, provided)
    requires L1.components == L.components + [c]
    requires name in AddToLists(m, Interfaces(c, provided), |L.entries|)
    ensures ListsEntriesWith(L1, AddToLists(m, Interfaces(c, provided), |L.entries|)[name], name, provided)
  {
    var k, keys := |L.entries|, Interfaces(c, provided);
    var r := AddToLists(m, keys, k);
    var before := OldList(m, name);
    AddToListsExtends(m, keys, k, name);
    if name !in keys {
      AddToListsUntouched(m, keys, k, name);
    }
    forall x | 0 <= x < |r[name]|
      ensures r[name][x] < |L1.components| && name in Interfaces(L1.components[r[name][x]], provided)
    {
      if x < |before| {
        assert r[name][x] == r[name][..|before|][x] == before[x];
        assert L1.components[before[x]] == L.components[before[x]];
      } else {
        assert r[name][x] == k;
      }
    }
    forall x, y | 0 <= x < y < |r[name]|
      ensures r[name][x] <= r[name][y]
    {
      if y < |before| {
        assert r[name][x] == r[name][..|before|][x] && r[name][y] == r[name][..|before|][y];
      } else if x < |before| {
        assert r[name][x] == r[name][..|before|][x];
      }
    }
  }

  /** Appending entry `|L.entries|` under the new component's interfaces keeps a
      family of interface lists consistent. */
  lemma AddToListsStep(L: Layout, m: map<string, seq<nat>>, c: Component, provided: bool, L1: Layout)
    requires |L.components| == |L.entries|
    requires ListsConsistent(L, m, provided)
    requires L1.components == L.components + [c]
    ensures ListsConsistent(L1, AddToLists(m, Interfaces(c, provided), |L.entries|), provided)
  {
    var k, keys := |L.entries|, Interfaces(c, provided);
    var r := AddToLists(m, keys, k);
    forall name | name in r
      ensures ListsEntriesWith(L1, r[name], name, provided)
    {
      AddToListsConsistent(L, m, name, c, provided, L1);
    }
    forall name, j | 0 <= j < |L1.components| && name in Interfaces(L1.components[j], provided)
      ensures name in r && j in r[name]
    {
      if j == k {
        AddToListsContains(m, keys, k);
      } else {
        assert L1.components[j] == L.components[j];
        AddToListsExtends(m, keys, k, name);
        assert r[name][..|m[name]|] == m[name];
        var x :| 0 <= x < |m[name]| && m[name][x] == j;
        assert r[name][x] == j;
      }
    }
  }

  /** Appending entry `|L.components|` when the new component is main keeps the
      main entries consistent. */
  lemma MainsStep(L: Layout, c: Component, s: Settings, L1: Layout)
    requires MainsConsistent(L, s)
    requires L1.components == L.components + [c]
    requires L1.mainEntries == if IsMain(c, s) then L.mainEntries + [|L.components|] else L.mainEntries
    ensures MainsConsistent(L1, s)
  {
    MainsStepListed(L, c, s, L1);
    MainsStepComplete(L, c, s, L1);
    MainsStepOrdered(L, c, s, L1);
  }

  lemma MainsStepListed(L: Layout, c: Component, s: Settings, L1: Layout)
    requires MainsConsistent(L, s)
    requires L1.components == L.components + [c]
    requires L1.mainEntries == if IsMain(c, s) then L.mainEntries + [|L.components|] else L.mainEntries
    ensures forall x :: 0 <= x < |L1.mainEntries| ==>
      L1.mainEntries[x] < |L1.components| && IsMain(L1.components[L1.mainEntries[x]], s)
  {
    forall x | 0 <= x < |L1.mainEntries|
      ensures L1.mainEntries[x] < |L1.components| && IsMain(L1.components[L1.mainEntries[x]], s)
    {
      if x < |L.mainEntries| {
        assert L1.mainEntries[x] == L.mainEntries[x];
        assert L1.components[L.mainEntries[x]] == L.components[L.mainEntries[x]];
      }
    }
  }

  lemma MainsStepComplete(L: Layout, c: Component, s: Settings, L1: Layout)
    requires MainsConsistent(L, s)
    requires L1.components == L.components + [c]
    requires L1.mainEntries == if IsMain(c, s) then L.mainEntries + [|L.components|] else L.mainEntries
    ensures forall k :: 0 <= k < |L1.components| && IsMain(L1.components[k], s) ==> k in L1.mainEntries
  {
    forall j | 0 <= j < |L1.components| && IsMain(L1.components[j], s)
      ensures j in L1.mainEntries
    {
      if j < |L.components| {
        assert L1.components[j] == L.components[j];
        var x :| 0 <= x < |L.mainEntries| && L.mainEntries[x] == j;
        assert L1.mainEntries[x] == j;
      } else {
        assert L1.mainEntries[|L.mainEntries|] == j;
      }
    }
  }

  lemma MainsStepOrdered(L: Layout, c: Component, s: Settings, L1: Layout)
    requires MainsConsistent(L, s)
    requires L1.mainEntries == if IsMain(c, s) then L.mainEntries + [|L.components|] else L.mainEntries
    ensures forall x, y :: 0 <= x < y < |L1.mainEntries| ==> L1.mainEntries[x] < L1.mainEntries[y]
  {
    forall x, y | 0 <= x < y < |L1.mainEntries|
      ensures L1.mainEntries[x] < L1.mainEntries[y]
    {
      if y < |L.mainEntries| {
        assert L1.mainEntries[x] == L.mainEntries[x] && L1.mainEntries[y] == L.mainEntries[y];
      } else {
        assert L1.mainEntries[x] == L.mainEntries[x];
      }
    }
  }

  /** The index fields a step changes. */
  lemma SetupComponentIndexFields(L: Layout, c: Component, s: Settings)
    requires ParametersHaveValues(c)
    requires |L.templates| == |L.owner|
    requires forall k, i :: 0 <= k < |L.entries| && i in L.entries[k].indexToParameter ==> i < |L.templates|
    ensures var L1, k := SetupComponent(L, c, s), |L.entries|;
      && L1.components == L.components + [c]
      && L1.providers == AddToLists(L.providers, Interfaces(c, true), k)
      && L1.requirers == AddToLists(L.requirers, Interfaces(c, false), k)
      && L1.mainEntries == if IsMain(c, s) then L.mainEntries + [k] else L.mainEntries
  {
  }

  /** Setting up one more component keeps main entries and interface lists consistent. */
  lemma SetupComponentIndexes(L: Layout, c: Component, s: Settings)
    requires ParametersHaveValues(c)
    requires |L.components| == |L.entries| && |L.templates| == |L.owner|
    requires forall k, i :: 0 <= k < |L.entries| && i in L.entries[k].indexToParameter ==> i < |L.templates|
    requires IndexesConsistent(L, s)
    ensures IndexesConsistent(SetupComponent(L, c, s), s)
  {
    var L1 := SetupComponent(L, c, s);
    SetupComponentIndexFields(L, c, s);
    AddToListsStep(L, L.providers, c, true, L1);
    AddToListsStep(L, L.requirers, c, false, L1);
    MainsStep(L, c, s, L1);
  }

  /** The constructor's loop keeps main entries and interface lists consistent. */
  lemma {:induction false} BuildIndexes(cs: seq<Component>, s: Settings)
    requires AllParametersHaveValues(cs)
    ensures IndexesConsistent(Build(cs, s), s)
    decreases |cs|
  {
    if |cs| > 0 {
      var L0 := Build(cs[..|cs| - 1], s);
      assert Build(cs, s) == SetupComponent(L0, cs[|cs| - 1], s);
      BuildIndexes(cs[..|cs| - 1], s);
      BuildWellFormed(cs[..|cs| - 1], s);
      SetupComponentIndexes(L0, cs[|cs| - 1], s);
    }
  }

  /** The key the constructor sorts components by. */
  function ComponentName(c: Component): string {
    c.name
  }

  /** Rearranging the components keeps every parameter valued. */
  lemma PermutationHasValues(cs: seq<Component>, ds: seq<Component>)
    requires multiset(cs) == multiset(ds)
    requires AllParametersHaveValues(cs)
    ensures AllParametersHaveValues(ds)
  {
    forall k | 0 <= k < |ds|
      ensures ParametersHaveValues(ds[k])
    {
      assert ds[k] in multiset(ds);
      var j :| 0 <= j < |cs| && cs[j] == ds[k];
    }
  }

  /** The constructor: the components are sorted by name and set up one by
      one in that order. Reading the value of a categorical parameter
      without values raises, so the constructor fails exactly when some
      component has one. */
  function Construct(cs: seq<Component>, s: Settings): (r: Option<Layout>)
    ensures r.None? <==> !AllParametersHaveValues(cs)
    ensures r.Some? ==> SortedBy(r.value.components, ComponentName) && multiset(r.value.components) == multiset(cs)
    ensures r.Some? ==> forall i, j :: 0 <= i < j < |r.value.entries| ==> LessEq(r.value.entries[i].name, r.value.entries[j].name)
    ensures r.Some? ==> WellFormed(r.value, s) && IndexesConsistent(r.value, s)
  {
    if !AllParametersHaveValues(cs) then None
    else
      var sorted := SortBy(cs, ComponentName);
      PermutationHasValues(cs, sorted);
      BuildWellFormed(sorted, s);
      BuildIndexes(sorted, s);
      BuildNamesSorted(sorted, s);
      Some(Build(sorted, s))
  }

  /** Components set up in name order give entries in name order. */
  lemma BuildNamesSorted(cs: seq<Component>, s: Settings)
    requires AllParametersHaveValues(cs) && SortedBy(cs, ComponentName)
    ensures forall i, j :: 0 <= i < j < |Build(cs, s).entries| ==> LessEq(Build(cs, s).entries[i].name, Build(cs, s).entries[j].name)
  {
    var L := Build(cs, s);
    BuildWellFormed(cs, s);
    forall k | 0 <= k < |L.entries|
      ensures L.entries[k].name == ComponentName(cs[k])
    {
      assert EntryWellFormed(L, s, k);
    }
  }

  /** In a well-formed layout with names in order, a component without
      parameters that needs an activation bit has that bit, initially off,
      as its only gene, and its entry sits where its name falls. */
  lemma SoleActivationGene(L: Layout, s: Settings, k: nat)
    requires WellFormed(L, s) && k < |L.entries|
    requires forall i, j :: 0 <= i < j < |L.entries| ==> LessEq(L.entries[i].name, L.entries[j].name)
    requires |L.components[k].parameters| == 0 && NeedsActivationBit(L.components[k], s)
    ensures var e := L.entries[k];
      && e.HasActivationBit() && e.activationIndex < |L.templates| && L.templates[e.activationIndex] == Bit(false)
      && e.ParameterIndices() == {}
      && (forall i :: 0 <= i < |L.owner| && L.owner[i] == k ==> i == e.activationIndex)
      && (forall j :: 0 <= j < k ==> LessEq(L.entries[j].name, L.components[k].name))
      && (forall j :: k < j < |L.entries| ==> LessEq(L.components[k].name, L.entries[j].name))
  {
    assert EntryWellFormed(L, s, k);
    assert L.entries[k].indexToParameter == map[] by {
      assert CountSearchable(L.components[k].parameters) == 0;
    }
  }
}

=== FILE: incumbent.dfy ===
/** The incumbent tracker of the baselines: `PipelineEvaluationReport` records
    one evaluated pipeline, `SearchResult` holds the best report seen so far and
    announces every improvement on its event bus. */
module Incumbent {
  import opened Wrappers

  /** An evaluated pipeline: a missing performance marks a failed evaluation. */
  datatype Report = Report(
    construction: string,
    imports: string,
    performance: Option<real>,
    startTime: int,
    endTime: int)
  {
    predicate IsFailed() {
      performance.None?
    }
  }

  /** The constructor taking a performance: never a failed report. */
  function SucceededReport(construction: string, imports: string, performance: real, startTime: int, endTime: int): (r: Report)
    ensures !r.IsFailed() && r.performance.value == performance
    ensures r.construction == construction && r.imports == imports
    ensures r.startTime == startTime && r.endTime == endTime
  {
    Report(construction, imports, Some(performance), startTime, endTime)
  }

  /** The constructor taking a component instance: always a failed report
      (the instance itself is not kept). */
  function FailedReport(construction: string, imports: string, startTime: int, endTime: int): (r: Report)
    ensures r.IsFailed()
    ensures r.construction == construction && r.imports == imports
    ensures r.startTime == startTime && r.endTime == endTime
  {
    Report(construction, imports, None, startTime, endTime)
  }

  /** `Double.MAX_VALUE`, the performance of the initial report. */
  const MaxDouble: real := 179769313486231570814527423731704356798070567525844996598917476803157260780028538760589558632766878171540458953514382464234321326889464182768467546703537516986049910576551282076245490090389328944075868508455133942304583236903222948165808559332123348274797826204144723168738177180919299881250404026184124858368.0

  /** The event announcing a new incumbent. */
  datatype Notification = UpdatingBestPipeline(construction: string, performance: real)

  /** The tracker: whether it has an event bus, and the held report. */
  datatype Tracker = Tracker(hasBus: bool, held: Report)

  /** `new SearchResult(bus)`: an empty report with the largest double as
      performance. */
  function NewTracker(): (t: Tracker)
    ensures t.hasBus && t.held.construction == "" && t.held.imports == ""
    ensures t.held.performance == Some(MaxDouble)
  {
    Tracker(true, SucceededReport("", "", MaxDouble, 0, 0))
  }

  /** `new SearchResult(bus, report)` as written: the bus argument is not
      stored. */
  function TrackerFromReportAsWritten(report: Report): (t: Tracker)
    ensures t.held == report && !t.hasBus
  {
    Tracker(false, report)
  }

  /** The two-argument constructor as intended: the bus is stored too. */
  function TrackerFromReport(report: Report): (t: Tracker)
    ensures t.held == report && t.hasBus
  {
    Tracker(true, report)
  }

  /** What one `update` does: the tracker afterwards, the event posted, and
      whether a `NullPointerException` escaped. */
  datatype Step = Step(tracker: Tracker, posted: Option<Notification>, raised: bool)

  /** `update(report)`: a succeeded report strictly better than the held one
      replaces it and is announced. Reading the performance of a failed held
      report raises before anything changes; posting without a bus raises
      after the replacement. */
  function Update(t: Tracker, report: Report): (s: Step)
    ensures s.tracker.hasBus == t.hasBus
    ensures s.tracker.held == report || s.tracker.held == t.held
    ensures s.tracker.held != t.held ==> !report.IsFailed()
    ensures !t.held.IsFailed() && !report.IsFailed() ==>
      (s.tracker.held == report <==> report.performance.value < t.held.performance.value || report == t.held)
    ensures s.posted.Some? <==> !s.raised && s.tracker.held != t.held
    ensures s.posted.Some? ==> s.posted.value == UpdatingBestPipeline(report.construction, report.performance.value)
    ensures s.raised <==> !report.IsFailed() && (t.held.IsFailed() || (report.performance.value < t.held.performance.value && !t.hasBus))
  {
    if report.IsFailed() then Step(t, None, false)
    else if t.held.IsFailed() then Step(t, None, true)
    else if report.performance.value < t.held.performance.value then
      var replaced := t.(held := report);
      if t.hasBus then Step(replaced, Some(UpdatingBestPipeline(report.construction, report.performance.value)), false)
      else Step(replaced, None, true)
    else Step(t, None, false)
  }

  /** An update never makes the held performance worse. */
  lemma UpdateNeverWorse(t: Tracker, report: Report)
    requires !t.held.IsFailed()
    ensures var s := Update(t, report);
      !s.tracker.held.IsFailed() && s.tracker.held.performance.value <= t.held.performance.value
  {
  }

  /** The held performance after a sequence of updates, from an independent
      definition: the smallest of the initial one and every succeeded report's. */
  function Best(initial: real, reports: seq<Report>): real
    decreases |reports|
  {
    if |reports| == 0 then initial
    else
      var last := reports[|reports| - 1];
      var before := Best(initial, reports[..|reports| - 1]);
      if !last.IsFailed() && last.performance.value < before then last.performance.value else before
  }

  /** The best is the minimum: no larger than the initial performance or any
      succeeded report's, and equal to one of them. */
  lemma {:induction false} BestIsMinimum(initial: real, reports: seq<Report>)
    ensures var b := Best(initial, reports);
      && b <= initial
      && (forall i :: 0 <= i < |reports| && !reports[i].IsFailed() ==> b <= reports[i].performance.value)
      && (b == initial || exists i :: 0 <= i < |reports| && !reports[i].IsFailed() && b == reports[i].performance.value)
    decreases |reports|
  {
    if |reports| > 0 {
      var n := |reports| - 1;
      var front := reports[..n];
      BestIsMinimum(initial, front);
      var b, before := Best(initial, reports), Best(initial, front);
      forall i | 0 <= i < |reports| && !reports[i].IsFailed()
        ensures b <= reports[i].performance.value
      {
        if i < n {
          assert reports[i] == front[i];
        }
      }
      if b != initial {
        if b == before {
          var i :| 0 <= i < |front| && !front[i].IsFailed() && before == front[i].performance.value;
          assert reports[i] == front[i];
        } else {
          assert !reports[n].IsFailed() && b == reports[n].performance.value;
        }
      }
    }
  }

  /** Each announcement strictly improves on every one before it. */
  predicate Descending(posted: seq<Notification>) {
    forall i, j :: 0 <= i < j < |posted| ==> posted[j].performance < posted[i].performance
  }

  /** An announcement better than the last keeps the announcements descending. */
  lemma AppendDescending(posted: seq<Notification>, n: Notification)
    requires Descending(posted)
    requires |posted| > 0 ==> n.performance < posted[|posted| - 1].performance
    ensures Descending(posted + [n])
  {
    var all := posted + [n];
    forall i, j | 0 <= i < j < |all|
      ensures all[j].performance < all[i].performance
    {
      if j == |posted| {
        assert all[j] == n && all[i] == posted[i];
        assert i == |posted| - 1 || posted[|posted| - 1].performance < posted[i].performance;
      }
    }
  }

  /** One more report: the best so far is the new one exactly when it
      succeeded and is strictly better. */
  lemma BestSnoc(initial: real, reports: seq<Report>, k: nat)
    requires k < |reports|
    ensures Best(initial, reports[..k + 1])
      == if !reports[k].IsFailed() && reports[k].performance.value < Best(initial, reports[..k])
         then reports[k].performance.value else Best(initial, reports[..k])
  {
    assert reports[..k + 1][..k] == reports[..k];
  }

  /** Feeds the reports to a tracker with a bus, in order, collecting the
      announcements. The held performance ends as the best of all, and every
      announcement strictly improves on the one before. */
  method TrackAll(t0: Tracker, reports: seq<Report>) returns (t: Tracker, posted: seq<Notification>)
    requires t0.hasBus && !t0.held.IsFailed()
    ensures t.hasBus && !t.held.IsFailed()
    ensures t.held.performance.value == Best(t0.held.performance.value, reports)
    ensures forall i :: 0 <= i < |posted| ==> posted[i].performance < t0.held.performance.value
    ensures Descending(posted)
    ensures |posted| > 0 ==> posted[|posted| - 1].performance == t.held.performance.value
  {
    t, posted := t0, [];
    var k := 0;
    while k < |reports|
      invariant 0 <= k <= |reports|
      invariant t.hasBus && !t.held.IsFailed()
      invariant t.held.performance.value == Best(t0.held.performance.value, reports[..k])
      invariant t.held.performance.value <= t0.held.performance.value
      invariant forall i :: 0 <= i < |posted| ==> posted[i].performance < t0.held.performance.value
      invariant Descending(posted)
      invariant |posted| > 0 ==> posted[|posted| - 1].performance == t.held.performance.value
    {
      BestSnoc(t0.held.performance.value, reports, k);
      var s := Update(t, reports[k]);
      if s.posted.Some? {
        AppendDescending(posted, s.posted.value);
        posted := posted + [s.posted.value];
      }
      t := s.tracker;
      k := k + 1;
    }
    assert reports[..k] == reports;
  }

  /** The evidence for the constructor that drops its bus: a tracker built
      from a report with performance 1.0 raises on a report with 0.5. */
  lemma TrackerFromReportAsWrittenRaises()
    ensures Update(TrackerFromReportAsWritten(SucceededReport("a", "", 1.0, 0, 0)), SucceededReport("b", "", 0.5, 0, 0)).raised
  {
  }

  /** With the bus stored, a tracker built from a succeeded report never
      raises. */
  lemma TrackerFromReportNeverRaises(held: Report, report: Report)
    requires !held.IsFailed()
    ensures !Update(TrackerFromReport(held), report).raised
  {
  }
}

=== FILE: legacy_decoder.dfy ===
/** Decoding in the older, multi-root handler: every active main component is
    decoded on its own and then wrapped, bottom-up, into every component that
    requires an interface it provides, until a root component is reached.
    Siblings of the wrapped child are decoded top-down; a node below a parent
    is never itself a root.

    The parent-climbing loop may never end (a component that is neither a root
    nor required by anything is climbed from forever), so it runs on `fuel`
    and reports `OutOfFuel` when that is used up. The top-down recursion is
    ordered by the same rank as in the root-based decoder. */
module LegacyDecoder {
  import opened Wrappers
  import opened Components
  import opened GenomeEntry
  import opened GenomeLayout
  import opened Genome
  import opened Decoder

  /** Ways decoding leaves the model's domain.
      `MainSlotsMissing`: an active main component with required interfaces
      reaches the completeness check with no slot lists, a null dereference.
      `NullChild`: a parent would be built around a child that is null; the
      source goes on with such a node, the model stops there.
      `OutOfFuel`: the climb did not reach a root within the fuel. */
  datatype LegacyError = MainSlotsMissing | NullChild | OutOfFuel

  /** `isCompletelyDefined` of this handler: one value per parameter and at
      least one child under every required interface. */
  predicate LegacyComplete(inst: Instance)
    requires SlotsPresent(inst)
  {
    && |inst.parameterValues| == |inst.component.parameters|
    && forall x :: 0 <= x < |inst.component.required| ==>
         |inst.satisfaction[inst.component.required[x].id]| >= 1
  }

  /** `decodeComponent`: an active entry whose component is not a root, with
      its slots filled top-down, kept if completely defined. */
  function LegacyEntry(L: Layout, roots: seq<Component>, sol: Solution, rank: seq<nat>, k: nat): (r: Option<Instance>)
    requires Decodable(L, sol, rank) && k < |L.entries|
    ensures r.Some? ==> r.value.component !in roots
    ensures r.Some? ==> IsActivated(L.entries[k], sol) && r.value.component == L.components[ComponentOf(L, k)]
    ensures r.Some? ==> SlotsPresent(r.value) && LegacyComplete(r.value)
    decreases rank[k], 3
  {
    var c := L.components[ComponentOf(L, k)];
    if !IsActivated(L.entries[k], sol) || c in roots then None
    else
      RequiredBelow(L, sol, rank, k);
      var inst := Instance(c, ParameterValues(L.entries[k], sol), LegacySlots(L, roots, sol, rank, c.required, rank[k]));
      if LegacyComplete(inst) then Some(inst) else None
  }

  /** Slot lists of this handler accumulate: a second required interface with
      the same id appends to the first one's list. */
  function LegacySlots(L: Layout, roots: seq<Component>, sol: Solution, rank: seq<nat>,
                       ris: seq<RequiredInterface>, bound: nat): (r: map<string, seq<Instance>>)
    requires Decodable(L, sol, rank) && SlotsBelow(L, rank, ris, bound)
    ensures r.Keys == SlotIds(ris)
    decreases bound, 2, |ris|
  {
    if |ris| == 0 then map[]
    else
      var last := ris[|ris| - 1];
      var before := LegacySlots(L, roots, sol, rank, ris[..|ris| - 1], bound);
      SlotIdsSnoc(ris);
      before[last.id := OldSlot(before, last.id) + LegacyProviders(L, roots, sol, rank, L.providers[last.name], bound)]
  }

  function OldSlot(m: map<string, seq<Instance>>, id: string): seq<Instance> {
    if id in m then m[id] else []
  }

  lemma SlotIdsSnoc(ris: seq<RequiredInterface>)
    requires |ris| > 0
    ensures SlotIds(ris) == SlotIds(ris[..|ris| - 1]) + {ris[|ris| - 1].id}
  {
    forall id | id in SlotIds(ris)
      ensures id in SlotIds(ris[..|ris| - 1]) + {ris[|ris| - 1].id}
    {
      var x :| 0 <= x < |ris| && ris[x].id == id;
      if x < |ris| - 1 {
        assert ris[..|ris| - 1][x].id == id;
      }
    }
  }

  function LegacyProviders(L: Layout, roots: seq<Component>, sol: Solution, rank: seq<nat>, ps: seq<nat>, bound: nat)
    : (r: seq<Instance>)
    requires Decodable(L, sol, rank) && ProvidersBelow(L, rank, ps, bound)
    ensures forall z :: 0 <= z < |r| ==> r[z].component !in roots
    decreases bound, 1
  {
    var all := seq(|ps|, y requires 0 <= y < |ps| => LegacyEntry(L, roots, sol, rank, ps[y]));
    SomesMembers(all);
    Somes(all)
  }

  /** `decodeMainComponent`: an active main entry with its parameter map and
      no slots at all. */
  function DecodeMain(L: Layout, sol: Solution, k: nat): (r: Result<Option<Instance>, LegacyError>)
    requires NamesAligned(L) && Readable(L, sol) && k < |L.entries|
    ensures r.Failure? <==> IsActivated(L.entries[k], sol) && |L.components[ComponentOf(L, k)].required| > 0
    ensures r.Success? && r.value.Some? ==>
      && IsActivated(L.entries[k], sol)
      && r.value.value.component == L.components[ComponentOf(L, k)]
      && r.value.value.satisfaction == map[]
      && |r.value.value.parameterValues| == |r.value.value.component.parameters|
  {
    if !IsActivated(L.entries[k], sol) then Success(None)
    else
      var c := L.components[ComponentOf(L, k)];
      var values := ParameterValues(L.entries[k], sol);
      if |c.required| > 0 then Failure(MainSlotsMissing)
      else if |values| == |c.parameters| then Success(Some(Instance(c, values, map[])))
      else Success(None)
  }

  /** `decodeParentComponent`: entry `x` wraps `child` under every required
      interface named `fixed`; its other interfaces are filled top-down. The
      parent's own activation is not consulted. */
  function DecodeParent(L: Layout, roots: seq<Component>, sol: Solution, rank: seq<nat>,
                        x: nat, fixed: string, child: Instance): (r: Option<Instance>)
    requires Decodable(L, sol, rank) && x < |L.entries|
    ensures r.Some? ==> r.value.component == L.components[ComponentOf(L, x)]
    ensures r.Some? ==> SlotsPresent(r.value) && LegacyComplete(r.value)
  {
    var c := L.components[ComponentOf(L, x)];
    assert SlotsBelow(L, rank, c.required, |L.entries|);
    var inst := Instance(c, ParameterValues(L.entries[x], sol), ParentSlots(L, roots, sol, rank, c.required, fixed, child));
    if LegacyComplete(inst) then Some(inst) else None
  }

  function ParentSlots(L: Layout, roots: seq<Component>, sol: Solution, rank: seq<nat>,
                       ris: seq<RequiredInterface>, fixed: string, child: Instance): (r: map<string, seq<Instance>>)
    requires Decodable(L, sol, rank) && SlotsBelow(L, rank, ris, |L.entries|)
    ensures r.Keys == SlotIds(ris)
  {
    if |ris| == 0 then map[]
    else
      var last := ris[|ris| - 1];
      var before := ParentSlots(L, roots, sol, rank, ris[..|ris| - 1], fixed, child);
      var added := if last.name == fixed then [child] else LegacyProviders(L, roots, sol, rank, L.providers[last.name], |L.entries|);
      SlotIdsSnoc(ris);
      before[last.id := OldSlot(before, last.id) + added]
  }

  /** The requirer lists hold entries. */
  predicate RequirersListed(L: Layout) {
    forall name, y :: name in L.requirers && 0 <= y < |L.requirers[name]| ==> L.requirers[name][y] < |L.entries|
  }

  predicate Climbable(L: Layout, sol: Solution, rank: seq<nat>) {
    Decodable(L, sol, rank) && RequirersListed(L)
  }

  /** The inner loop over the parents requiring `iface`: each in turn wraps the
      current instance; a null current instance cannot be wrapped. */
  function WrapParents(L: Layout, roots: seq<Component>, sol: Solution, rank: seq<nat>,
                       xs: seq<nat>, iface: string, cur: Option<Instance>): (r: Result<Option<Instance>, LegacyError>)
    requires Climbable(L, sol, rank) && forall y :: 0 <= y < |xs| ==> xs[y] < |L.entries|
    ensures |xs| == 0 ==> r == Success(cur)
    ensures r.Success? && r.value.Some? && |xs| > 0 ==>
      r.value.value.component == L.components[ComponentOf(L, xs[|xs| - 1])]
    decreases |xs|
  {
    if |xs| == 0 then Success(cur)
    else if cur.None? then Failure(NullChild)
    else WrapParents(L, roots, sol, rank, xs[1..], iface, DecodeParent(L, roots, sol, rank, xs[0], iface, cur.value))
  }

  /** One pass of the climbing loop: for every interface the current component
      provides, in order, the parents requiring it wrap the current instance. */
  function WrapInterfaces(L: Layout, roots: seq<Component>, sol: Solution, rank: seq<nat>,
                          ifaces: seq<string>, cur: Option<Instance>): (r: Result<Option<Instance>, LegacyError>)
    requires Climbable(L, sol, rank)
    decreases |ifaces|
  {
    if |ifaces| == 0 then Success(cur)
    else if ifaces[0] in L.requirers then
      var next :- WrapParents(L, roots, sol, rank, L.requirers[ifaces[0]], ifaces[0], cur);
      WrapInterfaces(L, roots, sol, rank, ifaces[1..], next)
    else WrapInterfaces(L, roots, sol, rank, ifaces[1..], cur)
  }

  /** The `while` loop: climb until the instance is null or a root's. */
  function Climb(L: Layout, roots: seq<Component>, sol: Solution, rank: seq<nat>, cur: Instance, fuel: nat)
    : (r: Result<Option<Instance>, LegacyError>)
    requires Climbable(L, sol, rank)
    ensures r.Success? && r.value.Some? ==> r.value.value.component in roots
    ensures cur.component in roots ==> r == Success(Some(cur))
    decreases fuel
  {
    if cur.component in roots then Success(Some(cur))
    else if fuel == 0 then Failure(OutOfFuel)
    else
      var next :- WrapInterfaces(L, roots, sol, rank, cur.component.provided, Some(cur));
      if next.None? then Success(None) else Climb(L, roots, sol, rank, next.value, fuel - 1)
  }

  /** The main-entry loop of `decodeGenome`: the climbed instances, in main-entry order. */
  function DecodeMains(L: Layout, roots: seq<Component>, sol: Solution, rank: seq<nat>, ks: seq<nat>, fuel: nat)
    : (r: Result<seq<Instance>, LegacyError>)
    requires Climbable(L, sol, rank) && forall x :: 0 <= x < |ks| ==> ks[x] < |L.entries|
    ensures r.Success? ==> |r.value| <= |ks| && forall z :: 0 <= z < |r.value| ==> r.value[z].component in roots
    decreases |ks|
  {
    if |ks| == 0 then Success([])
    else
      var before :- DecodeMains(L, roots, sol, rank, ks[..|ks| - 1], fuel);
      var main :- DecodeMain(L, sol, ks[|ks| - 1]);
      if main.None? then Success(before)
      else
        var top :- Climb(L, roots, sol, rank, main.value, fuel);
        if top.None? then Success(before) else Success(before + [top.value])
  }

  /** `decodeGenome`: the root instances found from the main entries, or null
      when there are none. */
  function DecodeGenomeLegacy(L: Layout, roots: seq<Component>, sol: Solution, rank: seq<nat>, fuel: nat)
    : (r: Result<Option<seq<Instance>>, LegacyError>)
    requires Climbable(L, sol, rank) && forall x :: 0 <= x < |L.mainEntries| ==> L.mainEntries[x] < |L.entries|
    ensures r.Success? && r.value.Some? ==>
      |r.value.value| > 0 && forall z :: 0 <= z < |r.value.value| ==> r.value.value[z].component in roots
  {
    var found :- DecodeMains(L, roots, sol, rank, L.mainEntries, fuel);
    if |found| > 0 then Success(Some(found)) else Success(None)
  }

  // Properties of the legacy decoder.

  /** Appending to a slot keeps what it held. */
  lemma {:induction false} ParentSlotsHoldChild(L: Layout, roots: seq<Component>, sol: Solution, rank: seq<nat>,
                                                ris: seq<RequiredInterface>, fixed: string, child: Instance, x: nat)
    requires Decodable(L, sol, rank) && SlotsBelow(L, rank, ris, |L.entries|)
    requires x < |ris| && ris[x].name == fixed
    ensures child in ParentSlots(L, roots, sol, rank, ris, fixed, child)[ris[x].id]
    decreases |ris|
  {
    var init := ris[..|ris| - 1];
    var last := ris[|ris| - 1];
    var before := ParentSlots(L, roots, sol, rank, init, fixed, child);
    if x < |ris| - 1 {
      assert init[x] == ris[x];
      ParentSlotsHoldChild(L, roots, sol, rank, init, fixed, child, x);
      if last.id == ris[x].id {
        assert OldSlot(before, last.id) == before[ris[x].id];
      }
    }
  }

  /** A parent built around a child holds it under every required interface
      whose name is the one the child was climbed through. */
  lemma ParentHoldsChild(L: Layout, roots: seq<Component>, sol: Solution, rank: seq<nat>,
                         x: nat, fixed: string, child: Instance, j: nat)
    requires Decodable(L, sol, rank) && x < |L.entries|
    requires DecodeParent(L, roots, sol, rank, x, fixed, child).Some?
    requires var c := DecodeParent(L, roots, sol, rank, x, fixed, child).value.component;
      j < |c.required| && c.required[j].name == fixed
    ensures var p := DecodeParent(L, roots, sol, rank, x, fixed, child).value;
      child in p.satisfaction[p.component.required[j].id]
  {
    var c := L.components[ComponentOf(L, x)];
    assert SlotsBelow(L, rank, c.required, |L.entries|);
    ParentSlotsHoldChild(L, roots, sol, rank, c.required, fixed, child, j);
  }

  /** Interfaces no component requires leave the current instance as it is. */
  lemma {:induction false} WrapInterfacesUnrequired(L: Layout, roots: seq<Component>, sol: Solution, rank: seq<nat>,
                                                    ifaces: seq<string>, cur: Option<Instance>)
    requires Climbable(L, sol, rank)
    requires forall i :: 0 <= i < |ifaces| ==> ifaces[i] !in L.requirers
    ensures WrapInterfaces(L, roots, sol, rank, ifaces, cur) == Success(cur)
    decreases |ifaces|
  {
    if |ifaces| > 0 {
      WrapInterfacesUnrequired(L, roots, sol, rank, ifaces[1..], cur);
    }
  }

  /** The loop does not end for a non-root instance whose interfaces nothing
      requires: whatever the fuel, it runs out. */
  lemma {:induction false} ClimbSpins(L: Layout, roots: seq<Component>, sol: Solution, rank: seq<nat>, cur: Instance, fuel: nat)
    requires Climbable(L, sol, rank)
    requires cur.component !in roots
    requires forall i :: 0 <= i < |cur.component.provided| ==> cur.component.provided[i] !in L.requirers
    ensures Climb(L, roots, sol, rank, cur, fuel) == Failure(OutOfFuel)
    decreases fuel
  {
    if fuel > 0 {
      WrapInterfacesUnrequired(L, roots, sol, rank, cur.component.provided, Some(cur));
      ClimbSpins(L, roots, sol, rank, cur, fuel - 1);
    }
  }

  /** No active main entry, no decoding. */
  lemma {:induction false} InactiveMainsDecodeNothing(L: Layout, roots: seq<Component>, sol: Solution, rank: seq<nat>,
                                                      ks: seq<nat>, fuel: nat)
    requires Climbable(L, sol, rank) && forall x :: 0 <= x < |ks| ==> ks[x] < |L.entries|
    requires forall x :: 0 <= x < |ks| ==> !IsActivated(L.entries[ks[x]], sol)
    ensures DecodeMains(L, roots, sol, rank, ks, fuel) == Success([])
    decreases |ks|
  {
    if |ks| > 0 {
      InactiveMainsDecodeNothing(L, roots, sol, rank, ks[..|ks| - 1], fuel);
    }
  }

  /** A genome whose main entries are all inactive decodes to null. */
  lemma InactiveGenomeDecodesNull(L: Layout, roots: seq<Component>, sol: Solution, rank: seq<nat>, fuel: nat)
    requires Climbable(L, sol, rank) && forall x :: 0 <= x < |L.mainEntries| ==> L.mainEntries[x] < |L.entries|
    requires forall x :: 0 <= x < |L.mainEntries| ==> !IsActivated(L.entries[L.mainEntries[x]], sol)
    ensures DecodeGenomeLegacy(L, roots, sol, rank, fuel) == Success(None)
  {
    InactiveMainsDecodeNothing(L, roots, sol, rank, L.mainEntries, fuel);
  }

  /** An active main component that is itself a root and passes the completeness check is
      appended as it is, without climbing. */
  lemma RootMainKept(L: Layout, roots: seq<Component>, sol: Solution, rank: seq<nat>, ks: seq<nat>, fuel: nat)
    requires Climbable(L, sol, rank) && |ks| > 0 && forall x :: 0 <= x < |ks| ==> ks[x] < |L.entries|
    requires DecodeMains(L, roots, sol, rank, ks[..|ks| - 1], fuel).Success?
    requires DecodeMain(L, sol, ks[|ks| - 1]).Success? && DecodeMain(L, sol, ks[|ks| - 1]).value.Some?
    requires DecodeMain(L, sol, ks[|ks| - 1]).value.value.component in roots
    ensures DecodeMains(L, roots, sol, rank, ks, fuel)
         == Success(DecodeMains(L, roots, sol, rank, ks[..|ks| - 1], fuel).value + [DecodeMain(L, sol, ks[|ks| - 1]).value.value])
  {
    var main := DecodeMain(L, sol, ks[|ks| - 1]).value.value;
    assert Climb(L, roots, sol, rank, main, fuel) == Success(Some(main));
  }
}

=== FILE: linked_maps.dfy ===
/** `LinkedHashMap` as the converters use it: a list of entries with distinct
    keys in insertion order; `put` on a present key replaces the value in
    place, on a new key appends an entry. */
module LinkedMaps {
  import opened Wrappers

  type LinkedMap<K, V> = seq<(K, V)>

  /** The keys of a map, in iteration order. */
  function Keys<K, V>(m: LinkedMap<K, V>): (r: seq<K>)
    ensures |r| == |m|
    ensures forall i :: 0 <= i < |m| ==> r[i] == m[i].0
  {
    seq(|m|, i requires 0 <= i < |m| => m[i].0)
  }

  /** No key occurs twice. */
  predicate Distinct<K(==), V>(m: LinkedMap<K, V>) {
    forall i, j :: 0 <= i < j < |m| ==> m[i].0 != m[j].0
  }

  /** The position of a key, or -1. */
  function Find<K(==), V>(m: LinkedMap<K, V>, k: K): (r: int)
    ensures -1 <= r < |m|
    ensures r >= 0 ==> m[r].0 == k && forall i :: 0 <= i < r ==> m[i].0 != k
    ensures r == -1 ==> forall i :: 0 <= i < |m| ==> m[i].0 != k
    decreases |m|
  {
    if |m| == 0 then -1
    else if m[0].0 == k then 0
    else var r := Find(m[1..], k); if r < 0 then -1 else r + 1
  }

  /** `get`: the value of a key, `None` for an absent key. */
  function Get<K(==), V>(m: LinkedMap<K, V>, k: K): Option<V> {
    var i := Find(m, k);
    if i < 0 then None else Some(m[i].1)
  }

  /** `put`. */
  function Put<K(==), V>(m: LinkedMap<K, V>, k: K, v: V): (r: LinkedMap<K, V>)
    ensures |r| == |m| || |r| == |m| + 1
  {
    var i := Find(m, k);
    if i < 0 then m + [(k, v)] else m[i := (k, v)]
  }

  /** `getOrDefault`. */
  function GetOr<K(==), V>(m: LinkedMap<K, V>, k: K, default: V): V {
    Get(m, k).GetOr(default)
  }

  /** After `put`, the key maps to the new value and every other key keeps
      its value. */
  lemma GetPut<K, V>(m: LinkedMap<K, V>, k: K, v: V, k': K)
    requires Distinct(m)
    ensures Get(Put(m, k, v), k') == if k' == k then Some(v) else Get(m, k')
  {
    var i := Find(m, k);
    var r := Put(m, k, v);
    var j := Find(r, k');
    if i < 0 {
      assert r[|m|] == (k, v);
      if k' != k {
        assert forall x :: 0 <= x < |m| ==> r[x] == m[x];
      }
    } else if k' != k {
      var j' := Find(m, k');
      assert forall x :: 0 <= x < |m| ==> r[x].0 == m[x].0;
      if j' >= 0 {
        assert j' != i;
        assert j == j';
      } else {
        assert j == -1;
      }
    }
  }

  /** `put` keeps the iteration order: a present key stays where it is, a new
      one goes last; and keys stay distinct. */
  lemma KeysPut<K, V>(m: LinkedMap<K, V>, k: K, v: V)
    requires Distinct(m)
    ensures Keys(Put(m, k, v)) == if k in Keys(m) then Keys(m) else Keys(m) + [k]
    ensures Distinct(Put(m, k, v))
  {
    var i := Find(m, k);
    if i >= 0 {
      assert Keys(m)[i] == k;
      assert Keys(Put(m, k, v)) == Keys(m);
    } else {
      assert k !in Keys(m);
      assert Keys(Put(m, k, v)) == Keys(m) + [k];
    }
  }
}

=== FILE: ordering.dfy ===
/** Orderings and sorts: Java's lexicographic `String.compareTo`, the stable
    `List.sort` by a string key, a `HashSet` read back in sorted order, and
    `Collections.sort` on doubles. */
module Ordering {

  /** `a.compareTo(b) <= 0`: lexicographic by character code, a proper prefix first. */
  predicate LessEq(a: string, b: string)
    decreases |a|
  {
    |a| == 0 || (|b| > 0 && (a[0] < b[0] || (a[0] == b[0] && LessEq(a[1..], b[1..]))))
  }

  lemma LessEqTotal(a: string, b: string)
    ensures LessEq(a, b) || LessEq(b, a)
    decreases |a|
  {
    if |a| > 0 && |b| > 0 && a[0] == b[0] {
      LessEqTotal(a[1..], b[1..]);
    }
  }

  lemma LessEqTransitive(a: string, b: string, c: string)
    requires LessEq(a, b) && LessEq(b, c)
    ensures LessEq(a, c)
    decreases |a|
  {
    if |a| > 0 && a[0] == b[0] && b[0] == c[0] {
      LessEqTransitive(a[1..], b[1..], c[1..]);
    }
  }

  lemma LessEqAntisymmetric(a: string, b: string)
    requires LessEq(a, b) && LessEq(b, a)
    ensures a == b
    decreases |a|
  {
    if |a| > 0 {
      LessEqAntisymmetric(a[1..], b[1..]);
      assert a == [a[0]] + a[1..] && b == [b[0]] + b[1..];
    }
  }

  predicate SortedBy<T>(xs: seq<T>, key: T -> string) {
    forall i, j :: 0 <= i < j < |xs| ==> LessEq(key(xs[i]), key(xs[j]))
  }

  /** Inserts `x` after every element whose key is not greater than its own. */
  function InsertBy<T>(x: T, xs: seq<T>, key: T -> string): (r: seq<T>)
    requires SortedBy(xs, key)
    ensures SortedBy(r, key)
    ensures multiset(r) == multiset(xs) + multiset{x}
    decreases |xs|
  {
    if |xs| == 0 then [x]
    else if LessEq(key(xs[0]), key(x)) then
      var rest := InsertBy(x, xs[1..], key);
      HeadBelowInserted(x, xs, rest, key);
      ConsSortedBy(xs[0], rest, key);
      ConsMultiset(xs);
      [xs[0]] + rest
    else
      InsertBeforeAll(x, xs, key);
      [x] + xs
  }

  /** A list's elements are its first and those of its tail. */
  lemma ConsMultiset<T>(xs: seq<T>)
    requires |xs| > 0
    ensures multiset(xs) == multiset{xs[0]} + multiset(xs[1..])
  {
    assert xs == [xs[0]] + xs[1..];
  }

  /** A sorted list stays sorted with an element in front that is not above
      any of its elements. */
  lemma ConsSortedBy<T>(h: T, rest: seq<T>, key: T -> string)
    requires SortedBy(rest, key)
    requires forall j :: 0 <= j < |rest| ==> LessEq(key(h), key(rest[j]))
    ensures SortedBy([h] + rest, key)
  {
    var all := [h] + rest;
    forall i, j | 0 <= i < j < |all|
      ensures LessEq(key(all[i]), key(all[j]))
    {
      assert all[j] == rest[j - 1];
      if i > 0 {
        assert all[i] == rest[i - 1];
      }
    }
  }

  /** The first element of a sorted list is not above anything that
      inserting into its tail gives, when it is not above what is inserted. */
  lemma HeadBelowInserted<T>(x: T, xs: seq<T>, rest: seq<T>, key: T -> string)
    requires SortedBy(xs, key) && |xs| > 0 && LessEq(key(xs[0]), key(x))
    requires multiset(rest) == multiset(xs[1..]) + multiset{x}
    ensures forall j :: 0 <= j < |rest| ==> LessEq(key(xs[0]), key(rest[j]))
  {
    forall j | 0 <= j < |rest|
      ensures LessEq(key(xs[0]), key(rest[j]))
    {
      var y := rest[j];
      assert y in multiset(rest);
      if y != x {
        assert y in multiset(xs[1..]);
        var k :| 0 <= k < |xs[1..]| && xs[1..][k] == y;
        assert xs[k + 1] == y;
      }
    }
  }

  /** An element below the first of a sorted list goes in front of it. */
  lemma InsertBeforeAll<T>(x: T, xs: seq<T>, key: T -> string)
    requires SortedBy(xs, key) && |xs| > 0 && !LessEq(key(xs[0]), key(x))
    ensures SortedBy([x] + xs, key)
    ensures multiset([x] + xs) == multiset(xs) + multiset{x}
  {
    LessEqTotal(key(xs[0]), key(x));
    forall j | 0 <= j < |xs|
      ensures LessEq(key(x), key(xs[j]))
    {
      if j > 0 {
        LessEqTransitive(key(x), key(xs[0]), key(xs[j]));
      }
    }
    ConsSortedBy(x, xs, key);
  }

  /** A stable sort by key (`List.sort(Comparator.comparing(key))`). */
  function SortBy<T>(xs: seq<T>, key: T -> string): (r: seq<T>)
    ensures SortedBy(r, key)
    ensures multiset(r) == multiset(xs)
    decreases |xs|
  {
    if |xs| == 0 then []
    else
      assert xs == xs[..|xs| - 1] + [xs[|xs| - 1]];
      InsertBy(xs[|xs| - 1], SortBy(xs[..|xs| - 1], key), key)
  }

  function Identity(s: string): string {
    s
  }

  predicate StrictlySorted(xs: seq<string>) {
    forall i, j :: 0 <= i < j < |xs| ==> LessEq(xs[i], xs[j]) && xs[i] != xs[j]
  }

  /** Drops adjacent repetitions from a sorted list. */
  function DedupSorted(xs: seq<string>): (r: seq<string>)
    requires SortedBy(xs, Identity)
    ensures StrictlySorted(r)
    ensures forall s :: s in r <==> s in xs
    decreases |xs|
  {
    if |xs| <= 1 then xs
    else
      var rest := DedupSorted(xs[1..]);
      if xs[0] == xs[1] then rest
      else
        forall j | 0 <= j < |rest|
          ensures LessEq(xs[0], rest[j]) && xs[0] != rest[j]
        {
          assert rest[j] in rest;
          var k :| 0 <= k < |xs[1..]| && xs[1..][k] == rest[j];
          assert LessEq(xs[0], xs[k + 1]);
          assert LessEq(xs[1], xs[k + 1]) || k == 0;
          if xs[0] == rest[j] {
            assert LessEq(xs[1], xs[0]) by {
              if k > 0 {
                assert LessEq(xs[1], xs[k + 1]);
              }
            }
            assert Identity(xs[0]) == xs[0] && Identity(xs[1]) == xs[1];
            LessEqAntisymmetric(xs[0], xs[1]);
          }
        }
        [xs[0]] + rest
  }

  /** The elements of a `HashSet<String>` in sorted order: every element once,
      ascending, nothing else. */
  function SortedDistinct(xs: seq<string>): (r: seq<string>)
    ensures StrictlySorted(r)
    ensures forall s :: s in r <==> s in xs
  {
    var sorted := SortBy(xs, Identity);
    assert forall s :: s in sorted <==> s in multiset(sorted);
    assert forall s :: s in xs <==> s in multiset(xs);
    DedupSorted(sorted)
  }

  /** A strictly sorted list is determined by its elements. */
  lemma {:induction false} StrictlySortedUnique(a: seq<string>, b: seq<string>)
    requires StrictlySorted(a) && StrictlySorted(b)
    requires forall s :: s in a <==> s in b
    ensures a == b
    decreases |a|
  {
    assert |a| > 0 ==> a[0] in a;
    assert |b| > 0 ==> b[0] in b;
    if |a| > 0 && |b| > 0 {
      assert a[0] == b[0] by {
        assert a[0] in b;
        assert b[0] in a;
        var j :| 0 <= j < |b| && b[j] == a[0];
        var i :| 0 <= i < |a| && a[i] == b[0];
        assert LessEq(b[0], a[0]) by {
          if j > 0 {
            assert LessEq(b[0], b[j]);
          } else {
            LessEqTotal(b[0], a[0]);
          }
        }
        assert LessEq(a[0], b[0]) by {
          if i > 0 {
            assert LessEq(a[0], a[i]);
          } else {
            LessEqTotal(a[0], b[0]);
          }
        }
        LessEqAntisymmetric(a[0], b[0]);
      }
      forall s
        ensures s in a[1..] <==> s in b[1..]
      {
        if s in a[1..] {
          var i :| 0 <= i < |a[1..]| && a[1..][i] == s;
          assert a[i + 1] != a[0];
          assert s in b;
          var j :| 0 <= j < |b| && b[j] == s;
          assert j != 0;
          assert b[1..][j - 1] == s;
        }
        if s in b[1..] {
          var j :| 0 <= j < |b[1..]| && b[1..][j] == s;
          assert b[j + 1] != b[0];
          assert s in a;
          var i :| 0 <= i < |a| && a[i] == s;
          assert i != 0;
          assert a[1..][i - 1] == s;
        }
      }
      StrictlySortedUnique(a[1..], b[1..]);
      assert a == [a[0]] + a[1..] && b == [b[0]] + b[1..];
    }
  }

  /** Two collections with the same elements read back the same. */
  lemma SortedDistinctOfSameElements(xs: seq<string>, ys: seq<string>)
    requires forall s :: s in xs <==> s in ys
    ensures SortedDistinct(xs) == SortedDistinct(ys)
  {
    StrictlySortedUnique(SortedDistinct(xs), SortedDistinct(ys));
  }

  /** The key tells elements of `xs` apart. */
  predicate KeyInjective<T(==)>(xs: seq<T>, key: T -> string) {
    forall x, y | x in xs && y in xs :: key(x) == key(y) ==> x == y
  }

  /** Two lists sorted by a key that tells their elements apart, holding the
      same elements, start with the same element. */
  lemma SortedHeadsEqual<T>(a: seq<T>, b: seq<T>, key: T -> string)
    requires SortedBy(a, key) && SortedBy(b, key)
    requires multiset(a) == multiset(b)
    requires KeyInjective(a, key)
    requires |a| > 0 && |b| > 0
    ensures a[0] == b[0]
  {
    assert a[0] in multiset(b) && b[0] in multiset(a);
    var j :| 0 <= j < |b| && b[j] == a[0];
    var i :| 0 <= i < |a| && a[i] == b[0];
    assert LessEq(key(b[0]), key(a[0])) by {
      if j > 0 {
        assert LessEq(key(b[0]), key(b[j]));
      } else {
        LessEqTotal(key(b[0]), key(a[0]));
      }
    }
    assert LessEq(key(a[0]), key(b[0])) by {
      if i > 0 {
        assert LessEq(key(a[0]), key(a[i]));
      } else {
        LessEqTotal(key(a[0]), key(b[0]));
      }
    }
    LessEqAntisymmetric(key(a[0]), key(b[0]));
    assert a[0] in a && a[i] in a;
  }

  lemma MultisetTails<T>(a: seq<T>, b: seq<T>)
    requires multiset(a) == multiset(b)
    requires |a| > 0 && |b| > 0 && a[0] == b[0]
    ensures multiset(a[1..]) == multiset(b[1..])
  {
    assert a == [a[0]] + a[1..] && b == [b[0]] + b[1..];
    assert multiset(a) == multiset([a[0]]) + multiset(a[1..]);
    assert multiset(b) == multiset([b[0]]) + multiset(b[1..]);
    assert multiset(a[1..]) == multiset(a) - multiset([a[0]]);
    assert multiset(b[1..]) == multiset(b) - multiset([b[0]]);
  }

  /** A list sorted by a key that tells its elements apart is determined by its
      multiset of elements. */
  lemma {:induction false} SortedByUnique<T>(a: seq<T>, b: seq<T>, key: T -> string)
    requires SortedBy(a, key) && SortedBy(b, key)
    requires multiset(a) == multiset(b)
    requires KeyInjective(a, key)
    ensures a == b
    decreases |a|
  {
    assert |a| == |multiset(a)| == |multiset(b)| == |b|;
    if |a| > 0 {
      SortedHeadsEqual(a, b, key);
      MultisetTails(a, b);
      forall x, y | x in a[1..] && y in a[1..]
        ensures key(x) == key(y) ==> x == y
      {
        assert x in a && y in a;
      }
      SortedByUnique(a[1..], b[1..], key);
      assert a == [a[0]] + a[1..] && b == [b[0]] + b[1..];
    }
  }

  /** Sorting by a key that tells the elements apart does not depend on the
      order they came in. */
  lemma SortByPermutation<T>(xs: seq<T>, ys: seq<T>, key: T -> string)
    requires multiset(xs) == multiset(ys)
    requires KeyInjective(xs, key)
    ensures SortBy(xs, key) == SortBy(ys, key)
  {
    var a := SortBy(xs, key);
    forall x, y | x in a && y in a
      ensures key(x) == key(y) ==> x == y
    {
      assert x in multiset(a) && y in multiset(a);
      assert x in xs && y in xs;
    }
    SortedByUnique(a, SortBy(ys, key), key);
  }

  predicate SortedReals(xs: seq<real>) {
    forall i, j :: 0 <= i < j < |xs| ==> xs[i] <= xs[j]
  }

  function InsertReal(x: real, xs: seq<real>): (r: seq<real>)
    requires SortedReals(xs)
    ensures SortedReals(r)
    ensures multiset(r) == multiset(xs) + multiset{x}
    decreases |xs|
  {
    if |xs| == 0 then [x]
    else if xs[0] <= x then
      var rest := InsertReal(x, xs[1..]);
      HeadBelowInsertedReal(x, xs, rest);
      ConsSortedReals(xs[0], rest);
      ConsMultiset(xs);
      [xs[0]] + rest
    else
      ConsSortedReals(x, xs);
      [x] + xs
  }

  /** A sorted list stays sorted with a number in front that is not above
      any of its elements. */
  lemma ConsSortedReals(h: real, rest: seq<real>)
    requires SortedReals(rest)
    requires forall j :: 0 <= j < |rest| ==> h <= rest[j]
    ensures SortedReals([h] + rest)
  {
    var all := [h] + rest;
    forall i, j | 0 <= i < j < |all|
      ensures all[i] <= all[j]
    {
      assert all[j] == rest[j - 1];
      if i > 0 {
        assert all[i] == rest[i - 1];
      }
    }
  }

  /** The first number of a sorted list is not above anything that inserting
      into its tail gives, when it is not above what is inserted. */
  lemma HeadBelowInsertedReal(x: real, xs: seq<real>, rest: seq<real>)
    requires SortedReals(xs) && |xs| > 0 && xs[0] <= x
    requires multiset(rest) == multiset(xs[1..]) + multiset{x}
    ensures forall j :: 0 <= j < |rest| ==> xs[0] <= rest[j]
  {
    forall j | 0 <= j < |rest|
      ensures xs[0] <= rest[j]
    {
      assert rest[j] in multiset(rest);
    }
  }

  /** `Collections.sort` on a list of doubles (no NaN). */
  function SortReals(xs: seq<real>): (r: seq<real>)
    ensures SortedReals(r)
    ensures multiset(r) == multiset(xs)
    decreases |xs|
  {
    if |xs| == 0 then []
    else
      assert xs == xs[..|xs| - 1] + [xs[|xs| - 1]];
      InsertReal(xs[|xs| - 1], SortReals(xs[..|xs| - 1]))
  }
}

=== FILE: output_files.dfy ===
/** `ML4PdMTimeSeriesFeatureEngineeringWrapper`: where the feature-engineering
    script writes the transformed datasets, and `fitAndPredict`, which runs the
    script only when neither output exists yet. The file system is a set of
    existing files and the script is an input saying what it wrote or that it
    failed. */
module OutputFiles {
  import opened Wrappers
  import opened Strings

  const ArffEnding: string := ".arff"
  const PdmffEnding: string := ".pdmff"

  /** The ARFF ending read as a regular expression, as `String.split` reads it:
      the dot matches any character but a line terminator. */
  function ArffPattern(): (p: Pattern)
    ensures |p| == |ArffEnding|
  {
    [AnyChar, Lit('a'), Lit('r'), Lit('f'), Lit('f')]
  }

  /** The stem `getOutputFile` computes, as written: a name ending in ".arff"
      keeps the first piece of `split(".arff")`; `None` is the exception an
      empty piece list raises when its first element is taken. */
  function StemAsWritten(name: string): (r: Option<string>)
    ensures !EndsWith(name, ArffEnding) ==> r == Some(name)
  {
    if EndsWith(name, ArffEnding) then
      var pieces := Split(name, ArffPattern());
      if |pieces| == 0 then None else Some(pieces[0])
    else Some(name)
  }

  /** The stem as intended: the ".arff" ending dropped. */
  function StemOf(name: string): (r: string)
    ensures !EndsWith(name, ArffEnding) ==> r == name
  {
    if EndsWith(name, ArffEnding) then name[..|name| - |ArffEnding|] else name
  }

  /** Dropping the ending gives back exactly what preceded it. */
  lemma StemOfDropsEnding(stem: string)
    ensures StemOf(stem + ArffEnding) == stem
  {
    assert (stem + ArffEnding)[|stem|..] == ArffEnding;
  }

  /** A name ending in ".arff" is its stem followed by the ending. */
  lemma StemOfEnding(name: string)
    requires EndsWith(name, ArffEnding)
    ensures StemOf(name) + ArffEnding == name
  {
    assert name == name[..|name| - |ArffEnding|] + name[|name| - |ArffEnding|..];
  }

  /** A name ending in ".pdmff" does not end in ".arff". */
  lemma PdmffNotArff(name: string)
    ensures EndsWith(name, PdmffEnding) ==> !EndsWith(name, ArffEnding)
  {
    if EndsWith(name, PdmffEnding) {
      assert name[|name| - 5] == name[|name| - |PdmffEnding|..][1] == 'p';
    }
  }

  /** The name of the output file, as written: the configuration id, "_",
      the stem as written, and ".pdmff" unless the name already ends with
      ".pdmff". `None` is the exception of a stem with no piece. Wherever the
      stem as written is the intended one, so is the name. */
  function OutputFileName(uid: string, name: string): (r: Option<string>)
    ensures r.None? <==> StemAsWritten(name).None?
    ensures r.Some? ==> StartsWith(r.value, uid + "_") && EndsWith(r.value, PdmffEnding)
    ensures StemAsWritten(name) == Some(StemOf(name)) ==> r == Some(IntendedOutputFileName(uid, name))
  {
    var stem :- StemAsWritten(name);
    var full := uid + "_" + stem + (if EndsWith(name, PdmffEnding) then "" else PdmffEnding);
    assert full[..|uid + "_"|] == uid + "_";
    PdmffNotArff(name);
    if StemAsWritten(name) == Some(StemOf(name)) then
      IntendedOutputFileNameEnding(uid, name);
      Some(full)
    else
      assert full[|full| - |PdmffEnding|..] == PdmffEnding;
      Some(full)
  }

  /** The name of the output file as intended: the configuration id, "_",
      the intended stem, and ".pdmff" unless the name already ends with
      ".pdmff". */
  function IntendedOutputFileName(uid: string, name: string): (r: string)
    ensures StartsWith(r, uid + "_")
  {
    var stem := StemOf(name);
    var full := uid + "_" + stem + (if EndsWith(name, PdmffEnding) then "" else PdmffEnding);
    assert full[..|uid + "_"|] == uid + "_";
    full
  }

  /** Every intended output file name ends with ".pdmff": a ".pdmff" name
      keeps its ending, any other name gets it. */
  lemma IntendedOutputFileNameEnding(uid: string, name: string)
    ensures EndsWith(IntendedOutputFileName(uid, name), PdmffEnding)
  {
    var stem := StemOf(name);
    if EndsWith(name, PdmffEnding) {
      PdmffNotArff(name);
      var full := uid + "_" + name;
      assert full[|full| - |PdmffEnding|..] == name[|name| - |PdmffEnding|..];
      assert full + "" == full;
    } else {
      var full := uid + "_" + stem + PdmffEnding;
      assert full[|full| - |PdmffEnding|..] == PdmffEnding;
    }
  }

  /** As intended, the output of an ARFF dataset is named after it with
      ".arff" replaced by ".pdmff", and two ARFF datasets share an output
      only when they share a name. */
  lemma IntendedOutputFileNameOfArff(uid: string, stem: string, other: string)
    ensures IntendedOutputFileName(uid, stem + ArffEnding) == uid + "_" + stem + PdmffEnding
    ensures IntendedOutputFileName(uid, stem + ArffEnding) == IntendedOutputFileName(uid, other + ArffEnding) <==> stem == other
  {
    StemOfDropsEnding(stem);
    StemOfDropsEnding(other);
    assert !EndsWith(stem + ArffEnding, PdmffEnding) by {
      assert (stem + ArffEnding)[|stem + ArffEnding| - 5] == '.';
    }
    assert !EndsWith(other + ArffEnding, PdmffEnding) by {
      assert (other + ArffEnding)[|other + ArffEnding| - 5] == '.';
    }
    var a, b := uid + "_" + stem + PdmffEnding, uid + "_" + other + PdmffEnding;
    if a == b {
      assert stem == a[|uid + "_"|..|a| - |PdmffEnding|];
      assert other == b[|uid + "_"|..|b| - |PdmffEnding|];
    }
  }

  // ------------------------------------------------------- the regex reading

  /** A match of the ending read as a regular expression holds "arff" one
      place on. */
  lemma ArffMatchHoldsArff(s: string, i: int)
    ensures MatchesAt(s, ArffPattern(), i) ==> OccursAt(s, "arff", i + 1)
  {
    var p := ArffPattern();
    if MatchesAt(s, p, i) {
      forall k | 0 <= k < 4
        ensures s[i + 1..i + 5][k] == "arff"[k]
      {
        assert CharMatches(p[k + 1], s[i + 1 + k]);
      }
    }
  }

  /** Before a character that is not in "arff", a string without "arff"
      holds no match of the ending read as a regular expression. */
  lemma NoArffMatchBefore(a: string, c: char, rest: string)
    requires !Contains(a, "arff")
    requires c != 'a' && c != 'r' && c != 'f'
    ensures forall i :: 0 <= i < |a| ==> !MatchesAt(a + [c] + rest, ArffPattern(), i)
  {
    var s := a + [c] + rest;
    var p := ArffPattern();
    ContainsIff(a, "arff");
    forall i | 0 <= i < |a|
      ensures !MatchesAt(s, p, i)
    {
      if i + 5 <= |a| {
        ArffMatchHoldsArff(s, i);
        assert s[i + 1..i + 5] == a[i + 1..i + 5];
        assert !OccursAt(a, "arff", i + 1);
      } else {
        var k := |a| - i;
        assert 1 <= k < 5 && s[i + k] == c;
        assert !CharMatches(p[k], s[i + k]);
      }
    }
  }

  /** The ending read as a regular expression first matches right after a
      string without "arff", when a character outside "arff" follows it. */
  lemma ArffSplitFirst(a: string, c: char, rest: string)
    requires !Contains(a, "arff")
    requires c != 'a' && c != 'r' && c != 'f' && !IsLineTerminator(c)
    ensures SplitAll(a + [c] + "arff" + rest, ArffPattern()) == [a] + SplitAll(rest, ArffPattern())
  {
    var s := a + [c] + "arff" + rest;
    var p := ArffPattern();
    assert s == a + [c] + ("arff" + rest);
    NoArffMatchBefore(a, c, "arff" + rest);
    assert MatchesAt(s, p, |a|) by {
      forall k | 0 <= k < 5
        ensures CharMatches(p[k], s[|a| + k])
      {
        if k > 0 {
          assert s[|a| + k] == "arff"[k - 1];
        }
      }
    }
    assert FindFrom(s, p, 0) == |a|;
    assert s[..|a|] == a;
    assert s[|a| + 5..] == rest;
  }

  /** The first piece survives the removal of trailing empty pieces when it is
      not empty itself. */
  lemma DropTrailingEmptyKeepsFirst(pieces: seq<string>)
    requires |pieces| > 0 && pieces[0] != ""
    ensures var r := DropTrailingEmpty(pieces); |r| > 0 && r[0] == pieces[0]
  {
  }

  /** As written, the stem of `<stem>.arff` is the stem when the stem has no
      "arff" in it and is not empty; an empty stem raises. */
  lemma StemAsWrittenOfPlainName(stem: string)
    requires !Contains(stem, "arff")
    ensures StemAsWritten(stem + ArffEnding) == (if stem == "" then None else Some(stem))
  {
    var name := stem + ArffEnding;
    assert name == stem + ['.'] + "arff" + "";
    assert name[|name| - 5..] == ArffEnding;
    ArffSplitFirst(stem, '.', "");
    assert SplitAll("", ArffPattern()) == [""];
    var pieces := [stem] + [""];
    assert DropTrailingEmpty(pieces) == DropTrailingEmpty([stem]);
  }

  /** As written, any "arff" after another character in the stem cuts it
      short: `<a>_arff<rest>.arff` has the stem `<a>` alone. */
  lemma StemAsWrittenCutsEarly(a: string, rest: string)
    requires a != "" && !Contains(a, "arff")
    ensures StemAsWritten(a + "_arff" + rest + ArffEnding) == Some(a)
    ensures StemOf(a + "_arff" + rest + ArffEnding) == a + "_arff" + rest
  {
    var name := a + "_arff" + rest + ArffEnding;
    assert name == a + ['_'] + "arff" + (rest + ArffEnding);
    assert name[|name| - 5..] == ArffEnding;
    ArffSplitFirst(a, '_', rest + ArffEnding);
    DropTrailingEmptyKeepsFirst([a] + SplitAll(rest + ArffEnding, ArffPattern()));
    StemOfDropsEnding(a + "_arff" + rest);
  }

  /** The discrepancy on concrete names: "a_arff.arff" keeps only "a" where
      "a_arff" is meant, and ".arff" raises where "" is meant. */
  lemma StemAsWrittenCounterexamples()
    ensures StemAsWritten("a_arff.arff") == Some("a") && StemOf("a_arff.arff") == "a_arff"
    ensures StemAsWritten(".arff").None? && StemOf(".arff") == ""
  {
    ShorterHoldsNothing("a", "arff");
    StemAsWrittenCutsEarly("a", "");
    CounterexampleName();
    ShorterHoldsNothing("", "arff");
    StemAsWrittenOfPlainName("");
    assert "" + ArffEnding == ".arff";
    StemOfDropsEnding("");
  }

  /** The pieces of the first counterexample spell its name. */
  lemma CounterexampleName()
    ensures "a" + "_arff" + "" + ArffEnding == "a_arff.arff"
  {
    assert "a" + "_arff" == "a_arff";
    assert "a_arff" + "" == "a_arff";
    assert "a_arff" + ".arff" == "a_arff.arff";
  }

  /** An ARFF name whose stem as written is `stem` gets the output name
      `<id>_<stem>.pdmff`. */
  lemma OutputFileNameOfStem(uid: string, name: string, stem: string)
    requires EndsWith(name, ArffEnding) && StemAsWritten(name) == Some(stem)
    ensures OutputFileName(uid, name) == Some(uid + "_" + stem + PdmffEnding)
  {
    PdmffNotArff(name);
  }

  /** "a.arff" has the stem "a" as written. */
  lemma PlainCounterexampleStem()
    ensures EndsWith("a.arff", ArffEnding) && StemAsWritten("a.arff") == Some("a")
  {
    ShorterHoldsNothing("a", "arff");
    StemAsWrittenOfPlainName("a");
    assert "a" + ArffEnding == "a.arff";
  }

  /** "a.arff" writes to `<id>_a.pdmff`. */
  lemma PlainOutputName(uid: string)
    ensures OutputFileName(uid, "a.arff") == Some(uid + "_a.pdmff")
  {
    PlainCounterexampleStem();
    OutputFileNameOfStem(uid, "a.arff", "a");
    assert uid + "_" + "a" + PdmffEnding == uid + "_a.pdmff";
  }

  /** As written, "a_arff.arff" writes to `<id>_a.pdmff` too. */
  lemma CutShortOutputName(uid: string)
    ensures OutputFileName(uid, "a_arff.arff") == Some(uid + "_a.pdmff")
  {
    StemAsWrittenCounterexamples();
    assert EndsWith("a_arff.arff", ArffEnding) by {
      assert "a_arff.arff"[6..] == ArffEnding;
    }
    OutputFileNameOfStem(uid, "a_arff.arff", "a");
    assert uid + "_" + "a" + PdmffEnding == uid + "_a.pdmff";
  }

  /** As written, ".arff" has no output file name: computing it raises. */
  lemma EmptyStemOutputName(uid: string)
    ensures OutputFileName(uid, ".arff").None?
  {
    StemAsWrittenCounterexamples();
  }

  /** As written, two different ARFF datasets share an output file:
      "a.arff" and "a_arff.arff" both write to `<id>_a.pdmff`, and ".arff"
      has no output file name at all. */
  lemma OutputFileNameCollision(uid: string)
    ensures OutputFileName(uid, "a.arff") == OutputFileName(uid, "a_arff.arff") == Some(uid + "_a.pdmff")
    ensures OutputFileName(uid, ".arff").None?
  {
    PlainOutputName(uid);
    CutShortOutputName(uid);
    EmptyStemOutputName(uid);
  }

  // ------------------------------------------------------------ fitAndPredict

  /** A file: the folder it is in and its name. */
  datatype File = File(folder: string, name: string)

  /** `getOutputFile`: the output file of a dataset in the wrapper's temporary
      folder, or `None` where its name raises. */
  function OutputFile(tempFolder: string, uid: string, dataName: string): (f: Option<File>)
    ensures f.None? <==> StemAsWritten(dataName).None?
    ensures f.Some? ==> f.value.folder == tempFolder && StartsWith(f.value.name, uid + "_") && EndsWith(f.value.name, PdmffEnding)
  {
    var name :- OutputFileName(uid, dataName);
    Some(File(tempFolder, name))
  }

  /** What running the script did: it failed, or it finished having created
      some files. */
  datatype ScriptRun = ScriptFailed | ScriptWrote(created: set<File>)

  /** Why `fitAndPredict` raised its training exception. */
  datatype FitFailure = ScriptFailure | OutputMissing(file: File)

  /** What `fitAndPredict` did: whether the script ran, the files that exist
      afterwards, and the exception it raised, if any. It returns no
      predictions either way. */
  datatype FitOutcome = FitOutcome(ran: bool, files: set<File>, failure: Option<FitFailure>)

  /** `handleOutput`: a missing output file is created empty and reported. */
  function HandleOutput(files: set<File>, output: File): (r: (set<File>, Option<FitFailure>))
    ensures r.0 == files + {output}
    ensures r.1.None? <==> output in files
    ensures r.1.Some? ==> r.1.value == OutputMissing(output)
  {
    if output in files then (files, None) else (files + {output}, Some(OutputMissing(output)))
  }

  /** `fitAndPredict`: the script runs only when neither output exists; a
      failing script raises; then the training output and the test output
      are checked in turn, and the first one missing is created empty and
      raises. */
  function FitAndPredict(files: set<File>, trainOutput: File, testOutput: File, script: ScriptRun): (o: FitOutcome)
    ensures o.ran <==> trainOutput !in files && testOutput !in files
    ensures files <= o.files
    ensures o.failure.None? <==>
      (&& !(o.ran && script.ScriptFailed?)
       && (o.ran ==> trainOutput in files + script.created && testOutput in files + script.created)
       && (!o.ran ==> trainOutput in files && testOutput in files))
    ensures o.failure == Some(ScriptFailure) <==> o.ran && script.ScriptFailed?
    ensures o.failure == Some(ScriptFailure) ==> o.files == files
    ensures o.failure.Some? && o.failure.value.OutputMissing? ==> trainOutput in o.files
    ensures !o.ran ==> o.files <= files + {trainOutput, testOutput}
  {
    var ran := trainOutput !in files && testOutput !in files;
    if ran && script.ScriptFailed? then FitOutcome(true, files, Some(ScriptFailure))
    else
      var written := if ran then files + script.created else files;
      var (afterTrain, trainFailure) := HandleOutput(written, trainOutput);
      if trainFailure.Some? then FitOutcome(ran, afterTrain, trainFailure)
      else
        var (afterTest, testFailure) := HandleOutput(afterTrain, testOutput);
        FitOutcome(ran, afterTest, testFailure)
  }

  /** Once a call ends with a missing output, the placeholder it created
      counts as a cached output: the next call never runs the script, and the
      one after succeeds without it, whatever the script would do. */
  lemma MissingOutputIsCached(files: set<File>, trainOutput: File, testOutput: File, s1: ScriptRun, s2: ScriptRun, s3: ScriptRun)
    requires FitAndPredict(files, trainOutput, testOutput, s1).failure.Some?
    requires FitAndPredict(files, trainOutput, testOutput, s1).failure.value.OutputMissing?
    ensures var o1 := FitAndPredict(files, trainOutput, testOutput, s1);
      var o2 := FitAndPredict(o1.files, trainOutput, testOutput, s2);
      var o3 := FitAndPredict(o2.files, trainOutput, testOutput, s3);
      !o2.ran && !o3.ran && o3.failure.None?
  {
  }

  /** With both outputs present the call is a no-op that succeeds. */
  lemma CachedOutputsSucceed(files: set<File>, trainOutput: File, testOutput: File, script: ScriptRun)
    requires trainOutput in files && testOutput in files
    ensures FitAndPredict(files, trainOutput, testOutput, script) == FitOutcome(false, files, None)
  {
  }
}

=== FILE: pipeline_evaluation.dfy ===
/** The evaluation of complete pipelines: `CompletePipelineEvaluator`, which the
    inner regression search calls on a regressor candidate placed under a
    feature extractor, and the `run` of `AbstractCompletePipelineEvaluator`,
    which evaluates one baseline pipeline and hands it to the incumbent
    tracker. What happened in each fold (the predictions of the external
    learner, or the exception it raised) is an input, as are SHA-256, the text
    of the learner, and the loss measure. */
module PipelineEvaluation {
  import opened Wrappers
  import opened Strings
  import opened Components
  import opened Rendering
  import opened Raters
  import opened Events
  import opened Incumbent

  /** `Math.max(0, p)`: a negative remaining useful life is predicted as zero. */
  function Clamp(p: real): (r: real)
    ensures r >= 0.0 && r >= p
    ensures r == p || r == 0.0
  {
    if p < 0.0 then 0.0 else p
  }

  /** The predictions of one fold, clamped one by one. */
  function ClampAll(ps: seq<real>): (r: seq<real>)
    ensures |r| == |ps|
    ensures forall i :: 0 <= i < |r| ==> r[i] >= 0.0
    ensures forall i :: 0 <= i < |r| ==> (ps[i] >= 0.0 ==> r[i] == ps[i]) && (ps[i] < 0.0 ==> r[i] == 0.0)
  {
    seq(|ps|, i requires 0 <= i < |ps| => Clamp(ps[i]))
  }

  /** Clamping twice is clamping once. */
  lemma ClampAllIdempotent(ps: seq<real>)
    ensures ClampAll(ClampAll(ps)) == ClampAll(ps)
  {
  }

  /** The prefix of the dataset files of a feature extractor, made from the hex
      text of its hash: a text starting with a minus has every minus replaced
      by a one, any other text gets a leading zero. */
  function ExtractorHash(hash: string): (r: string)
    ensures |r| > 0 && r[0] != '-'
    ensures StartsWith(hash, "-") ==> '-' !in r
    ensures !StartsWith(hash, "-") ==> r[0] == '0' && r[1..] == hash
  {
    if StartsWith(hash, "-") then
      ReplaceRemovesChar(hash, '-', "1");
      assert hash[..1] == "-";
      Replace(hash, "-", "1")
    else "0" + hash
  }

  /** Hash texts that do not start with a minus, as hexadecimal digests never
      do, keep distinct prefixes apart. */
  lemma ExtractorHashInjective(a: string, b: string)
    requires !StartsWith(a, "-") && !StartsWith(b, "-")
    ensures ExtractorHash(a) == ExtractorHash(b) <==> a == b
  {
    if ExtractorHash(a) == ExtractorHash(b) {
      assert a == ExtractorHash(a)[1..];
    }
  }

  /** The name of the training (`role` "train") or test (`role` "test") file of
      a fold: prefix, dataset, seed, fold and role joined by underscores. */
  function DatasetName(prefix: string, dataset: string, seed: int, fold: int, role: string): string {
    prefix + "_" + dataset + "_" + IntToString(seed) + "_" + IntToString(fold) + "_" + role
  }

  function TrainingDatasetName(prefix: string, dataset: string, seed: int, fold: int): string {
    DatasetName(prefix, dataset, seed, fold, "train")
  }

  function TestDatasetName(prefix: string, dataset: string, seed: int, fold: int): string {
    DatasetName(prefix, dataset, seed, fold, "test")
  }

  /** Within one prefix, dataset and seed, every fold and role names a file of
      its own, and none is the name of the summary fold -1. */
  lemma DatasetNamesDistinct(prefix: string, dataset: string, seed: int, f1: int, r1: string, f2: int, r2: string)
    requires IsInt32(f1) && IsInt32(f2)
    ensures DatasetName(prefix, dataset, seed, f1, r1) == DatasetName(prefix, dataset, seed, f2, r2) <==> f1 == f2 && r1 == r2
  {
    var common := prefix + "_" + dataset + "_" + IntToString(seed) + "_";
    var t1, t2 := IntToString(f1) + "_" + r1, IntToString(f2) + "_" + r2;
    assert DatasetName(prefix, dataset, seed, f1, r1) == common + t1;
    assert DatasetName(prefix, dataset, seed, f2, r2) == common + t2;
    if common + t1 == common + t2 {
      assert t1 == (common + t1)[|common|..];
      assert t2 == (common + t2)[|common|..];
      IntToStringHasNoUnderscore(f1);
      IntToStringHasNoUnderscore(f2);
      UnderscoreSplitsUniquely(IntToString(f1), r1, IntToString(f2), r2);
      ParseIntToString(f1);
      ParseIntToString(f2);
    }
  }

  /** What one fold came to: the learner's predictions and its runtime in
      milliseconds, or the exception that ended it. */
  datatype FoldRun =
    | Predicted(predictions: seq<real>, runtime: int)
    | IoFailure(trace: string)
    | TimedOut(trace: string)
    | ExecutionFailure(trace: string)
    | Interrupted(trace: string)

  /** Whether a fold run ends the fold loop with a recorded exception. */
  predicate Breaks(run: FoldRun) {
    run.IoFailure? || run.TimedOut? || run.ExecutionFailure?
  }

  /** How many runs at the front predicted. */
  function LeadingPredicted(runs: seq<FoldRun>): (k: nat)
    ensures k <= |runs|
    ensures forall j :: 0 <= j < k ==> runs[j].Predicted?
    ensures k < |runs| ==> !runs[k].Predicted?
    decreases |runs|
  {
    if |runs| > 0 && runs[0].Predicted? then 1 + LeadingPredicted(runs[1..]) else 0
  }

  /** The clamped predictions of the first `k` runs, which all predicted. */
  function ClampedPredictions(runs: seq<FoldRun>, k: nat): (r: seq<seq<real>>)
    requires k <= |runs| && forall j :: 0 <= j < k ==> runs[j].Predicted?
    ensures |r| == k
    ensures forall j :: 0 <= j < k ==> r[j] == ClampAll(runs[j].predictions)
  {
    seq(k, j requires 0 <= j < k => ClampAll(runs[j].predictions))
  }

  /** The state of the fold loop of `evaluate`. */
  datatype Progress = Progress(predictions: seq<seq<real>>, runtimes: seq<int>, pipeline: string, exception: string)

  /** The fold loop of `evaluate` from fold `i` on; `None` when an exception
      escapes: an interrupt, a selector without exactly one regressor (no
      entry at all reads as none), or a fold past the ground truths. An IO
      failure while creating the wrapper ends the loop before the learner's
      text is taken, a timeout or a failed execution after it. Every
      prediction is clamped. */
  function FoldLoop(runs: seq<FoldRun>, i: nat, truths: nat, regressors: Option<nat>, learner: string, p: Progress): Option<Progress>
    decreases |runs|
  {
    if |runs| == 0 then Some(p)
    else if runs[0].Interrupted? || regressors != Some(1) then None
    else match runs[0]
      case Predicted(ps, runtime) =>
        if i >= truths then None
        else FoldLoop(runs[1..], i + 1, truths, regressors, learner, Progress(p.predictions + [ClampAll(ps)], p.runtimes + [runtime], learner, p.exception))
      case IoFailure(trace) => Some(p.(exception := trace))
      case TimedOut(trace) => Some(p.(pipeline := learner, exception := trace))
      case ExecutionFailure(trace) => Some(p.(pipeline := learner, exception := trace))
  }

  /** The fold loop lets an exception escape exactly when some fold is run
      with other than one regressor, when the predicting folds at the front
      run past the ground truths, or when the first fold that does not predict
      is interrupted. */
  lemma {:induction false} FoldLoopEscapes(runs: seq<FoldRun>, i: nat, truths: nat, regressors: Option<nat>, learner: string, p: Progress)
    ensures var k := LeadingPredicted(runs);
      FoldLoop(runs, i, truths, regressors, learner, p).None? <==>
        |runs| > 0 && (regressors != Some(1) || (k > 0 && i + k > truths) || (k < |runs| && runs[k].Interrupted?))
    decreases |runs|
  {
    if |runs| > 0 && regressors == Some(1) && runs[0].Predicted? && i < truths {
      var next := Progress(p.predictions + [ClampAll(runs[0].predictions)], p.runtimes + [runs[0].runtime], learner, p.exception);
      FoldLoopEscapes(runs[1..], i + 1, truths, regressors, learner, next);
      var k := LeadingPredicted(runs[1..]);
      assert LeadingPredicted(runs) == k + 1;
      assert k < |runs[1..]| ==> runs[k + 1] == runs[1..][k];
    }
  }

  /** When no exception escapes, the loop has kept the clamped predictions and
      the runtimes of the predicting folds at the front, and the trace of the
      fold that ended it. */
  lemma {:induction false} FoldLoopProgress(runs: seq<FoldRun>, i: nat, truths: nat, regressors: Option<nat>, learner: string, p: Progress)
    ensures var r := FoldLoop(runs, i, truths, regressors, learner, p); var k := LeadingPredicted(runs);
      r.Some? ==>
        && r.value.predictions == p.predictions + ClampedPredictions(runs, k)
        && |r.value.runtimes| == |p.runtimes| + k
        && (k < |runs| ==> r.value.exception == runs[k].trace)
        && (k == |runs| ==> r.value.exception == p.exception)
    decreases |runs|
  {
    if |runs| > 0 && regressors == Some(1) && runs[0].Predicted? && i < truths {
      var next := Progress(p.predictions + [ClampAll(runs[0].predictions)], p.runtimes + [runs[0].runtime], learner, p.exception);
      FoldLoopProgress(runs[1..], i + 1, truths, regressors, learner, next);
      var k := LeadingPredicted(runs[1..]);
      assert ClampedPredictions(runs, k + 1) == [ClampAll(runs[0].predictions)] + ClampedPredictions(runs[1..], k);
    } else if |runs| > 0 {
      assert ClampedPredictions(runs, 0) == [];
    }
  }

  /** What `evaluate` needs besides the candidate: the configuration, the
      decodings of the feature extractors and the ground truths of the folds. */
  datatype Setting = Setting(
    dataset: string,
    seed: int,
    folds: int,
    regressionInterface: string,
    decodings: seq<Decoding>,
    truths: seq<seq<real>>)

  /** The collaborators outside the model: SHA-256 as hex text, the text of
      the learner built from the regressor, and the aggregated loss. */
  datatype Oracle = Oracle(
    sha256: string -> string,
    learner: string,
    loss: (seq<seq<real>>, seq<seq<real>>) -> real)

  /** The number of times the fold loop runs. */
  function FoldCount(folds: int): nat {
    if folds < 0 then 0 else folds
  }

  /** The parameter of the selector naming the feature extractor. */
  const ExtractorIdParameter: string := "feature_extractor_id"

  /** The feature extractor a selector names: its parameter parsed as an int,
      which must index a decoding; `None` otherwise (a number-format or index
      error). */
  function ExtractorIndex(selector: Instance, count: nat): (r: Option<nat>)
    ensures r.Some? <==>
      && ExtractorIdParameter in selector.parameterValues
      && ParseInt(selector.parameterValues[ExtractorIdParameter]).Some?
      && 0 <= ParseInt(selector.parameterValues[ExtractorIdParameter]).value < count
    ensures r.Some? ==> r.value < count && ParseInt(selector.parameterValues[ExtractorIdParameter]) == Some(r.value as int)
  {
    if ExtractorIdParameter !in selector.parameterValues then None
    else match ParseInt(selector.parameterValues[ExtractorIdParameter])
      case None => None
      case Some(id) => if 0 <= id < count then Some(id) else None
  }

  /** How many regressors fill the regression interface of the selector; `None`
      when it has no entry. */
  function RegressorCount(selector: Instance, regressionInterface: string): Option<nat> {
    if regressionInterface in selector.satisfaction then Some(|selector.satisfaction[regressionInterface]|) else None
  }

  /** The result of `evaluate`: the event posted, and the score returned, the
      evaluation-failed exception, or another exception escaping. */
  datatype Verdict = Scored(score: real) | EvaluationFailed | Escaped

  datatype Evaluation = Evaluation(posted: Option<RegressorEvaluated>, verdict: Verdict)

  /** `evaluate`: the fold loop over the named feature extractor's dataset
      files; fewer predicted folds than ground truths post a failure event and
      fail, otherwise the loss of all predictions is posted and returned. Both
      events name the files of fold -1. */
  function Evaluate(selector: Instance, generation: string, s: Setting, o: Oracle, runs: seq<FoldRun>): (e: Evaluation)
    requires |runs| == FoldCount(s.folds)
    ensures e.verdict.Escaped? <==> e.posted.None?
    ensures e.verdict.Scored? ==>
      && e.posted.Some? && !e.posted.value.IsError()
      && e.posted.value.performance == e.verdict.score
      && |e.posted.value.runtimes| == |s.truths|
    ensures e.verdict.EvaluationFailed? ==> e.posted.Some? && e.posted.value.IsError()
    ensures e.posted.Some? ==> ExtractorIndex(selector, |s.decodings|).Some?
    ensures e.posted.Some? ==> var d := s.decodings[ExtractorIndex(selector, |s.decodings|).value];
      && e.posted.value.extractor == d.construction
      && e.posted.value.dataset == TrainingDatasetName(ExtractorHash(o.sha256(d.construction + d.imports)), s.dataset, s.seed, -1)
      && e.posted.value.generation == generation
  {
    match ExtractorIndex(selector, |s.decodings|)
    case None => Evaluation(None, Escaped)
    case Some(id) =>
      var d := s.decodings[id];
      var prefix := ExtractorHash(o.sha256(d.construction + d.imports));
      var summary := TrainingDatasetName(prefix, s.dataset, s.seed, -1);
      var regressors := RegressorCount(selector, s.regressionInterface);
      FoldLoopEscapes(runs, 0, |s.truths|, regressors, o.learner, Progress([], [], "", ""));
      FoldLoopProgress(runs, 0, |s.truths|, regressors, o.learner, Progress([], [], "", ""));
      match FoldLoop(runs, 0, |s.truths|, regressors, o.learner, Progress([], [], "", ""))
      case None => Evaluation(None, Escaped)
      case Some(p) =>
        if |p.predictions| < |s.truths| then
          Evaluation(Some(Failed(p.pipeline, d.construction, summary, p.exception, generation)), EvaluationFailed)
        else
          var score := o.loss(s.truths, p.predictions);
          Evaluation(Some(Succeeded(p.pipeline, d.construction, summary, score, p.runtimes, generation)), Scored(score))
  }

  /** With as many folds as ground truths, a candidate is scored exactly when
      it names a decoding, has exactly one regressor and every fold predicts;
      the score is the loss of the clamped predictions. */
  lemma EvaluateScoredIff(selector: Instance, generation: string, s: Setting, o: Oracle, runs: seq<FoldRun>)
    requires |runs| == FoldCount(s.folds) == |s.truths| > 0
    ensures var e := Evaluate(selector, generation, s, o, runs);
      && (e.verdict.Scored? <==>
            ExtractorIndex(selector, |s.decodings|).Some?
            && RegressorCount(selector, s.regressionInterface) == Some(1)
            && AllPredicted(runs))
      && (e.verdict.Scored? ==> e.verdict.score == o.loss(s.truths, ClampedPredictions(runs, |runs|)))
  {
    var regressors := RegressorCount(selector, s.regressionInterface);
    FoldLoopEscapes(runs, 0, |s.truths|, regressors, o.learner, Progress([], [], "", ""));
    FoldLoopProgress(runs, 0, |s.truths|, regressors, o.learner, Progress([], [], "", ""));
    var k := LeadingPredicted(runs);
    assert AllPredicted(runs) <==> k == |runs|;
    assert [] + ClampedPredictions(runs, k) == ClampedPredictions(runs, k);
  }

  /** A candidate whose fold loop ends early on an IO failure, a timeout or a
      failed execution posts a failure event carrying that fold's trace. */
  lemma EvaluateFailsOnBrokenFold(selector: Instance, generation: string, s: Setting, o: Oracle, runs: seq<FoldRun>, k: nat)
    requires |runs| == FoldCount(s.folds) == |s.truths|
    requires ExtractorIndex(selector, |s.decodings|).Some?
    requires RegressorCount(selector, s.regressionInterface) == Some(1)
    requires k < |runs| && Breaks(runs[k]) && forall j :: 0 <= j < k ==> runs[j].Predicted?
    ensures var e := Evaluate(selector, generation, s, o, runs);
      e.verdict.EvaluationFailed? && ExceptionText(e.posted.value) == runs[k].trace
  {
    var regressors := RegressorCount(selector, s.regressionInterface);
    FoldLoopEscapes(runs, 0, |s.truths|, regressors, o.learner, Progress([], [], "", ""));
    FoldLoopProgress(runs, 0, |s.truths|, regressors, o.learner, Progress([], [], "", ""));
    assert LeadingPredicted(runs) == k;
  }

  /** The state of the fold loop of a baseline run: the loss of each fold that
      predicted, the fold runtimes, and the last exception trace. */
  datatype Tally = Tally(losses: seq<real>, runtimes: seq<int>, exception: string)

  /** Whether every fold predicted. */
  predicate AllPredicted(runs: seq<FoldRun>) {
    forall j :: 0 <= j < |runs| ==> runs[j].Predicted?
  }

  lemma AllPredictedTail(runs: seq<FoldRun>)
    requires |runs| > 0
    ensures AllPredicted(runs) <==> runs[0].Predicted? && AllPredicted(runs[1..])
  {
    if runs[0].Predicted? && AllPredicted(runs[1..]) {
      forall j | 0 <= j < |runs|
        ensures runs[j].Predicted?
      {
        if j > 0 {
          assert runs[j] == runs[1..][j - 1];
        }
      }
    }
  }

  /** The loss of every fold, when every fold predicted, scored against the
      ground truths from split `i` on. */
  function FoldLosses(runs: seq<FoldRun>, i: nat, truths: seq<seq<real>>, loss: (seq<real>, seq<real>) -> real): (r: seq<real>)
    requires AllPredicted(runs) && i + |runs| <= |truths|
    ensures |r| == |runs|
  {
    seq(|runs|, n requires 0 <= n < |runs| => loss(truths[i + n], ClampAll(runs[n].predictions)))
  }

  /** The fold loop of `run` from fold `i` on: an interrupt records its trace
      and moves on to the next fold, an IO failure, a timeout or a failed
      execution records its trace and ends the loop, predictions are clamped
      and scored against the fold's ground truth. */
  function BaselineFolds(runs: seq<FoldRun>, i: nat, truths: seq<seq<real>>, loss: (seq<real>, seq<real>) -> real, t: Tally): Tally
    requires forall j :: 0 <= j < |runs| && runs[j].Predicted? ==> i + j < |truths|
    decreases |runs|
  {
    if |runs| == 0 then t
    else
      var run := runs[0];
      if run.Interrupted? then BaselineFolds(runs[1..], i + 1, truths, loss, t.(exception := run.trace))
      else if Breaks(run) then t.(exception := run.trace)
      else
        var score := loss(truths[i], ClampAll(run.predictions));
        BaselineFolds(runs[1..], i + 1, truths, loss, Tally(t.losses + [score], t.runtimes + [run.runtime], t.exception))
  }

  /** The loop adds a loss and a runtime per predicting fold, and a loss for
      every fold exactly when every fold predicted; then the losses are those of
      the folds in order. */
  lemma {:induction false} BaselineFoldsLosses(runs: seq<FoldRun>, i: nat, truths: seq<seq<real>>, loss: (seq<real>, seq<real>) -> real, t: Tally)
    requires forall j :: 0 <= j < |runs| && runs[j].Predicted? ==> i + j < |truths|
    ensures var r := BaselineFolds(runs, i, truths, loss, t);
      && |r.losses| - |t.losses| == |r.runtimes| - |t.runtimes| <= |runs|
      && |r.losses| - |t.losses| >= 0
      && (|r.losses| == |t.losses| + |runs| <==> AllPredicted(runs))
      && (AllPredicted(runs) && i + |runs| <= |truths| ==> r.losses == t.losses + FoldLosses(runs, i, truths, loss))
    decreases |runs|
  {
    if |runs| > 0 {
      AllPredictedTail(runs);
      var run := runs[0];
      if run.Interrupted? {
        BaselineFoldsLosses(runs[1..], i + 1, truths, loss, t.(exception := run.trace));
      } else if run.Predicted? {
        var score := loss(truths[i], ClampAll(run.predictions));
        var next := Tally(t.losses + [score], t.runtimes + [run.runtime], t.exception);
        BaselineFoldsLosses(runs[1..], i + 1, truths, loss, next);
        if AllPredicted(runs) && i + |runs| <= |truths| {
          assert FoldLosses(runs, i, truths, loss) == [score] + FoldLosses(runs[1..], i + 1, truths, loss);
        }
      }
    } else if i <= |truths| {
      assert FoldLosses(runs, i, truths, loss) == [];
    }
  }

  /** What a baseline run did: the event posted (none when there are no folds
      to average) and the incumbent tracker after it. */
  datatype BaselineOutcome = BaselineOutcome(posted: Option<RegressorEvaluated>, tracker: Tracker, notification: Option<Notification>, raised: bool)

  /** `run`: the fold loop over the dataset splits; fewer fold losses than
      folds post a failure event, otherwise the mean loss is posted and offered
      to the incumbent tracker. */
  function RunBaseline(construction: string, imports: string, dataset: string, folds: int, truths: seq<seq<real>>,
                       loss: (seq<real>, seq<real>) -> real, runs: seq<FoldRun>, best: Tracker, trainStart: int, trainEnd: int): (o: BaselineOutcome)
    requires |runs| == FoldCount(folds)
    requires forall j :: 0 <= j < |runs| && runs[j].Predicted? ==> j < |truths|
    ensures o.posted.None? <==> folds == 0
    ensures o.posted.Some? ==>
      && o.posted.value.regressor == construction && o.posted.value.extractor == ""
      && o.posted.value.dataset == dataset && o.posted.value.generation == ""
    ensures o.posted.Some? && !o.posted.value.IsError() <==> folds > 0 && AllPredicted(runs)
    ensures o.posted.None? || o.posted.value.IsError() ==> o == BaselineOutcome(o.posted, best, None, false)
    ensures o.posted.Some? && !o.posted.value.IsError() ==>
      var s := Update(best, SucceededReport(construction, imports, o.posted.value.performance, trainStart, trainEnd));
      o.tracker == s.tracker && o.notification == s.posted && o.raised == s.raised
  {
    var t := BaselineFolds(runs, 0, truths, loss, Tally([], [], ""));
    BaselineFoldsLosses(runs, 0, truths, loss, Tally([], [], ""));
    if |t.losses| != folds then
      BaselineOutcome(Some(Failed(construction, "", dataset, t.exception, "")), best, None, false)
    else if |t.losses| > 0 then
      var performance := Mean(t.losses);
      var s := Update(best, SucceededReport(construction, imports, performance, trainStart, trainEnd));
      BaselineOutcome(Some(Succeeded(construction, "", dataset, performance, t.runtimes, "")), s.tracker, s.posted, s.raised)
    else BaselineOutcome(None, best, None, false)
  }

  /** The performance posted by a successful baseline run lies between the
      smallest and the largest fold loss. */
  lemma BaselinePerformanceBetween(construction: string, imports: string, dataset: string, folds: int, truths: seq<seq<real>>,
                                   loss: (seq<real>, seq<real>) -> real, runs: seq<FoldRun>, best: Tracker, trainStart: int, trainEnd: int, lo: real, hi: real)
    requires |runs| == FoldCount(folds)
    requires forall j :: 0 <= j < |runs| && runs[j].Predicted? ==> j < |truths|
    requires forall n :: 0 <= n < |runs| && n < |truths| && runs[n].Predicted? ==> lo <= loss(truths[n], ClampAll(runs[n].predictions)) <= hi
    ensures var o := RunBaseline(construction, imports, dataset, folds, truths, loss, runs, best, trainStart, trainEnd);
      o.posted.Some? && !o.posted.value.IsError() ==> lo <= o.posted.value.performance <= hi
  {
    var t := BaselineFolds(runs, 0, truths, loss, Tally([], [], ""));
    BaselineFoldsLosses(runs, 0, truths, loss, Tally([], [], ""));
    if |t.losses| == folds && |t.losses| > 0 {
      assert AllPredicted(runs) && runs[|runs| - 1].Predicted?;
      forall j | 0 <= j < |t.losses|
        ensures lo <= t.losses[j] <= hi
      {
        assert t.losses[j] == FoldLosses(runs, 0, truths, loss)[j];
      }
      MeanBetween(t.losses, lo, hi);
    }
  }

  /** A baseline run never makes the incumbent worse. */
  lemma BaselineNeverWorse(construction: string, imports: string, dataset: string, folds: int, truths: seq<seq<real>>,
                           loss: (seq<real>, seq<real>) -> real, runs: seq<FoldRun>, best: Tracker, trainStart: int, trainEnd: int)
    requires |runs| == FoldCount(folds)
    requires forall j :: 0 <= j < |runs| && runs[j].Predicted? ==> j < |truths|
    requires !best.held.IsFailed()
    ensures var o := RunBaseline(construction, imports, dataset, folds, truths, loss, runs, best, trainStart, trainEnd);
      !o.tracker.held.IsFailed() && o.tracker.held.performance.value <= best.held.performance.value
  {
    var o := RunBaseline(construction, imports, dataset, folds, truths, loss, runs, best, trainStart, trainEnd);
    if o.posted.Some? && !o.posted.value.IsError() {
      UpdateNeverWorse(best, SucceededReport(construction, imports, o.posted.value.performance, trainStart, trainEnd));
    }
  }
}

=== FILE: r2f_conversion.dfy ===
/** `R2FtoLabeledTimeseriesDataTransformer`: an ARFF file of run-to-failure
    time series becomes a labelled one. Each instance is cut at a random
    point, the series keep their points up to the cut, and the number of
    time steps cut away becomes the RUL attribute. The random draws are a
    parameter: `pick(k)` stands for the value behind the `k`-th
    `Random.nextInt` call, taken modulo its bound. */
module R2fConversion {
  import opened Wrappers
  import opened Strings

  /** The fewest time steps left after the cut. */
  const MinRemaining: int := 10

  /** The most time steps left after the cut. */
  const MaxRemaining: int := 150

  /** The seed of the transformer's `Random`; its draws are `pick`. */
  const RandomSeed: int := 4837692

  /** The index of the first series column and the number of copies made of
      each instance; the default transformer has 0 and 1. */
  datatype Settings = Settings(start: int, copyFactor: int)

  const DefaultSettings: Settings := Settings(0, 1)

  // ------------------------------------------------------------ the input

  /** `getFileExtension`: the text after the last ".", `null` without a ".". */
  function FileExtension(name: string): (r: Option<string>)
    ensures r.None? <==> '.' !in name
  {
    ContainsChar(name, '.');
    if Contains(name, ".") then Some(name[LastIndexOf(name, '.') + 1..]) else None
  }

  /** The extension of "stem.ext" is "ext" when "ext" has no ".". */
  lemma FileExtensionOf(stem: string, ext: string)
    requires '.' !in ext
    ensures FileExtension(stem + "." + ext) == Some(ext)
  {
    var name := stem + "." + ext;
    assert name == stem + ['.'] + ext;
    LastIndexOfAt(stem, '.', ext);
    ContainsMiddle(stem, ".", ext);
    assert name[|stem| + 1..] == ext;
  }

  /** `canRead`: a regular file with the extension "arff". */
  predicate CanRead(isRegularFile: bool, name: string) {
    isRegularFile && FileExtension(name) == Some("arff")
  }

  // ------------------------------------------------------ instance length

  /** Java's 32-bit `int` arithmetic: the result wrapped into range. */
  function Wrap32(x: int): (r: int)
    ensures IsInt32(r)
    ensures IsInt32(x) ==> r == x
  {
    (x + 0x8000_0000) % 0x1_0000_0000 - 0x8000_0000
  }

  /** The points of a series cell: quotes removed, trimmed, split at " ". */
  function Points(cell: string): seq<string> {
    Split(Trim(Replace(cell, "\"", "")), Literal(" "))
  }

  /** The time step of a point "step#value"; `None` is the exception of a
      point that splits into nothing (one made of "#" only). */
  function TimeStepOf(point: string): Option<string> {
    var parts := Split(point, Literal("#"));
    if |parts| == 0 then None else Some(parts[0])
  }

  /** What one sensor adds to the instance length. */
  datatype Span = Raises | Skipped | Steps(steps: int)

  /** One pass of `getLengthOfInstance`: the last time step minus the first
      (32-bit), capped at the number of points; a sensor whose last time
      step is "?" is skipped. Time steps that are not integers raise. */
  function SpanOf(cell: string): (r: Span)
    ensures r.Steps? ==> r.steps <= |Points(cell)|
  {
    var points := Points(cell);
    if |points| == 0 then Raises
    else match (TimeStepOf(points[0]), TimeStepOf(points[|points| - 1]))
      case (Some(first), Some(last)) =>
        if last == "?" then Skipped
        else (match (ParseInt(last), ParseInt(first))
          case (Some(l), Some(f)) =>
            var diff := Wrap32(l - f);
            Steps(if diff > |points| then |points| else diff)
          case _ => Raises)
      case _ => Raises
  }

  /** The spans of all columns. */
  function SpansOf(cells: seq<string>): (r: seq<Span>)
    ensures |r| == |cells| && forall j :: 0 <= j < |cells| ==> r[j] == SpanOf(cells[j])
  {
    seq(|cells|, j requires 0 <= j < |cells| => SpanOf(cells[j]))
  }

  /** The loop of `getLengthOfInstance` from column `i` on, with the largest
      span so far. */
  function LengthFrom(spans: seq<Span>, i: int, largest: int): Option<int>
    decreases |spans| - i
  {
    if i >= |spans| then Some(largest)
    else if i < 0 then None
    else match spans[i]
      case Raises => None
      case Skipped => LengthFrom(spans, i + 1, largest)
      case Steps(d) => LengthFrom(spans, i + 1, if d > largest then d else largest)
  }

  /** `getLengthOfInstance`: the largest span over the series columns, 0
      when there is none. */
  function InstanceLength(cells: seq<string>, start: int): Option<int> {
    LengthFrom(SpansOf(cells), start, 0)
  }

  /** The loop raises exactly when a column it reads raises or the starting
      index is negative. */
  lemma {:induction false} LengthFromRaises(spans: seq<Span>, i: int, largest: int)
    ensures LengthFrom(spans, i, largest).Some?
      <==> i >= |spans| || (i >= 0 && forall j :: i <= j < |spans| ==> !spans[j].Raises?)
    decreases |spans| - i
  {
    if 0 <= i < |spans| {
      var next := if spans[i].Steps? && spans[i].steps > largest then spans[i].steps else largest;
      LengthFromRaises(spans, i + 1, next);
    }
  }

  /** Otherwise its result is the largest of the start value and the spans
      of the columns not skipped. */
  lemma {:induction false} LengthFromLargest(spans: seq<Span>, i: int, largest: int)
    requires LengthFrom(spans, i, largest).Some?
    ensures var n := LengthFrom(spans, i, largest).value;
      && n >= largest
      && (forall j :: i <= j < |spans| && spans[j].Steps? ==> spans[j].steps <= n)
      && (n == largest || exists j :: i <= j < |spans| && spans[j] == Steps(n))
    decreases |spans| - i
  {
    if 0 <= i < |spans| {
      var next := if spans[i].Steps? && spans[i].steps > largest then spans[i].steps else largest;
      LengthFromLargest(spans, i + 1, next);
    }
  }

  /** The instance length is never negative; it bounds every span and, when
      positive, is the span of some column. It raises exactly when a column
      it reads raises or the starting index is negative. */
  lemma InstanceLengthSpec(cells: seq<string>, start: int)
    ensures InstanceLength(cells, start).Some?
      <==> start >= |cells| || (start >= 0 && forall j :: start <= j < |cells| ==> !SpanOf(cells[j]).Raises?)
    ensures InstanceLength(cells, start).Some? ==>
      var n := InstanceLength(cells, start).value;
      && n >= 0
      && (forall j :: start <= j < |cells| && SpanOf(cells[j]).Steps? ==> SpanOf(cells[j]).steps <= n)
      && (n == 0 || exists j :: start <= j < |cells| && SpanOf(cells[j]) == Steps(n))
  {
    var spans := SpansOf(cells);
    LengthFromRaises(spans, start, 0);
    if InstanceLength(cells, start).Some? {
      LengthFromLargest(spans, start, 0);
    }
  }

  // ----------------------------------------------------------- the cut

  function Min(a: int, b: int): int {
    if a <= b then a else b
  }

  /** `generateEndForInstance` as written: the RUL drawn from
      [min(10, len), min(150, len - 2)], the end at len - RUL. `None` is the
      exception `nextInt` raises for a bound that is not positive. */
  function GenerateEndAsWritten(len: int, draw: nat): Option<int> {
    var maxRul := Min(MaxRemaining, len - 2);
    var minRul := Min(MinRemaining, len);
    var bound := maxRul - minRul + 1;
    if bound <= 0 then None else Some(len - (draw % bound + minRul))
  }

  /** The end and RUL of one copy as written: end 1 and RUL 0 for an
      instance of at most 10 time steps, a drawn cut otherwise. */
  function CutAsWritten(len: int, draw: nat): Option<(int, int)> {
    if len > MinRemaining then
      match GenerateEndAsWritten(len, draw)
      case None => None
      case Some(end) => Some((end, len - end))
    else Some((1, 0))
  }

  /** As written, an instance of exactly 11 time steps raises: the RUL range
      [10, 9] is empty and `nextInt(0)` throws. Every other length is cut. */
  lemma CutAsWrittenRaises(len: int, draw: nat)
    ensures CutAsWritten(len, draw).None? <==> len == MinRemaining + 1
  {
  }

  /** The cut, with instances of 11 time steps treated like the short ones:
      end 1 and RUL 0 up to 11 time steps, a drawn cut from 12 on. */
  function Cut(len: int, draw: nat): (r: (int, int))
    ensures r.0 >= 1
  {
    if len > MinRemaining + 1 then
      var bound := Min(MaxRemaining, len - 2) - MinRemaining + 1;
      var rul := draw % bound + MinRemaining;
      assert draw % bound < bound;
      (len - rul, rul)
    else (1, 0)
  }

  /** The cut keeps at least 2 time steps and leaves between 10 and 150, and
      at most len - 2, to predict; short instances keep one step with RUL 0. */
  lemma CutRange(len: int, draw: nat)
    ensures var (end, rul) := Cut(len, draw);
      && (len > MinRemaining + 1 ==>
            end + rul == len && MinRemaining <= rul <= Min(MaxRemaining, len - 2) && end >= 2)
      && (len <= MinRemaining + 1 ==> end == 1 && rul == 0)
  {
    if len > MinRemaining + 1 {
      var bound := Min(MaxRemaining, len - 2) - MinRemaining + 1;
      assert 0 <= draw % bound < bound;
    }
  }

  /** Every RUL in the range is drawn by some draw. */
  lemma CutCoversRange(len: int, rul: int)
    requires len > MinRemaining + 1 && MinRemaining <= rul <= Min(MaxRemaining, len - 2)
    ensures Cut(len, rul - MinRemaining) == (len - rul, rul)
  {
    var bound := Min(MaxRemaining, len - 2) - MinRemaining + 1;
    ModOfSmaller(rul - MinRemaining, bound);
  }

  /** A number below the divisor is its own remainder. */
  lemma ModOfSmaller(x: nat, bound: int)
    requires x < bound
    ensures x % bound == x
  {
  }

  /** Wherever the code as written does not raise, it cuts the same way. */
  lemma CutAgrees(len: int, draw: nat)
    ensures CutAsWritten(len, draw).Some? ==> CutAsWritten(len, draw).value == Cut(len, draw)
  {
  }

  // -------------------------------------------------------- cutInstance

  /** `Arrays.copyOfRange(points, 0, end)`: the first `end` points, padded
      with `null`, which `String.join` prints as "null". */
  function FirstPoints(points: seq<string>, end: nat): (r: seq<string>)
    ensures |r| == end
    ensures forall i :: 0 <= i < end ==> r[i] == if i < |points| then points[i] else "null"
  {
    seq(end, i requires 0 <= i < end => if i < |points| then points[i] else "null")
  }

  /** One column of a copy: "?" as it is, otherwise the first `end` points,
      quoted and separated by " ". */
  function Column(cell: string, end: nat): string {
    if cell == "?" then cell else "\"" + Join(FirstPoints(Points(cell), end), " ") + "\""
  }

  /** The columns of a copy: one per series column from `start` on. */
  function Columns(cells: seq<string>, start: nat, end: nat): (r: seq<string>)
    ensures |r| == if start <= |cells| then |cells| - start else 0
    ensures forall k :: 0 <= k < |r| ==> r[k] == Column(cells[start + k], end)
  {
    if start <= |cells| then seq(|cells| - start, k requires 0 <= k < |cells| - start => Column(cells[start + k], end))
    else []
  }

  /** One copy of an instance: its columns cut at `end`, then its RUL, all
      separated by ",". */
  function CopyLine(cells: seq<string>, start: nat, end: nat, rul: int): string {
    Join(Columns(cells, start, end) + [IntToString(rul)], ",")
  }

  /** The copies of one instance and the number of draws used so far. */
  datatype Copies = Copies(lines: seq<string>, drawn: nat)

  /** The copies of the loop of `cutInstance`: copy `k` is cut as written
      with the draw numbered `drawn + k`. It raises exactly when there is a
      copy to make of an instance of 11 time steps; otherwise each copy is
      the line cut with the corrected cut of its draw. */
  function CopyLines(cells: seq<string>, start: nat, len: int, pick: nat -> nat, drawn: nat, copies: nat): (r: Option<seq<string>>)
    ensures r.None? <==> copies > 0 && len == MinRemaining + 1
    ensures r.Some? ==> |r.value| == copies
    ensures r.Some? ==> forall k :: 0 <= k < copies ==>
      r.value[k] == CopyLine(cells, start, Cut(len, pick(drawn + k)).0, Cut(len, pick(drawn + k)).1)
    decreases copies
  {
    if copies == 0 then Some([])
    else
      var init :- CopyLines(cells, start, len, pick, drawn, copies - 1);
      CutAsWrittenRaises(len, pick(drawn + copies - 1));
      CutAgrees(len, pick(drawn + copies - 1));
      var cut :- CutAsWritten(len, pick(drawn + copies - 1));
      Some(init + [CopyLine(cells, start, cut.0, cut.1)])
  }

  /** `cutInstance`: the list of copies allocated (a negative copy factor
      raises there), the line's columns split at ",", the instance length
      measured, and `copyFactor` copies cut; every copy of an instance longer
      than 10 time steps draws. `None` is an exception, also that of a
      negative starting index. */
  function CutInstance(line: string, settings: Settings, pick: nat -> nat, drawn: nat): (r: Option<Copies>)
    ensures settings.copyFactor < 0 ==> r.None?
    ensures r.Some? ==> |r.value.lines| == settings.copyFactor && r.value.drawn >= drawn
  {
    if settings.copyFactor < 0 then None
    else
      var cells := Split(line, Literal(","));
      if settings.start < 0 then None
      else match InstanceLength(cells, settings.start)
        case None => None
        case Some(len) =>
          var lines :- CopyLines(cells, settings.start, len, pick, drawn, settings.copyFactor);
          Some(Copies(lines, if len > MinRemaining then drawn + settings.copyFactor else drawn))
  }

  /** `cutInstance` raises exactly for a negative copy factor, a negative
      starting index, a column whose length cannot be read, or an instance
      of 11 time steps with a copy to make. */
  lemma CutInstanceRaises(line: string, settings: Settings, pick: nat -> nat, drawn: nat)
    ensures var cells := Split(line, Literal(","));
      CutInstance(line, settings, pick, drawn).None? <==>
        || settings.copyFactor < 0 || settings.start < 0
        || InstanceLength(cells, settings.start).None?
        || (settings.copyFactor > 0 && InstanceLength(cells, settings.start) == Some(MinRemaining + 1))
  {
  }

  /** A cell's column holds no "," when the cell holds none. */
  lemma ColumnHasNoComma(cell: string, end: nat)
    requires ',' !in cell
    ensures ',' !in Column(cell, end)
  {
    if cell != "?" {
      ReplaceKeepsOut(cell, "\"", "", ',');
      TrimKeepsOut(Replace(cell, "\"", ""), ',');
      SplitKeepsOut(Trim(Replace(cell, "\"", "")), Literal(" "), ',');
      var points := FirstPoints(Points(cell), end);
      assert forall i :: 0 <= i < |points| ==> ',' !in points[i];
      JoinKeepsOut(points, " ", ',');
    }
  }

  /** A quoted column lists exactly `end` points: the cell's first ones, then
      "null" for each one missing. */
  lemma ColumnPoints(cell: string, end: nat)
    requires cell != "?" && end >= 1
    ensures var column := Column(cell, end);
      && |column| >= 2 && column[0] == '"' && column[|column| - 1] == '"'
      && SplitAll(column[1..|column| - 1], Literal(" ")) == FirstPoints(Points(cell), end)
  {
    var all := Points(cell);
    SplitLacksSeparator(Trim(Replace(cell, "\"", "")), ' ');
    var points := FirstPoints(all, end);
    forall i | 0 <= i < |points|
      ensures ' ' !in points[i]
    {
      if i < |all| {
        assert points[i] == all[i];
      }
    }
    SplitAllJoin(points, ' ');
    QuotedInner(Join(points, " "));
  }

  /** The text between the quotes of a quoted text. */
  lemma QuotedInner(inner: string)
    ensures var quoted := "\"" + inner + "\"";
      |quoted| >= 2 && quoted[0] == '"' && quoted[|quoted| - 1] == '"' && quoted[1..|quoted| - 1] == inner
  {
  }

  /** The columns of a cut line split back at ",": the series columns from
      the starting index on, then the RUL. */
  lemma CopyLineColumns(line: string, start: nat, end: nat, rul: int)
    ensures var cells := Split(line, Literal(","));
      Split(CopyLine(cells, start, end, rul), Literal(",")) == Columns(cells, start, end) + [IntToString(rul)]
  {
    var cells := Split(line, Literal(","));
    var columns := Columns(cells, start, end);
    var parts := columns + [IntToString(rul)];
    SplitLacksSeparator(line, ',');
    forall k | 0 <= k < |parts|
      ensures ',' !in parts[k]
    {
      if k < |columns| {
        ColumnHasNoComma(cells[start + k], end);
      } else {
        IntToStringChars(rul);
      }
    }
    IntToStringChars(rul);
    SplitJoin(parts, ',');
  }

  /** Copy `k` of an instance, split at ",", is the cut columns and the RUL. */
  lemma CopyLinesColumns(line: string, start: nat, len: int, pick: nat -> nat, drawn: nat, copies: nat, k: nat)
    requires k < copies && CopyLines(Split(line, Literal(",")), start, len, pick, drawn, copies).Some?
    ensures var cut := Cut(len, pick(drawn + k));
      Split(CopyLines(Split(line, Literal(",")), start, len, pick, drawn, copies).value[k], Literal(","))
        == Columns(Split(line, Literal(",")), start, cut.0) + [IntToString(cut.1)]
  {
    var cut := Cut(len, pick(drawn + k));
    CopyLineColumns(line, start, cut.0, cut.1);
  }

  /** Each copy `cutInstance` makes lists the series columns from the
      starting index on, cut with the draw numbered by the copy, then its
      RUL; only instances longer than 10 time steps use up draws, and an
      instance of 11 time steps never gets this far. */
  lemma CutInstanceLines(line: string, settings: Settings, pick: nat -> nat, drawn: nat)
    requires CutInstance(line, settings, pick, drawn).Some?
    ensures var cells := Split(line, Literal(","));
      && settings.copyFactor >= 0 && settings.start >= 0 && InstanceLength(cells, settings.start).Some?
      && var len := InstanceLength(cells, settings.start).value;
         var copies := CutInstance(line, settings, pick, drawn).value;
         && (settings.copyFactor == 0 || len != MinRemaining + 1)
         && copies.drawn == (if len > MinRemaining then drawn + |copies.lines| else drawn)
         && forall k :: 0 <= k < |copies.lines| ==>
              Split(copies.lines[k], Literal(",")) ==
                Columns(cells, settings.start, Cut(len, pick(drawn + k)).0) + [IntToString(Cut(len, pick(drawn + k)).1)]
  {
    var cells := Split(line, Literal(","));
    var len := InstanceLength(cells, settings.start).value;
    var n := settings.copyFactor;
    var lines := CopyLines(cells, settings.start, len, pick, drawn, n).value;
    assert CutInstance(line, settings, pick, drawn).value.lines == lines;
    forall k | 0 <= k < |lines|
      ensures Split(lines[k], Literal(",")) ==
                Columns(cells, settings.start, Cut(len, pick(drawn + k)).0) + [IntToString(Cut(len, pick(drawn + k)).1)]
    {
      CopyLinesColumns(line, settings.start, len, pick, drawn, n, k);
    }
  }

  // --------------------------------------------------- the file rewrite

  /** The attribute declared for the RUL, just before "@DATA". */
  const RulAttribute: string := "@ATTRIBUTE RUL NUMERIC"

  /** Lines that are empty once trimmed are skipped. */
  predicate IsBlank(line: string) {
    Trim(line) == ""
  }

  /** Header lines copied as they are. */
  predicate IsDeclaration(line: string) {
    StartsWith(line, "@RELATION") || StartsWith(line, "@ATTRIBUTE")
  }

  /** The lines written so far, whether "@DATA" has been passed, the draws
      used, and whether an exception ended the rewrite. */
  datatype State = State(written: seq<string>, headerDone: bool, drawn: nat, raised: bool)

  /** One pass of the loop of `transform(input, output)`. After an exception
      nothing more is written; the lines written stay in the file. A pass
      only appends to the output, passes "@DATA" exactly at a "@DATA" line,
      and raises only where `cutInstance` does. */
  function Step(st: State, line: string, settings: Settings, pick: nat -> nat): (r: State)
    ensures st.raised || IsBlank(line) ==> r == st
    ensures |st.written| <= |r.written| && r.written[..|st.written|] == st.written
    ensures r.drawn >= st.drawn
    ensures r.headerDone <==> st.headerDone || (!st.raised && StartsWith(line, "@DATA"))
    ensures r.raised <==> st.raised || (st.headerDone && !IsBlank(line) && CutInstance(line, settings, pick, st.drawn).None?)
  {
    DataLineKind(line);
    if st.raised || IsBlank(line) then st
    else if st.headerDone then
      match CutInstance(line, settings, pick, st.drawn)
      case None => st.(raised := true)
      case Some(copies) => st.(written := st.written + copies.lines, drawn := copies.drawn)
    else if IsDeclaration(line) then st.(written := st.written + [line])
    else if StartsWith(line, "@DATA") then st.(written := st.written + [RulAttribute, line], headerDone := true)
    else st
  }

  /** The loop of `transform(input, output)` from a state over further
      lines: it only appends to the output, never forgets having passed
      "@DATA", and changes nothing after an exception. */
  function Run(st: State, lines: seq<string>, settings: Settings, pick: nat -> nat): (r: State)
    ensures st.raised ==> r == st
    ensures |st.written| <= |r.written| && r.written[..|st.written|] == st.written
    ensures st.headerDone ==> r.headerDone
    ensures r.drawn >= st.drawn
    ensures !r.headerDone ==> r.drawn == st.drawn
    ensures (st.raised ==> st.headerDone) ==> (r.raised ==> r.headerDone)
    decreases |lines|
  {
    if |lines| == 0 then st
    else
      var next := Step(st, lines[0], settings, pick);
      var r := Run(next, lines[1..], settings, pick);
      PrefixOfPrefix(st.written, next.written, r.written);
      r
  }

  /** Nothing written, "@DATA" not reached, no draw used. */
  const Start: State := State([], false, 0, false)

  /** `transform(input, output)` over the input's lines: the lines written
      to the output, each followed by a line break there. Only an instance
      line after "@DATA" can raise or draw. */
  function Rewrite(lines: seq<string>, settings: Settings, pick: nat -> nat): (r: State)
    ensures r.raised ==> r.headerDone
    ensures !r.headerDone ==> r.drawn == 0
  {
    Run(Start, lines, settings, pick)
  }

  /** Running over two pieces of input is running over one, then the
      other. */
  lemma {:induction false} RunAppend(st: State, a: seq<string>, b: seq<string>, settings: Settings, pick: nat -> nat)
    ensures Run(st, a + b, settings, pick) == Run(Run(st, a, settings, pick), b, settings, pick)
    decreases |a|
  {
    if |a| > 0 {
      assert (a + b)[0] == a[0];
      assert (a + b)[1..] == a[1..] + b;
      RunAppend(Step(st, a[0], settings, pick), a[1..], b, settings, pick);
    } else {
      assert a + b == b;
    }
  }

  /** The declarations of a header, blank lines and other lines dropped. */
  function Declarations(lines: seq<string>): seq<string>
    decreases |lines|
  {
    if |lines| == 0 then []
    else (if !IsBlank(lines[0]) && IsDeclaration(lines[0]) then [lines[0]] else []) + Declarations(lines[1..])
  }

  /** A line starting with "@" is not blank. */
  lemma TaggedNotBlank(line: string, tag: string)
    requires |tag| > 0 && tag[0] == '@' && StartsWith(line, tag)
    ensures !IsBlank(line)
  {
    assert line[0] == '@';
    assert |TrimStart(line)| == |line|;
    assert TrimStart(line) == line;
  }

  /** Before "@DATA", only the "@RELATION" and "@ATTRIBUTE" lines are
      written, and nothing is drawn. */
  lemma {:induction false} RunHeader(st: State, lines: seq<string>, settings: Settings, pick: nat -> nat)
    requires !st.headerDone && !st.raised
    requires forall i :: 0 <= i < |lines| ==> !StartsWith(lines[i], "@DATA")
    ensures Run(st, lines, settings, pick) == st.(written := st.written + Declarations(lines))
    decreases |lines|
  {
    if |lines| > 0 {
      var x := if !IsBlank(lines[0]) && IsDeclaration(lines[0]) then [lines[0]] else [];
      var next := st.(written := st.written + x);
      assert !StartsWith(lines[0], "@DATA");
      assert Step(st, lines[0], settings, pick) == next;
      RunHeader(next, lines[1..], settings, pick);
      assert Declarations(lines) == x + Declarations(lines[1..]);
      Associative(st.written, x, Declarations(lines[1..]));
    } else {
      assert st.written + [] == st.written;
    }
  }

  lemma Associative<T>(a: seq<T>, b: seq<T>, c: seq<T>)
    ensures a + b + c == a + (b + c)
  {
  }

  /** The "@DATA" line is neither blank nor a declaration. */
  lemma DataLineKind(line: string)
    ensures StartsWith(line, "@DATA") ==> !IsBlank(line) && !IsDeclaration(line)
  {
    if StartsWith(line, "@DATA") {
      TaggedNotBlank(line, "@DATA");
      var d := "@DATA";
      assert line[1] == d[1] == 'D';
      var r := "@RELATION";
      var a := "@ATTRIBUTE";
      assert r[1] == 'R' && a[1] == 'A';
    }
  }

  /** At the "@DATA" line the RUL attribute is declared, then "@DATA"
      written. */
  lemma RewriteDataLine(header: seq<string>, data: string, settings: Settings, pick: nat -> nat)
    requires forall i :: 0 <= i < |header| ==> !StartsWith(header[i], "@DATA")
    requires StartsWith(data, "@DATA")
    ensures Rewrite(header + [data], settings, pick)
      == State(Declarations(header) + [RulAttribute, data], true, 0, false)
  {
    RunAppend(Start, header, [data], settings, pick);
    RunHeader(Start, header, settings, pick);
    var mid := Run(Start, header, settings, pick);
    assert mid == State(Declarations(header), false, 0, false);
    DataLineKind(data);
    assert Run(mid, [data], settings, pick) == Step(mid, data, settings, pick);
  }

  /** The non-blank lines among some lines. */
  function NonBlankCount(lines: seq<string>): nat
    decreases |lines|
  {
    if |lines| == 0 then 0
    else (if IsBlank(lines[0]) then 0 else 1) + NonBlankCount(lines[1..])
  }

  /** One line after "@DATA": a blank line changes nothing, any other line
      adds `copyFactor` lines unless it raises, and always raises for a
      negative copy factor. */
  lemma StepData(st: State, line: string, settings: Settings, pick: nat -> nat)
    requires st.headerDone
    ensures var next := Step(st, line, settings, pick);
      var copies := if settings.copyFactor > 0 then settings.copyFactor else 0;
      && next.headerDone
      && (st.raised ==> next == st)
      && (!IsBlank(line) && settings.copyFactor < 0 ==> next.raised)
      && (!next.raised ==>
            !st.raised
            && |next.written| == |st.written| + (if IsBlank(line) then 0 else copies)
            && next.written[..|st.written|] == st.written)
  {
    var next := Step(st, line, settings, pick);
    if !st.raised && !IsBlank(line) && !next.raised {
      var c := CutInstance(line, settings, pick, st.drawn);
      assert next.written == st.written + c.value.lines;
    }
  }

  lemma Distribute(a: nat, b: nat, c: nat, sum: nat)
    requires sum == b + c
    ensures a * sum == a * b + a * c
    ensures a * c >= 0
  {
  }

  /** After "@DATA", every non-blank line becomes `copyFactor` lines appended
      to what was written, as long as no exception ends the rewrite; after
      one, nothing changes. */
  lemma {:induction false} RunData(st: State, more: seq<string>, settings: Settings, pick: nat -> nat)
    requires st.headerDone
    ensures var after := Run(st, more, settings, pick);
      var copies := if settings.copyFactor > 0 then settings.copyFactor else 0;
      && after.headerDone
      && (st.raised ==> after == st)
      && (!after.raised ==>
            |after.written| == |st.written| + copies * NonBlankCount(more)
            && |st.written| <= |after.written|
            && after.written[..|st.written|] == st.written)
    decreases |more|
  {
    if |more| > 0 {
      var next := Step(st, more[0], settings, pick);
      StepData(st, more[0], settings, pick);
      RunData(next, more[1..], settings, pick);
      var after := Run(next, more[1..], settings, pick);
      assert Run(st, more, settings, pick) == after;
      if !after.raised {
        var copies := if settings.copyFactor > 0 then settings.copyFactor else 0;
        var blank := if IsBlank(more[0]) then 0 else 1;
        assert NonBlankCount(more) == blank + NonBlankCount(more[1..]);
        Distribute(copies, blank, NonBlankCount(more[1..]), NonBlankCount(more));
        assert copies * blank == if IsBlank(more[0]) then 0 else copies;
        PrefixOfPrefix(st.written, next.written, after.written);
      }
    } else {
      assert NonBlankCount(more) == 0;
    }
  }

  lemma PrefixOfPrefix<T>(a: seq<T>, b: seq<T>, c: seq<T>)
    requires |a| <= |b| <= |c| && b[..|a|] == a && c[..|b|] == b
    ensures c[..|a|] == a
  {
    assert forall i :: 0 <= i < |a| ==> c[i] == b[i];
  }

  /** What the rewrite writes after "@DATA" extends what it wrote before,
      by `copyFactor` lines per non-blank instance line. */
  lemma RewriteData(lines: seq<string>, more: seq<string>, settings: Settings, pick: nat -> nat)
    requires Rewrite(lines, settings, pick).headerDone
    ensures var before := Rewrite(lines, settings, pick);
      var after := Rewrite(lines + more, settings, pick);
      var copies := if settings.copyFactor > 0 then settings.copyFactor else 0;
      && after.headerDone
      && (before.raised ==> after == before)
      && (!after.raised ==>
            |after.written| == |before.written| + copies * NonBlankCount(more)
            && |before.written| <= |after.written|
            && after.written[..|before.written|] == before.written)
  {
    RunAppend(Start, lines, more, settings, pick);
    RunData(Rewrite(lines, settings, pick), more, settings, pick);
  }
}

=== FILE: raters.dfy ===
/** Feature raters: how the inner regression search rates a feature extractor
    from the scores of the regressor candidates that used it. Low is good. */
module Raters {
  import opened Ordering
  import opened Sequences

  /** A candidate's score: absent (`null`), not a number, or a value. */
  datatype Score = Missing | NaN | Value(v: real)

  /** The rating of an extractor no candidate scored. */
  const NoScoreRating: real := 10000.0

  /** The scores that are neither `null` nor NaN, in candidate order. */
  function ValidScores(scores: seq<Score>): (r: seq<real>)
    ensures |r| <= |scores|
    decreases |scores|
  {
    if |scores| == 0 then []
    else
      var rest := ValidScores(scores[1..]);
      if scores[0].Value? then [scores[0].v] + rest else rest
  }

  /** A valid score occurs as often among the valid scores as its value among
      the candidates. */
  lemma {:induction false} ValidScoresCount(scores: seq<Score>, x: real)
    ensures multiset(ValidScores(scores))[x] == multiset(scores)[Value(x)]
    decreases |scores|
  {
    if |scores| > 0 {
      ValidScoresCount(scores[1..], x);
      assert scores == [scores[0]] + scores[1..];
      assert multiset(scores) == multiset{scores[0]} + multiset(scores[1..]);
    }
  }

  lemma ValidScoresPermutation(a: seq<Score>, b: seq<Score>)
    requires multiset(a) == multiset(b)
    ensures multiset(ValidScores(a)) == multiset(ValidScores(b))
  {
    forall x
      ensures multiset(ValidScores(a))[x] == multiset(ValidScores(b))[x]
    {
      ValidScoresCount(a, x);
      ValidScoresCount(b, x);
    }
  }

  /** The sum of `f` over a list, added from the front. */
  function Total(xs: seq<real>, f: real -> real): real
    decreases |xs|
  {
    if |xs| == 0 then 0.0 else f(xs[0]) + Total(xs[1..], f)
  }

  lemma {:induction false} TotalAppend(a: seq<real>, b: seq<real>, f: real -> real)
    ensures Total(a + b, f) == Total(a, f) + Total(b, f)
    decreases |a|
  {
    if |a| == 0 {
      assert a + b == b;
    } else {
      TotalAppend(a[1..], b, f);
      assert (a + b)[1..] == a[1..] + b;
    }
  }

  /** Taking one element out of a list takes its term out of the total. */
  lemma TotalRemoveAt(b: seq<real>, k: nat, f: real -> real)
    requires k < |b|
    ensures Total(b, f) == f(b[k]) + Total(b[..k] + b[k + 1..], f)
  {
    var front, back := b[..k], b[k + 1..];
    AroundIndex(b, k);
    TotalAppend(front, [b[k]] + back, f);
    TotalCons(b[k], back, f);
    TotalAppend(front, back, f);
  }

  /** The total of a list with `x` in front. */
  lemma TotalCons(x: real, xs: seq<real>, f: real -> real)
    ensures Total([x] + xs, f) == f(x) + Total(xs, f)
  {
    assert ([x] + xs)[1..] == xs;
  }

  /** The total does not depend on the order of the list. */
  lemma {:induction false} TotalPermutation(a: seq<real>, b: seq<real>, f: real -> real)
    requires multiset(a) == multiset(b)
    ensures Total(a, f) == Total(b, f)
    decreases |a|
  {
    SameSize(a, b);
    if |a| > 0 {
      var k := MatchFirst(a, b);
      TotalRemoveAt(b, k, f);
      TotalPermutation(a[1..], b[..k] + b[k + 1..], f);
    }
  }

  lemma {:induction false} TotalAtMost(xs: seq<real>, f: real -> real, hi: real)
    requires forall i :: 0 <= i < |xs| ==> f(xs[i]) <= hi
    ensures Total(xs, f) <= |xs| as real * hi
    decreases |xs|
  {
    if |xs| > 0 {
      TotalAtMost(xs[1..], f, hi);
    }
  }

  lemma {:induction false} TotalAtLeast(xs: seq<real>, f: real -> real, lo: real)
    requires forall i :: 0 <= i < |xs| ==> lo <= f(xs[i])
    ensures |xs| as real * lo <= Total(xs, f)
    decreases |xs|
  {
    if |xs| > 0 {
      TotalAtLeast(xs[1..], f, lo);
    }
  }

  function Id(x: real): real {
    x
  }

  function Sum(xs: seq<real>): real {
    Total(xs, Id)
  }

  /** The arithmetic mean of a non-empty list. */
  function Mean(xs: seq<real>): real
    requires |xs| > 0
  {
    Sum(xs) / |xs| as real
  }

  /** The mean lies between any lower and any upper bound of the values. */
  lemma MeanBetween(xs: seq<real>, lo: real, hi: real)
    requires |xs| > 0
    requires forall i :: 0 <= i < |xs| ==> lo <= xs[i] <= hi
    ensures lo <= Mean(xs) <= hi
  {
    TotalAtLeast(xs, Id, lo);
    TotalAtMost(xs, Id, hi);
    var n := |xs| as real;
    assert Mean(xs) * n == Sum(xs);
  }

  /** The position of a smallest value. */
  function MinIndex(xs: seq<real>): (k: nat)
    requires |xs| > 0
    ensures k < |xs| && forall i :: 0 <= i < |xs| ==> xs[k] <= xs[i]
    decreases |xs|
  {
    if |xs| == 1 then 0
    else
      var k := MinIndex(xs[1..]);
      assert forall i :: 1 <= i < |xs| ==> xs[1..][i - 1] == xs[i];
      if xs[0] <= xs[k + 1] then 0 else k + 1
  }

  /** The position of a largest value. */
  function MaxIndex(xs: seq<real>): (k: nat)
    requires |xs| > 0
    ensures k < |xs| && forall i :: 0 <= i < |xs| ==> xs[i] <= xs[k]
    decreases |xs|
  {
    if |xs| == 1 then 0
    else
      var k := MaxIndex(xs[1..]);
      assert forall i :: 1 <= i < |xs| ==> xs[1..][i - 1] == xs[i];
      if xs[k + 1] <= xs[0] then 0 else k + 1
  }

  /** The mean of a non-empty list is reached from below by one of its values
      and from above by another. */
  lemma MeanWithinValues(xs: seq<real>)
    requires |xs| > 0
    ensures exists i :: 0 <= i < |xs| && xs[i] <= Mean(xs)
    ensures exists j :: 0 <= j < |xs| && Mean(xs) <= xs[j]
  {
    var lo, hi := MinIndex(xs), MaxIndex(xs);
    MeanBetween(xs, xs[lo], xs[hi]);
  }

  /** `AverageFeatureRater`: the mean of the valid scores, or the fallback when
      there is none. */
  function AverageRating(scores: seq<Score>): (r: real)
    ensures |ValidScores(scores)| == 0 ==> r == NoScoreRating
    ensures |ValidScores(scores)| > 0 ==> r * |ValidScores(scores)| as real == Sum(ValidScores(scores))
  {
    var valid := ValidScores(scores);
    if |valid| > 0 then Mean(valid) else NoScoreRating
  }

  /** The average lies between the smallest and the largest valid score. */
  lemma AverageBetween(scores: seq<Score>, lo: real, hi: real)
    requires |ValidScores(scores)| > 0
    requires forall i :: 0 <= i < |ValidScores(scores)| ==> lo <= ValidScores(scores)[i] <= hi
    ensures lo <= AverageRating(scores) <= hi
  {
    MeanBetween(ValidScores(scores), lo, hi);
  }

  /** The average does not depend on the order of the candidates. */
  lemma AverageOrderIrrelevant(a: seq<Score>, b: seq<Score>)
    requires multiset(a) == multiset(b)
    ensures AverageRating(a) == AverageRating(b)
  {
    ValidScoresPermutation(a, b);
    var va, vb := ValidScores(a), ValidScores(b);
    assert |va| == |multiset(va)| == |multiset(vb)| == |vb|;
    TotalPermutation(va, vb, Id);
  }

  /** Two ascending lists with the same elements are equal. */
  lemma {:induction false} SortedRealsUnique(a: seq<real>, b: seq<real>)
    requires SortedReals(a) && SortedReals(b)
    requires multiset(a) == multiset(b)
    ensures a == b
    decreases |a|
  {
    assert |a| == |multiset(a)| == |multiset(b)| == |b|;
    if |a| > 0 {
      assert a[0] in multiset(b) && b[0] in multiset(a);
      var j :| 0 <= j < |b| && b[j] == a[0];
      var i :| 0 <= i < |a| && a[i] == b[0];
      assert b[0] <= b[j] && a[0] <= a[i];
      MultisetTails(a, b);
      SortedRealsUnique(a[1..], b[1..]);
      assert a == [a[0]] + a[1..] && b == [b[0]] + b[1..];
    }
  }

  /** `MedianFeatureRater`: the valid score at index n/2 of the ascending
      order (the upper median for an even count), or the fallback when there
      is none. */
  function MedianRating(scores: seq<Score>): (r: real)
    ensures |ValidScores(scores)| == 0 ==> r == NoScoreRating
    ensures |ValidScores(scores)| > 0 ==> r in ValidScores(scores)
  {
    var sorted := SortReals(ValidScores(scores));
    if |sorted| > 0 then
      assert sorted[|sorted| / 2] in multiset(sorted);
      sorted[|sorted| / 2]
    else NoScoreRating
  }

  /** The median does not depend on the order of the candidates. */
  lemma MedianOrderIrrelevant(a: seq<Score>, b: seq<Score>)
    requires multiset(a) == multiset(b)
    ensures MedianRating(a) == MedianRating(b)
  {
    ValidScoresPermutation(a, b);
    SortedRealsUnique(SortReals(ValidScores(a)), SortReals(ValidScores(b)));
  }

  function Below(t: real): real -> real {
    x => if x < t then 1.0 else 0.0
  }

  function Above(t: real): real -> real {
    x => if x > t then 1.0 else 0.0
  }

  /** How many of the values lie strictly below, and strictly above, `t`. */
  function CountBelow(xs: seq<real>, t: real): real {
    Total(xs, Below(t))
  }

  function CountAbove(xs: seq<real>, t: real): real {
    Total(xs, Above(t))
  }

  /** In an ascending list, at most `m` values lie below the one at index `m`
      and at most `n - 1 - m` above it. */
  lemma SortedRank(xs: seq<real>, m: nat)
    requires SortedReals(xs) && m < |xs|
    ensures CountBelow(xs, xs[m]) <= m as real
    ensures CountAbove(xs, xs[m]) <= (|xs| - 1 - m) as real
  {
    var t := xs[m];
    assert xs == xs[..m] + xs[m..];
    TotalAppend(xs[..m], xs[m..], Below(t));
    TotalAtMost(xs[..m], Below(t), 1.0);
    TotalAtMost(xs[m..], Below(t), 0.0);
    assert xs == xs[..m + 1] + xs[m + 1..];
    TotalAppend(xs[..m + 1], xs[m + 1..], Above(t));
    TotalAtMost(xs[..m + 1], Above(t), 0.0);
    TotalAtMost(xs[m + 1..], Above(t), 1.0);
  }

  /** The median is the upper median of the valid scores: at most n/2 of them
      lie below it and at most n - 1 - n/2 above it. */
  lemma MedianRank(scores: seq<Score>)
    requires |ValidScores(scores)| > 0
    ensures var valid := ValidScores(scores); var n := |valid|;
      && CountBelow(valid, MedianRating(scores)) <= (n / 2) as real
      && CountAbove(valid, MedianRating(scores)) <= (n - 1 - n / 2) as real
  {
    var valid := ValidScores(scores);
    var sorted := SortReals(valid);
    var r := MedianRating(scores);
    SortedRank(sorted, |sorted| / 2);
    TotalPermutation(valid, sorted, Below(r));
    TotalPermutation(valid, sorted, Above(r));
  }

  /** `NumberOfUsingRegressorsFeatureRater`: minus the number of candidates,
      whatever their scores. */
  function UsageRating(scores: seq<Score>): (r: real)
    ensures r <= 0.0
    ensures r == 0.0 <==> |scores| == 0
  {
    -(|scores| as real)
  }

  /** More candidates rate strictly better (lower). */
  lemma MoreCandidatesRateLower(a: seq<Score>, b: seq<Score>)
    requires |a| < |b|
    ensures UsageRating(b) < UsageRating(a)
  {
  }

  /** The configurable raters. The source also lists a `MINIMUM` rater whose
      class is not part of this model. */
  datatype FeatureRater = Average | NumberOfUsingRegressors | Median

  /** Each constant rates as its delegate does. */
  function Rate(rater: FeatureRater, scores: seq<Score>): (r: real)
    ensures rater.Average? ==> r == AverageRating(scores)
    ensures rater.NumberOfUsingRegressors? ==> r == UsageRating(scores)
    ensures rater.Median? ==> r == MedianRating(scores)
  {
    match rater
    case Average => AverageRating(scores)
    case NumberOfUsingRegressors => UsageRating(scores)
    case Median => MedianRating(scores)
  }

  /** No rater depends on the order of the candidates. */
  lemma RateOrderIrrelevant(rater: FeatureRater, a: seq<Score>, b: seq<Score>)
    requires multiset(a) == multiset(b)
    ensures Rate(rater, a) == Rate(rater, b)
  {
    assert |a| == |multiset(a)| == |multiset(b)| == |b|;
    AverageOrderIrrelevant(a, b);
    MedianOrderIrrelevant(a, b);
  }
}

=== FILE: regression_problem.dfy ===
/** `RegressionGgpProblem`: the inner search for regressors on top of a batch of
    decoded feature extractors. A selector component names an extractor by
    index and requires one regressor; every regressor candidate of the last
    population is filed under the construction string of the extractor it
    names, each extractor is rated from its candidates, and the best candidate
    becomes a complete pipeline. The genetic programming engine is outside the
    model: its last population and its result are inputs. */
module RegressionProblem {
  import opened Wrappers
  import opened Strings
  import opened Components
  import opened Rendering
  import opened Raters
  import opened PipelineEvaluation

  /** The name of the selector component and of the interface it provides. */
  const SelectorName: string := "ComponentToSearch"

  /** The selector component over `count` decodings, which the source refuses
      to build for an empty list. Its one parameter is an integer over
      [0, count - 1] with default 0 (bounds with the decimal rendering of a
      double), and it requires one regressor through the regression interface
      (one to one, the component library's default). */
  function SelectorComponent(count: nat, regressionInterface: string): (c: Option<Component>)
    ensures c.None? <==> count == 0
    ensures c.Some? ==>
      && c.value.name == SelectorName && c.value.provided == [SelectorName]
      && c.value.required == [RequiredInterface(regressionInterface, regressionInterface, 1, 1)]
      && |c.value.parameters| == 1
      && c.value.parameters[0].name == ExtractorIdParameter
      && c.value.parameters[0].domain.Numeric?
      && c.value.parameters[0].domain.isInteger
      && c.value.parameters[0].domain.min.value == 0.0
      && c.value.parameters[0].domain.max.value == (count - 1) as real
      && c.value.parameters[0].domain.default == 0.0
  {
    if count == 0 then None
    else
      var domain := Numeric(true, Double(0.0, "0.0"), Double((count - 1) as real, IntToString(count - 1) + ".0"), 0.0);
      Some(Component(SelectorName, [SelectorName], [RequiredInterface(regressionInterface, regressionInterface, 1, 1)],
                     [Parameter(ExtractorIdParameter, domain)]))
  }

  /** Every value of the selector's parameter, written as a decimal integer,
      names a decoding: the pipeline evaluator reads back the same index. */
  lemma SelectorValuesNameDecodings(count: nat, regressionInterface: string, id: nat, satisfaction: map<string, seq<Instance>>)
    requires id < count && IsInt32(id)
    ensures var c := SelectorComponent(count, regressionInterface);
      && c.Some?
      && c.value.parameters[0].domain.min.value <= id as real <= c.value.parameters[0].domain.max.value
      && ExtractorIndex(Instance(c.value, map[ExtractorIdParameter := IntToString(id)], satisfaction), count) == Some(id)
  {
    ParseIntToString(id);
  }

  /** A regressor candidate of the last population: the selector instance and
      its score, if any. */
  datatype Candidate = Candidate(selector: Instance, score: Score)

  /** The construction string of the extractor a candidate names; `None` when
      its parameter does not parse or does not index a decoding. */
  function ExtractorOf(c: Candidate, decodings: seq<Decoding>): (r: Option<string>)
    ensures r.Some? <==> ExtractorIndex(c.selector, |decodings|).Some?
    ensures r.Some? ==> r.value == decodings[ExtractorIndex(c.selector, |decodings|).value].construction
  {
    var id :- ExtractorIndex(c.selector, |decodings|);
    Some(decodings[id].construction)
  }

  /** The construction strings of the decodings. */
  function Constructions(decodings: seq<Decoding>): set<string> {
    set d | d in decodings :: d.construction
  }

  /** The candidates naming an extractor with construction string `key`, in
      population order: the reference for the buckets. */
  function Users(candidates: seq<Candidate>, decodings: seq<Decoding>, key: string): seq<Candidate>
    decreases |candidates|
  {
    if |candidates| == 0 then []
    else
      var last := candidates[|candidates| - 1];
      Users(candidates[..|candidates| - 1], decodings, key) + (if ExtractorOf(last, decodings) == Some(key) then [last] else [])
  }

  /** `mapGGPSolutionCandidatesToFeatureExtractor`: an empty bucket per
      construction string, then every candidate appended to the bucket of the
      extractor it names; `None` when a candidate names none (a number-format
      or index error). Decodings with equal construction strings share a
      bucket. */
  function Buckets(candidates: seq<Candidate>, decodings: seq<Decoding>): (r: Option<map<string, seq<Candidate>>>)
    ensures r.Some? <==> forall i :: 0 <= i < |candidates| ==> ExtractorOf(candidates[i], decodings).Some?
    ensures r.Some? ==> r.value.Keys == Constructions(decodings)
    decreases |candidates|
  {
    if |candidates| == 0 then Some(map key | key in Constructions(decodings) :: [])
    else
      var n := |candidates| - 1;
      var before := Buckets(candidates[..n], decodings);
      assert forall i :: 0 <= i < n ==> candidates[..n][i] == candidates[i];
      if before.None? then None
      else match ExtractorOf(candidates[n], decodings)
        case None => None
        case Some(key) =>
          assert decodings[ExtractorIndex(candidates[n].selector, |decodings|).value] in decodings;
          Some(before.value[key := before.value[key] + [candidates[n]]])
  }

  /** Each bucket holds exactly the candidates naming its construction string,
      in population order. */
  lemma {:induction false} BucketsAreUsers(candidates: seq<Candidate>, decodings: seq<Decoding>, key: string)
    requires Buckets(candidates, decodings).Some? && key in Constructions(decodings)
    ensures Buckets(candidates, decodings).value[key] == Users(candidates, decodings, key)
    decreases |candidates|, 1
  {
    if |candidates| > 0 {
      BucketsAreUsersStep(candidates, decodings, key);
    }
  }

  /** The step of `BucketsAreUsers`: the last candidate joins the bucket it
      names, after all before it. */
  lemma {:induction false} BucketsAreUsersStep(candidates: seq<Candidate>, decodings: seq<Decoding>, key: string)
    requires |candidates| > 0
    requires Buckets(candidates, decodings).Some? && key in Constructions(decodings)
    ensures Buckets(candidates, decodings).value[key] == Users(candidates, decodings, key)
    decreases |candidates|, 0
  {
    var n := |candidates| - 1;
    var named := BucketsLast(candidates, decodings);
    BucketsAreUsers(candidates[..n], decodings, key);
  }

  /** The buckets of candidates are those of all but the last, with the last
      appended to the bucket of the extractor it names. */
  lemma BucketsLast(candidates: seq<Candidate>, decodings: seq<Decoding>) returns (named: string)
    requires |candidates| > 0 && Buckets(candidates, decodings).Some?
    ensures var n := |candidates| - 1;
      var before := Buckets(candidates[..n], decodings);
      && before.Some? && ExtractorOf(candidates[n], decodings) == Some(named)
      && named in before.value
      && Buckets(candidates, decodings).value == before.value[named := before.value[named] + [candidates[n]]]
  {
    var n := |candidates| - 1;
    named := ExtractorOf(candidates[n], decodings).value;
  }

  /** The scores of some candidates, in order. */
  function Scores(cs: seq<Candidate>): (r: seq<Score>)
    ensures |r| == |cs| && forall i :: 0 <= i < |cs| ==> r[i] == cs[i].score
  {
    seq(|cs|, i requires 0 <= i < |cs| => cs[i].score)
  }

  /** `FeatureExtractorEvaluatedEvent`: an extractor, the dataset, its rating,
      the scores of its candidates and its usage rating. */
  datatype ExtractorEvaluated = ExtractorEvaluated(construction: string, dataset: string, rating: real, performances: seq<Score>, usage: real)

  /** The rating of one decoding from its bucket: the configured rater and the
      usage rater. */
  function RateOne(d: Decoding, bucket: seq<Candidate>, rater: FeatureRater, dataset: string): (r: Option<(Decoding, ExtractorEvaluated)>)
    ensures r.Some? <==> |d.solution.objectives| >= 2
    ensures r.Some? ==>
      && r.value.0.solution.variables == d.solution.variables
      && |r.value.0.solution.objectives| == |d.solution.objectives|
      && r.value.0.solution.objectives[0] == Rate(rater, Scores(bucket))
      && r.value.0.solution.objectives[1] == -(|bucket| as real)
      && r.value.0.construction == d.construction
      && r.value.1 == ExtractorEvaluated(d.construction, dataset, Rate(rater, Scores(bucket)), Scores(bucket), -(|bucket| as real))
  {
    var rating := Rate(rater, Scores(bucket));
    var usage := Rate(NumberOfUsingRegressors, Scores(bucket));
    var rated :- SetPerformance(d, rating, usage);
    Some((rated, ExtractorEvaluated(d.construction, dataset, rating, Scores(bucket), usage)))
  }

  /** Whether every decoding has the two objectives the rating writes. */
  predicate HasObjectives(decodings: seq<Decoding>) {
    forall i :: 0 <= i < |decodings| ==> |decodings[i].solution.objectives| >= 2
  }

  /** The loop over the decodings of `evaluateExtractors` after the buckets are
      filled: each decoding rated from its bucket and announced, in order;
      `None` when a decoding lacks its objectives. */
  function RateExtractors(decodings: seq<Decoding>, candidates: seq<Candidate>, rater: FeatureRater, dataset: string): (r: Option<seq<(Decoding, ExtractorEvaluated)>>)
    ensures r.Some? <==> Buckets(candidates, decodings).Some? && HasObjectives(decodings)
    ensures r.Some? ==> |r.value| == |decodings|
  {
    var buckets :- Buckets(candidates, decodings);
    if !HasObjectives(decodings) then None
    else
      assert forall i :: 0 <= i < |decodings| ==> decodings[i] in decodings;
      Some(seq(|decodings|, i requires 0 <= i < |decodings| => RateOne(decodings[i], buckets[decodings[i].construction], rater, dataset).value))
  }

  /** Every decoding's objectives become the configured rating of the
      candidates naming its construction string and minus their number, and
      its event carries their scores. */
  lemma RatingsFromUsers(decodings: seq<Decoding>, candidates: seq<Candidate>, rater: FeatureRater, dataset: string, i: nat)
    requires i < |decodings| && RateExtractors(decodings, candidates, rater, dataset).Some?
    ensures var r := RateExtractors(decodings, candidates, rater, dataset).value[i];
      var users := Users(candidates, decodings, decodings[i].construction);
      && r.0.solution.variables == decodings[i].solution.variables
      && r.0.solution.objectives[0] == Rate(rater, Scores(users))
      && r.0.solution.objectives[1] == -(|users| as real)
      && r.1 == ExtractorEvaluated(decodings[i].construction, dataset, Rate(rater, Scores(users)), Scores(users), -(|users| as real))
  {
    assert decodings[i] in decodings;
    BucketsAreUsers(candidates, decodings, decodings[i].construction);
  }

  /** Two decodings with the same construction string are rated alike. */
  lemma SameConstructionSameObjectives(decodings: seq<Decoding>, candidates: seq<Candidate>, rater: FeatureRater, dataset: string, i: nat, j: nat)
    requires i < |decodings| && j < |decodings| && decodings[i].construction == decodings[j].construction
    requires RateExtractors(decodings, candidates, rater, dataset).Some?
    ensures var r := RateExtractors(decodings, candidates, rater, dataset).value;
      r[i].0.solution.objectives[..2] == r[j].0.solution.objectives[..2]
  {
    RatingsFromUsers(decodings, candidates, rater, dataset, i);
    RatingsFromUsers(decodings, candidates, rater, dataset, j);
    var r := RateExtractors(decodings, candidates, rater, dataset).value;
    assert r[i].0.solution.objectives[..2] == [r[i].0.solution.objectives[0], r[i].0.solution.objectives[1]];
    assert r[j].0.solution.objectives[..2] == [r[j].0.solution.objectives[0], r[j].0.solution.objectives[1]];
  }

  /** `RegressionGGPSolution`: a complete pipeline, its imports and its
      performance. */
  datatype GgpSolution = GgpSolution(construction: string, imports: string, performance: real)

  /** The solution announced when the search found nothing. */
  const NoResult: GgpSolution := GgpSolution("None", "None", 10000.0)

  /** The best candidate of the search: a selector instance and its score. */
  datatype GgpResult = GgpResult(selector: Instance, score: real)

  /** `createRegressionGGPSolutionFromGGPResult` for a result: the named
      extractor followed by the first regressor under the regression
      interface; `None` when the selector names no decoding or has no
      regressor there. */
  function Compose(result: GgpResult, decodings: seq<Decoding>, regressionInterface: string, render: Renderer): (r: Option<GgpSolution>)
    ensures r.Some? <==>
      && ExtractorIndex(result.selector, |decodings|).Some?
      && regressionInterface in result.selector.satisfaction
      && |result.selector.satisfaction[regressionInterface]| > 0
    ensures r.Some? ==>
      var d := decodings[ExtractorIndex(result.selector, |decodings|).value];
      var regressor := ConstructionAndImports(result.selector.satisfaction[regressionInterface][0], render);
      && r.value.construction == "make_pipeline(" + d.construction + "," + regressor.0 + ")"
      && r.value.imports == d.imports + "\n" + regressor.1
      && r.value.performance == result.score
  {
    var id :- ExtractorIndex(result.selector, |decodings|);
    if regressionInterface !in result.selector.satisfaction || |result.selector.satisfaction[regressionInterface]| == 0 then None
    else
      var d := decodings[id];
      var regressor := ConstructionAndImports(result.selector.satisfaction[regressionInterface][0], render);
      Some(GgpSolution("make_pipeline(" + d.construction + "," + regressor.0 + ")", d.imports + "\n" + regressor.1, result.score))
  }

  /** What `evaluateExtractors` did: the rated decodings with their events,
      the solution announced, and the solution returned (`None` for `null`). */
  datatype Outcome = Outcome(ratings: seq<(Decoding, ExtractorEvaluated)>, announced: GgpSolution, solution: Option<GgpSolution>)

  /** The constructor's emptiness check followed by `evaluateExtractors`; `None`
      when an exception escapes. */
  function EvaluateExtractors(decodings: seq<Decoding>, candidates: seq<Candidate>, result: Option<GgpResult>,
                              rater: FeatureRater, dataset: string, regressionInterface: string, render: Renderer): (r: Option<Outcome>)
    ensures r.Some? <==>
      && |decodings| > 0
      && RateExtractors(decodings, candidates, rater, dataset).Some?
      && (result.Some? ==> Compose(result.value, decodings, regressionInterface, render).Some?)
    ensures r.Some? ==> r.value.ratings == RateExtractors(decodings, candidates, rater, dataset).value
    ensures r.Some? ==> (r.value.solution.None? <==> result.None?)
    ensures r.Some? && result.None? ==> r.value.announced == NoResult
    ensures r.Some? && result.Some? ==> r.value.solution == Some(r.value.announced) && r.value.announced.performance == result.value.score
  {
    if |decodings| == 0 then None
    else
      var ratings :- RateExtractors(decodings, candidates, rater, dataset);
      match result
      case None => Some(Outcome(ratings, NoResult, None))
      case Some(best) =>
        var solution :- Compose(best, decodings, regressionInterface, render);
        Some(Outcome(ratings, solution, Some(solution)))
  }
}

=== FILE: rendering.dfy ===
/** Rendering a decoded pipeline as Python source: the construction text of the
    feature-extraction pipeline and the import lines it needs. Covers the two
    factories' `getPipelineBuildString` with their `extractImport`, the
    `SolutionDecoding` record and `ScikitLearnUtil`.

    The library's generic scikit-learn renderer
    (`extractSKLearnConstructInstruction`) is not part of this model: it enters
    as a function `render` from an instance to its text and the import lines it
    adds. A Java `Set<String>` of import lines is kept as the list of lines in
    the order they were added; only its elements are ever read. */
module Rendering {
  import opened Wrappers
  import opened Strings
  import opened Components
  import opened Ordering

  /** The construction text of one pipeline element and the import lines it
      adds to the shared import set. */
  datatype Rendered = Rendered(text: string, imports: seq<string>)

  /** The library's renderer for an instance handled generically. */
  type Renderer = Instance -> Rendered

  const AttributeFilterPrefix := "ml4pdm.transformation.AttributeFilter"
  const TsfreshWrapperSuffix := "TsfreshWrapper"

  /** `name.split("\\.")`. */
  function Segments(name: string): seq<string> {
    Split(name, Literal("."))
  }

  function NameKey(i: Instance): string {
    i.component.name
  }

  /** Children sorted by component name, as every sorted stream here sorts them. */
  function ByName(xs: seq<Instance>): seq<Instance> {
    SortBy(xs, NameKey)
  }

  /** `getSatisfactionOfRequiredInterface(id)`; an interface without an entry
      yields `null`, and iterating over it raises. */
  function Children(i: Instance, id: string): Option<seq<Instance>> {
    if id in i.satisfaction then Some(i.satisfaction[id]) else None
  }

  /** `extractImport(instance, importSet, k)` on the instance's component name:
      the line `from <package> import <class>` where the class is segment `k`
      counted from the end and the package is the segments before it (at least
      the first one). A one-segment name adds nothing; a name with fewer than
      `k` segments indexes outside the array and raises. */
  function ImportOf(name: string, k: nat): (r: Option<seq<string>>)
    requires k >= 1
    ensures r.Some? <==> |Segments(name)| >= k
    ensures r.Some? && |Segments(name)| == 1 ==> r.value == []
    ensures r.Some? && |Segments(name)| > 1 ==>
      |r.value| == 1 && StartsWith(r.value[0], "from ") && EndsWith(r.value[0], "\n")
  {
    var parts := Segments(name);
    var n := |parts|;
    if n < k then None
    else if n == 1 then Some([])
    else
      var package := Join(parts[..if n - k < 1 then 1 else n - k], ".");
      Some(["from " + package + " import " + parts[n - k] + "\n"])
  }

  lemma ImportOfShape(name: string, k: nat)
    requires 1 <= k < |Segments(name)|
    ensures var parts := Segments(name);
      ImportOf(name, k) == Some(["from " + Join(parts[..|parts| - k], ".") + " import " + parts[|parts| - k] + "\n"])
  {
  }

  /** A component name that does not end in a dot splits into pieces whose
      join is the name. */
  lemma SegmentsJoin(name: string)
    requires |name| > 0 && name[|name| - 1] != '.'
    ensures Segments(name) == SplitAll(name, Literal("."))
    ensures Join(Segments(name), ".") == name
  {
    SplitKeepsAll(name, '.');
    JoinSplitAll(name, ".");
  }

  /** The import of a dotted class name names the class's package and the
      class itself: package, a dot and the class give back the name. */
  lemma ImportNamesComponent(name: string) returns (package: string, className: string)
    requires |name| > 0 && name[|name| - 1] != '.'
    requires |Segments(name)| >= 2
    ensures ImportOf(name, 1) == Some(["from " + package + " import " + className + "\n"])
    ensures package + "." + className == name
  {
    var parts := Segments(name);
    var n := |parts|;
    package, className := Join(parts[..n - 1], "."), parts[n - 1];
    ImportOfShape(name, 1);
    SegmentsJoin(name);
    JoinSnoc(parts, ".");
  }

  /** A tsfresh feature: the text `<class>.<feature>` from the last two
      segments, and the import of the class, two segments from the end. */
  function Feature(i: Instance): (r: Option<Rendered>)
    ensures r.Some? <==> |Segments(i.component.name)| >= 2
  {
    var parts := Segments(i.component.name);
    var n := |parts|;
    var lines :- ImportOf(i.component.name, 2);
    Some(Rendered(parts[n - 2] + "." + parts[n - 1], lines))
  }

  /** A feature named `<package>.<class>.<feature>` is written `<class>.<feature>`
      and imports `<class>` from `<package>`. */
  lemma FeatureNamesComponent(i: Instance) returns (package: string, className: string, feature: string)
    requires |i.component.name| > 0 && i.component.name[|i.component.name| - 1] != '.'
    requires |Segments(i.component.name)| >= 3
    ensures Feature(i) == Some(Rendered(className + "." + feature, ["from " + package + " import " + className + "\n"]))
    ensures package + "." + className + "." + feature == i.component.name
  {
    var parts := Segments(i.component.name);
    var n := |parts|;
    package, className, feature := Join(parts[..n - 2], "."), parts[n - 2], parts[n - 1];
    FeatureShape(i);
    LastTwoSegments(i.component.name);
  }

  /** The feature text and import of an instance, from its segments. */
  lemma FeatureShape(i: Instance)
    requires |Segments(i.component.name)| >= 3
    ensures var parts := Segments(i.component.name);
      var n := |parts|;
      Feature(i) == Some(Rendered(parts[n - 2] + "." + parts[n - 1],
        ["from " + Join(parts[..n - 2], ".") + " import " + parts[n - 2] + "\n"]))
  {
    ImportOfShape(i.component.name, 2);
  }

  /** A name with at least three segments is the join of all but the last
      two, a dot, the second-to-last, a dot and the last. */
  lemma LastTwoSegments(name: string)
    requires |name| > 0 && name[|name| - 1] != '.'
    requires |Segments(name)| >= 3
    ensures var parts := Segments(name);
      var n := |parts|;
      Join(parts[..n - 2], ".") + "." + parts[n - 2] + "." + parts[n - 1] == name
  {
    var parts := Segments(name);
    var n := |parts|;
    SegmentsJoin(name);
    JoinSnoc(parts, ".");
    JoinSnoc(parts[..n - 1], ".");
    assert parts[..n - 1][..n - 2] == parts[..n - 2];
  }

  /** An attribute selected for an `AttributeFilter`: the second-to-last
      segment of its component name. */
  function AttributeId(i: Instance): (r: Option<Rendered>)
    ensures r.Some? <==> |Segments(i.component.name)| >= 2
    ensures r.Some? ==> r.value.imports == []
  {
    var parts := Segments(i.component.name);
    if |parts| < 2 then None else Some(Rendered(parts[|parts| - 2], []))
  }

  /** Renders every element in turn; the first failure fails the whole. */
  function Each(xs: seq<Instance>, f: Instance -> Option<Rendered>): (r: Option<seq<Rendered>>)
    ensures r.Some? <==> forall k :: 0 <= k < |xs| ==> f(xs[k]).Some?
    ensures r.Some? ==> |r.value| == |xs| && forall k :: 0 <= k < |xs| ==> r.value[k] == f(xs[k]).value
    decreases |xs|
  {
    if |xs| == 0 then Some([])
    else
      var head := f(xs[0]);
      var tail := Each(xs[1..], f);
      assert forall k :: 1 <= k < |xs| ==> xs[k] == xs[1..][k - 1];
      if head.Some? && tail.Some? then Some([head.value] + tail.value) else None
  }

  /** Two renderers that agree on every element render the list alike. */
  lemma {:induction false} EachAgrees(xs: seq<Instance>, f: Instance -> Option<Rendered>, g: Instance -> Option<Rendered>)
    requires forall x :: x in xs ==> f(x) == g(x)
    ensures Each(xs, f) == Each(xs, g)
    decreases |xs|
  {
    if |xs| > 0 {
      assert xs[0] in xs;
      EachAgrees(xs[1..], f, g);
    }
  }

  function Texts(rs: seq<Rendered>): seq<string> {
    seq(|rs|, k requires 0 <= k < |rs| => rs[k].text)
  }

  /** The import lines of all elements, in the order they were added. */
  function AllImports(rs: seq<Rendered>): seq<string>
    decreases |rs|
  {
    if |rs| == 0 then [] else rs[0].imports + AllImports(rs[1..])
  }

  lemma {:induction false} AllImportsMembers(rs: seq<Rendered>, s: string)
    ensures s in AllImports(rs) <==> exists k :: 0 <= k < |rs| && s in rs[k].imports
    decreases |rs|
  {
    if |rs| > 0 {
      AllImportsMembers(rs[1..], s);
      if s in AllImports(rs[1..]) {
        var k :| 0 <= k < |rs[1..]| && s in rs[1..][k].imports;
        assert s in rs[k + 1].imports;
      }
      if exists k :: 0 <= k < |rs| && s in rs[k].imports {
        var k :| 0 <= k < |rs| && s in rs[k].imports;
        if k > 0 {
          assert s in rs[1..][k - 1].imports;
        }
      }
    }
  }

  /** `TsfreshWrapper(tsfresh_features=[...])` over the instances chosen for
      interface `id`, in name order: the wrapper's own import, then each
      feature's. */
  function Wrapper(i: Instance, id: string): Option<Rendered> {
    var own :- ImportOf(i.component.name, 1);
    var kids :- Children(i, id);
    var features :- Each(ByName(kids), Feature);
    Some(Rendered("TsfreshWrapper(tsfresh_features=[" + Join(Texts(features), ",") + "])", own + AllImports(features)))
  }

  /** `AttributeFilter(attribute_ids=[...])` over the chosen attributes, in
      name order, with the filter's own import. */
  function AttributeFilter(i: Instance): Option<Rendered> {
    var own :- ImportOf(i.component.name, 1);
    var kids :- Children(i, "attribute_ids");
    var ids :- Each(ByName(kids), AttributeId);
    Some(Rendered("AttributeFilter(attribute_ids=[" + Join(Texts(ids), ",") + "])", own))
  }

  /** The two factories: the one for the ML4PdM search space and the one for
      the plain time-series feature-engineering search space. */
  datatype Factory = ML4PdM | FeatureEngineering

  /** An element chosen for the `attribute_filter` interface. Only the ML4PdM
      factory renders attribute filters itself. */
  function FilterElement(f: Factory, i: Instance, render: Renderer): Option<Rendered> {
    if f.ML4PdM? && StartsWith(i.component.name, AttributeFilterPrefix) then AttributeFilter(i)
    else Some(render(i))
  }

  /** An element chosen for the `timeseries_feature_generator` interface. The
      ML4PdM factory renders an attribute filter there as a tsfresh wrapper over
      its attributes; both render a tsfresh wrapper over its features. */
  function GeneratorElement(f: Factory, i: Instance, render: Renderer): Option<Rendered> {
    if f.ML4PdM? && StartsWith(i.component.name, AttributeFilterPrefix) then Wrapper(i, "attribute_ids")
    else if EndsWith(i.component.name, TsfreshWrapperSuffix) then Wrapper(i, "tsfresh_features")
    else Some(render(i))
  }

  /** `getPipelineBuildString`: the attribute filters in the order chosen, then
      the feature generators in name order, joined by commas. */
  function PipelineBuildString(f: Factory, ground: Instance, render: Renderer): (r: Option<Rendered>)
    ensures r.Some? ==> "attribute_filter" in ground.satisfaction && "timeseries_feature_generator" in ground.satisfaction
    ensures r.Some? && |ground.satisfaction["attribute_filter"]| + |ground.satisfaction["timeseries_feature_generator"]| == 0 ==>
      r.value == Rendered("", [])
  {
    var filters :- Children(ground, "attribute_filter");
    var generators :- Children(ground, "timeseries_feature_generator");
    var fs :- Each(filters, i => FilterElement(f, i, render));
    var gs :- Each(ByName(generators), i => GeneratorElement(f, i, render));
    Some(Rendered(Join(Texts(fs + gs), ","), AllImports(fs + gs)))
  }

  /** The order in which the feature generators were chosen does not matter
      when their names tell them apart. */
  lemma GeneratorOrderIrrelevant(f: Factory, ground: Instance, generators: seq<Instance>, render: Renderer)
    requires "timeseries_feature_generator" in ground.satisfaction
    requires multiset(generators) == multiset(ground.satisfaction["timeseries_feature_generator"])
    requires KeyInjective(generators, NameKey)
    ensures PipelineBuildString(f, ground.(satisfaction := ground.satisfaction["timeseries_feature_generator" := generators]), render)
         == PipelineBuildString(f, ground, render)
  {
    SortByPermutation(generators, ground.satisfaction["timeseries_feature_generator"], NameKey);
  }

  /** The order in which a wrapper's features were chosen does not matter when
      their names tell them apart. */
  lemma FeatureOrderIrrelevant(i: Instance, id: string, features: seq<Instance>)
    requires id in i.satisfaction
    requires multiset(features) == multiset(i.satisfaction[id])
    requires KeyInjective(features, NameKey)
    ensures Wrapper(i.(satisfaction := i.satisfaction[id := features]), id) == Wrapper(i, id)
  {
    SortByPermutation(features, i.satisfaction[id], NameKey);
  }

  /** Without attribute filters among the chosen elements the two factories
      render the same pipeline. */
  lemma FactoriesAgreeWithoutAttributeFilters(ground: Instance, render: Renderer)
    requires forall id, x :: id in ground.satisfaction && x in ground.satisfaction[id] ==>
      !StartsWith(x.component.name, AttributeFilterPrefix)
    ensures PipelineBuildString(ML4PdM, ground, render) == PipelineBuildString(FeatureEngineering, ground, render)
  {
    if "attribute_filter" in ground.satisfaction && "timeseries_feature_generator" in ground.satisfaction {
      var filters := ground.satisfaction["attribute_filter"];
      var generators := ground.satisfaction["timeseries_feature_generator"];
      EachAgrees(filters, i => FilterElement(ML4PdM, i, render), i => FilterElement(FeatureEngineering, i, render));
      var sorted := ByName(generators);
      forall x | x in sorted
        ensures GeneratorElement(ML4PdM, x, render) == GeneratorElement(FeatureEngineering, x, render)
      {
        assert x in multiset(sorted);
      }
      EachAgrees(sorted, i => GeneratorElement(ML4PdM, i, render), i => GeneratorElement(FeatureEngineering, i, render));
    }
  }

  /** The import set read back: every distinct line once, in ascending order,
      concatenated. */
  function ImportBlock(lines: seq<string>): string {
    Join(SortedDistinct(lines), "")
  }

  /** A candidate with the pipeline it decodes to: the construction text and
      the import block. */
  datatype Decoding = Decoding(solution: Solution, instances: seq<Instance>, construction: string, imports: string)

  function RenderAll(instances: seq<Instance>, render: Renderer): seq<Rendered> {
    seq(|instances|, k requires 0 <= k < |instances| => render(instances[k]))
  }

  /** The `SolutionDecoding` constructor: the instances rendered and joined by
      commas, wrapped in `make_union(...)` when there is more than one. */
  function NewDecoding(solution: Solution, instances: seq<Instance>, render: Renderer): (d: Decoding)
    ensures d.solution == solution && d.instances == instances
  {
    var rs := RenderAll(instances, render);
    var joined := Join(Texts(rs), ",");
    Decoding(solution, instances, if |instances| > 1 then "make_union(" + joined + ")" else joined,
             ImportBlock(AllImports(rs)))
  }

  /** One instance is rendered unchanged, with its own import lines; none gives
      empty text and no imports. */
  lemma SingleInstanceDecoding(solution: Solution, instances: seq<Instance>, render: Renderer)
    requires |instances| <= 1
    ensures var d := NewDecoding(solution, instances, render);
      && (|instances| == 0 ==> d.construction == "" && d.imports == "")
      && (|instances| == 1 ==> d.construction == render(instances[0]).text
                               && d.imports == ImportBlock(render(instances[0]).imports))
  {
    var rs := RenderAll(instances, render);
    if |instances| == 0 {
      assert SortBy([], Identity) == [];
    } else {
      assert Texts(rs) == [render(instances[0]).text];
      assert AllImports(rs[1..]) == [];
      assert AllImports(rs) == render(instances[0]).imports;
    }
  }

  /** When no single rendering starts with `make_union(`, the construction does
      exactly when there are several instances. */
  lemma UnionIffSeveral(solution: Solution, instances: seq<Instance>, render: Renderer)
    requires forall x :: x in instances ==> !StartsWith(render(x).text, "make_union(")
    ensures StartsWith(NewDecoding(solution, instances, render).construction, "make_union(") <==> |instances| > 1
  {
    if |instances| <= 1 {
      SingleInstanceDecoding(solution, instances, render);
      if |instances| == 1 {
        assert instances[0] in instances;
      }
    }
  }

  lemma RenderAllImports(instances: seq<Instance>, render: Renderer, s: string)
    ensures s in AllImports(RenderAll(instances, render)) <==> exists x :: x in instances && s in render(x).imports
  {
    var rs := RenderAll(instances, render);
    AllImportsMembers(rs, s);
    if exists x :: x in instances && s in render(x).imports {
      var x :| x in instances && s in render(x).imports;
      var k :| 0 <= k < |instances| && instances[k] == x;
      assert s in rs[k].imports;
    }
  }

  /** The import block does not depend on the order of the instances. */
  lemma ImportsIgnoreInstanceOrder(solution: Solution, xs: seq<Instance>, ys: seq<Instance>, render: Renderer)
    requires multiset(xs) == multiset(ys)
    ensures NewDecoding(solution, xs, render).imports == NewDecoding(solution, ys, render).imports
  {
    var a := AllImports(RenderAll(xs, render));
    var b := AllImports(RenderAll(ys, render));
    forall s
      ensures s in a <==> s in b
    {
      RenderAllImports(xs, render, s);
      RenderAllImports(ys, render, s);
      assert forall x :: x in xs <==> x in multiset(xs);
      assert forall x :: x in ys <==> x in multiset(ys);
    }
    SortedDistinctOfSameElements(a, b);
  }

  /** `ScikitLearnUtil.createConstructionInstructionAndImportsFromComponentInstance`:
      the construction text and the import block of one instance. */
  function ConstructionAndImports(i: Instance, render: Renderer): (string, string) {
    (render(i).text, ImportBlock(render(i).imports))
  }

  /** It agrees with decoding a candidate to that one instance. */
  lemma ConstructionAndImportsAsDecoding(solution: Solution, i: Instance, render: Renderer)
    ensures var d := NewDecoding(solution, [i], render);
      ConstructionAndImports(i, render) == (d.construction, d.imports)
  {
    SingleInstanceDecoding(solution, [i], render);
  }

  /** `setPerformance`: objective 0 takes the performance, objective 1 the
      usage count; setting an objective the candidate does not have raises. */
  function SetPerformance(d: Decoding, performance: real, usage: real): (r: Option<Decoding>)
    ensures r.Some? <==> |d.solution.objectives| >= 2
    ensures r.Some? ==>
      && r.value.solution.variables == d.solution.variables
      && |r.value.solution.objectives| == |d.solution.objectives|
      && r.value.solution.objectives[0] == performance
      && r.value.solution.objectives[1] == usage
      && r.value.solution.objectives[2..] == d.solution.objectives[2..]
      && r.value.(solution := d.solution) == d
  {
    if |d.solution.objectives| < 2 then None
    else
      var objectives := d.solution.objectives[0 := performance][1 := usage];
      Some(d.(solution := d.solution.(objectives := objectives)))
  }

  /** Setting the performance twice keeps only the second values. */
  lemma SetPerformanceOverwrites(d: Decoding, p1: real, u1: real, p2: real, u2: real)
    requires |d.solution.objectives| >= 2
    ensures SetPerformance(SetPerformance(d, p1, u1).value, p2, u2) == SetPerformance(d, p2, u2)
  {
    var once := SetPerformance(d, p1, u1).value;
    assert once.solution.objectives[0 := p2][1 := u2] == d.solution.objectives[0 := p2][1 := u2];
  }
}

=== FILE: seeds.dfy ===
/** Seed genomes: the empty genome and the activators both root-based handler
    variants and the older handler's utility class use to build the initial
    population. Each builder is a list of gene writes looked up by component
    and parameter name; a write to a missing gene, to a gene of another kind
    or with a value outside the gene's bounds throws in the source and makes
    the whole builder fail (`None`) here. */
module Seeds {
  import opened Wrappers
  import opened Strings
  import opened Components
  import opened GenomeEntry
  import opened GenomeLayout
  import opened Genome

  /** A value written into a gene: a bit, an integer or a finite double. */
  datatype Value = BitValue(b: bool) | IntValue(n: int) | RealNumber(d: Double)

  /** The gene's variable takes the value: `BinaryVariable.set` works on a bit
      gene and on an integer gene (a `BinaryIntegerVariable` is a
      `BinaryVariable`), and the bounds-checked `setValue` of integer and real
      variables. */
  predicate Accepts(g: Gene, x: Value): (r: bool)
    ensures x.BitValue? ==> (r <==> !g.RealGene?)
    ensures r && g.Bit? ==> x.BitValue?
    ensures r && g.RealGene? ==> x.RealNumber?
    ensures r && x.IntValue? ==> g.IntGene? && InBounds(g.(value := x.n))
  {
    match x
    case BitValue(_) => g.Bit? || g.IntGene?
    case IntValue(n) => g.IntGene? && g.lower <= n <= g.upper
    case RealNumber(d) => g.RealGene? && g.lowerBound <= d.value <= g.upperBound
  }

  /** `get(0)`: the bit of a bit gene, the lowest binary digit of an integer
      gene's offset from its lower bound. */
  predicate LowBit(g: Gene)
    requires !g.RealGene?
  {
    if g.Bit? then g.bit else (g.value - g.lower) % 2 == 1
  }

  /** `set(0, b)` on an integer gene: the lowest binary digit of the offset
      becomes `b`; an offset past the range reads back reduced by the range,
      and a gene without range keeps its value. */
  function SetLowBit(g: Gene, b: bool): (r: Gene)
    requires g.IntGene?
    ensures SameShape(r, g)
    ensures InBounds(g) ==> InBounds(r)
    ensures InBounds(g) && g.lower < g.upper ==> LowBit(r) == b
    ensures InBounds(g) && LowBit(g) == b ==> r == g
  {
    var range := g.upper - g.lower;
    var offset := g.value - g.lower;
    var digits := offset - offset % 2 + (if b then 1 else 0);
    if range <= 0 then g
    else if digits <= range then g.(value := g.lower + digits)
    else g.(value := g.lower + digits - range)
  }

  /** The gene after the write: same kind and bounds, new value. */
  function Put(g: Gene, x: Value): (r: Gene)
    requires Accepts(g, x)
    ensures SameShape(r, g)
    ensures !x.BitValue? || InBounds(g) ==> InBounds(r)
    ensures x.BitValue? && g.Bit? ==> r == Bit(x.b)
    ensures x.BitValue? && InBounds(g) && (g.Bit? || g.lower < g.upper) ==> LowBit(r) == x.b
    ensures x.BitValue? && InBounds(g) && LowBit(g) == x.b ==> r == g
    ensures x.IntValue? ==> r.value == x.n
    ensures x.RealNumber? ==> r.realValue == Finite(x.d)
  {
    match x
    case BitValue(b) => if g.Bit? then Bit(b) else SetLowBit(g, b)
    case IntValue(n) => g.(value := n)
    case RealNumber(d) => g.(realValue := Finite(d))
  }

  /** The empty genomes clear bit 0 of fresh integer genes, which sit at
      their lower bound: the gene is left as it is. */
  lemma ClearFreshIntGene(lower: int, upper: int)
    ensures Put(IntGene(lower, upper, lower), BitValue(false)) == IntGene(lower, upper, lower)
  {
  }

  /** Setting bit 0 of an integer gene with a range changes the gene exactly
      when it had the other digit. */
  lemma SetLowBitChanges(g: Gene, b: bool)
    requires g.IntGene? && InBounds(g) && g.lower < g.upper
    ensures var r := Put(g, BitValue(b));
      r.IntGene? && InBounds(r) && (r == g <==> LowBit(g) == b)
  {
  }

  /** Writing does not change a gene's kind or bounds, so it does not change
      which later writes it accepts; what a write makes of a bit gene, and
      what a value write makes of any gene, does not depend on the old value. */
  lemma PutShape(g: Gene, h: Gene, x: Value)
    requires SameShape(h, g)
    ensures Accepts(h, x) <==> Accepts(g, x)
    ensures Accepts(g, x) && (g.Bit? || !x.BitValue?) ==> Put(h, x) == Put(g, x)
  {
  }

  /** Writing the same value twice is writing it once. */
  lemma PutTwice(g: Gene, x: Value)
    requires Accepts(g, x) && InBounds(g)
    ensures Accepts(Put(g, x), x) && Put(Put(g, x), x) == Put(g, x)
  {
    PutShape(g, Put(g, x), x);
  }

  /** `((Kind) solution.getVariable(index)).set...(value)`. */
  datatype Write = Write(index: int, value: Value)

  predicate Valid(sol: Solution, w: Write) {
    0 <= w.index < |sol.variables| && Accepts(sol.variables[w.index], w.value)
  }

  /** Every write of the list is valid on `sol`. */
  predicate AllValid(sol: Solution, ws: seq<Write>) {
    forall j :: 0 <= j < |ws| ==> Valid(sol, ws[j])
  }

  /** The position of the last write to gene `i`, or -1. */
  function LastWrite(ws: seq<Write>, i: int): (r: int)
    ensures -1 <= r < |ws|
    ensures r >= 0 ==> ws[r].index == i && forall j :: r < j < |ws| ==> ws[j].index != i
    ensures r == -1 <==> forall j :: 0 <= j < |ws| ==> ws[j].index != i
    decreases |ws|
  {
    if |ws| == 0 then -1
    else if ws[|ws| - 1].index == i then |ws| - 1
    else LastWrite(ws[..|ws| - 1], i)
  }

  /** Gene `g` after the writes to position `i`, in order. */
  function WriteGene(g: Gene, ws: seq<Write>, i: int): (r: Gene)
    requires forall j :: 0 <= j < |ws| && ws[j].index == i ==> Accepts(g, ws[j].value)
    ensures SameShape(r, g)
    ensures InBounds(g) ==> InBounds(r)
    decreases |ws|
  {
    if |ws| == 0 then g
    else
      var h := WriteGene(g, ws[..|ws| - 1], i);
      var w := ws[|ws| - 1];
      if w.index == i then
        PutShape(g, h, w.value);
        Put(h, w.value)
      else h
  }

  /** A gene no write reaches keeps its value. */
  lemma {:induction false} WriteGeneUntouched(g: Gene, ws: seq<Write>, i: int)
    requires forall j :: 0 <= j < |ws| ==> ws[j].index != i
    ensures WriteGene(g, ws, i) == g
    decreases |ws|
  {
    if |ws| > 0 {
      WriteGeneUntouched(g, ws[..|ws| - 1], i);
    }
  }

  /** On a bit gene, and for a last write that is not a bit write, the last
      write decides the gene. */
  lemma {:induction false} WriteGeneLast(g: Gene, ws: seq<Write>, i: int)
    requires forall j :: 0 <= j < |ws| && ws[j].index == i ==> Accepts(g, ws[j].value)
    requires LastWrite(ws, i) >= 0 && (g.Bit? || !ws[LastWrite(ws, i)].value.BitValue?)
    ensures WriteGene(g, ws, i) == Put(g, ws[LastWrite(ws, i)].value)
    decreases |ws|
  {
    var init, w := ws[..|ws| - 1], ws[|ws| - 1];
    if w.index == i {
      PutShape(g, WriteGene(g, init, i), w.value);
    } else {
      assert LastWrite(ws, i) == LastWrite(init, i);
      WriteGeneLast(g, init, i);
    }
  }

  /** Writing one value several times to a gene within its bounds is writing
      it once. */
  lemma {:induction false} WriteGeneSame(g: Gene, ws: seq<Write>, i: int, x: Value)
    requires Accepts(g, x) && InBounds(g)
    requires forall j :: 0 <= j < |ws| ==> ws[j].value == x
    requires exists j :: 0 <= j < |ws| && ws[j].index == i
    ensures WriteGene(g, ws, i) == Put(g, x)
    decreases |ws|
  {
    var init, w := ws[..|ws| - 1], ws[|ws| - 1];
    if exists j :: 0 <= j < |init| && init[j].index == i {
      WriteGeneSame(g, init, i, x);
      if w.index == i {
        PutTwice(g, x);
      }
    } else {
      WriteGeneUntouched(g, init, i);
    }
  }

  /** What gene `i` holds after the writes. */
  function After(sol: Solution, ws: seq<Write>, i: nat): Gene
    requires AllValid(sol, ws) && i < |sol.variables|
  {
    WriteGene(sol.variables[i], ws, i)
  }

  /** `sol1` is `sol` after the writes: every gene as `After` says, objectives kept. */
  predicate Written(sol: Solution, ws: seq<Write>, sol1: Solution)
    requires AllValid(sol, ws)
  {
    && |sol1.variables| == |sol.variables| && sol1.objectives == sol.objectives
    && forall i :: 0 <= i < |sol.variables| ==> sol1.variables[i] == After(sol, ws, i)
  }

  /** The writes, one after the other, on the same solution object. */
  function Apply(sol: Solution, ws: seq<Write>): (r: Option<Solution>)
    ensures r.Some? <==> AllValid(sol, ws)
    ensures r.Some? ==> Written(sol, ws, r.value)
    decreases |ws|
  {
    if |ws| == 0 then Some(sol)
    else
      var init := ws[..|ws| - 1];
      var w := ws[|ws| - 1];
      match Apply(sol, init)
      case None =>
        assert !AllValid(sol, ws) by {
          var j :| 0 <= j < |init| && !Valid(sol, init[j]);
          assert ws[j] == init[j];
        }
        None
      case Some(s) =>
        assert Valid(s, w) <==> Valid(sol, w) by {
          if 0 <= w.index < |sol.variables| {
            PutShape(sol.variables[w.index], s.variables[w.index], w.value);
          }
        }
        if Valid(s, w) then
          var r := Solution(s.variables[w.index := Put(s.variables[w.index], w.value)], s.objectives);
          assert AllValid(sol, ws) by {
            forall j | 0 <= j < |ws|
              ensures Valid(sol, ws[j])
            {
              if j < |init| {
                assert ws[j] == init[j];
              }
            }
          }
          Some(r)
        else
          None
  }

  /** The writes keep every gene's kind and bounds. */
  lemma ApplyShape(sol: Solution, ws: seq<Write>, i: int)
    requires Apply(sol, ws).Some? && 0 <= i < |sol.variables|
    ensures i < |Apply(sol, ws).value.variables| && SameShape(Apply(sol, ws).value.variables[i], sol.variables[i])
  {
  }

  /** Writes whose bit values all switch bits on. */
  predicate OnlySwitchOn(ws: seq<Write>) {
    forall j :: 0 <= j < |ws| && ws[j].value.BitValue? ==> ws[j].value.b
  }

  /** A bit gene ends up on if some write reached it and the writes only switch
      bits on; otherwise it keeps its value. */
  lemma BitAfter(sol: Solution, ws: seq<Write>, i: nat)
    requires AllValid(sol, ws) && OnlySwitchOn(ws) && i < |sol.variables| && sol.variables[i].Bit?
    ensures After(sol, ws, i) == if exists j :: 0 <= j < |ws| && ws[j].index == i then Bit(true) else sol.variables[i]
  {
    var j := LastWrite(ws, i);
    if j >= 0 {
      assert Valid(sol, ws[j]);
      WriteGeneLast(sol.variables[i], ws, i);
    } else {
      WriteGeneUntouched(sol.variables[i], ws, i);
    }
  }

  /** A gene some write switched on is not a real gene, and, when it is a bit
      gene, it is on after writes that only switch bits on. */
  lemma SwitchedOn(sol: Solution, ws: seq<Write>, i: int)
    requires Apply(sol, ws).Some? && OnlySwitchOn(ws) && Write(i, BitValue(true)) in ws
    ensures 0 <= i < |sol.variables| && !sol.variables[i].RealGene?
    ensures sol.variables[i].Bit? ==> Apply(sol, ws).value.variables[i] == Bit(true)
  {
    var j :| 0 <= j < |ws| && ws[j] == Write(i, BitValue(true));
    assert Valid(sol, ws[j]);
    if sol.variables[i].Bit? {
      BitAfter(sol, ws, i);
    }
  }

  /** Setting one value on every gene of a set, in whatever order the set is
      traversed: fails if any of them does not take it. */
  function SetAll(sol: Solution, indexes: set<int>, x: Value): (r: Option<Solution>)
    ensures r.Some? <==> forall i :: i in indexes ==> Valid(sol, Write(i, x))
    ensures r.Some? ==> |r.value.variables| == |sol.variables| && r.value.objectives == sol.objectives
    ensures r.Some? ==> forall i :: 0 <= i < |sol.variables| && i !in indexes ==> r.value.variables[i] == sol.variables[i]
    ensures r.Some? ==> forall i :: i in indexes ==> r.value.variables[i] == Put(sol.variables[i], x)
  {
    if forall i :: i in indexes ==> Valid(sol, Write(i, x)) then
      Some(Solution(seq(|sol.variables|, i requires 0 <= i < |sol.variables| =>
                          if i in indexes then Put(sol.variables[i], x) else sol.variables[i]), sol.objectives))
    else None
  }

  /** The loop over a hash set writes the same value everywhere, so its
      iteration order does not matter: any listing of the set gives `SetAll`
      on a genome within its bounds. */
  lemma SetAllAnyOrder(sol: Solution, ws: seq<Write>, indexes: set<int>, x: Value)
    requires forall i :: 0 <= i < |sol.variables| ==> InBounds(sol.variables[i])
    requires forall j :: 0 <= j < |ws| ==> ws[j].value == x
    requires indexes == set j | 0 <= j < |ws| :: ws[j].index
    ensures Apply(sol, ws) == SetAll(sol, indexes, x)
  {
    if AllValid(sol, ws) {
      var r := Apply(sol, ws).value;
      var t := SetAll(sol, indexes, x).value;
      forall i | 0 <= i < |sol.variables|
        ensures r.variables[i] == t.variables[i]
      {
        if i in indexes {
          var j :| 0 <= j < |ws| && ws[j].index == i;
          assert Valid(sol, ws[j]);
          WriteGeneSame(sol.variables[i], ws, i, x);
        } else {
          WriteGeneUntouched(sol.variables[i], ws, i);
        }
      }
      assert r.variables == t.variables;
    } else {
      var j :| 0 <= j < |ws| && !Valid(sol, ws[j]);
      assert ws[j].index in indexes;
    }
  }

  /** Writes preserve what the framework may hand back. */
  lemma ApplyConforms(L: Layout, sol: Solution, ws: seq<Write>)
    requires Conforms(L, sol) && Apply(sol, ws).Some?
    ensures Conforms(L, Apply(sol, ws).value)
  {
    var r := Apply(sol, ws).value;
    forall i | 0 <= i < |r.variables|
      ensures SameShape(r.variables[i], L.templates[i]) && InBounds(r.variables[i])
    {
      var j := LastWrite(ws, i);
      if j >= 0 {
        assert Valid(sol, ws[j]);
        var g := Put(sol.variables[i], ws[j].value);
        assert SameShape(g, sol.variables[i]);
      }
    }
  }

  // Names and constants of the seed builders.

  const Shapelets: string := "UltraFastShapeletsFeatureExtractor"
  const Rocket: string := "ROCKET"
  const Masking: string := "RandomValueMaskingStrategy"
  const KeepCandidates: string := "keep_candidates_percentage"
  const Kernels: string := "n_kernels"
  const FeatureDictionary: string := "FCParametersDictionary"
  const FeatureComponent: string := "TsfreshFeature"
  /** The double 0.1 (its exact binary value is not modelled). */
  const KeepPercentage: Double := Double(0.1, "0.1")
  const KernelCount: int := 100
  const TrueFalse: seq<string> := ["True", "False"]

  /** The feature calculators `activateTsfresh` switches on. */
  const FeatureFlags: seq<string> := [
    "has_duplicate_max", "binned_entropy", "last_location_of_maximum", "abs_energy", "c3", "value_count",
    "mean_second_derivative_central", "first_location_of_minimum", "standard_deviation", "length", "mean_abs_change",
    "has_duplicate_min", "mean_change", "sum_values", "percentage_of_reoccurring_datapoints_to_all_datapoints",
    "range_count", "absolute_sum_of_changes", "energy_ratio_by_chunks", "last_location_of_minimum", "linear_trend",
    "variance_larger_than_standard_deviation", "spkt_welch_density", "cid_ce", "symmetry_looking", "has_duplicate",
    "skewness", "count_above", "count_above_mean", "longest_strike_below_mean", "mean", "agg_autocorrelation",
    "ratio_value_number_to_time_series_length", "fft_aggregated", "first_location_of_maximum",
    "partial_autocorrelation", "sum_of_reoccurring_data_points", "count_below", "count_below_mean", "variance",
    "longest_strike_above_mean", "median", "kurtosis", "minimum", "time_reversal_asymmetry_statistic",
    "number_crossing_m", "sum_of_reoccurring_values", "maximum"]

  /** The name lookups are defined. */
  predicate Lookups(L: Layout) {
    OwnersInRange(L) && AllKeysBelow(L)
  }

  /** The genes the seed builders write, as the name lookups find them (-1
      when a lookup finds nothing). */
  datatype Genes = Genes(shapeletBit: int, rocketBit: int, mask: int, keep: int, kernels: int, flags: seq<int>)

  /** The lookups of the seed builders; `flagNames` are the feature flags the
      tsfresh activator looks up. */
  function GenesOf(L: Layout, flagNames: seq<string>): (g: Genes)
    requires Lookups(L)
    ensures g.shapeletBit == IndexOfComponent(L, Shapelets) && g.rocketBit == IndexOfComponent(L, Rocket)
    ensures g.mask == IndexOfComponent(L, Masking)
    ensures g.keep == IndexOfParameter(L, Shapelets, KeepCandidates) && g.kernels == IndexOfParameter(L, Rocket, Kernels)
    ensures |g.flags| == |flagNames|
    ensures forall j :: 0 <= j < |flagNames| ==> g.flags[j] == IndexOfParameter(L, FeatureDictionary, flagNames[j])
  {
    Genes(IndexOfComponent(L, Shapelets), IndexOfComponent(L, Rocket), IndexOfComponent(L, Masking),
          IndexOfParameter(L, Shapelets, KeepCandidates), IndexOfParameter(L, Rocket, Kernels),
          seq(|flagNames|, j requires 0 <= j < |flagNames| => IndexOfParameter(L, FeatureDictionary, flagNames[j])))
  }

  lemma TrueFalsePositions()
    ensures PositionInArray("True", TrueFalse) == 0 && PositionInArray("False", TrueFalse) == 1
  {
    assert TrueFalse[..1] == ["True"];
    assert TrueFalse[..1][..0] == [];
  }

  /** The three extractors a seed may switch on. */
  datatype Extractor = Tsfresh | UltraFastShapelets | Rocketeer

  /** The activation gene of an extractor that has one. */
  function BitIndex(g: Genes, x: Extractor): int
    requires !x.Tsfresh?
  {
    if x.UltraFastShapelets? then g.shapeletBit else g.rocketBit
  }

  /** `activateRandomValueMaskingStrategy`: only the masking bit. */
  function MaskingWrites(g: Genes): seq<Write> {
    [Write(g.mask, BitValue(true))]
  }

  /** `activateTsfresh` of the basic handler and of the utility class: every
      listed flag set to the position of "True", then masking on. */
  function TsfreshWrites(g: Genes): seq<Write> {
    seq(|g.flags|, j requires 0 <= j < |g.flags| => Write(g.flags[j], IntValue(PositionInArray("True", TrueFalse))))
    + MaskingWrites(g)
  }

  /** `activateUltraFastShapelet`: its bit, the candidate share 0.1, masking. */
  function ShapeletWrites(g: Genes): seq<Write> {
    [Write(g.shapeletBit, BitValue(true)), Write(g.keep, RealNumber(KeepPercentage))] + MaskingWrites(g)
  }

  /** `activateRocket`: its bit, 100 kernels, masking. */
  function RocketWrites(g: Genes): seq<Write> {
    [Write(g.rocketBit, BitValue(true)), Write(g.kernels, IntValue(KernelCount))] + MaskingWrites(g)
  }

  function ExtractorWrites(g: Genes, x: Extractor): seq<Write> {
    match x
    case Tsfresh => TsfreshWrites(g)
    case UltraFastShapelets => ShapeletWrites(g)
    case Rocketeer => RocketWrites(g)
  }

  /** Activating the extractors of `xs` in turn. */
  function ComboWrites(g: Genes, xs: seq<Extractor>): (ws: seq<Write>)
    decreases |xs|
  {
    if |xs| == 0 then [] else ComboWrites(g, xs[..|xs| - 1]) + ExtractorWrites(g, xs[|xs| - 1])
  }

  /** A write of an activator: bits are only switched on, and only the
      activator's own bit or masking. */
  predicate ActivatorWrite(g: Genes, w: Write) {
    w.value.BitValue? ==>
      && w.value.b
      && (w.index == g.mask || exists y: Extractor :: !y.Tsfresh? && w.index == BitIndex(g, y))
  }

  /** The tsfresh activator sets every flag gene, and any activator writes
      masking and its own bit. */
  lemma ExtractorWritesShape(g: Genes, x: Extractor)
    ensures forall j :: 0 <= j < |ExtractorWrites(g, x)| ==> ActivatorWrite(g, ExtractorWrites(g, x)[j])
    ensures forall j :: (0 <= j < |ExtractorWrites(g, x)| && ExtractorWrites(g, x)[j].value.BitValue?
                         && ExtractorWrites(g, x)[j].index != g.mask) ==>
              !x.Tsfresh? && ExtractorWrites(g, x)[j].index == BitIndex(g, x)
    ensures Write(g.mask, BitValue(true)) in ExtractorWrites(g, x)
    ensures !x.Tsfresh? ==> Write(BitIndex(g, x), BitValue(true)) in ExtractorWrites(g, x)
  {
    var ws := ExtractorWrites(g, x);
    assert ws[|ws| - 1] == Write(g.mask, BitValue(true));
    if !x.Tsfresh? {
      assert ws[0] == Write(BitIndex(g, x), BitValue(true));
    }
    forall j | 0 <= j < |ws|
      ensures ActivatorWrite(g, ws[j])
    {
      if !x.Tsfresh? && j == 0 {
        assert ws[j].index == BitIndex(g, x);
      }
    }
  }

  lemma {:induction false} ComboWritesOrigin(g: Genes, xs: seq<Extractor>, j: nat)
    requires j < |ComboWrites(g, xs)|
    ensures var w := ComboWrites(g, xs)[j];
      && ActivatorWrite(g, w)
      && (w.value.BitValue? && w.index != g.mask ==>
            exists y: Extractor :: y in xs && !y.Tsfresh? && w.index == BitIndex(g, y))
    decreases |xs|
  {
    var init := ComboWrites(g, xs[..|xs| - 1]);
    var last := xs[|xs| - 1];
    var w := ComboWrites(g, xs)[j];
    if j < |init| {
      assert w == init[j];
      ComboWritesOrigin(g, xs[..|xs| - 1], j);
      if w.value.BitValue? && w.index != g.mask {
        var y: Extractor :| y in xs[..|xs| - 1] && !y.Tsfresh? && w.index == BitIndex(g, y);
        assert y in xs;
      }
    } else {
      ExtractorWritesShape(g, last);
      assert w == ExtractorWrites(g, last)[j - |init|];
    }
  }

  /** Activating an extractor writes masking and its own bit (when it has one). */
  lemma {:induction false} ComboWritesReach(g: Genes, xs: seq<Extractor>, x: Extractor)
    requires x in xs
    ensures Write(g.mask, BitValue(true)) in ComboWrites(g, xs)
    ensures !x.Tsfresh? ==> Write(BitIndex(g, x), BitValue(true)) in ComboWrites(g, xs)
    decreases |xs|
  {
    var init := ComboWrites(g, xs[..|xs| - 1]);
    var own := ExtractorWrites(g, xs[|xs| - 1]);
    assert ComboWrites(g, xs) == init + own;
    ExtractorWritesShape(g, xs[|xs| - 1]);
    if x in xs[..|xs| - 1] {
      ComboWritesReach(g, xs[..|xs| - 1], x);
    } else {
      assert x == xs[|xs| - 1];
    }
  }

  lemma ComboWritesSwitchOn(g: Genes, xs: seq<Extractor>)
    ensures OnlySwitchOn(ComboWrites(g, xs))
  {
    forall j | 0 <= j < |ComboWrites(g, xs)|
      ensures ComboWrites(g, xs)[j].value.BitValue? ==> ComboWrites(g, xs)[j].value.b
    {
      ComboWritesOrigin(g, xs, j);
    }
  }

  /** A cleared bit ends up on exactly when some write switched it on. */
  lemma BitOutcome(sol: Solution, ws: seq<Write>, b: nat, on: bool)
    requires AllValid(sol, ws) && OnlySwitchOn(ws) && b < |sol.variables| && sol.variables[b] == Bit(false)
    requires on ==> Write(b, BitValue(true)) in ws
    requires !on ==> forall j :: 0 <= j < |ws| ==> ws[j].index != b
    ensures After(sol, ws, b) == Bit(on)
  {
    BitAfter(sol, ws, b);
    if on {
      var j :| 0 <= j < |ws| && ws[j] == Write(b, BitValue(true));
      assert ws[j].index == b;
    }
  }

  /** No write of activators other than `x` reaches `x`'s bit when the bits
      and masking are distinct genes and the bit is a bit gene. */
  lemma OtherWritesMiss(g: Genes, sol: Solution, xs: seq<Extractor>, x: Extractor)
    requires !x.Tsfresh? && x !in xs && AllValid(sol, ComboWrites(g, xs))
    requires 0 <= BitIndex(g, x) < |sol.variables| && sol.variables[BitIndex(g, x)].Bit?
    requires BitIndex(g, x) != g.mask && g.shapeletBit != g.rocketBit
    ensures forall j :: 0 <= j < |ComboWrites(g, xs)| ==> ComboWrites(g, xs)[j].index != BitIndex(g, x)
  {
    var ws := ComboWrites(g, xs);
    var b := BitIndex(g, x);
    forall j | 0 <= j < |ws|
      ensures ws[j].index != b
    {
      ComboWritesOrigin(g, xs, j);
      assert Valid(sol, ws[j]);
      if ws[j].value.BitValue? && ws[j].index != g.mask {
        var y: Extractor :| y in xs && !y.Tsfresh? && ws[j].index == BitIndex(g, y);
        assert y != x;
      }
    }
  }

  /** After activating `xs` on a genome whose extractor bit is off, that bit is
      on exactly when the extractor is among `xs`, provided the extractor bits
      and masking are distinct genes. */
  lemma ComboBits(g: Genes, sol: Solution, xs: seq<Extractor>, x: Extractor)
    requires !x.Tsfresh? && Apply(sol, ComboWrites(g, xs)).Some?
    requires 0 <= BitIndex(g, x) < |sol.variables| && sol.variables[BitIndex(g, x)] == Bit(false)
    requires BitIndex(g, x) != g.mask && g.shapeletBit != g.rocketBit
    ensures Apply(sol, ComboWrites(g, xs)).value.variables[BitIndex(g, x)] == Bit(x in xs)
  {
    var ws := ComboWrites(g, xs);
    ComboWritesSwitchOn(g, xs);
    if x in xs {
      ComboWritesReach(g, xs, x);
    } else {
      OtherWritesMiss(g, sol, xs, x);
    }
    BitOutcome(sol, ws, BitIndex(g, x), x in xs);
  }

  /** Masking is on once anything was activated, when its gene is a bit
      gene; it is never a real gene. */
  lemma ComboMasking(g: Genes, sol: Solution, xs: seq<Extractor>)
    requires |xs| > 0 && Apply(sol, ComboWrites(g, xs)).Some?
    ensures 0 <= g.mask < |sol.variables| && !sol.variables[g.mask].RealGene?
    ensures sol.variables[g.mask].Bit? ==> Apply(sol, ComboWrites(g, xs)).value.variables[g.mask] == Bit(true)
  {
    ComboWritesSwitchOn(g, xs);
    ComboWritesReach(g, xs, xs[0]);
    SwitchedOn(sol, ComboWrites(g, xs), g.mask);
  }

  /** Every flag the tsfresh activator reaches reads "True" afterwards when its
      domain is the true/false list. */
  lemma TsfreshFlagsTrue(g: Genes, sol: Solution, j: nat, p: Parameter)
    requires Apply(sol, TsfreshWrites(g)).Some? && j < |g.flags| && g.flags[j] != g.mask
    requires p.domain == Categorical(TrueFalse)
    ensures 0 <= g.flags[j] < |sol.variables|
    ensures var gene := Apply(sol, TsfreshWrites(g)).value.variables[g.flags[j]];
      GeneFits(p, gene) && Interpret(p, gene) == "True"
  {
    TrueFalsePositions();
    var ws := TsfreshWrites(g);
    assert ws[j] == Write(g.flags[j], IntValue(0));
    assert Valid(sol, ws[j]);
    var last := LastWrite(ws, g.flags[j]);
    assert last < |g.flags|;
    assert ws[last].value == IntValue(0);
    WriteGeneLast(sol.variables[g.flags[j]], ws, g.flags[j]);
  }

  /** The empty genome: a fresh one with every parameter gene of `holder` set
      to the position of "False" (`holder` is "TsfreshFeature" in the basic
      handler, "FCParametersDictionary" in the utility class), the shapelet and
      ROCKET bits cleared and the candidate share set to 0.1. A holder the
      lookup does not find is a null dereference. */
  function EmptySolution(L: Layout, holder: string): (r: Option<Solution>)
    requires Lookups(L)
  {
    var indexes :- IndexOfParameters(L, holder);
    var flagsOff :- SetAll(NewSolution(L), indexes, IntValue(PositionInArray("False", TrueFalse)));
    Apply(flagsOff, EmptyWrites(GenesOf(L, [])))
  }

  function EmptyWrites(g: Genes): seq<Write> {
    [Write(g.shapeletBit, BitValue(false)), Write(g.rocketBit, BitValue(false)), Write(g.keep, RealNumber(KeepPercentage))]
  }

  /** Clearing two bits and then setting a real gene leaves both bits off
      when they are bit genes. */
  lemma ClearedBits(sol: Solution, ws: seq<Write>)
    requires |ws| == 3 && ws[0].value == BitValue(false) && ws[1].value == BitValue(false) && ws[2].value.RealNumber?
    requires Apply(sol, ws).Some?
    ensures 0 <= ws[0].index < |sol.variables|
    ensures sol.variables[ws[0].index].Bit? ==> Apply(sol, ws).value.variables[ws[0].index] == Bit(false)
    ensures 0 <= ws[1].index < |sol.variables|
    ensures sol.variables[ws[1].index].Bit? ==> Apply(sol, ws).value.variables[ws[1].index] == Bit(false)
  {
    assert Valid(sol, ws[0]) && Valid(sol, ws[1]) && Valid(sol, ws[2]);
    ClearedBit(sol, ws, ws[0].index);
    ClearedBit(sol, ws, ws[1].index);
  }

  lemma ClearedBit(sol: Solution, ws: seq<Write>, b: int)
    requires |ws| == 3 && ws[0].value == BitValue(false) && ws[1].value == BitValue(false) && ws[2].value.RealNumber?
    requires Apply(sol, ws).Some? && (b == ws[0].index || b == ws[1].index)
    ensures 0 <= b < |sol.variables|
    ensures sol.variables[b].Bit? ==> Apply(sol, ws).value.variables[b] == Bit(false)
  {
    assert Valid(sol, ws[0]) && Valid(sol, ws[1]) && Valid(sol, ws[2]);
    if sol.variables[b].Bit? {
      assert ws[2].index != b;
      var last := LastWrite(ws, b);
      assert last == 0 || last == 1;
      WriteGeneLast(sol.variables[b], ws, b);
    }
  }

  /** In the empty genome both extractor bits are off, when they are bit genes. */
  lemma EmptyBitsOff(L: Layout, holder: string, g: Genes, x: Extractor)
    requires Lookups(L) && !x.Tsfresh? && EmptySolution(L, holder).Some?
    requires g.shapeletBit == IndexOfComponent(L, Shapelets) && g.rocketBit == IndexOfComponent(L, Rocket)
    ensures 0 <= BitIndex(g, x) < |EmptySolution(L, holder).value.variables|
    ensures EmptySolution(L, holder).value.variables[BitIndex(g, x)].Bit? ==>
      EmptySolution(L, holder).value.variables[BitIndex(g, x)] == Bit(false)
  {
    var indexes := IndexOfParameters(L, holder).value;
    var s1 := SetAll(NewSolution(L), indexes, IntValue(PositionInArray("False", TrueFalse))).value;
    var ws := EmptyWrites(GenesOf(L, []));
    ClearedBits(s1, ws);
    ApplyShape(s1, ws, BitIndex(g, x));
  }

  /** The last character of a string is that of each of its non-empty suffixes. */
  lemma EndsWithLast(n: string, suffix: string)
    requires EndsWith(n, suffix) && |suffix| > 0
    ensures n[|n| - 1] == suffix[|suffix| - 1]
  {
    assert n[|n| - |suffix|..][|suffix| - 1] == n[|n| - 1];
  }

  /** In a well-formed layout a parameter gene of one component is not the
      first gene of a component whose name ends differently. */
  lemma HolderGeneApart(L: Layout, s: Settings, holder: string, i: int, other: string)
    requires WellFormed(L, s) && Lookups(L)
    requires IndexOfParameters(L, holder).Some? && i in IndexOfParameters(L, holder).value
    requires |holder| > 0 && |other| > 0 && holder[|holder| - 1] != other[|other| - 1]
    ensures i != IndexOfComponent(L, other)
  {
    var e := L.owner[IndexOfComponent(L, holder)];
    assert EntryWellFormed(L, s, e);
    if i == IndexOfComponent(L, other) {
      EndsWithLast(L.entries[e].name, holder);
      EndsWithLast(L.entries[e].name, other);
    }
  }

  /** Clearing bits of other genes and setting a real gene does not touch an
      integer gene. */
  lemma IntegerGeneKept(sol: Solution, ws: seq<Write>, i: int)
    requires |ws| == 3 && ws[0].value.BitValue? && ws[1].value.BitValue? && ws[2].value.RealNumber?
    requires Apply(sol, ws).Some? && 0 <= i < |sol.variables| && sol.variables[i].IntGene?
    requires i != ws[0].index && i != ws[1].index
    ensures Apply(sol, ws).value.variables[i] == sol.variables[i]
  {
    assert Valid(sol, ws[2]);
    WriteGeneUntouched(sol.variables[i], ws, i);
  }

  /** Every parameter gene of the flag holder reads "False" in the empty
      genome of a well-formed layout when its domain is the true/false list. */
  lemma EmptyFlagsFalse(L: Layout, s: Settings, holder: string, i: int, p: Parameter)
    requires WellFormed(L, s) && Lookups(L) && EmptySolution(L, holder).Some?
    requires holder == FeatureComponent || holder == FeatureDictionary
    requires i in IndexOfParameters(L, holder).value
    requires p.domain == Categorical(TrueFalse)
    ensures 0 <= i < |EmptySolution(L, holder).value.variables|
    ensures var gene := EmptySolution(L, holder).value.variables[i];
      GeneFits(p, gene) && Interpret(p, gene) == "False"
  {
    HolderApartFromExtractors(L, s, holder, i);
    FlagFalse(L, holder, i, p);
  }

  /** A parameter gene of the flag holder is neither extractor's activation bit. */
  lemma HolderApartFromExtractors(L: Layout, s: Settings, holder: string, i: int)
    requires WellFormed(L, s) && Lookups(L)
    requires holder == FeatureComponent || holder == FeatureDictionary
    requires IndexOfParameters(L, holder).Some? && i in IndexOfParameters(L, holder).value
    ensures i != IndexOfComponent(L, Shapelets) && i != IndexOfComponent(L, Rocket)
  {
    HolderGeneApart(L, s, holder, i, Shapelets);
    HolderGeneApart(L, s, holder, i, Rocket);
  }

  /** A flag gene apart from both extractor bits keeps the "False" position
      the first loop of the empty genome wrote into it. */
  lemma FlagFalse(L: Layout, holder: string, i: int, p: Parameter)
    requires Lookups(L) && EmptySolution(L, holder).Some?
    requires i in IndexOfParameters(L, holder).value
    requires i != IndexOfComponent(L, Shapelets) && i != IndexOfComponent(L, Rocket)
    requires p.domain == Categorical(TrueFalse)
    ensures 0 <= i < |EmptySolution(L, holder).value.variables|
    ensures var gene := EmptySolution(L, holder).value.variables[i];
      GeneFits(p, gene) && Interpret(p, gene) == "False"
  {
    TrueFalsePositions();
    var indexes := IndexOfParameters(L, holder).value;
    var s1 := SetAll(NewSolution(L), indexes, IntValue(PositionInArray("False", TrueFalse))).value;
    assert Valid(s1, Write(i, IntValue(1)));
    IntegerGeneKept(s1, EmptyWrites(GenesOf(L, [])), i);
  }

  /** The seven combinations of the basic handler's initial population, in order. */
  const Combinations: seq<seq<Extractor>> := [
    [Tsfresh], [UltraFastShapelets], [Rocketeer],
    [Tsfresh, UltraFastShapelets], [Tsfresh, Rocketeer], [UltraFastShapelets, Rocketeer],
    [Tsfresh, UltraFastShapelets, Rocketeer]]

  function Members(xs: seq<Extractor>): set<Extractor> {
    set y | y in xs
  }

  /** The combination listing exactly the extractors of `xs`, in the order
      the seeds are built. */
  function CombinationOf(xs: set<Extractor>): seq<Extractor> {
    (if Tsfresh in xs then [Tsfresh] else []) + (if UltraFastShapelets in xs then [UltraFastShapelets] else [])
    + (if Rocketeer in xs then [Rocketeer] else [])
  }

  lemma CombinationOfMembers(xs: set<Extractor>)
    ensures Members(CombinationOf(xs)) == xs
  {
    var c := CombinationOf(xs);
    forall y: Extractor
      ensures y in c <==> y in xs
    {
      match y
      case Tsfresh =>
      case UltraFastShapelets =>
      case Rocketeer =>
    }
  }

  /** The combinations are the seven non-empty sets of extractors. */
  lemma CombinationsCoverSubsets(xs: set<Extractor>)
    requires xs != {}
    ensures exists j :: 0 <= j < |Combinations| && Members(Combinations[j]) == xs
  {
    var c := CombinationOf(xs);
    CombinationOfMembers(xs);
    var t, u, r := Tsfresh in xs, UltraFastShapelets in xs, Rocketeer in xs;
    var j :=
      if t && u && r then 6
      else if u && r then 5
      else if t && r then 4
      else if t && u then 3
      else if r then 2
      else if u then 1
      else 0;
    assert Combinations[j] == c;
  }

  /** Each set of extractors is listed once. */
  lemma CombinationsDistinct()
    ensures forall j, k :: 0 <= j < k < |Combinations| ==> Members(Combinations[j]) != Members(Combinations[k])
  {
    forall j, k | 0 <= j < k < |Combinations|
      ensures Members(Combinations[j]) != Members(Combinations[k])
    {
      var a, b := Combinations[j], Combinations[k];
      assert CombinationOf(Members(a)) == a;
      assert CombinationOf(Members(b)) == b;
    }
  }

  /** All results or none: the source throws at the first failing builder. */
  function AllSome<T>(xs: seq<Option<T>>): (r: Option<seq<T>>)
    ensures r.Some? <==> forall j :: 0 <= j < |xs| ==> xs[j].Some?
    ensures r.Some? ==> |r.value| == |xs| && forall j :: 0 <= j < |xs| ==> xs[j] == Some(r.value[j])
    decreases |xs|
  {
    if |xs| == 0 then Some([])
    else
      match AllSome(xs[..|xs| - 1])
      case None => None
      case Some(init) =>
        if xs[|xs| - 1].None? then None else Some(init + [xs[|xs| - 1].value])
  }

  /** `getInitialSolutions` of the basic handler: the empty genome with each
      combination activated, whatever the population size. */
  function BasicSeeds(L: Layout): Option<seq<Solution>>
    requires Lookups(L)
  {
    SeedsFrom(EmptySolution(L, FeatureComponent), GenesOf(L, FeatureFlags))
  }

  function SeedsFrom(empty: Option<Solution>, g: Genes): (r: Option<seq<Solution>>)
    ensures r.Some? ==> empty.Some? && |r.value| == |Combinations|
    ensures r.Some? ==> forall j :: 0 <= j < |Combinations| ==> Apply(empty.value, ComboWrites(g, Combinations[j])) == Some(r.value[j])
    ensures empty.Some? ==> (r.Some? <==> forall j :: 0 <= j < |Combinations| ==> Apply(empty.value, ComboWrites(g, Combinations[j])).Some?)
  {
    var e :- empty;
    AllSome(seq(|Combinations|, j requires 0 <= j < |Combinations| => Apply(e, ComboWrites(g, Combinations[j]))))
  }

  /** In the seeds, seed `j` has the shapelet and ROCKET bits on exactly when
      combination `j` holds them, and masking on when it is a bit gene,
      provided those are three distinct genes and the empty genome has both
      extractor bits off. */
  lemma SeedsSwitches(empty: Solution, g: Genes, j: nat, x: Extractor)
    requires SeedsFrom(Some(empty), g).Some? && j < |Combinations| && !x.Tsfresh?
    requires 0 <= BitIndex(g, x) < |empty.variables| && empty.variables[BitIndex(g, x)] == Bit(false)
    requires BitIndex(g, x) != g.mask && g.shapeletBit != g.rocketBit
    ensures 0 <= BitIndex(g, x) < |SeedsFrom(Some(empty), g).value[j].variables|
    ensures SeedsFrom(Some(empty), g).value[j].variables[BitIndex(g, x)] == Bit(x in Combinations[j])
    ensures 0 <= g.mask < |SeedsFrom(Some(empty), g).value[j].variables|
    ensures empty.variables[g.mask].Bit? ==> SeedsFrom(Some(empty), g).value[j].variables[g.mask] == Bit(true)
  {
    assert |Combinations[j]| > 0;
    ComboBits(g, empty, Combinations[j], x);
    ComboMasking(g, empty, Combinations[j]);
  }

  /** Seed `j` built from an empty genome whose extractor bit is off when it
      is a bit gene switches that bit to whether combination `j` holds the
      extractor, and masking on, wherever those genes are bit genes. */
  lemma SeedGenesFrom(empty: Solution, g: Genes, j: nat, x: Extractor)
    requires SeedsFrom(Some(empty), g).Some? && j < |Combinations| && !x.Tsfresh?
    requires 0 <= BitIndex(g, x) < |empty.variables|
    requires empty.variables[BitIndex(g, x)].Bit? ==> empty.variables[BitIndex(g, x)] == Bit(false)
    requires BitIndex(g, x) != g.mask && g.shapeletBit != g.rocketBit
    ensures var seed := SeedsFrom(Some(empty), g).value[j];
      && 0 <= BitIndex(g, x) < |seed.variables|
      && (seed.variables[BitIndex(g, x)].Bit? ==> seed.variables[BitIndex(g, x)] == Bit(x in Combinations[j]))
      && 0 <= g.mask < |seed.variables|
      && (seed.variables[g.mask].Bit? ==> seed.variables[g.mask] == Bit(true))
  {
    var ws := ComboWrites(g, Combinations[j]);
    assert Apply(empty, ws) == Some(SeedsFrom(Some(empty), g).value[j]);
    ApplyShape(empty, ws, BitIndex(g, x));
    assert |Combinations[j]| > 0;
    ComboMasking(g, empty, Combinations[j]);
    ApplyShape(empty, ws, g.mask);
    if empty.variables[BitIndex(g, x)].Bit? {
      SeedsSwitches(empty, g, j, x);
    }
  }

  /** The basic handler's seven seeds switch the extractors of their
      combination on and the others off, with masking on in each, wherever
      those genes are bit genes. */
  lemma BasicSeedsSwitches(L: Layout, j: nat, x: Extractor)
    requires Lookups(L) && BasicSeeds(L).Some? && j < |Combinations| && !x.Tsfresh?
    requires IndexOfComponent(L, Shapelets) != IndexOfComponent(L, Rocket)
    requires IndexOfComponent(L, Masking) != IndexOfComponent(L, Shapelets)
    requires IndexOfComponent(L, Masking) != IndexOfComponent(L, Rocket)
    ensures var g, seed := GenesOf(L, FeatureFlags), BasicSeeds(L).value[j];
      && 0 <= BitIndex(g, x) < |seed.variables|
      && (seed.variables[BitIndex(g, x)].Bit? ==> seed.variables[BitIndex(g, x)] == Bit(x in Combinations[j]))
      && 0 <= g.mask < |seed.variables|
      && (seed.variables[g.mask].Bit? ==> seed.variables[g.mask] == Bit(true))
  {
    var g := GenesOf(L, FeatureFlags);
    EmptyBitsOff(L, FeatureComponent, g, x);
    SeedGenesFrom(EmptySolution(L, FeatureComponent).value, g, j, x);
  }

  /** `SolutionUtil.getEmptySolution`: the basic handler's empty genome, except
      that the flags it resets are those of the feature dictionary. */
  function UtilEmptySolution(L: Layout): Option<Solution>
    requires Lookups(L)
  {
    EmptySolution(L, FeatureDictionary)
  }

  lemma UtilEmptyBitsOff(L: Layout, x: Extractor)
    requires Lookups(L) && !x.Tsfresh? && UtilEmptySolution(L).Some?
    ensures var i := BitIndex(GenesOf(L, []), x);
      && 0 <= i < |UtilEmptySolution(L).value.variables|
      && (UtilEmptySolution(L).value.variables[i].Bit? ==> UtilEmptySolution(L).value.variables[i] == Bit(false))
  {
    EmptyBitsOff(L, FeatureDictionary, GenesOf(L, []), x);
  }

  /** The activators of `SolutionUtil` (`activateTsFresh`,
      `activateUltraFastShapelet`, `activateRocket`), which write what the
      basic handler's activators write. */
  function UtilActivate(L: Layout, sol: Solution, x: Extractor): Option<Solution>
    requires Lookups(L)
  {
    Apply(sol, ExtractorWrites(GenesOf(L, FeatureFlags), x))
  }

  /** An activator switches its extractor and masking on, wherever those
      genes are bit genes; neither is a real gene. */
  lemma ActivatorSwitches(g: Genes, sol: Solution, x: Extractor)
    requires Apply(sol, ExtractorWrites(g, x)).Some?
    ensures 0 <= g.mask < |sol.variables| && !sol.variables[g.mask].RealGene?
    ensures sol.variables[g.mask].Bit? ==> Apply(sol, ExtractorWrites(g, x)).value.variables[g.mask] == Bit(true)
    ensures !x.Tsfresh? ==> 0 <= BitIndex(g, x) < |sol.variables| && !sol.variables[BitIndex(g, x)].RealGene?
    ensures !x.Tsfresh? && sol.variables[BitIndex(g, x)].Bit? ==>
      Apply(sol, ExtractorWrites(g, x)).value.variables[BitIndex(g, x)] == Bit(true)
  {
    var ws := ExtractorWrites(g, x);
    ExtractorWritesShape(g, x);
    assert ComboWrites(g, [x]) == ws;
    ComboWritesSwitchOn(g, [x]);
    SwitchedOn(sol, ws, g.mask);
    if !x.Tsfresh? {
      SwitchedOn(sol, ws, BitIndex(g, x));
    }
  }

  lemma UtilActivateSwitches(L: Layout, sol: Solution, x: Extractor)
    requires Lookups(L) && UtilActivate(L, sol, x).Some?
    ensures var g, r := GenesOf(L, FeatureFlags), UtilActivate(L, sol, x).value;
      && 0 <= g.mask < |r.variables| && (sol.variables[g.mask].Bit? ==> r.variables[g.mask] == Bit(true))
      && (!x.Tsfresh? ==> 0 <= BitIndex(g, x) < |r.variables|)
      && (!x.Tsfresh? && sol.variables[BitIndex(g, x)].Bit? ==> r.variables[BitIndex(g, x)] == Bit(true))
  {
    ActivatorSwitches(GenesOf(L, FeatureFlags), sol, x);
  }
}

=== FILE: sequences.dfy ===
/** Small facts about sequences that several proofs use, each stated once so
    that a proof that needs one does not unfold the sequence axioms itself. */
module Sequences {

  /** A non-empty sequence is its front followed by its last element. */
  lemma FrontAndLast<T>(xs: seq<T>)
    requires |xs| > 0
    ensures xs[..|xs| - 1] + [xs[|xs| - 1]] == xs
  {
  }

  /** Index `k > 0` of a sequence with `x` in front is index `k - 1` of the rest. */
  lemma ConsAt<T>(x: T, xs: seq<T>, k: nat)
    requires 0 < k <= |xs|
    ensures ([x] + xs)[k] == xs[k - 1]
  {
  }

  /** Index `k > 0` of a sequence is index `k - 1` of its tail. */
  lemma TailAt<T>(xs: seq<T>, k: int)
    requires 0 < k < |xs|
    ensures xs[1..][k - 1] == xs[k]
  {
  }

  /** Dropping the first element and then the last is dropping the last and
      then the first; the last element and the first stay where they were. */
  lemma FrontOfTail<T>(xs: seq<T>)
    requires |xs| > 1
    ensures xs[1..][..|xs| - 2] == xs[..|xs| - 1][1..]
    ensures xs[1..][|xs| - 2] == xs[|xs| - 1]
    ensures xs[..|xs| - 1][0] == xs[0]
  {
  }

  /** A list is what comes before index `k`, the element there, and the rest. */
  lemma AroundIndex<T>(xs: seq<T>, k: nat)
    requires k < |xs|
    ensures xs == xs[..k] + ([xs[k]] + xs[k + 1..])
  {
  }

  /** Lists with the same elements have the same length. */
  lemma SameSize<T>(a: seq<T>, b: seq<T>)
    requires multiset(a) == multiset(b)
    ensures |a| == |b|
  {
    assert |a| == |multiset(a)| == |multiset(b)| == |b|;
  }

  /** Taking element `k` out of a list takes one copy of it out of its
      elements. */
  lemma RemoveAt<T>(b: seq<T>, k: nat)
    requires k < |b|
    ensures multiset(b[..k] + b[k + 1..]) == multiset(b) - multiset{b[k]}
  {
    assert b == b[..k] + [b[k]] + b[k + 1..];
    assert multiset(b) == multiset(b[..k]) + multiset{b[k]} + multiset(b[k + 1..]);
  }

  /** Taking the first element out of a list takes one copy of it out of its
      elements. */
  lemma RemoveFirst<T>(a: seq<T>)
    requires |a| > 0
    ensures multiset(a[1..]) == multiset(a) - multiset{a[0]}
  {
    assert a == [a[0]] + a[1..];
  }

  /** An element of a list's multiset is at some index of the list. */
  lemma PositionOf<T>(x: T, b: seq<T>) returns (k: nat)
    requires x in multiset(b)
    ensures k < |b| && b[k] == x
  {
    k :| 0 <= k < |b| && b[k] == x;
  }

  /** In a list with the same elements as `a`, some `b[k]` is `a`'s first, and
      what remains of the two lists has the same elements. */
  lemma MatchFirst<T>(a: seq<T>, b: seq<T>) returns (k: nat)
    requires multiset(a) == multiset(b) && |a| > 0
    ensures k < |b| && b[k] == a[0]
    ensures multiset(a[1..]) == multiset(b[..k] + b[k + 1..])
  {
    k := PositionOf(a[0], b);
    RemoveFirst(a);
    RemoveAt(b, k);
  }

  /** The first `n` elements of the suffix from `a` are the slice from `a` to
      `a + n`. */
  lemma PrefixOfSuffix<T>(xs: seq<T>, a: nat, n: nat)
    requires a + n <= |xs|
    ensures xs[a..][..n] == xs[a..a + n]
  {
  }

  /** Element `k` of a list is element `k - a` of its suffix from `a`. */
  lemma SuffixAt<T>(xs: seq<T>, a: nat, k: nat)
    requires a <= k < |xs|
    ensures xs[a..][k - a] == xs[k]
  {
  }

  /** A concatenation starting with a non-empty `a` starts with `a`'s first
      element and goes on with the rest of `a`, then `b`. */
  lemma ConcatTail<T>(a: seq<T>, b: seq<T>)
    requires |a| > 0
    ensures (a + b)[0] == a[0] && (a + b)[1..] == a[1..] + b
  {
  }

  /** Putting the first element of `a` back in front of the rest of `a`
      followed by `t` gives `a` followed by `t`. */
  lemma ConsRegroup<T>(a: seq<T>, t: seq<T>)
    requires |a| > 0
    ensures [a[0]] + (a[1..] + t) == a + t
  {
    assert [a[0]] + a[1..] == a;
  }
}

=== FILE: shapelets.dfy ===
/** The integer bookkeeping of the ultra-fast-shapelet extractor: how many
    shapelets it keeps, how that budget is split over the window lengths,
    which windows it draws, and the shape of the transformed data. The
    series values and the distance computations are not modelled; a window
    is its coordinates in the data. Random draws come from `pick`: the
    `d`-th call `randint(b)` yields `pick(d) % b`. */
module UltraFastShapelets {
  import opened Wrappers

  // ------------------------------------------------------------ the extractor

  /** The constructor's arguments: the share of candidates to keep and the
      optional seed. */
  datatype Extractor = Extractor(keep: real, seed: Option<int>)

  /** The constructor asserts that the kept share lies in (0, 1]. */
  function NewExtractor(keep: real, seed: Option<int>): (r: Option<Extractor>)
    ensures r.Some? <==> 0.0 < keep <= 1.0
    ensures r.Some? ==> r.value.keep == keep && r.value.seed == seed
  {
    if 0.0 < keep <= 1.0 then Some(Extractor(keep, seed)) else None
  }

  /** Python's `int` of a float: truncation toward zero. */
  function Truncate(x: real): (r: int)
    ensures 0.0 <= x ==> r as real <= x < r as real + 1.0
    ensures x < 0.0 ==> r as real - 1.0 < x <= r as real
  {
    if x >= 0.0 then x.Floor else -((-x).Floor)
  }

  /** The number `p` of shapelets kept from `n` instances: the kept share
      of `n`, truncated, and at least 1. */
  function Budget(n: nat, keep: real): (p: nat)
    ensures p >= 1
    ensures Truncate(n as real * keep) >= 1 ==> p == Truncate(n as real * keep)
    ensures Truncate(n as real * keep) < 1 ==> p == 1
  {
    var t := Truncate(n as real * keep);
    if t < 1 then 1 else t
  }

  /** With a valid share the budget is the kept share of the instances,
      rounded down, and never more than the instances unless there are
      none. */
  lemma BudgetBounds(n: nat, keep: real)
    requires 0.0 < keep <= 1.0
    ensures Budget(n, keep) <= if n == 0 then 1 else n
    ensures n as real * keep >= 1.0 ==>
              Budget(n, keep) as real <= n as real * keep < Budget(n, keep) as real + 1.0
  {
    var x := n as real * keep;
    assert x == n as real - n as real * (1.0 - keep);
    assert 0.0 <= n as real * (1.0 - keep);
  }

  // ------------------------------------------------------------ candidates

  /** `_get_number_of_candidates`: the windows of length `l` over `n`
      series of `m` steps, the length clamped to `m`; a length that is not
      positive fails the assertion. */
  function NumberOfCandidates(n: nat, m: nat, l: int): (r: Option<nat>)
    ensures r.None? <==> l <= 0
  {
    if l <= 0 then None
    else
      var clamped := if l > m then m else l;
      Some(n * (m - clamped + 1))
  }

  /** The naturals below `k`. */
  function Range(k: nat): (r: set<nat>)
    ensures |r| == k
    ensures forall j: nat :: j in r <==> j < k
  {
    if k == 0 then {}
    else
      var below := Range(k - 1);
      assert k - 1 !in below;
      below + {k - 1}
  }

  /** The first time steps at which a window of length `l` fits into `m`
      steps. */
  function Starts(m: nat, l: nat): (r: set<nat>)
    requires l <= m
    ensures forall j: nat :: j in r <==> j + l <= m
  {
    Range(m - l + 1)
  }

  /** The candidate count is the number of instances times the number of
      places a window of the (clamped) length fits. */
  lemma CandidatesAreWindows(n: nat, m: nat, l: int)
    requires l > 0
    ensures var clamped := if l > m then m else l;
      NumberOfCandidates(n, m, l) == Some(n * |Starts(m, clamped)|)
  {
  }

  function Sum(s: seq<nat>): nat
    decreases |s|
  {
    if |s| == 0 then 0 else s[0] + Sum(s[1..])
  }

  /** The array `c`: one entry per window length from 3 to `m`. */
  function Candidates(n: nat, m: nat): (c: seq<nat>)
    requires m >= 2
    ensures |c| == m - 2
    ensures forall i :: 0 <= i < |c| ==> c[i] == NumberOfCandidates(n, m, i + 3).value
  {
    seq(m - 2, i requires 0 <= i < m - 2 => n * (m - 2 - i))
  }

  /** The candidates of all lengths from 3 to `m` add up to `n` times the
      triangular number of `m - 2`. */
  lemma {:induction false} CandidatesSum(n: nat, m: nat)
    requires m >= 2
    ensures 2 * Sum(Candidates(n, m)) == n * (m - 2) * (m - 1)
  {
    if m > 2 {
      var c := Candidates(n, m);
      assert c[1..] == Candidates(n, m - 1);
      CandidatesSum(n, m - 1);
      var k := m - 2;
      assert n * (k - 1) * k == n * k * k - n * k;
      assert n * k * (k + 1) == n * k * k + n * k;
    }
  }

  // ------------------------------------------------------------ shares

  /** Rounding half to even, as numpy rounds. */
  function RoundHalfEven(x: real): (r: int)
    ensures x - 0.5 <= r as real <= x + 0.5
    ensures (r as real == x - 0.5 || r as real == x + 0.5) ==> r % 2 == 0
  {
    var down := x.Floor;
    var fraction := x - down as real;
    if fraction < 0.5 then down
    else if fraction > 0.5 then down + 1
    else if down % 2 == 0 then down
    else down + 1
  }

  /** An integer within a half of `x`, and even when exactly a half away,
      is the rounding of `x`. */
  lemma RoundHalfEvenUnique(x: real, z: int)
    requires x - 0.5 <= z as real <= x + 0.5
    requires (z as real == x - 0.5 || z as real == x + 0.5) ==> z % 2 == 0
    ensures z == RoundHalfEven(x)
  {
    var r := RoundHalfEven(x);
    assert -1.0 <= (z - r) as real <= 1.0;
  }

  /** The share `p / sum(c) * c[i]` of length `i`. */
  function Share(p: nat, c: seq<nat>, i: nat): real
    requires Sum(c) > 0 && i < |c|
  {
    p as real * (1.0 / Sum(c) as real) * c[i] as real
  }

  lemma ShareNonNegative(p: nat, c: seq<nat>, i: nat)
    requires Sum(c) > 0 && i < |c|
    ensures Share(p, c, i) >= 0.0
  {
    var f := p as real * (1.0 / Sum(c) as real);
    assert f >= 0.0;
  }

  function RoundShare(p: nat, c: seq<nat>, i: nat): (r: nat)
    requires Sum(c) > 0 && i < |c|
    ensures RoundHalfEven(Share(p, c, i)) == r
  {
    ShareNonNegative(p, c, i);
    RoundHalfEven(Share(p, c, i))
  }

  /** `ps` before balancing: every share rounded half to even, so within a
      half of its exact value. */
  function InitialShares(p: nat, c: seq<nat>): (ps: seq<nat>)
    requires Sum(c) > 0
    ensures |ps| == |c|
    ensures forall i :: 0 <= i < |c| ==> -0.5 <= ps[i] as real - Share(p, c, i) <= 0.5
  {
    seq(|c|, i requires 0 <= i < |c| => RoundShare(p, c, i))
  }

  // ------------------------------------------------------------ balancing

  /** Changing one entry changes the sum by the difference. */
  lemma {:induction false} SumUpdate(s: seq<nat>, i: nat, v: nat)
    requires i < |s|
    ensures Sum(s[i := v]) == Sum(s) - s[i] + v
    decreases |s|
  {
    if i == 0 {
      assert s[i := v][1..] == s[1..];
    } else {
      assert s[i := v][1..] == s[1..][i - 1 := v];
      SumUpdate(s[1..], i - 1, v);
    }
  }

  /** A sequence of zeros sums to zero. */
  lemma {:induction false} SumZeros(s: seq<nat>)
    requires forall i :: 0 <= i < |s| ==> s[i] == 0
    ensures Sum(s) == 0
    decreases |s|
  {
    if |s| > 0 {
      assert forall i :: 0 <= i < |s[1..]| ==> s[1..][i] == s[i + 1];
      SumZeros(s[1..]);
    }
  }

  /** How many of the `count` draws from `drawn` on pick entry `i` of a
      sequence of `size` entries. */
  function Hits(pick: nat -> nat, drawn: nat, count: nat, size: nat, i: nat): (r: nat)
    requires size > 0
    ensures r <= count
  {
    if count == 0 then 0
    else Hits(pick, drawn, count - 1, size, i) + (if pick(drawn + count - 1) % size == i then 1 else 0)
  }

  /** The entry `t` places after `start`, wrapping around: `(start + t) %
      size` for a start and an offset below the size. */
  function RoundRobin(start: nat, t: nat, size: nat): (i: nat)
    requires start < size && t < size
    ensures i < size
  {
    if start + t < size then start + t else start + t - size
  }

  function Distance(a: nat, b: nat): nat {
    if a < b then b - a else a - b
  }

  /** One round-robin pass from `start`: the first positive entry is
      decremented, and `offset` says how far from `start` it was; -1 when
      all entries are zero. */
  method TakeOne(ps: seq<nat>, start: nat) returns (r: seq<nat>, offset: int)
    requires start < |ps|
    ensures -1 <= offset < |ps|
    ensures offset == -1 <==> forall i :: 0 <= i < |ps| ==> ps[i] == 0
    ensures offset == -1 ==> r == ps
    ensures offset >= 0 ==>
              var i := RoundRobin(start, offset, |ps|);
              && ps[i] > 0
              && r == ps[i := ps[i] - 1]
              && forall t: nat :: t < offset ==> ps[RoundRobin(start, t, |ps|)] == 0
  {
    var n := |ps|;
    var t := 0;
    while t < n
      invariant 0 <= t <= n
      invariant forall u: nat :: u < t ==> ps[RoundRobin(start, u, n)] == 0
    {
      var i := RoundRobin(start, t, n);
      if ps[i] > 0 {
        return ps[i := ps[i] - 1], t;
      }
      t := t + 1;
    }
    forall i | 0 <= i < n
      ensures ps[i] == 0
    {
      var u: nat := if i >= start then i - start else i + n - start;
      assert RoundRobin(start, u, n) == i;
    }
    return ps, -1;
  }

  /** The missing units, one per draw, each added to the drawn entry. */
  method AddMissing(ps: seq<nat>, missing: nat, pick: nat -> nat, drawn: nat) returns (r: seq<nat>)
    requires |ps| > 0
    ensures |r| == |ps| && Sum(r) == Sum(ps) + missing
    ensures forall i :: 0 <= i < |ps| ==> r[i] == ps[i] + Hits(pick, drawn, missing, |ps|, i)
  {
    r := ps;
    var k := 0;
    while k < missing
      invariant 0 <= k <= missing
      invariant AddedSoFar(ps, r, pick, drawn, k)
    {
      AddOneHit(ps, r, pick, drawn, k);
      var i := pick(drawn + k) % |ps|;
      r := r[i := r[i] + 1];
      k := k + 1;
    }
  }

  /** After `k` draws each entry has grown by its hits, and the total by `k`. */
  predicate AddedSoFar(ps: seq<nat>, r: seq<nat>, pick: nat -> nat, drawn: nat, k: nat)
    requires |ps| > 0
  {
    |r| == |ps| && Sum(r) == Sum(ps) + k
    && forall j :: 0 <= j < |ps| ==> r[j] == ps[j] + Hits(pick, drawn, k, |ps|, j)
  }

  /** Adding the unit of draw `k` to the entry it picks adds one hit there
      and one to the total. */
  lemma AddOneHit(ps: seq<nat>, r: seq<nat>, pick: nat -> nat, drawn: nat, k: nat)
    requires |ps| > 0 && AddedSoFar(ps, r, pick, drawn, k)
    ensures var i := pick(drawn + k) % |ps|;
      AddedSoFar(ps, r[i := r[i] + 1], pick, drawn, k + 1)
  {
    var i := pick(drawn + k) % |ps|;
    SumUpdate(r, i, r[i] + 1);
    forall j | 0 <= j < |ps| {
      HitsNext(pick, drawn, k, |ps|, j);
    }
  }

  /** One more draw hits the entry it picks once more. */
  lemma HitsNext(pick: nat -> nat, drawn: nat, k: nat, size: nat, i: nat)
    requires size > 0
    ensures Hits(pick, drawn, k + 1, size, i)
      == Hits(pick, drawn, k, size, i) + (if pick(drawn + k) % size == i then 1 else 0)
  {
    assert drawn + (k + 1) - 1 == drawn + k;
  }

  /** The surplus units, one per draw, each taken round-robin from the
      drawn start. */
  method TakeSurplus(ps: seq<nat>, surplus: nat, pick: nat -> nat, drawn: nat) returns (r: seq<nat>)
    requires |ps| > 0 && surplus <= Sum(ps)
    ensures |r| == |ps| && Sum(r) == Sum(ps) - surplus
    ensures forall i :: 0 <= i < |ps| ==> r[i] <= ps[i]
  {
    r := ps;
    var k := 0;
    while k < surplus
      invariant 0 <= k <= surplus
      invariant |r| == |ps|
      invariant Sum(r) == Sum(ps) - k
      invariant forall i :: 0 <= i < |ps| ==> r[i] <= ps[i]
    {
      var start := pick(drawn + k) % |ps|;
      if forall i :: 0 <= i < |r| ==> r[i] == 0 {
        SumZeros(r);
      }
      var before := r;
      var offset;
      r, offset := TakeOne(before, start);
      var i := RoundRobin(start, offset, |ps|);
      SumUpdate(before, i, before[i] - 1);
      k := k + 1;
    }
  }

  /** The balancing of `ps` to sum to `p`: missing units go to entries
      drawn at random, surplus units are taken one at a time round-robin
      from a drawn start. An empty `ps` with a wrong sum raises at its
      first draw. */
  method Balance(ps: seq<nat>, p: nat, pick: nat -> nat, drawn: nat) returns (r: Option<seq<nat>>, next: nat)
    ensures r.None? <==> |ps| == 0 && Sum(ps) != p
    ensures r.Some? ==> |r.value| == |ps| && Sum(r.value) == p
    ensures r.Some? ==> next == drawn + Distance(Sum(ps), p)
    ensures r.Some? && Sum(ps) < p ==>
              forall i :: 0 <= i < |ps| ==> r.value[i] == ps[i] + Hits(pick, drawn, p - Sum(ps), |ps|, i)
    ensures r.Some? && Sum(ps) > p ==> forall i :: 0 <= i < |ps| ==> r.value[i] <= ps[i]
    ensures Sum(ps) == p ==> r == Some(ps) && next == drawn
  {
    var total := Sum(ps);
    if total == p {
      return Some(ps), drawn;
    } else if |ps| == 0 {
      return None, drawn;
    } else if total < p {
      var s := AddMissing(ps, p - total, pick, drawn);
      return Some(s), drawn + (p - total);
    } else {
      var s := TakeSurplus(ps, total - p, pick, drawn);
      return Some(s), drawn + (total - p);
    }
  }

  // ------------------------------------------------------------ extraction

  /** A drawn window: the instance, its first time step, its length and its
      dimension (0 for univariate data). */
  datatype Shapelet = Shapelet(instance: nat, start: nat, length: nat, dimension: nat)

  /** A window drawn as written: `randint(m - l)` picks a start below
      `m - l`, so the window ends before the last time step. */
  predicate InBounds(s: Shapelet, n: nat, m: nat, dims: nat) {
    && s.instance < n
    && 2 <= s.length
    && s.start + s.length < m
    && s.dimension < dims
  }

  /** How many windows of length `l` in dimension `k` there are. */
  function CountOf(s: seq<Shapelet>, l: nat, k: nat): nat
    decreases |s|
  {
    if |s| == 0 then 0
    else (if s[0].length == l && s[0].dimension == k then 1 else 0) + CountOf(s[1..], l, k)
  }

  lemma {:induction false} CountAppend(a: seq<Shapelet>, b: seq<Shapelet>, l: nat, k: nat)
    ensures CountOf(a + b, l, k) == CountOf(a, l, k) + CountOf(b, l, k)
    decreases |a|
  {
    if |a| == 0 {
      assert a + b == b;
    } else {
      assert (a + b)[0] == a[0];
      assert (a + b)[1..] == a[1..] + b;
      CountAppend(a[1..], b, l, k);
    }
  }

  /** Windows all of one length and dimension count in full for that pair
      and not at all for any other. */
  lemma {:induction false} CountUniform(s: seq<Shapelet>, l: nat, k: nat, l': nat, k': nat)
    requires forall t :: 0 <= t < |s| ==> s[t].length == l && s[t].dimension == k
    ensures CountOf(s, l', k') == if l == l' && k == k' then |s| else 0
    decreases |s|
  {
    if |s| > 0 {
      assert forall t :: 0 <= t < |s[1..]| ==> s[1..][t] == s[t + 1];
      CountUniform(s[1..], l, k, l', k');
    }
  }

  /** `count` windows of length `l` in dimension `k`, each drawing its
      instance and then its start. */
  function Windows(count: nat, n: nat, m: nat, l: nat, k: nat, pick: nat -> nat, drawn: nat): (r: seq<Shapelet>)
    requires n > 0 && l < m
    ensures |r| == count
    ensures forall t :: 0 <= t < count ==>
              && r[t].instance < n && r[t].start + l < m && r[t].length == l && r[t].dimension == k
  {
    if count == 0 then []
    else [Shapelet(pick(drawn) % n, pick(drawn + 1) % (m - l), l, k)] + Windows(count - 1, n, m, l, k, pick, drawn + 2)
  }

  /** The windows of length `l` for the dimensions from `k` on, with the
      draws the next length goes on from. */
  function Dimensions(count: nat, n: nat, m: nat, l: nat, k: nat, dims: nat, pick: nat -> nat,
                      drawn: nat): (r: (seq<Shapelet>, nat))
    requires n > 0 && l < m && k <= dims
    ensures |r.0| == (dims - k) * count
    ensures forall t :: 0 <= t < |r.0| ==>
              && r.0[t].instance < n && r.0[t].start + l < m && r.0[t].length == l
              && k <= r.0[t].dimension < dims
    decreases dims - k
  {
    if k == dims then ([], drawn)
    else
      var w := Windows(count, n, m, l, k, pick, drawn);
      var rest := Dimensions(count, n, m, l, k + 1, dims, pick, drawn + 2 * count);
      Distribute(count, 1, dims - (k + 1), dims - k);
      var all := w + rest.0;
      assert forall t :: 0 <= t < |w| ==> all[t] == w[t];
      assert forall t :: |w| <= t < |all| ==> all[t] == rest.0[t - |w|];
      (all, rest.1)
  }

  /** Windows of length `l` number `count` per dimension from `k` on. */
  lemma {:induction false} DimensionsCount(count: nat, n: nat, m: nat, l: nat, k: nat, dims: nat, pick: nat -> nat,
                                           drawn: nat, l': nat, k': nat)
    requires n > 0 && l < m && k <= dims
    ensures CountOf(Dimensions(count, n, m, l, k, dims, pick, drawn).0, l', k')
            == if l' == l && k <= k' < dims then count else 0
    decreases dims - k
  {
    if k < dims {
      var w := Windows(count, n, m, l, k, pick, drawn);
      var rest := Dimensions(count, n, m, l, k + 1, dims, pick, drawn + 2 * count);
      DimensionsFirst(count, n, m, l, k, dims, pick, drawn);
      DimensionsCount(count, n, m, l, k + 1, dims, pick, drawn + 2 * count, l', k');
      CountWindowsThenRest(w, rest.0, count, l, k, dims, l', k');
    }
  }

  /** `count` windows of length `l` in dimension `k`, followed by windows
      counted for the dimensions after `k`, count for the dimensions from `k`
      on. */
  lemma CountWindowsThenRest(w: seq<Shapelet>, rest: seq<Shapelet>, count: nat, l: nat, k: nat, dims: nat,
                             l': nat, k': nat)
    requires k < dims && |w| == count
    requires forall t :: 0 <= t < |w| ==> w[t].length == l && w[t].dimension == k
    requires CountOf(rest, l', k') == if l' == l && k + 1 <= k' < dims then count else 0
    ensures CountOf(w + rest, l', k') == if l' == l && k <= k' < dims then count else 0
  {
    CountAppend(w, rest, l', k');
    CountUniform(w, l, k, l', k');
  }

  /** The windows of the dimensions from `k` on are those of dimension `k`,
      then those of the dimensions after it. */
  lemma DimensionsFirst(count: nat, n: nat, m: nat, l: nat, k: nat, dims: nat, pick: nat -> nat, drawn: nat)
    requires n > 0 && l < m && k < dims
    ensures Dimensions(count, n, m, l, k, dims, pick, drawn).0
      == Windows(count, n, m, l, k, pick, drawn) + Dimensions(count, n, m, l, k + 1, dims, pick, drawn + 2 * count).0
  {
  }

  lemma Distribute(d: nat, a: nat, b: nat, sum: nat)
    requires sum == a + b
    ensures d * sum == d * a + d * b
  {
  }

  /** The extraction loop over the lengths from `l` to `m - 1`: `ps[l - 2]`
      windows of length `l` per dimension. */
  function Lengths(ps: seq<nat>, n: nat, m: nat, dims: nat, l: nat, pick: nat -> nat, drawn: nat): (r: (seq<Shapelet>, nat))
    requires n > 0 && m >= 2 && |ps| == m - 2 && 2 <= l <= m
    ensures |r.0| == dims * Sum(ps[l - 2..])
    ensures forall t :: 0 <= t < |r.0| ==> InBounds(r.0[t], n, m, dims) && l <= r.0[t].length
    decreases m - l
  {
    if l == m then ([], drawn)
    else
      var d := Dimensions(ps[l - 2], n, m, l, 0, dims, pick, drawn);
      var rest := Lengths(ps, n, m, dims, l + 1, pick, d.1);
      assert ps[l - 2..][1..] == ps[l - 1..];
      Distribute(dims, ps[l - 2], Sum(ps[l - 1..]), Sum(ps[l - 2..]));
      var all := d.0 + rest.0;
      assert forall t :: 0 <= t < |d.0| ==> all[t] == d.0[t];
      assert forall t :: |d.0| <= t < |all| ==> all[t] == rest.0[t - |d.0|];
      (all, rest.1)
  }

  /** Windows of each length from `l` on number `ps[length - 2]` per
      dimension. */
  lemma {:induction false} LengthsCount(ps: seq<nat>, n: nat, m: nat, dims: nat, l: nat, pick: nat -> nat,
                                        drawn: nat, l': nat, k': nat)
    requires n > 0 && m >= 2 && |ps| == m - 2 && 2 <= l <= m
    ensures CountOf(Lengths(ps, n, m, dims, l, pick, drawn).0, l', k')
            == if l <= l' < m && k' < dims then ps[l' - 2] else 0
    decreases m - l
  {
    if l < m {
      var d := Dimensions(ps[l - 2], n, m, l, 0, dims, pick, drawn);
      var rest := Lengths(ps, n, m, dims, l + 1, pick, d.1);
      CountAppend(d.0, rest.0, l', k');
      DimensionsCount(ps[l - 2], n, m, l, 0, dims, pick, drawn, l', k');
      LengthsCount(ps, n, m, dims, l + 1, pick, d.1, l', k');
    }
  }

  /** What `fit` keeps: the budget, the balanced shares per length, and the
      drawn windows. */
  datatype Fitted = Fitted(p: nat, shares: seq<nat>, shapelets: seq<Shapelet>)

  /** `_extract_shapelets` on data of `n` instances, `m` time steps and
      `dims` dimensions. Fewer than two steps make `np.zeros` fail; two
      steps leave no shares, so the first draw `randint(0)` raises; no
      instances make every share 0/0, and `int(NaN)` raises. */
  method ExtractShapelets(e: Extractor, n: nat, m: nat, dims: nat, pick: nat -> nat, drawn: nat)
    returns (r: Option<Fitted>, next: nat)
    ensures r.None? <==> m <= 2 || n == 0
    ensures r.Some? ==>
              && r.value.p == Budget(n, e.keep)
              && |r.value.shares| == m - 2
              && Sum(r.value.shares) == r.value.p
              && |r.value.shapelets| == dims * r.value.p
              && (forall t :: 0 <= t < |r.value.shapelets| ==> InBounds(r.value.shapelets[t], n, m, dims))
              && forall l: nat, k: nat :: 2 <= l < m && k < dims ==>
                   CountOf(r.value.shapelets, l, k) == r.value.shares[l - 2]
  {
    var p := Budget(n, e.keep);
    if m <= 2 || n == 0 {
      return None, drawn;
    }
    var c := Candidates(n, m);
    CandidatesPositive(n, m);
    var initial := InitialShares(p, c);
    var balanced, d := Balance(initial, p, pick, drawn);
    var ps := balanced.value;
    var extracted := Lengths(ps, n, m, dims, 2, pick, d);
    assert ps[0..] == ps;
    ExtractedCounts(ps, n, m, dims, pick, d);
    return Some(Fitted(p, ps, extracted.0)), extracted.1;
  }

  lemma CandidatesPositive(n: nat, m: nat)
    requires n > 0 && m > 2
    ensures Sum(Candidates(n, m)) > 0
  {
    CandidatesSum(n, m);
    assert n * (m - 2) > 0;
    assert n * (m - 2) * (m - 1) > 0;
  }

  /** The windows drawn over all lengths number `ps[l - 2]` per length `l`
      and dimension. */
  lemma ExtractedCounts(ps: seq<nat>, n: nat, m: nat, dims: nat, pick: nat -> nat, drawn: nat)
    requires n > 0 && m >= 2 && |ps| == m - 2
    ensures forall l: nat, k: nat :: 2 <= l < m && k < dims ==>
              CountOf(Lengths(ps, n, m, dims, 2, pick, drawn).0, l, k) == ps[l - 2]
  {
    forall l: nat, k: nat | 2 <= l < m && k < dims
      ensures CountOf(Lengths(ps, n, m, dims, 2, pick, drawn).0, l, k) == ps[l - 2]
    {
      LengthsCount(ps, n, m, dims, 2, pick, drawn, l, k);
    }
  }

  // ------------------------------------------------------------ transform

  /** `_shapelet_transform` on `rows` instances: one column per kept
      shapelet, its value for row `i` given by `distance`; fewer shapelets
      than the budget raise an `IndexError`. */
  function Transform(rows: nat, p: nat, shapelets: seq<Shapelet>, distance: (nat, Shapelet) -> real): (r: Option<seq<seq<real>>>)
    ensures r.None? <==> |shapelets| < p
    ensures r.Some? ==>
              && |r.value| == rows
              && forall i :: 0 <= i < rows ==> |r.value[i]| == p
  {
    if |shapelets| < p then None
    else Some(seq(rows, i requires 0 <= i < rows => seq(p, j requires 0 <= j < p => distance(i, shapelets[j]))))
  }

  /** After a fit on data with at least one dimension the transform is
      `rows` by `p` and never runs out of shapelets; column `j` holds the
      distances to the `j`-th shapelet. */
  lemma TransformAfterFit(f: Fitted, dims: nat, rows: nat, distance: (nat, Shapelet) -> real)
    requires dims >= 1 && |f.shapelets| == dims * f.p
    ensures var r := Transform(rows, f.p, f.shapelets, distance);
      && r.Some?
      && |r.value| == rows
      && forall i, j :: 0 <= i < rows && 0 <= j < f.p ==> r.value[i][j] == distance(i, f.shapelets[j])
  {
    assert dims * f.p >= f.p;
  }
}

=== FILE: strings.dfy ===
/** Java (and a little Python) string semantics the system relies on: prefix and
    suffix tests, literal replacement, `String.split` with a fixed-width regular
    expression, joining, trimming, and decimal integer printing and parsing.
    Characters are compared by code; case folding is ASCII only. */
module Strings {
  import opened Wrappers
  import opened Sequences

  predicate StartsWith(s: string, prefix: string) {
    |prefix| <= |s| && s[..|prefix|] == prefix
  }

  predicate EndsWith(s: string, suffix: string) {
    |suffix| <= |s| && s[|s| - |suffix|..] == suffix
  }

  /** One position of a fixed-width regular expression: a literal character or `.`
      (any character but a line terminator). A literal separator is a pattern of
      literals only. */
  datatype PatChar = Lit(c: char) | AnyChar

  type Pattern = seq<PatChar>

  /** The characters Java's `.` does not match by default. */
  predicate IsLineTerminator(c: char) {
    c == '\n' || c == '\r' || c == '\U{0085}' || c == '\U{2028}' || c == '\U{2029}'
  }

  predicate CharMatches(pc: PatChar, c: char) {
    match pc
    case AnyChar => !IsLineTerminator(c)
    case Lit(l) => l == c
  }

  function Literal(sep: string): (p: Pattern)
    ensures |p| == |sep|
    ensures forall k :: 0 <= k < |sep| ==> p[k] == Lit(sep[k])
  {
    seq(|sep|, k requires 0 <= k < |sep| => Lit(sep[k]))
  }

  predicate MatchesAt(s: string, pat: Pattern, i: int) {
    0 <= i && i + |pat| <= |s| && forall k :: 0 <= k < |pat| ==> CharMatches(pat[k], s[i + k])
  }

  lemma LiteralMatch(s: string, sep: string, i: int)
    requires MatchesAt(s, Literal(sep), i)
    ensures s[i..i + |sep|] == sep
  {
    var p := Literal(sep);
    forall k | 0 <= k < |sep|
      ensures s[i..i + |sep|][k] == sep[k]
    {
      assert CharMatches(p[k], s[i + k]);
    }
  }

  /** Leftmost match of `pat` at or after `from`, or -1 (the regular-expression
      search `Matcher.find`, and `String.indexOf` for literals). */
  function FindFrom(s: string, pat: Pattern, from: nat): (r: int)
    ensures r == -1 || (from <= r && MatchesAt(s, pat, r))
    ensures r == -1 ==> forall i :: from <= i ==> !MatchesAt(s, pat, i)
    ensures r >= 0 ==> forall i :: from <= i < r ==> !MatchesAt(s, pat, i)
    decreases |s| - from
  {
    if from + |pat| > |s| then -1
    else if MatchesAt(s, pat, from) then from
    else FindFrom(s, pat, from + 1)
  }

  function IndexOf(s: string, target: string): int {
    FindFrom(s, Literal(target), 0)
  }

  /** `String.contains`. */
  predicate Contains(s: string, target: string) {
    IndexOf(s, target) >= 0
  }

  /** `target` occurs in `s` starting at index `i`. */
  predicate OccursAt(s: string, target: string, i: int) {
    0 <= i && i + |target| <= |s| && s[i..i + |target|] == target
  }

  lemma ContainsIff(s: string, target: string)
    ensures Contains(s, target) <==> exists i :: OccursAt(s, target, i)
  {
    var p := Literal(target);
    if Contains(s, target) {
      LiteralMatch(s, target, IndexOf(s, target));
      assert OccursAt(s, target, IndexOf(s, target));
    } else {
      forall i | OccursAt(s, target, i)
        ensures false
      {
        assert MatchesAt(s, p, i) by {
          forall k | 0 <= k < |p|
            ensures CharMatches(p[k], s[i + k])
          {
            assert s[i..i + |target|][k] == target[k];
          }
        }
      }
    }
  }

  /** A string shorter than a word holds no copy of it. */
  lemma ShorterHoldsNothing(s: string, word: string)
    requires |s| < |word|
    ensures !Contains(s, word)
  {
    ContainsIff(s, word);
  }

  /** `String.lastIndexOf(char)`. */
  function LastIndexOf(s: string, c: char): (r: int)
    ensures -1 <= r < |s|
    ensures r >= 0 ==> s[r] == c && forall k :: r < k < |s| ==> s[k] != c
    ensures r == -1 ==> c !in s
    decreases |s|
  {
    if |s| == 0 then -1
    else if s[|s| - 1] == c then |s| - 1
    else LastIndexOf(s[..|s| - 1], c)
  }

  /** `String.replace(CharSequence, CharSequence)`: every non-overlapping literal
      occurrence of `target`, scanning left to right, becomes `replacement`; an
      empty target inserts the replacement before every character and at the end. */
  function Replace(s: string, target: string, replacement: string): (r: string)
    decreases |s|
  {
    if |target| == 0 then
      if |s| == 0 then replacement else replacement + [s[0]] + Replace(s[1..], target, replacement)
    else if |s| < |target| then s
    else if s[..|target|] == target then replacement + Replace(s[|target|..], target, replacement)
    else [s[0]] + Replace(s[1..], target, replacement)
  }

  /** Replacing a character by a string free of it leaves no occurrence of it. */
  lemma {:induction false} ReplaceRemovesChar(s: string, c: char, replacement: string)
    requires c !in replacement
    ensures c !in Replace(s, [c], replacement)
    decreases |s|
  {
    if |s| >= 1 {
      ReplaceRemovesChar(s[1..], c, replacement);
    }
  }

  /** Replacing a target that does not occur changes nothing. */
  lemma {:induction false} ReplaceAbsent(s: string, target: string, replacement: string)
    requires |target| > 0
    requires forall i :: !OccursAt(s, target, i)
    ensures Replace(s, target, replacement) == s
    decreases |s|
  {
    if |s| >= |target| {
      assert !OccursAt(s, target, 0);
      assert s[..|target|] == s[0..|target|];
      forall i
        ensures !OccursAt(s[1..], target, i)
      {
        if 0 <= i && i + |target| <= |s[1..]| {
          assert s[1..][i..i + |target|] == s[i + 1..i + 1 + |target|];
          assert !OccursAt(s, target, i + 1);
        }
      }
      ReplaceAbsent(s[1..], target, replacement);
      assert [s[0]] + s[1..] == s;
    }
  }

  /** The pieces between the matches of `pat`, trailing empty pieces included
      (`String.split(regex, -1)`). */
  function SplitAll(s: string, pat: Pattern): (r: seq<string>)
    requires |pat| > 0
    ensures |r| >= 1
    decreases |s|
  {
    var i := FindFrom(s, pat, 0);
    if i < 0 then [s] else [s[..i]] + SplitAll(s[i + |pat|..], pat)
  }

  /** Removes the empty strings at the end of a list. */
  function DropTrailingEmpty(parts: seq<string>): (r: seq<string>)
    ensures |r| <= |parts| && r == parts[..|r|]
    ensures |r| > 0 ==> r[|r| - 1] != ""
    ensures forall k :: |r| <= k < |parts| ==> parts[k] == ""
  {
    if |parts| == 0 then []
    else if parts[|parts| - 1] == "" then DropTrailingEmpty(parts[..|parts| - 1])
    else parts
  }

  /** `String.split(regex)`: the empty string splits into one empty piece, any
      other string into its pieces with trailing empty pieces removed. */
  function Split(s: string, pat: Pattern): (r: seq<string>)
    requires |pat| > 0
  {
    if |s| == 0 then [""] else DropTrailingEmpty(SplitAll(s, pat))
  }

  /** `String.join` / `StringJoiner` without prefix and suffix. */
  function Join(parts: seq<string>, sep: string): (r: string)
    decreases |parts|
  {
    if |parts| == 0 then ""
    else if |parts| == 1 then parts[0]
    else parts[0] + sep + Join(parts[1..], sep)
  }

  /** Splitting at a literal separator and joining with it gives the string back. */
  lemma {:induction false} JoinSplitAll(s: string, sep: string)
    requires |sep| > 0
    ensures Join(SplitAll(s, Literal(sep)), sep) == s
    decreases |s|
  {
    var pat := Literal(sep);
    var i := FindFrom(s, pat, 0);
    if i >= 0 {
      var rest := s[i + |sep|..];
      var tail := SplitAll(rest, pat);
      JoinSplitAll(rest, sep);
      LiteralMatch(s, sep, i);
      assert SplitAll(s, pat) == [s[..i]] + tail;
      assert Join([s[..i]] + tail, sep) == s[..i] + sep + Join(tail, sep) by {
        assert ([s[..i]] + tail)[1..] == tail;
      }
      assert s == s[..i] + s[i..i + |sep|] + rest;
    }
  }

  /** Joining pieces free of a one-character separator and splitting again at it
      gives the pieces back. */
  lemma {:induction false} SplitAllJoin(parts: seq<string>, c: char)
    requires |parts| >= 1
    requires forall k :: 0 <= k < |parts| ==> c !in parts[k]
    ensures SplitAll(Join(parts, [c]), Literal([c])) == parts
    decreases |parts|
  {
    var pat := Literal([c]);
    var s := Join(parts, [c]);
    var p := parts[0];
    if |parts| == 1 {
      forall i | 0 <= i
        ensures !MatchesAt(s, pat, i)
      {
        if i < |s| {
          assert s[i] in p;
          assert !CharMatches(pat[0], s[i]);
        }
      }
    } else {
      SplitAllJoin(parts[1..], c);
      assert s == p + [c] + Join(parts[1..], [c]);
      assert MatchesAt(s, pat, |p|);
      forall i | 0 <= i < |p|
        ensures !MatchesAt(s, pat, i)
      {
        assert s[i] == p[i];
        assert p[i] in p;
        assert !CharMatches(pat[0], s[i]);
      }
      var i := FindFrom(s, pat, 0);
      assert i == |p|;
      assert s[..i] == p;
      assert s[i + 1..] == Join(parts[1..], [c]);
    }
  }

  /** Java's `split` undoes a join at a one-character separator when no piece
      contains it and the last piece is not empty. */
  lemma SplitJoin(parts: seq<string>, c: char)
    requires |parts| >= 1 && parts[|parts| - 1] != ""
    requires forall k :: 0 <= k < |parts| ==> c !in parts[k]
    ensures Split(Join(parts, [c]), Literal([c])) == parts
  {
    SplitAllJoin(parts, c);
    if Join(parts, [c]) == "" {
      JoinEmpty(parts, [c]);
    }
  }

  /** A string that does not end with the one-character separator has a
      non-empty last piece, so Java's `split` keeps every piece. */
  lemma {:induction false} SplitKeepsAll(s: string, c: char)
    requires |s| > 0 && s[|s| - 1] != c
    ensures Split(s, Literal([c])) == SplitAll(s, Literal([c]))
  {
    SplitAllLastNonEmpty(s, c);
  }

  lemma SplitAllLastNonEmpty(s: string, c: char)
    requires |s| > 0 && s[|s| - 1] != c
    ensures var r := SplitAll(s, Literal([c])); r[|r| - 1] != ""
  {
    var r := SplitAll(s, Literal([c]));
    var n := |r|;
    JoinSplitAll(s, [c]);
    if n >= 2 {
      JoinSnoc(r, [c]);
      var last := r[n - 1];
      assert s == Join(r[..n - 1], [c]) + [c] + last;
      assert s[|s| - 1] == if |last| == 0 then c else last[|last| - 1];
    }
  }

  /** Joining a list of at least two pieces is joining all but the last, then
      the separator and the last piece. */
  lemma {:induction false} JoinSnoc(parts: seq<string>, sep: string)
    requires |parts| >= 2
    ensures Join(parts, sep) == Join(parts[..|parts| - 1], sep) + sep + parts[|parts| - 1]
    decreases |parts|
  {
    var n := |parts|;
    if n > 2 {
      JoinSnoc(parts[1..], sep);
      assert parts[1..][..n - 2] == parts[..n - 1][1..];
    }
  }

  lemma {:induction false} JoinEmpty(parts: seq<string>, sep: string)
    requires |sep| > 0 && |parts| >= 1 && Join(parts, sep) == ""
    ensures |parts| == 1 && parts[0] == ""
  {
    if |parts| > 1 {
    }
  }

  predicate IsWhitespace(c: char) {
    c <= ' '
  }

  function TrimStart(s: string): (r: string)
    ensures |r| <= |s| && r == s[|s| - |r|..]
    ensures |r| > 0 ==> !IsWhitespace(r[0])
    ensures forall k :: 0 <= k < |s| - |r| ==> IsWhitespace(s[k])
    decreases |s|
  {
    if |s| > 0 && IsWhitespace(s[0]) then TrimStart(s[1..]) else s
  }

  function TrimEnd(s: string): (r: string)
    ensures |r| <= |s| && r == s[..|r|]
    ensures |r| > 0 ==> !IsWhitespace(r[|r| - 1])
    ensures forall k :: |r| <= k < |s| ==> IsWhitespace(s[k])
    decreases |s|
  {
    if |s| > 0 && IsWhitespace(s[|s| - 1]) then TrimEnd(s[..|s| - 1]) else s
  }

  /** `String.trim`: removes the characters up to U+0020 at both ends. */
  function Trim(s: string): string {
    TrimEnd(TrimStart(s))
  }

  /** A trimmed string is the piece of the original starting at `TrimOffset`: it
      neither starts nor ends with a blank, and everything cut away was blank. */
  function TrimOffset(s: string): nat {
    |s| - |TrimStart(s)|
  }

  lemma TrimSpec(s: string)
    ensures var r, a := Trim(s), TrimOffset(s);
      a + |r| <= |s| && r == s[a..a + |r|]
      && (forall k :: 0 <= k < a ==> IsWhitespace(s[k]))
      && (forall k :: a + |r| <= k < |s| ==> IsWhitespace(s[k]))
      && (|r| > 0 ==> !IsWhitespace(r[0]) && !IsWhitespace(r[|r| - 1]))
  {
    var t := TrimStart(s);
    var r := TrimEnd(t);
    var a := |s| - |t|;
    PrefixOfSuffix(s, a, |r|);
    forall k | a + |r| <= k < |s|
      ensures IsWhitespace(s[k])
    {
      SuffixAt(s, a, k);
    }
  }

  function ToLowerChar(c: char): char {
    if 'A' <= c <= 'Z' then (c as int + 32) as char else c
  }

  /** `String.toLowerCase` restricted to ASCII letters. */
  function ToLower(s: string): (r: string)
    ensures |r| == |s|
  {
    seq(|s|, k requires 0 <= k < |s| => ToLowerChar(s[k]))
  }

  predicate IsDigit(c: char) {
    '0' <= c <= '9'
  }

  predicate AllDigits(s: string) {
    forall k :: 0 <= k < |s| ==> IsDigit(s[k])
  }

  function DigitChar(d: nat): (c: char)
    requires d < 10
    ensures IsDigit(c)
  {
    ('0' as int + d) as char
  }

  /** Decimal digits of a natural number, most significant first, no leading zeros. */
  function NatToString(n: nat): (r: string)
    ensures |r| >= 1 && AllDigits(r)
    decreases n
  {
    if n < 10 then [DigitChar(n)] else NatToString(n / 10) + [DigitChar(n % 10)]
  }

  /** `Integer.toString` / `"" + int`. */
  function IntToString(n: int): string {
    if n < 0 then "-" + NatToString(-n) else NatToString(n)
  }

  function DigitsValue(s: string): nat
    requires AllDigits(s)
    decreases |s|
  {
    if |s| == 0 then 0 else DigitsValue(s[..|s| - 1]) * 10 + (s[|s| - 1] as int - '0' as int)
  }

  const IntMin: int := -0x8000_0000
  const IntMax: int := 0x7fff_ffff

  predicate IsInt32(n: int) {
    IntMin <= n <= IntMax
  }

  /** `Integer.parseInt` (radix 10, ASCII digits): an optional sign and at least one
      digit whose value fits 32 bits; anything else is a number-format error. */
  function ParseInt(s: string): (r: Option<int>)
    ensures r.Some? ==> IsInt32(r.value)
    ensures r.Some? ==> |s| >= 1 && (IsDigit(s[0]) || s[0] == '-' || s[0] == '+')
  {
    if |s| == 0 then None
    else
      var start := if s[0] == '-' || s[0] == '+' then 1 else 0;
      var digits := s[start..];
      if |digits| == 0 || !AllDigits(digits) then None
      else
        var magnitude: int := DigitsValue(digits);
        var v := if s[0] == '-' then -magnitude else magnitude;
        if IsInt32(v) then Some(v) else None
  }

  lemma {:induction false} DigitsValueOfNatToString(n: nat)
    ensures DigitsValue(NatToString(n)) == n
    decreases n
  {
    if n >= 10 {
      DigitsValueOfNatToString(n / 10);
      var s := NatToString(n);
      assert s[..|s| - 1] == NatToString(n / 10);
    }
  }

  /** Printing a 32-bit integer and parsing it back gives the integer. */
  lemma ParseIntToString(n: int)
    requires IsInt32(n)
    ensures ParseInt(IntToString(n)) == Some(n)
  {
    if n < 0 {
      ParseNegative(n);
    } else {
      ParseNonNegative(n);
    }
  }

  lemma ParseNegative(n: int)
    requires IsInt32(n) && n < 0
    ensures ParseInt("-" + NatToString(-n)) == Some(n)
  {
    var digits := NatToString(-n);
    DigitsValueOfNatToString(-n);
    var s := "-" + digits;
    assert s[0] == '-';
    assert s[1..] == digits;
  }

  lemma ParseNonNegative(n: nat)
    requires IsInt32(n)
    ensures ParseInt(NatToString(n)) == Some(n)
  {
    var s := NatToString(n);
    DigitsValueOfNatToString(n);
    assert IsDigit(s[0]);
    assert s[0..] == s;
  }

  /** Printed integers consist of digits and possibly a leading minus sign. */
  lemma IntToStringChars(n: int)
    ensures forall k :: 0 <= k < |IntToString(n)| ==> IsDigit(IntToString(n)[k]) || IntToString(n)[k] == '-'
  {
    var digits := NatToString(if n < 0 then -n else n);
    assert forall k :: 0 <= k < |digits| ==> IsDigit(digits[k]);
  }

  lemma IntToStringHasNoUnderscore(n: int)
    ensures '_' !in IntToString(n)
  {
    var digits := NatToString(if n < 0 then -n else n);
    assert forall k :: 0 <= k < |digits| ==> IsDigit(digits[k]);
  }

  /** Two texts `a + "_" + x` and `b + "_" + y` with no underscore in `a` and
      `b` are equal only if `a == b` and `x == y`. */
  lemma UnderscoreSplitsUniquely(a: string, x: string, b: string, y: string)
    requires '_' !in a && '_' !in b
    requires a + "_" + x == b + "_" + y
    ensures a == b && x == y
  {
    var s := a + "_" + x;
    assert s[|a|] == '_' && (b + "_" + y)[|b|] == '_';
    assert forall k :: 0 <= k < |a| ==> s[k] == a[k] && s[k] != '_';
    assert forall k :: 0 <= k < |b| ==> s[k] == b[k] && s[k] != '_';
    assert |a| == |b|;
    assert a == s[..|a|] && b == s[..|b|];
    assert x == s[|a| + 1..] && y == s[|b| + 1..];
  }

  /** A text without `c`, then `c`, then anything: `split` at `c` (limit -1)
      cuts at that first `c`. */
  lemma SplitAllFirst(a: string, c: char, rest: string)
    requires c !in a
    ensures SplitAll(a + [c] + rest, Literal([c])) == [a] + SplitAll(rest, Literal([c]))
  {
    var s := a + [c] + rest;
    var pat := Literal([c]);
    forall i | 0 <= i < |a|
      ensures !MatchesAt(s, pat, i)
    {
      assert s[i] == a[i];
      assert !CharMatches(pat[0], s[i]);
    }
    assert MatchesAt(s, pat, |a|);
    assert FindFrom(s, pat, 0) == |a|;
    assert s[..|a|] == a && s[|a| + 1..] == rest;
  }

  /** A text without `c` is one piece when split at `c`. */
  lemma SplitAllNone(s: string, c: char)
    requires c !in s
    ensures SplitAll(s, Literal([c])) == [s]
  {
    var pat := Literal([c]);
    forall i | 0 <= i
      ensures !MatchesAt(s, pat, i)
    {
      if i < |s| {
        assert !CharMatches(pat[0], s[i]);
      }
    }
  }

  /** Replacing brings in no character but those of the replacement. */
  lemma {:induction false} ReplaceChars(s: string, target: string, replacement: string, c: char)
    requires c in Replace(s, target, replacement)
    ensures c in s || c in replacement
    decreases |s|, 1
  {
    if |target| == 0 {
      if |s| > 0 && c !in replacement {
        ReplaceCharsFront(s, target, replacement, c);
      }
    } else if |s| >= |target| {
      if s[..|target|] == target {
        if c !in replacement {
          ReplaceCharsHit(s, target, replacement, c);
        }
      } else {
        ReplaceCharsFront(s, target, replacement, c);
      }
    }
  }

  /** The step of `ReplaceChars` where the first character is copied. */
  lemma {:induction false} ReplaceCharsFront(s: string, target: string, replacement: string, c: char)
    requires |s| > 0
    requires (|target| == 0 && c !in replacement) || (|s| >= |target| > 0 && s[..|target|] != target)
    requires c in Replace(s, target, replacement)
    ensures c in s || c in replacement
    decreases |s|, 0
  {
    assert s == [s[0]] + s[1..];
    if c != s[0] {
      ReplaceChars(s[1..], target, replacement, c);
    }
  }

  /** The step of `ReplaceChars` where an occurrence at the front is replaced. */
  lemma {:induction false} ReplaceCharsHit(s: string, target: string, replacement: string, c: char)
    requires |s| >= |target| > 0 && s[..|target|] == target && c !in replacement
    requires c in Replace(s, target, replacement)
    ensures c in s
    decreases |s|, 0
  {
    ReplaceChars(s[|target|..], target, replacement, c);
    assert s == s[..|target|] + s[|target|..];
  }

  lemma ReplaceKeepsOut(s: string, target: string, replacement: string, c: char)
    requires c !in s && c !in replacement
    ensures c !in Replace(s, target, replacement)
  {
    if c in Replace(s, target, replacement) {
      ReplaceChars(s, target, replacement, c);
    }
  }

  /** Text before the first occurrence is copied unchanged. */
  lemma {:induction false} ReplaceSkip(a: string, b: string, target: string, replacement: string)
    requires |target| > 0
    requires forall i :: 0 <= i < |a| ==> !OccursAt(a + b, target, i)
    ensures Replace(a + b, target, replacement) == a + Replace(b, target, replacement)
    decreases |a|, 1
  {
    if |a| == 0 {
      assert a + b == b;
    } else if |a + b| >= |target| {
      ReplaceSkipStep(a, b, target, replacement);
    } else {
      ReplaceAbsentShort(a + b, target, replacement);
      ReplaceAbsentShort(b, target, replacement);
    }
  }

  /** The step of `ReplaceSkip`: the first character of `a` is copied. */
  lemma {:induction false} ReplaceSkipStep(a: string, b: string, target: string, replacement: string)
    requires |target| > 0 && |a| > 0 && |a + b| >= |target|
    requires forall i :: 0 <= i < |a| ==> !OccursAt(a + b, target, i)
    ensures Replace(a + b, target, replacement) == a + Replace(b, target, replacement)
    decreases |a|, 0
  {
    ConcatTail(a, b);
    assert !OccursAt(a + b, target, 0);
    ReplaceMissFront(a + b, target, replacement);
    SkipShifted(a, b, target);
    ReplaceSkip(a[1..], b, target, replacement);
    ConsRegroup(a, Replace(b, target, replacement));
  }

  /** Without an occurrence at the front, the first character is copied. */
  lemma ReplaceMissFront(s: string, target: string, replacement: string)
    requires 0 < |target| <= |s| && !OccursAt(s, target, 0)
    ensures Replace(s, target, replacement) == [s[0]] + Replace(s[1..], target, replacement)
  {
    assert s[..|target|] != target;
  }

  /** No occurrence inside `a` means none inside `a[1..]` either. */
  lemma SkipShifted(a: string, b: string, target: string)
    requires |a| > 0
    requires forall i :: 0 <= i < |a| ==> !OccursAt(a + b, target, i)
    ensures forall i :: 0 <= i < |a| - 1 ==> !OccursAt(a[1..] + b, target, i)
  {
    var s, s' := a + b, a[1..] + b;
    assert s' == s[1..];
    forall i | 0 <= i < |a| - 1
      ensures !OccursAt(s', target, i)
    {
      assert !OccursAt(s, target, i + 1);
      if i + |target| <= |s'| {
        assert s'[i..i + |target|] == s[i + 1..i + 1 + |target|];
      }
    }
  }

  lemma ReplaceAbsentShort(s: string, target: string, replacement: string)
    requires 0 < |target| && |s| < |target|
    ensures Replace(s, target, replacement) == s
  {
  }

  /** An occurrence at the front is replaced. */
  lemma ReplaceHit(b: string, target: string, replacement: string)
    requires |target| > 0
    ensures Replace(target + b, target, replacement) == replacement + Replace(b, target, replacement)
  {
    assert (target + b)[..|target|] == target;
    assert (target + b)[|target|..] == b;
  }

  /** A word whose character `k` is missing from the text from position `k` on
      of `a`, and from the first `k` characters of `b`, does not occur in
      `a + b` at any position inside `a`. */
  lemma NoOccurrenceBefore(a: string, b: string, word: string, k: nat)
    requires k < |word| && k <= |a|
    requires word[k] !in a[k..]
    requires forall j :: 0 <= j < k && j < |b| ==> b[j] != word[k]
    ensures forall i :: 0 <= i < |a| ==> !OccursAt(a + b, word, i)
  {
    var s := a + b;
    forall i | 0 <= i < |a|
      ensures !OccursAt(s, word, i)
    {
      if i + |word| <= |s| {
      assert s[i..i + |word|][k] == s[i + k];
      if i + k < |a| {
        assert s[i + k] == a[k..][i];
      } else {
        assert s[i + k] == b[i + k - |a|];
      }
      }
    }
  }

  /** A word that does not contain its first character again, and that does
      not occur in `u`, is first found right after `u` in `u + word + rest`. */
  lemma ReplaceAtBoundary(u: string, word: string, rest: string, replacement: string)
    requires |word| > 0
    requires forall j :: 1 <= j < |word| ==> word[j] != word[0]
    requires forall i :: !OccursAt(u, word, i)
    ensures Replace(u + word + rest, word, replacement) == u + replacement + Replace(rest, word, replacement)
  {
    var s := u + (word + rest);
    forall i | 0 <= i < |u|
      ensures !OccursAt(s, word, i)
    {
      if i + |word| <= |s| {
        if i + |word| <= |u| {
          assert s[i..i + |word|] == u[i..i + |word|];
          assert !OccursAt(u, word, i);
        } else {
          var j := |u| - i;
          assert s[i..i + |word|][j] == s[|u|] == word[0];
          assert word[j] != word[0];
        }
      }
    }
    ReplaceSkip(u, word + rest, word, replacement);
    ReplaceHit(rest, word, replacement);
    assert u + word + rest == s;
  }

  /** Replacing a character that does not occur changes nothing. */
  lemma ReplaceCharAbsent(s: string, c: char, replacement: string)
    requires c !in s
    ensures Replace(s, [c], replacement) == s
  {
    forall i | 0 <= i < |s|
      ensures !OccursAt(s, [c], i)
    {
      assert s[i..i + 1][0] == s[i];
    }
    ReplaceAbsent(s, [c], replacement);
  }

  /** An occurrence of `[c] + word` holds an occurrence of `word` one place on. */
  lemma OccursAfterFirst(s: string, word: string, c: char, i: int)
    ensures OccursAt(s, [c] + word, i) ==> OccursAt(s, word, i + 1)
  {
    if OccursAt(s, [c] + word, i) {
      assert s[i + 1..i + 1 + |word|] == s[i..i + 1 + |word|][1..];
    }
  }

  /** Replacing a character that occurs once replaces just that occurrence. */
  lemma ReplaceSingleChar(u: string, c: char, rest: string, replacement: string)
    requires c !in u && c !in rest
    ensures Replace(u + [c] + rest, [c], replacement) == u + replacement + rest
  {
    forall i | 0 <= i < |u|
      ensures !OccursAt(u, [c], i)
    {
      assert u[i..i + 1][0] == u[i];
    }
    ReplaceAtBoundary(u, [c], rest, replacement);
    ReplaceCharAbsent(rest, c, replacement);
  }

  /** A string contains whatever sits inside it. */
  lemma ContainsMiddle(a: string, word: string, b: string)
    ensures Contains(a + word + b, word)
  {
    var s := a + word + b;
    assert s[|a|..|a| + |word|] == word;
    assert OccursAt(s, word, |a|);
    ContainsIff(s, word);
  }

  /** The last `c` of a text is the one after which no `c` follows. */
  lemma {:induction false} LastIndexOfAt(a: string, c: char, b: string)
    requires c !in b
    ensures LastIndexOf(a + [c] + b, c) == |a|
    decreases |b|
  {
    var s := a + [c] + b;
    if |b| > 0 {
      assert b[|b| - 1] in b;
      assert s[..|s| - 1] == a + [c] + b[..|b| - 1];
      LastIndexOfAt(a, c, b[..|b| - 1]);
    }
  }

  /** A text without the character `c` does not contain it as a string. */
  lemma CharNotContained(s: string, c: char)
    requires c !in s
    ensures !Contains(s, [c])
  {
    forall i | 0 <= i < |s|
      ensures !OccursAt(s, [c], i)
    {
      assert s[i..i + 1][0] == s[i];
    }
    ContainsIff(s, [c]);
  }

  /** Lines each ended by the separator split back into those lines, when the
      last one is not empty. */
  lemma SplitTerminated(parts: seq<string>, c: char)
    requires |parts| >= 1 && parts[|parts| - 1] != ""
    requires forall k :: 0 <= k < |parts| ==> c !in parts[k]
    ensures Split(Join(parts, [c]) + [c], Literal([c])) == parts
  {
    var all := parts + [""];
    assert all[..|all| - 1] == parts;
    JoinSnoc(all, [c]);
    assert Join(all, [c]) == Join(parts, [c]) + [c];
    SplitAllJoin(all, c);
    assert DropTrailingEmpty(all) == parts;
  }

  /** Joining two lists of pieces. */
  lemma {:induction false} JoinAppend(a: seq<string>, b: seq<string>, sep: string)
    requires |a| > 0 && |b| > 0
    ensures Join(a + b, sep) == Join(a, sep) + sep + Join(b, sep)
    decreases |a|
  {
    if |a| > 1 {
      JoinAppend(a[1..], b, sep);
      assert (a + b)[1..] == a[1..] + b;
    }
  }

  lemma JoinTwo(x: string, y: string, sep: string)
    ensures Join([x, y], sep) == x + sep + y
  {
    assert [x, y][1..] == [y];
  }

  /** Joining pieces after a first piece and an empty one. */
  lemma JoinBeforeBlank(first: string, rest: seq<string>, sep: string)
    requires |rest| > 0
    ensures Join([first, ""] + rest, sep) == first + sep + sep + Join(rest, sep)
  {
    JoinAppend([first, ""], rest, sep);
    JoinTwo(first, "", sep);
  }

  /** Joining pieces followed by an empty one and a last piece. */
  lemma JoinAfterBlank(front: seq<string>, last: string, sep: string)
    requires |front| > 0
    ensures Join(front + ["", last], sep) == Join(front, sep) + sep + sep + last
  {
    JoinAppend(front, ["", last], sep);
    JoinTwo("", last, sep);
  }

  /** Joining pieces followed by at most one more. */
  lemma JoinOptional(front: seq<string>, extra: seq<string>, sep: string)
    requires |front| > 0 && |extra| <= 1
    ensures Join(front + extra, sep) == Join(front, sep) + if |extra| == 1 then sep + extra[0] else ""
  {
    if |extra| == 1 {
      JoinAppend(front, extra, sep);
    } else {
      assert front + extra == front;
    }
  }

  /** The pieces of a split hold only characters of the text. */
  lemma {:induction false} SplitAllKeepsOut(s: string, pat: Pattern, c: char)
    requires |pat| > 0 && c !in s
    ensures forall k :: 0 <= k < |SplitAll(s, pat)| ==> c !in SplitAll(s, pat)[k]
    decreases |s|
  {
    var i := FindFrom(s, pat, 0);
    if i >= 0 {
      var rest := s[i + |pat|..];
      assert forall x :: 0 <= x < |rest| ==> rest[x] == s[i + |pat| + x];
      SplitAllKeepsOut(rest, pat, c);
      assert forall x :: 0 <= x < i ==> s[..i][x] == s[x];
    }
  }

  /** Java's `split` brings in no character. */
  lemma SplitKeepsOut(s: string, pat: Pattern, c: char)
    requires |pat| > 0 && c !in s
    ensures forall k :: 0 <= k < |Split(s, pat)| ==> c !in Split(s, pat)[k]
  {
    if |s| > 0 {
      SplitAllKeepsOut(s, pat, c);
    }
  }

  /** Trimming brings in no character. */
  lemma TrimKeepsOut(s: string, c: char)
    requires c !in s
    ensures c !in Trim(s)
  {
    TrimSpec(s);
    var r, a := Trim(s), TrimOffset(s);
    assert forall x :: 0 <= x < |r| ==> r[x] == s[a + x];
  }

  /** Joining brings in no character but those of the pieces and the
      separator. */
  lemma {:induction false} JoinKeepsOut(parts: seq<string>, sep: string, c: char)
    requires c !in sep && forall k :: 0 <= k < |parts| ==> c !in parts[k]
    ensures c !in Join(parts, sep)
    decreases |parts|
  {
    if |parts| > 1 {
      JoinKeepsOut(parts[1..], sep, c);
    }
  }

  /** `contains` of a one-character string is membership. */
  lemma ContainsChar(s: string, c: char)
    ensures Contains(s, [c]) <==> c in s
  {
    ContainsIff(s, [c]);
    if c in s {
      var i :| 0 <= i < |s| && s[i] == c;
      assert s[i..i + 1] == [c];
      assert OccursAt(s, [c], i);
    } else {
      CharNotContained(s, c);
    }
  }

  lemma NoMatchNoChar(s: string, c: char, x: nat)
    requires x < |s| && !MatchesAt(s, Literal([c]), x)
    ensures s[x] != c
  {
    assert Literal([c])[0] == Lit(c);
  }

  /** The text before the first `c` (all of it when there is none) does not
      hold `c`. */
  lemma FirstPieceLacks(s: string, c: char)
    ensures var i := FindFrom(s, Literal([c]), 0);
      c !in (if i >= 0 then s[..i] else s)
  {
    var i := FindFrom(s, Literal([c]), 0);
    var first := if i >= 0 then s[..i] else s;
    forall x | 0 <= x < |first|
      ensures first[x] != c
    {
      NoMatchNoChar(s, c, x);
    }
  }

  lemma ConsLacks(first: string, tail: seq<string>, c: char)
    requires c !in first
    requires forall k :: 0 <= k < |tail| ==> c !in tail[k]
    ensures forall k :: 0 <= k < |[first] + tail| ==> c !in ([first] + tail)[k]
  {
    var r := [first] + tail;
    forall k | 0 <= k < |r|
      ensures c !in r[k]
    {
      if k > 0 {
        assert r[k] == tail[k - 1];
      }
    }
  }

  /** No piece of a split at `c` holds `c`. */
  lemma {:induction false} SplitAllLacksSeparator(s: string, c: char)
    ensures forall k :: 0 <= k < |SplitAll(s, Literal([c]))| ==> c !in SplitAll(s, Literal([c]))[k]
    decreases |s|, 1
  {
    if c in s {
      SplitAtFirstLacks(s, c);
    } else {
      SplitAllNone(s, c);
    }
  }

  /** The step of `SplitAllLacksSeparator` for a text holding `c`. */
  lemma {:induction false} SplitAtFirstLacks(s: string, c: char)
    requires c in s
    ensures forall k :: 0 <= k < |SplitAll(s, Literal([c]))| ==> c !in SplitAll(s, Literal([c]))[k]
    decreases |s|, 0
  {
    var pat := Literal([c]);
    var x :| 0 <= x < |s| && s[x] == c;
    assert Literal([c])[0] == Lit(c);
    assert MatchesAt(s, pat, x);
    var i := FindFrom(s, pat, 0);
    FirstPieceLacks(s, c);
    var rest := s[i + 1..];
    SplitAllLacksSeparator(rest, c);
    ConsLacks(s[..i], SplitAll(rest, pat), c);
  }

  /** No piece of Java's `split` at `c` holds `c`. */
  lemma SplitLacksSeparator(s: string, c: char)
    ensures forall k :: 0 <= k < |Split(s, Literal([c]))| ==> c !in Split(s, Literal([c]))[k]
  {
    if |s| > 0 {
      SplitAllLacksSeparator(s, c);
    }
  }
}

=== FILE: turbofan_conversion.dfy ===
/** `CmapssToArffDatasetTransformer` and `Phm08DataChallengeToArffDatasetTransformer`:
    turbofan run-to-failure text files, one line per cycle holding the unit
    number, the cycle and the sensor readings separated by spaces, become
    ARFF files with one line per unit and one time series per sensor. The
    files are given as their lines; whether the input exists as a regular
    file, and the lines of the RUL file, are inputs. */
module TurbofanConversion {
  import opened Wrappers
  import opened Strings
  import opened Sequences
  import opened LinkedMaps

  /** How many lines `canRead` looks at. */
  const LinesToCheck: nat := 5

  /** The number of fields of a well-formed line: unit, cycle, 24 sensors. */
  const ColumnCount: nat := 26

  /** The number of sensor attributes the header declares. */
  const SensorAttributeCount: nat := 24

  /** The space-separated fields of a line, as `split(" ")` gives them. */
  function Fields(line: string): seq<string> {
    Split(line, Literal(" "))
  }

  /** `isCorrectFormat`: exactly 26 fields. */
  predicate IsCorrectFormat(line: string) {
    |Fields(line)| == ColumnCount
  }

  /** `canRead`: the input is a regular file and its first lines (at most
      five) are well-formed. */
  predicate CanRead(isRegularFile: bool, lines: seq<string>) {
    isRegularFile && forall i :: 0 <= i < |lines| && i < LinesToCheck ==> IsCorrectFormat(lines[i])
  }

  /** Only the first five lines decide readability: whatever follows them,
      well-formed or not, changes nothing. */
  lemma CanReadChecksFirstLines(isRegularFile: bool, lines: seq<string>, later: seq<string>)
    requires |lines| >= LinesToCheck
    ensures CanRead(isRegularFile, lines + later) <==> CanRead(isRegularFile, lines)
  {
    assert forall i :: 0 <= i < LinesToCheck ==> (lines + later)[i] == lines[i];
  }

  // ---------------------------------------------------------------- grouping

  /** The key of a sensor's series: the unit, "-", the sensor number. */
  function Key(instance: string, sensor: int): string {
    instance + "-" + IntToString(sensor)
  }

  /** Numbers that are not negative print without a minus sign. */
  lemma NaturalHasNoMinus(n: int)
    requires n >= 0
    ensures '-' !in IntToString(n) && IntToString(n) != ""
  {
    assert AllDigits(NatToString(n));
  }

  /** Different units or sensors have different keys, whatever the unit
      names hold: the number follows the last "-". */
  lemma KeyInjective(a: string, s: int, b: string, t: int)
    requires s >= 0 && t >= 0
    ensures Key(a, s) == Key(b, t) <==> a == b && s == t
  {
    if Key(a, s) == Key(b, t) {
      var k := Key(a, s);
      NaturalHasNoMinus(s);
      NaturalHasNoMinus(t);
      var ds, dt := IntToString(s), IntToString(t);
      assert k[|a|] == '-' && k[|b|] == '-';
      forall x | |a| < x < |k|
        ensures k[x] != '-'
      {
        assert k[x] == ds[x - |a| - 1];
        assert ds[x - |a| - 1] in ds;
      }
      forall x | |b| < x < |k|
        ensures k[x] != '-'
      {
        assert k[x] == dt[x - |b| - 1];
        assert dt[x - |b| - 1] in dt;
      }
      assert a == k[..|a|] && b == k[..|b|];
      assert ds == k[|a| + 1..] && dt == k[|b| + 1..];
      ParseIntToStringNat(s);
      ParseIntToStringNat(t);
    }
  }

  /** Printing is injective on natural numbers. */
  lemma ParseIntToStringNat(n: int)
    requires n >= 0
    ensures n <= IntMax ==> ParseInt(IntToString(n)) == Some(n)
    ensures DigitsValue(IntToString(n)) == n
  {
    DigitsValueOfNatToString(n);
    if n <= IntMax {
      ParseIntToString(n);
    }
  }

  /** Splitting a key at "-" gives the unit and the sensor number back when
      the unit has no "-" in it. */
  lemma KeyParts(instance: string, sensor: int)
    requires '-' !in instance && sensor >= 0
    ensures Split(Key(instance, sensor), Literal("-")) == [instance, IntToString(sensor)]
  {
    NaturalHasNoMinus(sensor);
    var parts := [instance, IntToString(sensor)];
    assert Join(parts, ['-']) == Key(instance, sensor) by {
      assert parts[1..] == [IntToString(sensor)];
    }
    SplitJoin(parts, '-');
  }

  /** One sensor's series: cycle to reading, in the order cycles were first
      seen. */
  type Series = LinkedMap<int, string>

  /** All series, by key, in the order keys were first seen. */
  type Grouped = LinkedMap<string, Series>

  /** Every map involved has distinct keys. */
  predicate WellFormed(g: Grouped) {
    Distinct(g) && forall i :: 0 <= i < |g| ==> Distinct(g[i].1)
  }

  /** The series of a key, empty when there is none yet (`getOrDefault`). */
  function SeriesOf(g: Grouped, key: string): Series {
    GetOr(g, key, [])
  }

  /** The loop over the readings of one line: reading `j` goes to sensor
      `first + j` at cycle `cycle`. */
  function AddReadings(g: Grouped, instance: string, cycle: int, readings: seq<string>, first: int): (r: Grouped)
    decreases |readings|
  {
    if |readings| == 0 then g
    else
      var key := Key(instance, first);
      var series := Put(SeriesOf(g, key), cycle, readings[0]);
      AddReadings(Put(g, key, series), instance, cycle, readings[1..], first + 1)
  }

  /** Reading one line: fields from the third on are the readings of sensors
      1, 2, …; `None` is the exception of a line with fewer than two fields
      or, when it has readings, a cycle that is not an integer. */
  function ReadLine(g: Grouped, line: string): Option<Grouped> {
    var fields := Fields(line);
    if |fields| < 2 then None
    else if |fields| == 2 then Some(g)
    else match ParseInt(fields[1])
      case None => None
      case Some(cycle) => Some(AddReadings(g, fields[0], cycle, fields[2..], 1))
  }

  /** All lines read in order. */
  function Group(lines: seq<string>): Option<Grouped>
    decreases |lines|
  {
    if |lines| == 0 then Some([])
    else match Group(lines[..|lines| - 1])
      case None => None
      case Some(g) => ReadLine(g, lines[|lines| - 1])
  }

  /** The reading recorded for a unit, sensor and cycle: the one in the last
      line of that unit and cycle that has a field for the sensor. */
  function Recorded(lines: seq<string>, instance: string, sensor: int, cycle: int): Option<string>
    decreases |lines|
  {
    if |lines| == 0 then None
    else
      var fields := Fields(lines[|lines| - 1]);
      if |fields| >= 2 && fields[0] == instance && ParseInt(fields[1]) == Some(cycle) && 1 <= sensor < |fields| - 1
      then Some(fields[sensor + 1])
      else Recorded(lines[..|lines| - 1], instance, sensor, cycle)
  }

  /** `put` into a well-formed grouping keeps it well-formed. */
  lemma PutWellFormed(g: Grouped, key: string, series: Series)
    requires WellFormed(g) && Distinct(series)
    ensures WellFormed(Put(g, key, series))
  {
    KeysPut(g, key, series);
  }

  /** The series of a key after `put`. */
  lemma SeriesOfPut(g: Grouped, key: string, series: Series, other: string)
    requires Distinct(g)
    ensures SeriesOf(Put(g, key, series), other) == if other == key then series else SeriesOf(g, other)
  {
    GetPut(g, key, series, other);
  }

  /** A series read from a well-formed grouping has distinct cycles. */
  lemma SeriesOfDistinct(g: Grouped, key: string)
    requires WellFormed(g)
    ensures Distinct(SeriesOf(g, key))
  {
  }

  /** Adding the readings of one line records each of them under its sensor
      and cycle and leaves every other sensor and cycle as it was. */
  lemma AddReadingsRecords(g: Grouped, instance: string, cycle: int, readings: seq<string>, first: int,
                           other: string, sensor: int, c: int)
    requires WellFormed(g) && first >= 0 && sensor >= 0
    ensures WellFormed(AddReadings(g, instance, cycle, readings, first))
    ensures Get(SeriesOf(AddReadings(g, instance, cycle, readings, first), Key(other, sensor)), c)
      == if other == instance && c == cycle && first <= sensor < first + |readings| then Some(readings[sensor - first])
         else Get(SeriesOf(g, Key(other, sensor)), c)
  {
    AddReadingsWellFormed(g, instance, cycle, readings, first);
    if other == instance && c == cycle && first <= sensor < first + |readings| {
      AddReadingsHit(g, instance, cycle, readings, first, sensor);
    } else {
      AddReadingsUntouched(g, instance, cycle, readings, first, other, sensor, c);
    }
  }

  /** Each reading of the line ends up under its sensor at the line's cycle. */
  lemma {:induction false} AddReadingsHit(g: Grouped, instance: string, cycle: int, readings: seq<string>, first: int,
                                          sensor: int)
    requires WellFormed(g) && first <= sensor < first + |readings| && first >= 0
    ensures Get(SeriesOf(AddReadings(g, instance, cycle, readings, first), Key(instance, sensor)), cycle)
      == Some(readings[sensor - first])
    decreases |readings|, 2
  {
    if sensor == first {
      AddReadingsHitFirst(g, instance, cycle, readings, first);
    } else {
      AddReadingsHitLater(g, instance, cycle, readings, first, sensor);
    }
  }

  /** The first reading is put and then left alone. */
  lemma AddReadingsHitFirst(g: Grouped, instance: string, cycle: int, readings: seq<string>, first: int)
    requires WellFormed(g) && |readings| > 0 && first >= 0
    ensures Get(SeriesOf(AddReadings(g, instance, cycle, readings, first), Key(instance, first)), cycle)
      == Some(readings[0])
  {
    var key := Key(instance, first);
    var g' := Put(g, key, Put(SeriesOf(g, key), cycle, readings[0]));
    AddReadingsFirst(g, instance, cycle, readings, first);
    PutReadingWellFormed(g, instance, cycle, readings[0], first);
    PutReadingRecords(g, instance, cycle, readings[0], first, instance, first, cycle);
    AddReadingsUntouched(g', instance, cycle, readings[1..], first + 1, instance, first, cycle);
  }

  /** A later reading is put by the rest of the loop. */
  lemma {:induction false} AddReadingsHitLater(g: Grouped, instance: string, cycle: int, readings: seq<string>, first: int,
                                               sensor: int)
    requires WellFormed(g) && first < sensor < first + |readings| && first >= 0
    ensures Get(SeriesOf(AddReadings(g, instance, cycle, readings, first), Key(instance, sensor)), cycle)
      == Some(readings[sensor - first])
    decreases |readings|, 1
  {
    var key := Key(instance, first);
    var g' := Put(g, key, Put(SeriesOf(g, key), cycle, readings[0]));
    AddReadingsFirst(g, instance, cycle, readings, first);
    PutReadingWellFormed(g, instance, cycle, readings[0], first);
    AddReadingsHitRest(g', instance, cycle, readings, first, sensor);
  }

  /** The rest of the loop, run from any well-formed grouping `g'`, puts a
      later reading. */
  lemma {:induction false} AddReadingsHitRest(g': Grouped, instance: string, cycle: int,
                                              readings: seq<string>, first: int, sensor: int)
    requires WellFormed(g') && first < sensor < first + |readings| && first >= 0
    ensures Get(SeriesOf(AddReadings(g', instance, cycle, readings[1..], first + 1), Key(instance, sensor)), cycle)
      == Some(readings[sensor - first])
    decreases |readings|, 0
  {
    AddReadingsHit(g', instance, cycle, readings[1..], first + 1, sensor);
    TailAt(readings, sensor - first);
  }

  /** A sensor or cycle the line has no reading for keeps its reading. */
  lemma {:induction false} AddReadingsUntouched(g: Grouped, instance: string, cycle: int, readings: seq<string>, first: int,
                                                other: string, sensor: int, c: int)
    requires WellFormed(g) && first >= 0 && sensor >= 0
    requires !(other == instance && c == cycle && first <= sensor < first + |readings|)
    ensures Get(SeriesOf(AddReadings(g, instance, cycle, readings, first), Key(other, sensor)), c)
      == Get(SeriesOf(g, Key(other, sensor)), c)
    decreases |readings|
  {
    if |readings| > 0 {
      var key := Key(instance, first);
      var g' := Put(g, key, Put(SeriesOf(g, key), cycle, readings[0]));
      AddReadingsFirst(g, instance, cycle, readings, first);
      PutReadingWellFormed(g, instance, cycle, readings[0], first);
      PutReadingRecords(g, instance, cycle, readings[0], first, other, sensor, c);
      AddReadingsUntouched(g', instance, cycle, readings[1..], first + 1, other, sensor, c);
    }
  }

  /** Adding the readings of one line keeps the grouping well formed. */
  lemma {:induction false} AddReadingsWellFormed(g: Grouped, instance: string, cycle: int, readings: seq<string>, first: int)
    requires WellFormed(g)
    ensures WellFormed(AddReadings(g, instance, cycle, readings, first))
    decreases |readings|
  {
    if |readings| > 0 {
      var key := Key(instance, first);
      var g' := Put(g, key, Put(SeriesOf(g, key), cycle, readings[0]));
      AddReadingsFirst(g, instance, cycle, readings, first);
      PutReadingWellFormed(g, instance, cycle, readings[0], first);
      AddReadingsWellFormed(g', instance, cycle, readings[1..], first + 1);
    }
  }

  lemma AddReadingsFirst(g: Grouped, instance: string, cycle: int, readings: seq<string>, first: int)
    requires |readings| > 0
    ensures var key := Key(instance, first);
      AddReadings(g, instance, cycle, readings, first)
      == AddReadings(Put(g, key, Put(SeriesOf(g, key), cycle, readings[0])), instance, cycle, readings[1..], first + 1)
  {
  }

  /** Putting one reading keeps the grouping well formed. */
  lemma PutReadingWellFormed(g: Grouped, instance: string, cycle: int, reading: string, first: int)
    requires WellFormed(g)
    ensures var key := Key(instance, first);
      WellFormed(Put(g, key, Put(SeriesOf(g, key), cycle, reading)))
  {
    var key := Key(instance, first);
    var old_ := SeriesOf(g, key);
    SeriesOfDistinct(g, key);
    KeysPut(old_, cycle, reading);
    PutWellFormed(g, key, Put(old_, cycle, reading));
  }

  /** Putting one reading records it under its sensor and cycle and leaves
      every other sensor and cycle as it was. */
  lemma PutReadingRecords(g: Grouped, instance: string, cycle: int, reading: string, first: int,
                          other: string, sensor: int, c: int)
    requires WellFormed(g) && first >= 0 && sensor >= 0
    ensures var key := Key(instance, first);
      Get(SeriesOf(Put(g, key, Put(SeriesOf(g, key), cycle, reading)), Key(other, sensor)), c)
      == if other == instance && sensor == first && c == cycle then Some(reading)
         else Get(SeriesOf(g, Key(other, sensor)), c)
  {
    var key := Key(instance, first);
    var old_ := SeriesOf(g, key);
    SeriesOfDistinct(g, key);
    var series := Put(old_, cycle, reading);
    SeriesOfPut(g, key, series, Key(other, sensor));
    KeyInjective(other, sensor, instance, first);
    GetPut(old_, cycle, reading, c);
  }

  /** Grouping records, for every unit, sensor and cycle, the reading of the
      last line of that unit and cycle with a field for that sensor. */
  lemma {:induction false} GroupRecords(lines: seq<string>, instance: string, sensor: int, cycle: int)
    requires Group(lines).Some? && sensor >= 0
    ensures WellFormed(Group(lines).value)
    ensures Get(SeriesOf(Group(lines).value, Key(instance, sensor)), cycle) == Recorded(lines, instance, sensor, cycle)
    decreases |lines|
  {
    if |lines| > 0 {
      var prefix := lines[..|lines| - 1];
      GroupRecords(prefix, instance, sensor, cycle);
      var g := Group(prefix).value;
      var fields := Fields(lines[|lines| - 1]);
      if |fields| > 2 {
        var c := ParseInt(fields[1]).value;
        AddReadingsRecords(g, fields[0], c, fields[2..], 1, instance, sensor, cycle);
      }
    }
  }

  // ----------------------------------------------------------- serialisation

  /** One reading as the ARFF time series writes it: "cycle#reading". */
  function PointText(p: (int, string)): string {
    IntToString(p.0) + "#" + p.1
  }

  /** The readings of a series as points, in order. */
  function PointTexts(series: Series): (r: seq<string>)
    ensures |r| == |series|
    ensures forall i :: 0 <= i < |series| ==> r[i] == PointText(series[i])
  {
    seq(|series|, i requires 0 <= i < |series| => PointText(series[i]))
  }

  /** A series as a quoted, space-separated list of points. */
  function Quoted(series: Series): string {
    "\"" + Join(PointTexts(series), " ") + "\""
  }

  /** `StringBuilder.replace(length - 1, length, "")`: the last character removed. */
  function DropLast(s: string): string
    requires |s| > 0
  {
    s[..|s| - 1]
  }

  /** The loop over the points of a series: each point and a space appended. */
  function AppendPoints(text: string, series: Series): (r: string)
    ensures |r| >= |text|
    decreases |series|
  {
    if |series| == 0 then text
    else AppendPoints(text + PointText(series[0]) + " ", series[1..])
  }

  /** The loop appends the points joined by spaces, with one trailing space,
      which the converters then remove. */
  lemma {:induction false} AppendPointsJoin(text: string, series: Series)
    requires |series| > 0
    ensures AppendPoints(text, series) == text + Join(PointTexts(series), " ") + " "
    decreases |series|, 1
  {
    if |series| > 1 {
      AppendPointsJoinStep(text, series);
    } else {
      AppendPointsSingle(text, series);
    }
  }

  lemma AppendPointsSingle(text: string, series: Series)
    requires |series| == 1
    ensures AppendPoints(text, series) == text + Join(PointTexts(series), " ") + " "
  {
    var first := text + PointText(series[0]) + " ";
    assert AppendPoints(first, series[1..]) == first;
    assert PointTexts(series) == [PointText(series[0])];
  }

  /** The step of `AppendPointsJoin`: the first point, then the others. */
  lemma {:induction false} AppendPointsJoinStep(text: string, series: Series)
    requires |series| > 1
    ensures AppendPoints(text, series) == text + Join(PointTexts(series), " ") + " "
    decreases |series|, 0
  {
    var head := PointText(series[0]);
    var first := text + head + " ";
    assert AppendPoints(text, series) == AppendPoints(first, series[1..]);
    AppendPointsJoin(first, series[1..]);
    PointTextsCons(series);
    Regroup(text, head, Join(PointTexts(series[1..]), " "));
  }

  /** The points of a series: the first point, then those of the rest. */
  lemma PointTextsCons(series: Series)
    requires |series| > 1
    ensures Join(PointTexts(series), " ") == PointText(series[0]) + " " + Join(PointTexts(series[1..]), " ")
  {
    var texts := PointTexts(series);
    assert texts[1..] == PointTexts(series[1..]);
  }

  lemma Regroup(a: string, b: string, c: string)
    ensures a + b + " " + c + " " == a + (b + " " + c) + " "
  {
  }

  /** Where the loop over the grouped series stands: the text so far and the
      unit of the last series written, `null` at first. */
  datatype Progress = Progress(text: string, current: Option<string>)

  /** A newline before the series when the unit changes, not before the
      first series. */
  function Separated(p: Progress, unit: string): string {
    if p.current.Some? && p.current.value != unit then p.text + "\n" else p.text
  }

  /** The series' points quoted, the trailing space taken back, and ",". */
  function Closed(text: string, series: Series): string {
    var withPoints := AppendPoints(text + "\"", series);
    DropLast(withPoints) + "\","
  }

  /** After the series of the last sensor, " " and the unit's RUL when there
      is a RUL list, otherwise the "," taken back. `None` is the exception of
      a unit that is not an integer or has no RUL. */
  function Finish(closed: string, unit: string, last: bool, ruls: Option<seq<string>>): Option<string>
    requires |closed| > 0
  {
    if !last then Some(closed)
    else match ruls
      case None => Some(DropLast(closed))
      case Some(list) =>
        match ParseInt(unit)
        case None => None
        case Some(n) => if 0 <= n - 1 < |list| then Some(closed + " " + list[n - 1]) else None
  }

  /** One pass of the loop over the grouped series: the key split at "-"
      into the unit and the sensor, the separator, the quoted series, and
      the end of the unit's line after its last sensor. `None` is an
      exception, also that of a key without two "-"-separated parts. */
  function AppendSeries(p: Progress, key: string, series: Series, sensorCount: int, ruls: Option<seq<string>>): Option<Progress> {
    var parts := Split(key, Literal("-"));
    if |parts| < 2 then None
    else
      var closed := Closed(Separated(p, parts[0]), series);
      match Finish(closed, parts[0], parts[1] == IntToString(sensorCount), ruls)
      case None => None
      case Some(text) => Some(Progress(text, Some(parts[0])))
  }

  /** A series with readings closes as its quoted points and ",". */
  lemma ClosedQuoted(text: string, series: Series)
    requires |series| > 0
    ensures Closed(text, series) == text + Quoted(series) + ","
  {
    AppendPointsJoin(text + "\"", series);
    var body := text + "\"" + Join(PointTexts(series), " ");
    assert DropLast(body + " ") == body;
  }

  /** The series of a key naming a unit and a sensor. */
  lemma AppendSeriesOfKey(p: Progress, unit: string, sensor: int, series: Series, sensorCount: int, ruls: Option<seq<string>>)
    requires '-' !in unit && sensor >= 0 && sensorCount >= 0 && |series| > 0
    ensures AppendSeries(p, Key(unit, sensor), series, sensorCount, ruls)
      == match Finish(Separated(p, unit) + Quoted(series) + ",", unit, sensor == sensorCount, ruls)
         case None => None
         case Some(text) => Some(Progress(text, Some(unit)))
  {
    KeyParts(unit, sensor);
    ClosedQuoted(Separated(p, unit), series);
    if sensor != sensorCount {
      NumbersDiffer(sensor, sensorCount);
    }
  }

  /** The end of a unit's line: nothing more without a RUL list, ", " and the
      RUL with one. */
  lemma FinishLast(text: string, unit: string, ruls: Option<seq<string>>)
    ensures ruls.None? ==> Finish(text + ",", unit, true, ruls) == Some(text)
    ensures ruls.Some? && ParseInt(unit).Some? && 1 <= ParseInt(unit).value <= |ruls.value| ==>
      Finish(text + ",", unit, true, ruls) == Some(text + ", " + ruls.value[ParseInt(unit).value - 1])
  {
    assert DropLast(text + ",") == text;
    if ruls.Some? && ParseInt(unit).Some? && 1 <= ParseInt(unit).value <= |ruls.value| {
      assert text + "," + " " + ruls.value[ParseInt(unit).value - 1] == text + ", " + ruls.value[ParseInt(unit).value - 1];
    }
  }

  /** The loop over all grouped series. */
  function Serialise(p: Progress, g: Grouped, sensorCount: int, ruls: Option<seq<string>>): Option<Progress>
    decreases |g|
  {
    if |g| == 0 then Some(p)
    else match AppendSeries(p, g[0].0, g[0].1, sensorCount, ruls)
      case None => None
      case Some(q) => Serialise(q, g[1..], sensorCount, ruls)
  }

  /** Different numbers print differently. */
  lemma NumbersDiffer(a: int, b: int)
    requires a >= 0 && b >= 0 && a != b
    ensures IntToString(a) != IntToString(b)
  {
    ParseIntToStringNat(a);
    ParseIntToStringNat(b);
  }

  /** The unit of a grouping whose keys are `unit-1`, `unit-2`, …, in order,
      every series holding at least one reading. */
  predicate IsUnitRow(g: Grouped, unit: string, first: int) {
    forall i :: 0 <= i < |g| ==> g[i].0 == Key(unit, first + i) && |g[i].1| > 0
  }

  /** The quoted series of a row, each followed by ",". */
  function QuotedWithCommas(g: Grouped): string
    decreases |g|
  {
    if |g| == 0 then "" else Quoted(g[0].1) + "," + QuotedWithCommas(g[1..])
  }

  /** Serialising a grouping in two parts. */
  lemma {:induction false} SerialiseAppend(p: Progress, g: Grouped, h: Grouped, sensorCount: int, ruls: Option<seq<string>>)
    ensures Serialise(p, g + h, sensorCount, ruls)
      == match Serialise(p, g, sensorCount, ruls)
         case None => None
         case Some(q) => Serialise(q, h, sensorCount, ruls)
    decreases |g|
  {
    if |g| > 0 {
      assert (g + h)[0] == g[0];
      assert (g + h)[1..] == g[1..] + h;
      match AppendSeries(p, g[0].0, g[0].1, sensorCount, ruls)
      case None =>
      case Some(q) => SerialiseAppend(q, g[1..], h, sensorCount, ruls);
    } else {
      assert g + h == h;
    }
  }

  /** The rest of a unit's row after its first series. */
  lemma UnitRowTail(g: Grouped, unit: string, first: int)
    requires |g| > 0 && IsUnitRow(g, unit, first)
    ensures IsUnitRow(g[1..], unit, first + 1)
  {
    forall i | 0 <= i < |g| - 1
      ensures g[1..][i].0 == Key(unit, first + 1 + i) && |g[1..][i].1| > 0
    {
      assert g[1..][i] == g[i + 1];
    }
  }

  /** The series of sensors `first` … `sensorCount` of one unit, written
      after `p`: the separator, each series quoted and followed by ",", and
      the end of the unit's line. */
  lemma {:induction false} RowFrom(p: Progress, unit: string, g: Grouped, first: int, sensorCount: int, ruls: Option<seq<string>>)
    requires '-' !in unit && |g| > 0 && first >= 0 && first + |g| - 1 == sensorCount
    requires IsUnitRow(g, unit, first)
    ensures Serialise(p, g, sensorCount, ruls)
      == match Finish(Separated(p, unit) + QuotedWithCommas(g), unit, true, ruls)
         case None => None
         case Some(text) => Some(Progress(text, Some(unit)))
    decreases |g|, 1
  {
    var start := Separated(p, unit);
    assert g[0].0 == Key(unit, first);
    AppendSeriesOfKey(p, unit, first, g[0].1, sensorCount, ruls);
    SerialiseCons(p, g, sensorCount, ruls);
    QuotedWithCommasCons(start, g);
    if |g| > 1 {
      RowFromRest(p, unit, g, first, sensorCount, ruls);
    }
  }

  /** The step of `RowFrom`: after the first series, the row goes on with
      the unit's next sensor. */
  lemma {:induction false} RowFromRest(p: Progress, unit: string, g: Grouped, first: int, sensorCount: int,
                                       ruls: Option<seq<string>>)
    requires '-' !in unit && |g| > 1 && first >= 0 && first + |g| - 1 == sensorCount
    requires IsUnitRow(g, unit, first)
    ensures var q := Progress(Separated(p, unit) + Quoted(g[0].1) + ",", Some(unit));
      Serialise(q, g[1..], sensorCount, ruls)
      == match Finish(Separated(p, unit) + QuotedWithCommas(g), unit, true, ruls)
         case None => None
         case Some(text) => Some(Progress(text, Some(unit)))
    decreases |g|, 0
  {
    var start := Separated(p, unit);
    var q := Progress(start + Quoted(g[0].1) + ",", Some(unit));
    UnitRowTail(g, unit, first);
    RowFrom(q, unit, g[1..], first + 1, sensorCount, ruls);
    QuotedWithCommasCons(start, g);
    assert Separated(q, unit) == start + Quoted(g[0].1) + ",";
  }

  /** One pass of the loop over the grouped series. */
  lemma SerialiseCons(p: Progress, g: Grouped, sensorCount: int, ruls: Option<seq<string>>)
    requires |g| > 0
    ensures Serialise(p, g, sensorCount, ruls) == match AppendSeries(p, g[0].0, g[0].1, sensorCount, ruls)
      case None => None
      case Some(q) => Serialise(q, g[1..], sensorCount, ruls)
  {}

  /** The quoted series of a grouping, split after the first one. */
  lemma QuotedWithCommasCons(start: string, g: Grouped)
    requires |g| > 0
    ensures start + Quoted(g[0].1) + "," + QuotedWithCommas(g[1..]) == start + QuotedWithCommas(g)
    ensures |g| == 1 ==> start + Quoted(g[0].1) + "," == start + QuotedWithCommas(g)
  {
    assert QuotedWithCommas(g) == Quoted(g[0].1) + "," + QuotedWithCommas(g[1..]);
    CommaAssoc(start, Quoted(g[0].1), QuotedWithCommas(g[1..]));
    if |g| == 1 {
      assert QuotedWithCommas(g[1..]) == "";
    }
  }

  /** Regrouping a concatenation that ends in ",". */
  lemma TrailingAssoc(a: string, w: string, l: string, full: string)
    requires full == w + l + ","
    ensures a + full == a + w + l + ","
  {
  }

  /** Regrouping a concatenation around ",". */
  lemma CommaAssoc(a: string, b: string, c: string)
    ensures a + b + "," + c == a + (b + "," + c)
    ensures c == "" ==> a + b + "," == a + (b + "," + c)
  {
  }

  /** The quoted series of a grouping, split before the last one. */
  lemma {:induction false} QuotedWithCommasSnoc(g: Grouped)
    requires |g| > 0
    ensures QuotedWithCommas(g) == QuotedWithCommas(g[..|g| - 1]) + Quoted(g[|g| - 1].1) + ","
    decreases |g|, 1
  {
    if |g| > 1 {
      QuotedWithCommasSnocStep(g);
    } else {
      QuotedWithCommasCons("", g);
    }
  }

  /** The step of `QuotedWithCommasSnoc`: split the tail before its last
      series, then put the first one back in front. */
  lemma {:induction false} QuotedWithCommasSnocStep(g: Grouped)
    requires |g| > 1
    ensures QuotedWithCommas(g) == QuotedWithCommas(g[..|g| - 1]) + Quoted(g[|g| - 1].1) + ","
    decreases |g|, 0
  {
    var front := g[..|g| - 1];
    QuotedWithCommasSnoc(g[1..]);
    FrontOfTail(g);
    QuotedWithCommasUnfold(g);
    QuotedWithCommasUnfold(front);
    SnocAssoc(Quoted(g[0].1) + ",", QuotedWithCommas(front[1..]), Quoted(g[|g| - 1].1));
  }

  /** One unfolding of `QuotedWithCommas`. */
  lemma QuotedWithCommasUnfold(g: Grouped)
    requires |g| > 0
    ensures QuotedWithCommas(g) == Quoted(g[0].1) + "," + QuotedWithCommas(g[1..])
  {
  }

  /** Regrouping a concatenation that ends in ",". */
  lemma SnocAssoc(a: string, b: string, c: string)
    ensures a + (b + c + ",") == a + b + c + ","
  {
  }

  /** A unit whose sensors 1 … n each have readings becomes one line: its
      series quoted and separated by ",", then ", " and its RUL when there is
      a RUL list. The line of a unit after another one starts on a new line. */
  lemma UnitLine(text: string, previous: Option<string>, unit: string, g: Grouped, ruls: Option<seq<string>>)
    requires '-' !in unit && |g| > 0 && IsUnitRow(g, unit, 1)
    requires previous.Some? ==> previous.value != unit
    ensures var n := |g|;
      var start := if previous.Some? then text + "\n" else text;
      var row := start + QuotedWithCommas(g[..n - 1]) + Quoted(g[n - 1].1);
      && (ruls.None? ==> Serialise(Progress(text, previous), g, n, ruls) == Some(Progress(row, Some(unit))))
      && (ruls.Some? && ParseInt(unit).Some? && 1 <= ParseInt(unit).value <= |ruls.value| ==>
          Serialise(Progress(text, previous), g, n, ruls)
          == Some(Progress(row + ", " + ruls.value[ParseInt(unit).value - 1], Some(unit))))
  {
    var n := |g|;
    var start := Separated(Progress(text, previous), unit);
    RowFrom(Progress(text, previous), unit, g, 1, n, ruls);
    QuotedWithCommasSnoc(g);
    var row := start + QuotedWithCommas(g[..n - 1]) + Quoted(g[n - 1].1);
    TrailingAssoc(start, QuotedWithCommas(g[..n - 1]), Quoted(g[n - 1].1), QuotedWithCommas(g));
    FinishLast(row, unit, ruls);
  }

  // ---------------------------------------------------------- the whole file

  /** The two data sets. They differ in the relation name, in the line the
      header gets for test files, and in that only CMAPSS reads RULs. */
  datatype Dataset = Cmapss | Phm08

  /** The relation name's prefix. */
  function RelationPrefix(d: Dataset): string {
    match d
    case Cmapss => "CMAPSS_"
    case Phm08 => "Phm08DataChallenge_"
  }

  /** The header line a test file gets after the sensor attributes; the one
      for PHM08 is not an attribute declaration. */
  function RulDeclaration(d: Dataset): string {
    match d
    case Cmapss => "@ATTRIBUTE RUL NUMERIC "
    case Phm08 => "@RUL NUMERIC "
  }

  /** Test files are those whose name contains "test_". */
  predicate IsTestFile(name: string) {
    Contains(name, "test_")
  }

  /** `extractSimpleFileName`: the part after the last separator, up to the
      last "." when that part has one. */
  function SimpleFileName(name: string, separator: char): string {
    var begin := LastIndexOf(name, separator) + 1;
    var end := if Contains(name[begin..], ".") then LastIndexOf(name, '.') else |name|;
    if begin <= end then name[begin..end] else ""
  }

  /** The simple name of "dir/base.ext" is "base", dots in "base" kept; the
      simple name of "dir/base" without a dot is "base". */
  lemma SimpleFileNameOf(dir: string, separator: char, base: string, ext: string)
    requires separator !in base && separator !in ext && separator != '.' && '.' !in ext
    ensures SimpleFileName(dir + [separator] + base + "." + ext, separator) == base
    ensures '.' !in base ==> SimpleFileName(dir + [separator] + base, separator) == base
  {
    SimpleFileNameDotted(dir, separator, base, ext);
    if '.' !in base {
      SimpleFileNamePlain(dir, separator, base);
    }
  }

  lemma SimpleFileNameDotted(dir: string, separator: char, base: string, ext: string)
    requires separator !in base && separator !in ext && separator != '.' && '.' !in ext
    ensures SimpleFileName(dir + [separator] + base + "." + ext, separator) == base
  {
    var name := dir + [separator] + base + "." + ext;
    var tail := base + "." + ext;
    assert name == dir + [separator] + tail;
    assert separator !in tail;
    LastIndexOfAt(dir, separator, tail);
    assert name[|dir| + 1..] == tail;
    ContainsMiddle(base, ".", ext);
    assert name == (dir + [separator] + base) + ['.'] + ext;
    LastIndexOfAt(dir + [separator] + base, '.', ext);
    assert name[|dir| + 1..|dir| + 1 + |base|] == base;
  }

  lemma SimpleFileNamePlain(dir: string, separator: char, base: string)
    requires separator !in base && '.' !in base
    ensures SimpleFileName(dir + [separator] + base, separator) == base
  {
    var plain := dir + [separator] + base;
    LastIndexOfAt(dir, separator, base);
    assert plain[|dir| + 1..] == base;
    CharNotContained(base, '.');
  }

  /** One sensor attribute, numbered from 0. */
  function AttributeLine(i: int): string {
    "@ATTRIBUTE sensor" + IntToString(i) + " TIMESERIES "
  }

  /** The first `n` sensor attributes. */
  function AttributeLines(n: nat): (r: seq<string>)
    ensures |r| == n && forall i :: 0 <= i < n ==> r[i] == AttributeLine(i)
  {
    seq(n, i => AttributeLine(i))
  }

  /** The loop declaring the first `n` sensor attributes, each line ended by
      a line break. */
  function AttributeBlock(n: nat): string {
    if n == 0 then "" else AttributeBlock(n - 1) + AttributeLine(n - 1) + "\n"
  }

  /** The header as `transform(input, output)` builds it. */
  function Header(d: Dataset, name: string, separator: char): string {
    "@RELATION" + " " + RelationPrefix(d) + SimpleFileName(name, separator) + "\n\n"
    + AttributeBlock(SensorAttributeCount)
    + (if IsTestFile(name) then RulDeclaration(d) + "\n" else "")
    + "\n" + "@DATA" + "\n"
  }

  /** The header's lines: the relation, a blank line, the 24 sensor
      attributes, the RUL line for test files, a blank line and "@DATA". */
  function HeaderLines(d: Dataset, name: string, separator: char): (r: seq<string>)
    ensures |r| == 28 || |r| == 29
  {
    ["@RELATION" + " " + RelationPrefix(d) + SimpleFileName(name, separator), ""]
    + AttributeLines(SensorAttributeCount)
    + (if IsTestFile(name) then [RulDeclaration(d)] else [])
    + ["", "@DATA"]
  }

  /** The attribute loop writes the attribute lines, each ended by a line
      break. */
  lemma {:induction false} AttributeBlockLines(n: nat)
    requires n > 0
    ensures AttributeBlock(n) == Join(AttributeLines(n), "\n") + "\n"
    decreases n
  {
    var lines := AttributeLines(n);
    if n > 1 {
      AttributeBlockLines(n - 1);
      assert lines[..n - 1] == AttributeLines(n - 1);
      JoinSnoc(lines, "\n");
    }
  }

  /** Regrouping the header's text. */
  lemma HeaderText(relation: string, attributes: string, rul: seq<string>)
    requires |rul| <= 1
    ensures relation + "\n\n" + (attributes + "\n") + (if |rul| == 1 then rul[0] + "\n" else "") + "\n" + "@DATA" + "\n"
      == relation + "\n" + "\n" + attributes + (if |rul| == 1 then "\n" + rul[0] else "") + "\n" + "\n" + "@DATA" + "\n"
  {
  }

  /** Assembling the header from its parts gives its lines, each ended by
      a line break. */
  lemma HeaderAssembly(relation: string, attributes: seq<string>, block: string, rul: seq<string>, rulText: string)
    requires |attributes| > 0 && block == Join(attributes, "\n") + "\n"
    requires |rul| <= 1 && rulText == if |rul| == 1 then rul[0] + "\n" else ""
    ensures relation + "\n\n" + block + rulText + "\n" + "@DATA" + "\n"
      == Join([relation, ""] + attributes + rul + ["", "@DATA"], "\n") + "\n"
  {
    var front := [relation, ""] + attributes;
    var a := Join(attributes, "\n");
    var x: string := if |rul| == 1 then "\n" + rul[0] else "";
    JoinBeforeBlank(relation, attributes, "\n");
    JoinOptional(front, rul, "\n");
    JoinAfterBlank(front + rul, "@DATA", "\n");
    var f := relation + "\n" + "\n" + a;
    assert Join(front + rul, "\n") == f + x;
    HeaderText(relation, a, rul);
  }

  /** The header is its lines, each ended by a line break. */
  lemma HeaderIsLines(d: Dataset, name: string, separator: char)
    ensures Header(d, name, separator) == Join(HeaderLines(d, name, separator), "\n") + "\n"
  {
    var relation := "@RELATION" + " " + RelationPrefix(d) + SimpleFileName(name, separator);
    var attributes := AttributeLines(SensorAttributeCount);
    var rul: seq<string> := if IsTestFile(name) then [RulDeclaration(d)] else [];
    var rulText := if IsTestFile(name) then RulDeclaration(d) + "\n" else "";
    AttributeBlockLines(SensorAttributeCount);
    HeaderAssembly(relation, attributes, AttributeBlock(SensorAttributeCount), rul, rulText);
  }

  /** `readRULs`: every space-separated token of every line of the RUL file,
      in order; the lines are those read before any read error. */
  function ReadRuls(rulLines: seq<string>): seq<string>
    decreases |rulLines|
  {
    if |rulLines| == 0 then []
    else ReadRuls(rulLines[..|rulLines| - 1]) + Fields(rulLines[|rulLines| - 1])
  }

  /** A RUL file with one value per line lists those values. */
  lemma {:induction false} ReadRulsOnePerLine(rulLines: seq<string>)
    requires forall i :: 0 <= i < |rulLines| ==> rulLines[i] != "" && ' ' !in rulLines[i]
    ensures ReadRuls(rulLines) == rulLines
    decreases |rulLines|
  {
    if |rulLines| > 0 {
      var n := |rulLines|;
      ReadRulsOnePerLine(rulLines[..n - 1]);
      SplitAllNone(rulLines[n - 1], ' ');
      assert rulLines[..n - 1] + [rulLines[n - 1]] == rulLines;
    }
  }

  /** The number of sensors of the last line read; 0 for an empty file. */
  function SensorCount(lines: seq<string>): int {
    if |lines| == 0 then 0 else |Fields(lines[|lines| - 1])| - 2
  }

  /** The result of `transform(input)`: `null` when the input cannot be
      read, an exception, or the data lines. */
  datatype Conversion = Unreadable | Raised | Converted(text: string)

  /** `transform(input)`: the file's lines grouped into series and written
      unit by unit. For CMAPSS test files each unit's line ends with its RUL
      from the lines of the RUL file (the file named with "test_" replaced by
      "RUL_"). */
  function Transform(d: Dataset, name: string, isRegularFile: bool, lines: seq<string>, rulLines: seq<string>): (r: Conversion)
    ensures !CanRead(isRegularFile, lines) <==> r.Unreadable?
  {
    if !CanRead(isRegularFile, lines) then Unreadable
    else
      var ruls := if d == Cmapss && IsTestFile(name) then Some(ReadRuls(rulLines)) else None;
      match Group(lines)
      case None => Raised
      case Some(g) =>
        match Serialise(Progress("", None), g, SensorCount(lines), ruls)
        case None => Raised
        case Some(p) => Converted(p.text)
  }

  /** Only CMAPSS test files read the RUL file. */
  lemma TransformReadsRulsOfTestFiles(d: Dataset, name: string, isRegularFile: bool, lines: seq<string>,
                                      rulLines: seq<string>, others: seq<string>)
    requires !(d == Cmapss && IsTestFile(name)) || ReadRuls(rulLines) == ReadRuls(others)
    ensures Transform(d, name, isRegularFile, lines, rulLines) == Transform(d, name, isRegularFile, lines, others)
  {
  }

  /** `transform(input, output)`: the text written, the header then the data
      lines, "null" for an unreadable input; `None` is the exception of the
      data conversion, which leaves no file. */
  function FileText(d: Dataset, name: string, separator: char, isRegularFile: bool, lines: seq<string>,
                    rulLines: seq<string>): (r: Option<string>)
    ensures r.None? <==> Transform(d, name, isRegularFile, lines, rulLines).Raised?
    ensures r.Some? ==> StartsWith(r.value, Header(d, name, separator))
  {
    match Transform(d, name, isRegularFile, lines, rulLines)
    case Unreadable => Some(Header(d, name, separator) + "null")
    case Raised => None
    case Converted(text) => Some(Header(d, name, separator) + text)
  }

  /** The lines of a written file start with the header's lines, whatever
      the data. */
  lemma FileTextLines(d: Dataset, name: string, separator: char, isRegularFile: bool, lines: seq<string>,
                      rulLines: seq<string>)
    requires FileText(d, name, separator, isRegularFile, lines, rulLines).Some?
    ensures var text := FileText(d, name, separator, isRegularFile, lines, rulLines).value;
      StartsWith(text, Join(HeaderLines(d, name, separator), "\n") + "\n")
  {
    HeaderIsLines(d, name, separator);
  }
}

=== FILE: uni_to_multi.dfy ===
/** The wrapper that lets a univariate feature generator work on multivariate
    series (`uni_to_multi_numpy_feature_generator.py`): masking strategies that
    lengthen a series at its front, and the per-sensor bookkeeping of
    `transform_arff_parsed`, which remembers the longest series of each sensor
    across calls and pads every series to it. Floating-point values are
    `real`s. */
module UniToMulti {
  import opened Wrappers
  import opened Strings
  import opened Sequences

  // ------------------------------------------------------------- masking

  /** `ZeroMaskingStrategy`, `FirstValueMaskingStrategy`,
      `RandomValueMaskingStrategy`. */
  datatype MaskingStrategy = ZeroMasking | FirstValueMasking | RandomValueMasking

  /** The values a strategy inserts: one value throughout, or the draws
      `unit(drawn)`, `unit(drawn + 1)`, ... scaled to lie between `lo` and
      `hi`. */
  datatype Fill = Constant(v: real) | Drawn(lo: real, hi: real, unit: nat -> real, drawn: nat)

  /** The `k`-th value inserted. */
  function FillValue(fill: Fill, k: nat): real {
    match fill
    case Constant(v) => v
    case Drawn(lo, hi, unit, drawn) => Uniform(lo, hi, unit(drawn + k))
  }

  /** `while len(s) < maximum: s.insert(0, v)`, the `k`-th value inserted
      being `FillValue(fill, from + k)`: the values inserted first end up
      nearest to the original series. */
  function PadFront(s: seq<real>, maximum: int, fill: Fill, from: nat): (r: seq<real>)
    ensures |r| == if |s| < maximum then maximum else |s|
    ensures r[|r| - |s|..] == s
    ensures forall i :: 0 <= i < |r| - |s| ==> r[i] == FillValue(fill, from + (|r| - |s| - 1 - i))
    decreases maximum - |s|
  {
    if |s| < maximum then
      var t := [FillValue(fill, from)] + s;
      var r := PadFront(t, maximum, fill, from + 1);
      var pads := |r| - |s|;
      assert r[pads..] == r[pads - 1..][1..];
      assert r[pads - 1] == t[0] == FillValue(fill, from);
      assert forall i :: 0 <= i < pads - 1 ==> r[i] == FillValue(fill, from + 1 + (pads - 2 - i));
      r
    else s
  }

  /** `numpy.min` of a non-empty series. */
  function Minimum(s: seq<real>): real
    requires |s| > 0
    decreases |s|
  {
    if |s| == 1 then s[0]
    else
      var m := Minimum(s[1..]);
      if s[0] <= m then s[0] else m
  }

  /** `numpy.max` of a non-empty series. */
  function Maximum(s: seq<real>): real
    requires |s| > 0
    decreases |s|
  {
    if |s| == 1 then s[0]
    else
      var m := Maximum(s[1..]);
      if s[0] >= m then s[0] else m
  }

  /** Every value of a series lies between its minimum and its maximum. */
  lemma {:induction false} Extrema(s: seq<real>, i: nat)
    requires i < |s|
    ensures Minimum(s) <= s[i] <= Maximum(s)
    decreases |s|
  {
    if |s| > 1 {
      var j := if i == 0 then 0 else i - 1;
      Extrema(s[1..], j);
      assert i > 0 ==> s[i] == s[1..][j];
    }
  }

  /** The minimum and the maximum are values of the series. */
  lemma {:induction false} ExtremaOccur(s: seq<real>)
    requires |s| > 0
    ensures Minimum(s) in s && Maximum(s) in s
    decreases |s|
  {
    if |s| > 1 {
      ExtremaOccur(s[1..]);
    }
  }

  /** The minimum is at most the maximum. */
  lemma MinimumBelowMaximum(s: seq<real>)
    requires |s| > 0
    ensures Minimum(s) <= Maximum(s)
  {
    Extrema(s, 0);
  }

  /** `numpy.random.uniform(lo, hi)`, the draw given as the fraction `u` of
      the way from `lo` to `hi`. */
  function Uniform(lo: real, hi: real, u: real): real {
    lo + u * (hi - lo)
  }

  /** A lengthened series and the number of random draws used so far. */
  datatype Extended = Extended(values: seq<real>, drawn: nat)

  /** What a strategy inserts into a series; `None` when it raises: the
      first-value strategy reads the first value and the random strategy the
      minimum and maximum before padding, so both raise on an empty series,
      even when nothing is to be padded. The random strategy draws only when
      the values differ. */
  function FillFor(strategy: MaskingStrategy, instance: seq<real>, unit: nat -> real, drawn: nat): (r: Option<Fill>)
    ensures r.None? <==> strategy != ZeroMasking && |instance| == 0
  {
    match strategy
    case ZeroMasking => Some(Constant(0.0))
    case FirstValueMasking => if |instance| == 0 then None else Some(Constant(instance[0]))
    case RandomValueMasking =>
      if |instance| == 0 then None
      else
        var lo, hi := Minimum(instance), Maximum(instance);
        if lo == hi then Some(Constant(lo)) else Some(Drawn(lo, hi, unit, drawn))
  }

  /** Padding with a fill; random fills count their draws. */
  function ExtendWith(instance: seq<real>, maximum: int, fill: Fill, drawn: nat): (r: Extended)
    ensures |r.values| == (if |instance| < maximum then maximum else |instance|)
    ensures r.values[|r.values| - |instance|..] == instance
  {
    var padded := PadFront(instance, maximum, fill, 0);
    Extended(padded, if fill.Drawn? then drawn + (|padded| - |instance|) else drawn)
  }

  /** `extend_instance`: `None` when it raises; draw number `k` of the
      random strategy is `unit(k)`. */
  function ExtendInstance(strategy: MaskingStrategy, instance: seq<real>, maximum: int,
                          unit: nat -> real, drawn: nat): (r: Option<Extended>)
    ensures r.None? <==> strategy != ZeroMasking && |instance| == 0
    ensures r.Some? ==>
      && |r.value.values| == (if |instance| < maximum then maximum else |instance|)
      && r.value.values[|r.value.values| - |instance|..] == instance
  {
    match FillFor(strategy, instance, unit, drawn)
    case None => None
    case Some(fill) => Some(ExtendWith(instance, maximum, fill, drawn))
  }

  /** A draw from the unit interval lands between the bounds. */
  lemma UniformBetween(lo: real, hi: real, u: real)
    requires lo <= hi && 0.0 <= u <= 1.0
    ensures lo <= Uniform(lo, hi, u) <= hi
  {
    var d := hi - lo;
    NonNegativeProduct(u, d);
    NonNegativeProduct(1.0 - u, d);
    assert (1.0 - u) * d == d - u * d;
  }

  lemma NonNegativeProduct(x: real, y: real)
    requires 0.0 <= x && 0.0 <= y
    ensures 0.0 <= x * y
  {
  }

  /** The values padding inserts, last inserted first; only random fills
      count draws. */
  lemma ExtendWithValues(instance: seq<real>, maximum: int, fill: Fill, drawn: nat)
    ensures var e := ExtendWith(instance, maximum, fill, drawn);
      var pads := |e.values| - |instance|;
      && e.drawn == (if fill.Drawn? then drawn + pads else drawn)
      && forall i :: 0 <= i < pads ==> e.values[i] == FillValue(fill, pads - 1 - i)
  {
  }

  /** Zero masking inserts zeros and draws nothing. */
  lemma ZeroMaskingValues(instance: seq<real>, maximum: int, unit: nat -> real, drawn: nat)
    ensures var e := ExtendInstance(ZeroMasking, instance, maximum, unit, drawn).value;
      && e.drawn == drawn
      && forall i :: 0 <= i < |e.values| - |instance| ==> e.values[i] == 0.0
  {
    ExtendWithValues(instance, maximum, Constant(0.0), drawn);
  }

  /** First-value masking inserts copies of the first value and draws
      nothing. */
  lemma FirstValueMaskingValues(instance: seq<real>, maximum: int, unit: nat -> real, drawn: nat)
    requires |instance| > 0
    ensures var e := ExtendInstance(FirstValueMasking, instance, maximum, unit, drawn).value;
      && e.drawn == drawn
      && forall i :: 0 <= i < |e.values| - |instance| ==> e.values[i] == instance[0]
  {
    ExtendWithValues(instance, maximum, Constant(instance[0]), drawn);
  }

  /** Random masking of a series whose values are all equal inserts that
      value, without drawing. */
  lemma RandomMaskingConstant(instance: seq<real>, maximum: int, unit: nat -> real, drawn: nat)
    requires |instance| > 0 && Minimum(instance) == Maximum(instance)
    ensures var e := ExtendInstance(RandomValueMasking, instance, maximum, unit, drawn).value;
      && e.drawn == drawn
      && forall i :: 0 <= i < |e.values| - |instance| ==> e.values[i] == instance[0]
  {
    var lo := Minimum(instance);
    Extrema(instance, 0);
    assert FillFor(RandomValueMasking, instance, unit, drawn) == Some(Constant(lo));
    ExtendWithValues(instance, maximum, Constant(lo), drawn);
  }

  /** Random masking of a series with differing values draws once per
      inserted value. */
  lemma RandomMaskingDrawn(instance: seq<real>, maximum: int, unit: nat -> real, drawn: nat)
    requires |instance| > 0 && Minimum(instance) != Maximum(instance)
    ensures var e := ExtendInstance(RandomValueMasking, instance, maximum, unit, drawn).value;
      e.drawn == drawn + (|e.values| - |instance|)
  {
    RandomMaskingFill(instance, maximum, unit, drawn);
  }

  /** A random fill's value at position `i` of `pads`, which used draw
      number `drawn + (pads - 1 - i)`, lies between the fill's bounds when
      that draw lies in the unit interval. With `RandomMaskingFill`, this
      places every value random masking inserts between the series' minimum
      and maximum. */
  lemma DrawnValueBetween(instance: seq<real>, maximum: int, lo: real, hi: real, unit: nat -> real, drawn: nat, i: nat)
    requires lo <= hi
    requires var e := ExtendWith(instance, maximum, Drawn(lo, hi, unit, drawn), drawn);
      i < |e.values| - |instance| && 0.0 <= unit(drawn + (|e.values| - |instance| - 1 - i)) <= 1.0
    ensures var e := ExtendWith(instance, maximum, Drawn(lo, hi, unit, drawn), drawn);
      lo <= e.values[i] <= hi
  {
    var e := ExtendWith(instance, maximum, Drawn(lo, hi, unit, drawn), drawn);
    var pads := |e.values| - |instance|;
    ExtendWithValues(instance, maximum, Drawn(lo, hi, unit, drawn), drawn);
    UniformBetween(lo, hi, unit(drawn + (pads - 1 - i)));
  }

  lemma RandomMaskingFill(instance: seq<real>, maximum: int, unit: nat -> real, drawn: nat)
    requires |instance| > 0 && Minimum(instance) != Maximum(instance)
    ensures ExtendInstance(RandomValueMasking, instance, maximum, unit, drawn)
      == Some(ExtendWith(instance, maximum, Drawn(Minimum(instance), Maximum(instance), unit, drawn), drawn))
  {
  }



  /** Masking is idempotent: a series already padded to the maximum is left
      as it is, and nothing is drawn. */
  lemma ExtendTwice(strategy: MaskingStrategy, instance: seq<real>, maximum: int, unit: nat -> real, drawn: nat)
    requires ExtendInstance(strategy, instance, maximum, unit, drawn).Some?
    ensures var e := ExtendInstance(strategy, instance, maximum, unit, drawn).value;
      ExtendInstance(strategy, e.values, maximum, unit, e.drawn) == Some(e)
  {
  }

  // ------------------------------------------------------- splitting text

  /** The characters `str.isspace` accepts. */
  predicate IsSpace(c: char) {
    var n := c as int;
    n == 0x20 || 0x09 <= n <= 0x0d || 0x1c <= n <= 0x1f || n == 0x85 || n == 0xa0
    || n == 0x1680 || 0x2000 <= n <= 0x200a || n == 0x2028 || n == 0x2029
    || n == 0x202f || n == 0x205f || n == 0x3000
  }

  /** The longest front of `s` without white space. */
  function WordAtFront(s: string): (r: string)
    ensures |r| <= |s| && r == s[..|r|]
    ensures |s| > 0 && !IsSpace(s[0]) ==> |r| > 0
    ensures forall i :: 0 <= i < |r| ==> !IsSpace(r[i])
    ensures |r| == |s| || IsSpace(s[|r|])
    decreases |s|
  {
    if |s| == 0 || IsSpace(s[0]) then [] else [s[0]] + WordAtFront(s[1..])
  }

  /** `str.split()`: the maximal runs of non-white-space characters. */
  function Words(s: string): (r: seq<string>)
    ensures forall k :: 0 <= k < |r| ==> |r[k]| > 0 && forall i :: 0 <= i < |r[k]| ==> !IsSpace(r[k][i])
    decreases |s|
  {
    if |s| == 0 then []
    else if IsSpace(s[0]) then Words(s[1..])
    else
      var w := WordAtFront(s);
      [w] + Words(s[|w|..])
  }

  /** Words joined by single blanks split back into those words. */
  lemma {:induction false} WordsJoin(ws: seq<string>)
    requires forall k :: 0 <= k < |ws| ==> |ws[k]| > 0 && forall i :: 0 <= i < |ws[k]| ==> !IsSpace(ws[k][i])
    ensures Words(Join(ws, " ")) == ws
    decreases |ws|
  {
    if |ws| == 1 {
      WordWhole(ws[0], "");
      assert ws[0] + "" == ws[0];
      assert ws[0][|ws[0]|..] == "";
    } else if |ws| > 1 {
      var rest := Join(ws[1..], " ");
      var s := Join(ws, " ");
      assert s == ws[0] + (" " + rest);
      WordWhole(ws[0], " " + rest);
      assert s[|ws[0]|..] == " " + rest;
      assert Words(s) == [ws[0]] + Words(" " + rest);
      assert (" " + rest)[1..] == rest;
      assert Words(" " + rest) == Words(rest);
      WordsJoin(ws[1..]);
      assert ws == [ws[0]] + ws[1..];
    }
  }

  /** A word followed by nothing or by white space is read whole. */
  lemma {:induction false} WordWhole(w: string, rest: string)
    requires |w| > 0 && forall i :: 0 <= i < |w| ==> !IsSpace(w[i])
    requires |rest| == 0 || IsSpace(rest[0])
    ensures WordAtFront(w + rest) == w
    decreases |w|
  {
    if |w| > 1 {
      assert (w + rest)[1..] == w[1..] + rest;
      WordWhole(w[1..], rest);
      assert w == [w[0]] + w[1..];
    } else {
      assert (w + rest)[1..] == rest;
    }
  }

  // ------------------------------------------------ transform_arff_parsed

  /** An ARFF attribute as the parser returns it: its name and its type. */
  datatype Attribute = Attribute(name: string, kind: string)

  /** Sensor attributes have "sensor" in their lower-cased name. */
  predicate IsSensor(a: Attribute) {
    Contains(ToLower(a.name), "sensor")
  }

  /** The target attribute is named "rul" in any case. */
  predicate IsTarget(a: Attribute) {
    ToLower(a.name) == "rul"
  }

  function SensorsFrom(attributes: seq<Attribute>, from: nat): (r: seq<nat>)
    requires from <= |attributes|
    ensures forall k :: 0 <= k < |r| ==> from <= r[k] < |attributes| && IsSensor(attributes[r[k]])
    ensures forall k, l :: 0 <= k < l < |r| ==> r[k] < r[l]
    ensures forall j :: from <= j < |attributes| && IsSensor(attributes[j]) ==> j in r
    decreases |attributes| - from
  {
    if from == |attributes| then []
    else (if IsSensor(attributes[from]) then [from] else []) + SensorsFrom(attributes, from + 1)
  }

  /** The positions of the sensor attributes, in increasing order. */
  function SensorAttributes(attributes: seq<Attribute>): (r: seq<nat>)
    ensures forall k, l :: 0 <= k < l < |r| ==> r[k] < r[l]
    ensures forall k :: 0 <= k < |r| ==> r[k] < |attributes|
    ensures forall j :: 0 <= j < |attributes| ==> (j in r <==> IsSensor(attributes[j]))
  {
    SensorsFrom(attributes, 0)
  }

  function TargetFrom(attributes: seq<Attribute>, from: nat): (r: Option<nat>)
    requires from <= |attributes|
    ensures r.Some? ==>
              && from <= r.value < |attributes| && IsTarget(attributes[r.value])
              && forall j :: from <= j < r.value ==> !IsTarget(attributes[j])
    ensures r.None? ==> forall j :: from <= j < |attributes| ==> !IsTarget(attributes[j])
    decreases |attributes| - from
  {
    if from == |attributes| then None
    else if IsTarget(attributes[from]) then Some(from)
    else TargetFrom(attributes, from + 1)
  }

  /** The position of the first target attribute; `None` (an `IndexError`)
      when there is none. */
  function TargetAttribute(attributes: seq<Attribute>): (r: Option<nat>)
    ensures r.Some? ==>
              && r.value < |attributes| && IsTarget(attributes[r.value])
              && forall j :: 0 <= j < r.value ==> !IsTarget(attributes[j])
    ensures r.None? ==> forall j :: 0 <= j < |attributes| ==> !IsTarget(attributes[j])
  {
    TargetFrom(attributes, 0)
  }

  /** A text holding `c` splits at `c` into at least two pieces. */
  lemma SplitsInTwo(s: string, c: char)
    requires c in s
    ensures |SplitAll(s, Literal([c]))| >= 2
  {
    var pat := Literal([c]);
    var i :| 0 <= i < |s| && s[i] == c;
    assert MatchesAt(s, pat, i);
  }

  /** The value of a `time#value` token: the text between its first "#" and
      the next, read by `float` (`parse`, `None` when it raises). A token
      without "#" raises "INVALID FORMAT!". */
  function ParseValue(token: string, parse: string -> Option<real>): (r: Option<real>)
    ensures '#' !in token ==> r.None?
  {
    if '#' !in token then None
    else
      SplitsInTwo(token, '#');
      parse(SplitAll(token, Literal("#"))[1])
  }

  /** The values of a series' tokens, or `None` at the first that raises. */
  function ParseValues(tokens: seq<string>, parse: string -> Option<real>): (r: Option<seq<real>>)
    ensures r.Some? <==> forall i :: 0 <= i < |tokens| ==> ParseValue(tokens[i], parse).Some?
    ensures r.Some? ==>
              && |r.value| == |tokens|
              && forall i :: 0 <= i < |tokens| ==> r.value[i] == ParseValue(tokens[i], parse).value
    decreases |tokens|
  {
    if |tokens| == 0 then Some([])
    else
      match ParseValue(tokens[0], parse)
      case None => None
      case Some(v) =>
        var rest := ParseValues(tokens[1..], parse);
        assert forall i :: 1 <= i < |tokens| ==> tokens[i] == tokens[1..][i - 1];
        if rest.None? then None else Some([v] + rest.value)
  }

  /** A sensor column read over the rows: the longest series seen so far, and
      the series and targets read, `None` when reading raised. */
  datatype Scan = Scan(maximum: nat, read: Option<(seq<seq<real>>, seq<string>)>)

  /** The inner loop of `transform_arff_parsed` for one sensor: for each row,
      the cell split at white space, the maximum raised to its length, its
      tokens read, then the row's target cell. */
  function ScanSensor(rows: seq<seq<string>>, column: nat, target: nat, maximum: nat,
                      parse: string -> Option<real>): (r: Scan)
    ensures r.maximum >= maximum
    decreases |rows|
  {
    if |rows| == 0 then Scan(maximum, Some(([], [])))
    else
      var row := rows[0];
      if column >= |row| then Scan(maximum, None)
      else
        var tokens := Words(row[column]);
        var m := if |tokens| > maximum then |tokens| else maximum;
        match ParseValues(tokens, parse)
        case None => Scan(m, None)
        case Some(values) =>
          if target >= |row| then Scan(m, None)
          else
            var rest := ScanSensor(rows[1..], column, target, m, parse);
            match rest.read
            case None => rest
            case Some((series, targets)) => Scan(rest.maximum, Some(([values] + series, [row[target]] + targets)))
  }

  /** Every row has the sensor's and the target's cell; the sensor's cell
      has at most `maximum` tokens, read as `series`; the target cells are
      `targets`. */
  predicate Scanned(rows: seq<seq<string>>, column: nat, target: nat, maximum: nat,
                    series: seq<seq<real>>, targets: seq<string>, parse: string -> Option<real>)
  {
    |series| == |rows| && |targets| == |rows|
    && forall k :: 0 <= k < |rows| ==> RowScanned(rows[k], column, target, maximum, series[k], targets[k], parse)
  }

  /** One row holds the sensor's `values` (at most `maximum` of them) and
      the target `t`. */
  predicate RowScanned(row: seq<string>, column: nat, target: nat, maximum: nat,
                       values: seq<real>, t: string, parse: string -> Option<real>)
  {
    column < |row| && target < |row|
    && |Words(row[column])| <= maximum
    && ParseValues(Words(row[column]), parse) == Some(values)
    && t == row[target]
  }

  /** A sensor read without raising gives every row's series and target,
      none longer than the new maximum. */
  lemma {:induction false} ScanSensorReads(rows: seq<seq<string>>, column: nat, target: nat, maximum: nat,
                                           parse: string -> Option<real>)
    ensures var r := ScanSensor(rows, column, target, maximum, parse);
      r.read.Some? ==> Scanned(rows, column, target, r.maximum, r.read.value.0, r.read.value.1, parse)
    decreases |rows|, 1
  {
    if |rows| > 0 && ScanSensor(rows, column, target, maximum, parse).read.Some? {
      ScanSensorReadsStep(rows, column, target, maximum, parse);
    }
  }

  /** The step of `ScanSensorReads`: the first row, then the others. */
  lemma {:induction false} ScanSensorReadsStep(rows: seq<seq<string>>, column: nat, target: nat, maximum: nat,
                                               parse: string -> Option<real>)
    requires |rows| > 0 && ScanSensor(rows, column, target, maximum, parse).read.Some?
    ensures var r := ScanSensor(rows, column, target, maximum, parse);
      Scanned(rows, column, target, r.maximum, r.read.value.0, r.read.value.1, parse)
    decreases |rows|, 0
  {
    var r := ScanSensor(rows, column, target, maximum, parse);
    var tokens := Words(rows[0][column]);
    var m := if |tokens| > maximum then |tokens| else maximum;
    var rest := ScanSensor(rows[1..], column, target, m, parse);
    ScanSensorReads(rows[1..], column, target, m, parse);
    var values := ParseValues(tokens, parse).value;
    assert r == Scan(rest.maximum, Some(([values] + rest.read.value.0, [rows[0][target]] + rest.read.value.1)));
    ScannedCons(rows, column, target, rest.maximum, values, rest.read.value.0, rest.read.value.1, parse);
  }

  lemma ScannedCons(rows: seq<seq<string>>, column: nat, target: nat, maximum: nat,
                    values: seq<real>, series: seq<seq<real>>, targets: seq<string>, parse: string -> Option<real>)
    requires |rows| > 0 && column < |rows[0]| && target < |rows[0]|
    requires |Words(rows[0][column])| <= maximum
    requires ParseValues(Words(rows[0][column]), parse) == Some(values)
    requires Scanned(rows[1..], column, target, maximum, series, targets, parse)
    ensures Scanned(rows, column, target, maximum, [values] + series, [rows[0][target]] + targets, parse)
  {
    var all, allTargets := [values] + series, [rows[0][target]] + targets;
    forall k | 1 <= k < |rows|
      ensures RowScanned(rows[k], column, target, maximum, all[k], allTargets[k], parse)
    {
      assert rows[k] == rows[1..][k - 1];
      ConsAt(values, series, k);
      ConsAt(rows[0][target], targets, k);
    }
    assert RowScanned(rows[0], column, target, maximum, all[0], allTargets[0], parse);
  }

  /** The maximum after a sensor's scan is the one before it or the length of
      some row's series. */
  lemma {:induction false} ScanSensorMaximum(rows: seq<seq<string>>, column: nat, target: nat, maximum: nat,
                                             parse: string -> Option<real>)
    ensures var r := ScanSensor(rows, column, target, maximum, parse);
      || r.maximum == maximum
      || exists k :: 0 <= k < |rows| && column < |rows[k]| && r.maximum == |Words(rows[k][column])|
    decreases |rows|
  {
    var r := ScanSensor(rows, column, target, maximum, parse);
    if |rows| > 0 && column < |rows[0]| && r.maximum != maximum {
      var tokens := Words(rows[0][column]);
      var m := if |tokens| > maximum then |tokens| else maximum;
      if r.maximum == m {
        assert r.maximum == |Words(rows[0][column])|;
      } else {
        ScanSensorMaximum(rows[1..], column, target, m, parse);
        var k :| 0 <= k < |rows[1..]| && column < |rows[1..][k]| && r.maximum == |Words(rows[1..][k][column])|;
        assert rows[1..][k] == rows[k + 1];
      }
    }
  }

  /** A `time#value` token reads as its value. */
  lemma ParseValueOf(time: string, value: string, parse: string -> Option<real>)
    requires '#' !in time && '#' !in value
    ensures ParseValue(time + "#" + value, parse) == parse(value)
  {
    var token := time + "#" + value;
    assert token == time + ['#'] + value;
    assert '#' in token by { assert token[|time|] == '#'; }
    SplitAllFirst(time, '#', value);
    SplitAllNone(value, '#');
  }

  /** The series of a sensor padded one after another, the random draws
      running on; `None` when an instance cannot be padded. */
  datatype Padding = Padding(series: Option<seq<seq<real>>>, drawn: nat)

  /** `s` is `instance` padded at the front to `maximum` values. */
  predicate Padded(instance: seq<real>, s: seq<real>, maximum: nat) {
    && |s| == (if |instance| < maximum then maximum else |instance|)
    && s[|s| - |instance|..] == instance
  }

  /** The loop padding a sensor's series one after another, the random
      draws running on; `None` at the first series that cannot be padded. */
  function PadInstances(strategy: MaskingStrategy, instances: seq<seq<real>>, maximum: nat,
                        unit: nat -> real, drawn: nat): (r: Padding)
    decreases |instances|
  {
    if |instances| == 0 then Padding(Some([]), drawn)
    else
      match ExtendInstance(strategy, instances[0], maximum, unit, drawn)
      case None => Padding(None, drawn)
      case Some(e) =>
        var rest := PadInstances(strategy, instances[1..], maximum, unit, e.drawn);
        if rest.series.None? then rest
        else Padding(Some([e.values] + rest.series.value), rest.drawn)
  }

  /** Padding fails exactly when the strategy needs a value of an empty series. */
  lemma {:induction false} PadInstancesSome(strategy: MaskingStrategy, instances: seq<seq<real>>, maximum: nat,
                                            unit: nat -> real, drawn: nat)
    ensures PadInstances(strategy, instances, maximum, unit, drawn).series.Some? <==>
              (strategy == ZeroMasking || forall k :: 0 <= k < |instances| ==> |instances[k]| > 0)
    decreases |instances|, 1
  {
    if |instances| > 0 {
      PadInstancesSomeStep(strategy, instances, maximum, unit, drawn);
    }
  }

  /** The step of `PadInstancesSome`. */
  lemma {:induction false} PadInstancesSomeStep(strategy: MaskingStrategy, instances: seq<seq<real>>, maximum: nat,
                                                unit: nat -> real, drawn: nat)
    requires |instances| > 0
    ensures PadInstances(strategy, instances, maximum, unit, drawn).series.Some? <==>
              (strategy == ZeroMasking || forall k :: 0 <= k < |instances| ==> |instances[k]| > 0)
    decreases |instances|, 0
  {
    var first := ExtendInstance(strategy, instances[0], maximum, unit, drawn);
    if first.Some? {
      PadInstancesSome(strategy, instances[1..], maximum, unit, first.value.drawn);
    }
    NonEmptyTail(instances);
  }

  /** Every series of a list is non-empty exactly when its first one is and
      every series of its tail is. */
  lemma NonEmptyTail(xs: seq<seq<real>>)
    requires |xs| > 0
    ensures (forall k :: 0 <= k < |xs| ==> |xs[k]| > 0)
      <==> (|xs[0]| > 0 && forall k :: 0 <= k < |xs[1..]| ==> |xs[1..][k]| > 0)
  {
    assert forall k :: 1 <= k < |xs| ==> xs[k] == xs[1..][k - 1];
  }

  /** Padding that does not fail pads every series in place. */
  lemma {:induction false} PadInstancesPadded(strategy: MaskingStrategy, instances: seq<seq<real>>, maximum: nat,
                                              unit: nat -> real, drawn: nat)
    ensures var r := PadInstances(strategy, instances, maximum, unit, drawn);
      r.series.Some? ==>
        && |r.series.value| == |instances|
        && forall k :: 0 <= k < |instances| ==> Padded(instances[k], r.series.value[k], maximum)
    decreases |instances|, 1
  {
    if |instances| > 0 && PadInstances(strategy, instances, maximum, unit, drawn).series.Some? {
      PadInstancesPaddedStep(strategy, instances, maximum, unit, drawn);
    }
  }

  /** The step of `PadInstancesPadded`. */
  lemma {:induction false} PadInstancesPaddedStep(strategy: MaskingStrategy, instances: seq<seq<real>>, maximum: nat,
                                                  unit: nat -> real, drawn: nat)
    requires |instances| > 0 && PadInstances(strategy, instances, maximum, unit, drawn).series.Some?
    ensures var r := PadInstances(strategy, instances, maximum, unit, drawn);
      && |r.series.value| == |instances|
      && forall k :: 0 <= k < |instances| ==> Padded(instances[k], r.series.value[k], maximum)
    decreases |instances|, 0
  {
    var e := ExtendInstance(strategy, instances[0], maximum, unit, drawn).value;
    var rest := PadInstances(strategy, instances[1..], maximum, unit, e.drawn);
    PadInstancesPadded(strategy, instances[1..], maximum, unit, e.drawn);
    PaddedCons(instances, e.values, rest.series.value, maximum);
  }

  lemma PaddedCons(instances: seq<seq<real>>, first: seq<real>, rest: seq<seq<real>>, maximum: nat)
    requires |instances| > 0 && |rest| == |instances| - 1
    requires Padded(instances[0], first, maximum)
    requires forall k :: 0 <= k < |rest| ==> Padded(instances[1..][k], rest[k], maximum)
    ensures forall k :: 0 <= k < |instances| ==> Padded(instances[k], ([first] + rest)[k], maximum)
  {
    forall k | 1 <= k < |instances|
      ensures Padded(instances[k], ([first] + rest)[k], maximum)
    {
      assert instances[k] == instances[1..][k - 1];
      assert ([first] + rest)[k] == rest[k - 1];
    }
  }

  /** What `transform_arff_parsed` maps a sensor attribute to: its padded
      series and the targets of the rows. */
  datatype SensorData = SensorData(attribute: nat, series: seq<seq<real>>, targets: seq<string>)

  /** The longest series per sensor after the scan, the random draws, and the
      data per sensor in attribute order (`None` when the scan raised). */
  datatype Outcome = Outcome(maxima: seq<nat>, drawn: nat, data: Option<seq<SensorData>>)

  /** The loop over the sensors from the `a`-th on. A sensor's maximum is
      raised as its rows are read, and stays raised when reading raises
      later. With no rows nothing is read or padded; otherwise a sensor
      without a maximum slot raises an `IndexError`. */
  function ScanSensors(sensors: seq<nat>, a: nat, rows: seq<seq<string>>, target: nat, maxima: seq<nat>,
                       strategy: MaskingStrategy, unit: nat -> real, drawn: nat,
                       parse: string -> Option<real>): (r: Outcome)
    requires a <= |sensors|
    ensures |r.maxima| == |maxima|
    ensures forall i :: 0 <= i < |maxima| ==> r.maxima[i] >= maxima[i]
    ensures forall i :: 0 <= i < |maxima| && i < a ==> r.maxima[i] == maxima[i]
    ensures r.data.Some? ==> |r.data.value| == |sensors| - a
    decreases |sensors| - a
  {
    if a == |sensors| then Outcome(maxima, drawn, Some([]))
    else if |rows| == 0 then
      var rest := ScanSensors(sensors, a + 1, rows, target, maxima, strategy, unit, drawn, parse);
      if rest.data.None? then rest
      else Outcome(rest.maxima, rest.drawn, Some([SensorData(sensors[a], [], [])] + rest.data.value))
    else if a >= |maxima| then Outcome(maxima, drawn, None)
    else
      var scan := ScanSensor(rows, sensors[a], target, maxima[a], parse);
      var raised := maxima[a := scan.maximum];
      match scan.read
      case None => Outcome(raised, drawn, None)
      case Some((series, targets)) =>
        var padded := PadInstances(strategy, series, scan.maximum, unit, drawn);
        if padded.series.None? then Outcome(raised, padded.drawn, None)
        else
          var rest := ScanSensors(sensors, a + 1, rows, target, raised, strategy, unit, padded.drawn, parse);
          if rest.data.None? then rest
          else
            var here := SensorData(sensors[a], padded.series.value, targets);
            Outcome(rest.maxima, rest.drawn, Some([here] + rest.data.value))
  }

  /** The result of one call: the maxima kept for the next call, the random
      draws, and the data per sensor, `None` when the call raised. */
  datatype Call = Call(maxima: Option<seq<nat>>, drawn: nat, data: Option<seq<SensorData>>)

  /** `transform_arff_parsed`: the sensor and target attributes are found by
      name, the maxima start at zero on the first call, then every sensor is
      read and padded. A dataset without an "rul" attribute raises before
      anything changes. */
  function TransformArffParsed(attributes: seq<Attribute>, rows: seq<seq<string>>, maxima: Option<seq<nat>>,
                               strategy: MaskingStrategy, unit: nat -> real, drawn: nat,
                               parse: string -> Option<real>): (r: Call)
    ensures TargetAttribute(attributes).None? ==> r == Call(maxima, drawn, None)
    ensures TargetAttribute(attributes).Some? ==>
              && r.maxima.Some?
              && |r.maxima.value| == (if maxima.None? then |SensorAttributes(attributes)| else |maxima.value|)
              && (maxima.Some? ==> forall i :: 0 <= i < |maxima.value| ==> r.maxima.value[i] >= maxima.value[i])
    ensures r.data.Some? ==> |r.data.value| == |SensorAttributes(attributes)|
  {
    var sensors := SensorAttributes(attributes);
    match TargetAttribute(attributes)
    case None => Call(maxima, drawn, None)
    case Some(target) =>
      var start := if maxima.None? then seq(|sensors|, _ => 0) else maxima.value;
      var o := ScanSensors(sensors, 0, rows, target, start, strategy, unit, drawn, parse);
      Call(Some(o.maxima), o.drawn, o.data)
  }

  /** `d` holds, for every row, the sensor's values read from its cell and
      padded at the front to `maximum`, which is at least the number of
      tokens in the cell, and the row's target. */
  predicate Prepared(d: SensorData, rows: seq<seq<string>>, target: nat, maximum: nat,
                     parse: string -> Option<real>)
  {
    && |d.series| == |rows| && |d.targets| == |rows|
    && forall i :: 0 <= i < |rows| ==>
         && d.attribute < |rows[i]| && target < |rows[i]|
         && |Words(rows[i][d.attribute])| <= maximum
         && ParseValues(Words(rows[i][d.attribute]), parse).Some?
         && |d.series[i]| == maximum
         && Padded(ParseValues(Words(rows[i][d.attribute]), parse).value, d.series[i], maximum)
         && d.targets[i] == rows[i][target]
  }

  /** The series of one sensor, read and padded to the scan's maximum, are
      prepared. */
  lemma PreparedSensor(rows: seq<seq<string>>, column: nat, target: nat, maximum: nat,
                       series: seq<seq<real>>, targets: seq<string>, padded: seq<seq<real>>,
                       parse: string -> Option<real>)
    requires Scanned(rows, column, target, maximum, series, targets, parse)
    requires |padded| == |series|
    requires forall k :: 0 <= k < |series| ==> Padded(series[k], padded[k], maximum)
    ensures Prepared(SensorData(column, padded, targets), rows, target, maximum, parse)
  {
    forall i | 0 <= i < |rows|
      ensures |padded[i]| == maximum
    {
      assert RowScanned(rows[i], column, target, maximum, series[i], targets[i], parse);
      assert |series[i]| == |Words(rows[i][column])|;
    }
  }

  /** `d` is what the sensor attribute `column` maps to: nothing when there
      are no rows, otherwise its rows prepared to the maximum kept at
      `index`. */
  predicate Delivered(d: SensorData, column: nat, rows: seq<seq<string>>, target: nat,
                      maxima: seq<nat>, index: nat, parse: string -> Option<real>)
  {
    && d.attribute == column
    && (|rows| == 0 ==> d.series == [] && d.targets == [])
    && (|rows| > 0 ==> index < |maxima| && Prepared(d, rows, target, maxima[index], parse))
  }

  /** One step of a scan of the sensors that does not raise: the `a`-th
      sensor's data, and the maxima and draws the scan goes on with. */
  lemma ScanSensorsStep(sensors: seq<nat>, a: nat, rows: seq<seq<string>>, target: nat,
                        maxima: seq<nat>, strategy: MaskingStrategy, unit: nat -> real,
                        drawn: nat, parse: string -> Option<real>)
    returns (here: SensorData, raised: seq<nat>, next: nat)
    requires a < |sensors|
    requires ScanSensors(sensors, a, rows, target, maxima, strategy, unit, drawn, parse).data.Some?
    ensures var rest := ScanSensors(sensors, a + 1, rows, target, raised, strategy, unit, next, parse);
      && rest.data.Some?
      && ScanSensors(sensors, a, rows, target, maxima, strategy, unit, drawn, parse)
         == Outcome(rest.maxima, rest.drawn, Some([here] + rest.data.value))
    ensures var rest := ScanSensors(sensors, a + 1, rows, target, raised, strategy, unit, next, parse);
      Delivered(here, sensors[a], rows, target, rest.maxima, a, parse)
  {
    if |rows| == 0 {
      here, raised, next := SensorData(sensors[a], [], []), maxima, drawn;
    } else {
      var column := sensors[a];
      var scan := ScanSensor(rows, column, target, maxima[a], parse);
      raised := maxima[a := scan.maximum];
      ScanSensorReads(rows, column, target, maxima[a], parse);
      var (series, targets) := scan.read.value;
      var padded := PadInstances(strategy, series, scan.maximum, unit, drawn);
      PadInstancesPadded(strategy, series, scan.maximum, unit, drawn);
      here, next := SensorData(column, padded.series.value, targets), padded.drawn;
      PreparedSensor(rows, column, target, scan.maximum, series, targets, padded.series.value, parse);
      var rest := ScanSensors(sensors, a + 1, rows, target, raised, strategy, unit, next, parse);
      assert rest.maxima[a] == scan.maximum;
    }
  }

  /** `data` is what the sensors from the `a`-th on map to, in order. */
  predicate DeliveredAll(data: seq<SensorData>, sensors: seq<nat>, a: nat, rows: seq<seq<string>>, target: nat,
                         maxima: seq<nat>, parse: string -> Option<real>)
  {
    && a + |data| <= |sensors|
    && forall k :: 0 <= k < |data| ==> Delivered(data[k], sensors[a + k], rows, target, maxima, a + k, parse)
  }

  /** A scan of the sensors that does not raise gives each sensor, in order,
      its rows' series, read and padded to the sensor's final maximum. */
  lemma {:induction false} ScanSensorsData(sensors: seq<nat>, a: nat, rows: seq<seq<string>>, target: nat,
                                           maxima: seq<nat>, strategy: MaskingStrategy, unit: nat -> real,
                                           drawn: nat, parse: string -> Option<real>)
    requires a <= |sensors|
    ensures var o := ScanSensors(sensors, a, rows, target, maxima, strategy, unit, drawn, parse);
      o.data.Some? ==> DeliveredAll(o.data.value, sensors, a, rows, target, o.maxima, parse)
    decreases |sensors| - a, 1
  {
    var o := ScanSensors(sensors, a, rows, target, maxima, strategy, unit, drawn, parse);
    if a == |sensors| {
      assert o.data == Some([]);
    } else if o.data.Some? {
      ScanSensorsDataNext(sensors, a, rows, target, maxima, strategy, unit, drawn, parse);
    }
  }

  /** The inductive step of `ScanSensorsData`. */
  lemma {:induction false} ScanSensorsDataNext(sensors: seq<nat>, a: nat, rows: seq<seq<string>>, target: nat,
                                               maxima: seq<nat>, strategy: MaskingStrategy, unit: nat -> real,
                                               drawn: nat, parse: string -> Option<real>)
    requires a < |sensors|
    requires ScanSensors(sensors, a, rows, target, maxima, strategy, unit, drawn, parse).data.Some?
    ensures var o := ScanSensors(sensors, a, rows, target, maxima, strategy, unit, drawn, parse);
      DeliveredAll(o.data.value, sensors, a, rows, target, o.maxima, parse)
    decreases |sensors| - a, 0
  {
    var here, raised, next := ScanSensorsStep(sensors, a, rows, target, maxima, strategy, unit, drawn, parse);
    var rest := ScanSensors(sensors, a + 1, rows, target, raised, strategy, unit, next, parse);
    ScanSensorsData(sensors, a + 1, rows, target, raised, strategy, unit, next, parse);
    DeliveredCons(here, rest.data.value, sensors, a, rows, target, rest.maxima, parse);
  }

  lemma DeliveredCons(here: SensorData, rest: seq<SensorData>, sensors: seq<nat>, a: nat,
                      rows: seq<seq<string>>, target: nat, maxima: seq<nat>, parse: string -> Option<real>)
    requires a < |sensors|
    requires Delivered(here, sensors[a], rows, target, maxima, a, parse)
    requires DeliveredAll(rest, sensors, a + 1, rows, target, maxima, parse)
    ensures DeliveredAll([here] + rest, sensors, a, rows, target, maxima, parse)
  {
    var data := [here] + rest;
    forall k | 1 <= k < |data|
      ensures Delivered(data[k], sensors[a + k], rows, target, maxima, a + k, parse)
    {
      assert data[k] == rest[k - 1];
      assert a + k == a + 1 + (k - 1);
    }
  }

  /** A call that does not raise gives every sensor attribute, in attribute
      order, its rows' series padded to the maximum kept for it. */
  lemma TransformPrepared(attributes: seq<Attribute>, rows: seq<seq<string>>, maxima: Option<seq<nat>>,
                          strategy: MaskingStrategy, unit: nat -> real, drawn: nat,
                          parse: string -> Option<real>)
    ensures var r := TransformArffParsed(attributes, rows, maxima, strategy, unit, drawn, parse);
      var sensors := SensorAttributes(attributes);
      r.data.Some? ==>
        && TargetAttribute(attributes).Some? && r.maxima.Some?
        && forall k :: 0 <= k < |sensors| ==>
             Delivered(r.data.value[k], sensors[k], rows, TargetAttribute(attributes).value, r.maxima.value, k, parse)
  {
    var sensors := SensorAttributes(attributes);
    if TargetAttribute(attributes).Some? {
      var target := TargetAttribute(attributes).value;
      var start := if maxima.None? then seq(|sensors|, _ => 0) else maxima.value;
      var o := ScanSensors(sensors, 0, rows, target, start, strategy, unit, drawn, parse);
      assert TransformArffParsed(attributes, rows, maxima, strategy, unit, drawn, parse) == Call(Some(o.maxima), o.drawn, o.data);
      ScanSensorsData(sensors, 0, rows, target, start, strategy, unit, drawn, parse);
      if o.data.Some? {
        assert DeliveredAll(o.data.value, sensors, 0, rows, target, o.maxima, parse);
        forall k | 0 <= k < |sensors|
          ensures Delivered(o.data.value[k], sensors[k], rows, target, o.maxima, k, parse)
        {
          assert sensors[0 + k] == sensors[k];
        }
      }
    }
  }

  /** A sensor cell with a token lacking "#" makes the call raise. */
  lemma MissingHashRaises(attributes: seq<Attribute>, rows: seq<seq<string>>, maxima: Option<seq<nat>>,
                          strategy: MaskingStrategy, unit: nat -> real, drawn: nat,
                          parse: string -> Option<real>, k: nat, i: nat, j: nat)
    requires k < |SensorAttributes(attributes)| && i < |rows|
    requires SensorAttributes(attributes)[k] < |rows[i]|
    requires j < |Words(rows[i][SensorAttributes(attributes)[k]])|
    requires '#' !in Words(rows[i][SensorAttributes(attributes)[k]])[j]
    ensures TransformArffParsed(attributes, rows, maxima, strategy, unit, drawn, parse).data.None?
  {
    TransformPrepared(attributes, rows, maxima, strategy, unit, drawn, parse);
  }
}

=== FILE: wrappers.dfy ===
/** Failure-compatible wrappers used throughout the model: `Option` stands for a
    Java reference that may be `null`, `Result` for a computation that may end
    in an exception. */
module Wrappers {

  /** A value that may be absent (a Java `null`). */
  datatype Option<+T> = None | Some(value: T) {

    predicate IsFailure() {
      None?
    }

    function PropagateFailure<U>(): Option<U>
      requires None?
    {
      None
    }

    function Extract(): T
      requires Some?
    {
      value
    }

    function GetOr(default: T): T {
      match this
      case Some(v) => v
      case None => default
    }
  }

  /** A computation that either produced a value or raised an error. */
  datatype Result<+T, +E> = Success(value: T) | Failure(error: E) {

    predicate IsFailure() {
      Failure?
    }

    function PropagateFailure<U>(): Result<U, E>
      requires Failure?
    {
      Failure(error)
    }

    function Extract(): T
      requires Success?
    {
      value
    }
  }

  /** The present values of `xs`, in order: what a loop collecting the
      non-null results keeps. */
  function Somes<T>(xs: seq<Option<T>>): (r: seq<T>)
    ensures |r| <= |xs|
  {
    if |xs| == 0 then []
    else if xs[|xs| - 1].Some? then Somes(xs[..|xs| - 1]) + [xs[|xs| - 1].value]
    else Somes(xs[..|xs| - 1])
  }

  /** Every kept value was present in `xs`, and every present value is kept. */
  lemma {:induction false} SomesMembers<T>(xs: seq<Option<T>>)
    ensures forall z :: 0 <= z < |Somes(xs)| ==> Some(Somes(xs)[z]) in xs
    ensures forall y :: 0 <= y < |xs| && xs[y].Some? ==> xs[y].value in Somes(xs)
  {
    if |xs| > 0 {
      var init := xs[..|xs| - 1];
      SomesMembers(init);
      forall y | 0 <= y < |xs| && xs[y].Some?
        ensures xs[y].value in Somes(xs)
      {
        if y < |init| {
          assert init[y] == xs[y];
        }
      }
      forall z | 0 <= z < |Somes(xs)|
        ensures Some(Somes(xs)[z]) in xs
      {
        if z < |Somes(init)| {
          assert Somes(xs)[z] == Somes(init)[z];
          assert Some(Somes(init)[z]) in init;
        }
      }
    }
  }

  /** Nothing present, nothing kept. */
  lemma {:induction false} SomesNone<T>(xs: seq<Option<T>>)
    requires forall y :: 0 <= y < |xs| ==> xs[y].None?
    ensures Somes(xs) == []
  {
    if |xs| > 0 {
      SomesNone(xs[..|xs| - 1]);
    }
  }
}
